=== FILE: README.md ===
# Butler core, modelled in Dafny

Butler (also called Jarvis) is a desktop voice assistant. Around the speech, GUI, network and LLM glue it carries a set of self-contained components, and this project models those components and proves what they promise:

- **Fixed-pool allocator** (`extension/mymemory.c`): a 4096-byte arena with one occupancy bit per byte. It offers first-fit search with a clear guard byte on each side of every block, allocation, free by forward scan over set bits, raw fill and an occupancy count (module `MemPool`, class `Pool` over arrays).
- **Reference-counted memory object** (`extension/Memory_management.c`): a malloc-backed block with its own `refcount` field beside the host's reference count (module `MemoryObject`, class `MyMemory`).
- **Sorting, searching and graphs** (`butler/algorithms.py`, `butler/main.py`, `my_package/algorithm.py`, `package/algorithm.py`):
  - in-place introsort and hybrid quick/insertion sorts on arrays;
  - merge sort and binary search;
  - Dijkstra, A*, breadth-first and depth-first search;
  - matrix-power and iterative Fibonacci;
  - the history trim and the program-name resolution of the assistant;
  - the file-list reader and the marker splice.
  
  Modules: `ButlerSort`, `ButlerSearch`, `ButlerDijkstra`, `ButlerAStar`, `ButlerTraversal`, `GraphSpec`, `ButlerFibonacci`, `Jarvis`, `HybridSort`, `FileList` and `SortSpec`.
- **File-editing tool** (`butler/edit.py`): view, create, str_replace, insert and undo over a file system that is a map from path to node, with a per-path history of earlier texts (module `Edit`, class `EditTool`).
- **Pure helpers:**
  - output truncation (`Truncation`);
  - chunking and key normalisation of the computer tool (`Chunking`, `Computer`);
  - tool results (`ToolResults`);
  - JSON-like data cleaning (`Util`);
  - scientific-notation rewriting and the integer calculator functions (`SciNotation`, `MathOps`);
  - task division (`TaskDivision`).
- **Plugin stores and matching:**
  - the memo list (`Memos`), the todo list (`Todos`) and the file-name index with its search (`FileSearch`);
  - the command-to-plugin matcher (`CommandMatch`) and the command validator (`InputProcessing`);
  - the plugin result records (`PluginResults`).
- **Permission gate** (both `Limits_of_authority.py` files): operation levels and a key check remembered for thirty minutes (`Authority`, class `PermissionGate`). The sandbox tools `set_gpio_pin` and the containment check of `list_safe_directory` are in `SafeTools`.
- **Python built-ins the code relies on**, with their semantics written out (`PyStrings`, `PyText`, `PyArith`, `PyPath`): floor division and modulo, `str.split`, `join`, `strip`, `lower`, `find`, `count`, `replace`, `expandtabs`, `int()` and the text of a POSIX `pathlib.Path`. `Wrappers` holds `Option` and `Result`.

Code that updates state in place is modelled imperatively. The allocator, the memory object, the in-place sorts, the Fibonacci matrices, the editor, the file index, the memo and todo lists, the history trim and the permission gate are classes, arrays or methods with loops. Each is proved against a specification function whose own properties are proved as lemmas. Pure code (comprehensions, string rewriting, the matcher) is modelled as functions.

Notes on the source:

- **The allocator.** `extension/mymemory.c` keeps only the occupancy bitmap as bookkeeping, and `MM_Free` finds a block's length by scanning forward over set bits. The model proves that the guard bytes make that scan exact.
- **Copies in `butler/main.py`.** `Jarvis.merge_sort`, `merge` and `binary_search` (`butler/main.py:106-153`) are letter-for-letter copies of the `butler/algorithms.py` functions. They are modelled by the same members: `ButlerSearch.MergeSort`, `ButlerSearch.Merge` and `ButlerSearch.BinarySearch`.
  - `Jarvis.dijkstra` (`butler/main.py:156-175`) is the same loop without the predecessor map, so its distances are those of `ButlerDijkstra.Dijkstra`.
  - `Jarvis.fibonacci` is `ButlerFibonacci.FibonacciIterative`.

## Model

| member | source | states |
|---|---|---|
| MemPool.ToByte | extension/mymemory.c:80 | the byte `memPool[i] = val` stores is val reduced modulo 256 (what that means for a caller is ToByteKeepsBytes) |
| MemPool.ToByteKeepsBytes | extension/mymemory.c:80 | a val from 0 to 255 is stored as it is, and two values are stored as the same byte exactly when they differ by a multiple of 256 |
| MemPool.FirstFit | extension/mymemory.c:20-35 | for s + 2 < 2^64 (no size_t wrap): -1 exactly when no base fits; otherwise the smallest base b with bits b-1 .. b+s all clear inside the pool; -1 whenever s + 2 exceeds the pool |
| MemPool.SetRange | extension/mymemory.c:45-48 | exactly the bits of [b, b+s) become set, every other bit keeps its value |
| MemPool.ClearRange | extension/mymemory.c:61-65 | exactly the bits of [lo, hi) become clear, every other bit keeps its value |
| MemPool.RunEnd | extension/mymemory.c:61-65 | the forward scan stops at the first clear bit at or after i, and every bit it passes is set |
| MemPool.CountSet | extension/mymemory.c:87-97 | the occupancy count never exceeds the pool size |
| MemPool.FirstFitFrom | extension/mymemory.c:20-35 | the scan from a base on finds the smallest base that fits, or -1 exactly when none from there does |
| MemPool.CountSetAppend | extension/mymemory.c:87-97 | the count of two bitmaps put together is the sum of their counts |
| MemPool.CountSetAllClear | extension/mymemory.c:87-97 | a bitmap with no bit set counts 0 |
| MemPool.CountSetAllSet | extension/mymemory.c:87-97 | a bitmap with every bit set counts its length |
| MemPool.CountSetSplit | extension/mymemory.c:87-97 | the count splits around any range |
| MemPool.CountSetOutside | extension/mymemory.c:87-97 | bitmaps agreeing outside a range differ in count only by what lies inside it |
| MemPool.Mirror | extension/mymemory.c:14-16 | the LSB-first bit that MM_MemPoolInit touches at step i lies in the same table byte, at the mirrored position |
| MemPool.MirrorInvolution | extension/mymemory.c:14-16 | mirroring twice gives the bit back, so the init loop visits every bit once |
| MemPool.OccupationAfterAlloc | extension/mymemory.c:45-48 | an allocation of s bytes raises MM_Occupation by exactly s |
| MemPool.OccupationAfterClear | extension/mymemory.c:61-65 | clearing a run of set bits lowers MM_Occupation by the run's length |
| MemPool.RunEndAt | extension/mymemory.c:61-65 | the scan from i ends at j when j is the first clear bit from i |
| MemPool.EmptyPoolFirstFit | extension/mymemory.c:20-35 | for s + 2 < 2^64 (no size_t wrap): on an empty pool a request of s bytes gets base 1, or fails when s + 2 > 4096 |
| MemPool.FreeUndoesAlloc | extension/mymemory.c:52-70 | freeing the base an allocation returned clears exactly the bits it set (the guard byte stops the scan), restoring the bitmap |
| MemPool.FreeOfClearBitChangesNothing | extension/mymemory.c:61-67 | freeing an address whose bit is clear changes nothing: double frees go unnoticed |
| MemPool.AllocKeepsBlocks | extension/mymemory.c:38-50 | allocating never touches an existing block or its guard bytes |
| MemPool.FreeKeepsOtherBlocks | extension/mymemory.c:52-70 | freeing one block leaves every other block intact |
| MemPool.FreeKeepsBlocks | extension/mymemory.c:52-70 | freeing the base of a recorded block clears exactly that block and removes only it from the record |
| MemPool.Pool.constructor | extension/mymemory.c:5-6 | the static arena and table start all zero |
| MemPool.Pool.MemPoolInit | extension/mymemory.c:8-18 | every arena byte is 0 and every occupancy bit is clear afterwards, with no live block |
| MemPool.Pool.SpaceSearch | extension/mymemory.c:20-35 | for s + 2 < 2^64 (no size_t wrap): the running count of clear bits returns FirstFit of the table |
| MemPool.Pool.Alloc | extension/mymemory.c:38-50 | for s + 2 < 2^64 (no size_t wrap): on success returns &memPool[b] for b = FirstFit and sets exactly bits [b, b+s); on failure NULL with nothing changed; every block stays guarded |
| MemPool.Pool.Free | extension/mymemory.c:52-70 | NULL gives 0 and changes nothing; any other address clears the set run starting there and gives 1; a recorded block is cleared exactly |
| MemPool.Pool.ClearRun | extension/mymemory.c:60-65 | the loop clears exactly the run RunEnd finds |
| MemPool.Pool.Set | extension/mymemory.c:72-85 | a start inside the pool writes (uint8)val into the s bytes from there and gives 1, whatever their occupancy; a start outside gives 0 and writes nothing |
| MemPool.Pool.Occupation | extension/mymemory.c:87-97 | returns the number of set occupancy bits, between 0 and 4096 |
| MemoryObject.MyMemory.constructor | extension/Memory_management.c:22-31 | a new object has refcount 1, NULL data and size 0 |
| MemoryObject.MyMemory.Init | extension/Memory_management.c:34-50 | a non-int argument or one outside C int fails with -1; size <= 0 raises ValueError("Invalid size"); a failed malloc raises MemoryError; otherwise data and size are set and 0 returned |
| MemoryObject.MyMemory.Dealloc | extension/Memory_management.c:14-19 | the own refcount drops from 1 to 0 and the object is released |
| MemoryObject.MyMemory.GetData | extension/Memory_management.c:53-63 | reads the block passed as argument, not the receiver: no single MyMemory argument raises TypeError; a freed block raises RuntimeError("Memory block is already freed"); otherwise its data pointer |
| MemoryObject.MyMemory.GetSize | extension/Memory_management.c:66-76 | no single MyMemory argument raises TypeError; a freed argument block raises the same RuntimeError; otherwise its size |
| MemoryObject.MyMemory.Retain | extension/Memory_management.c:79-90 | no single MyMemory argument raises TypeError; a live argument block gains one host reference and is returned; a freed one raises, and its own refcount never changes |
| MemoryObject.MyMemory.Release | extension/Memory_management.c:93-104 | no single MyMemory argument raises TypeError; a live argument block loses one host reference, and the last one deallocates it; a freed one raises |
| MemoryObject.Lifecycle | extension/Memory_management.c:14-104 | construct, init with a positive size, read the size through its own and another object's method, retain, then release both references: the object ends freed with that size |
| Edit.ValidatePath | butler/edit.py:95-119 | a relative path is refused first; the path passes exactly when it is absolute, exists unless the command is create, does not exist for create, and is a directory only for view |
| Edit.PadLeft | butler/edit.py:296 | `{n:6}` right-aligns: the text ends the field, spaces fill the rest, and the width is max(6, length) |
| Edit.NumberLines | butler/edit.py:293-298 | one output line per input line, the k-th numbered init_line + k |
| Edit.HeaderOneLine | butler/edit.py:300-301 | the "cat -n" header of a descriptor without a newline is one line |
| Edit.NoNewlineInNumber | butler/edit.py:296 | a line number never contains a newline |
| Edit.NoNewlineInNumbered | butler/edit.py:293-298 | numbering keeps lines free of newlines |
| Edit.NumberedOutputLines | butler/edit.py:281-303 | _make_output's text splits into the header, one numbered line per line of the content counting from init_line, and the empty piece after the final newline |
| Edit.SelectRange | butler/edit.py:136-162 | no range shows the whole file from line 1; a range is accepted exactly when it has two elements, its start lies in 1..n, its end is at most n and is -1 or not below the start; the lines shown are lines start..end (to the last line for -1) |
| Edit.ViewResult | butler/edit.py:121-166 | a directory fails exactly when a range is given; a file fails exactly when its range is refused, and otherwise shows the selected lines numbered from the range start |
| Edit.LinesContaining | butler/edit.py:183-187 | every line number reported for several occurrences is a line that contains old_str |
| Edit.LinesContainingComplete | butler/edit.py:183-187 | every line that contains old_str has its number reported |
| Edit.LinesContainingSorted | butler/edit.py:183-187 | the reported line numbers increase |
| Edit.StrReplaceResult | butler/edit.py:168-214 | after tab expansion, str_replace succeeds exactly when old_str occurs once, fails with "no occurrence" exactly when it occurs nowhere, and reports the lines when it occurs more than once |
| Edit.StrReplaceAfter | butler/edit.py:168-199 | on success the file holds the expanded text with the one occurrence replaced by the expanded new_str ("" for None), and the expanded old text is pushed on the path's history; on failure nothing changes |
| Edit.Replaced | butler/edit.py:192-199 | with exactly one occurrence, replace is one splice at that occurrence: the file holds the text before it, the replacement and the text after it, and the text before the edit is pushed on the path's history |
| Edit.InsertResult | butler/edit.py:216-228 | insert succeeds exactly when 0 <= insert_line <= number of lines, and otherwise fails with the insert_line error |
| Edit.InsertAfter | butler/edit.py:216-245 | on success only this path's file changes, its lines are the inserted lines, and the expanded old text is pushed on the history; on failure nothing changes |
| Edit.InsertKeepsLines | butler/edit.py:229-234 | the lines before insert_line, then all lines of new_str, then the rest, in order: the file grows by exactly the number of lines of new_str |
| Edit.UndoResult | butler/edit.py:255-265 | undo fails exactly when the path's history is empty, with the "no edit history" error |
| Edit.UndoAfter | butler/edit.py:255-262 | undo pops the last history entry and writes it back to the file; with no history nothing changes |
| Edit.CreateAfter | butler/edit.py:69-74 | create writes file_text and pushes the new text itself on the history |
| Edit.PushPop | butler/edit.py:258-261 | pushing a text on a history (line 199) and undoing pops it back: the history is as before and the file holds that text |
| Edit.UndoAfterStrReplace | butler/edit.py:168-262 | undo after a successful str_replace restores the file (tab-expanded) and the history as they were |
| Edit.UndoAfterInsert | butler/edit.py:216-262 | undo after a successful insert restores the file (tab-expanded) and the history as they were |
| Edit.UndoAfterCreate | butler/edit.py:255-262 | undo after create does not delete the file: it writes the created text again and empties the push |
| Edit.ArgumentError | butler/edit.py:68-93 | the dispatch's argument check passes exactly when create has a truthy file_text, str_replace a truthy old_str, insert an insert_line and a truthy new_str, and the command is known |
| Edit.DispatchResult | butler/edit.py:66-90 | once admitted, create always succeeds and undo_edit fails exactly when the history is empty |
| Edit.DispatchAfter | butler/edit.py:66-90 | view changes nothing, and every command keeps every path with a history a file |
| Edit.CallResult | butler/edit.py:31-93 | no confirmation gives the cancellation result; otherwise the path is normalised by Path() and, for that normalised path, the first failing path check, then the first failing argument check, is the error, and an admitted call answers the command's own result (whose messages name the normalised path) |
| Edit.CallAfter | butler/edit.py:31-93 | without confirmation or with a failed check on the normalised path the files and history are unchanged; view never changes them |
| Edit.UndoUnderOtherSpelling | butler/edit.py:65-73 | a file created at a + "//" + b can be undone at a + "/" + b: both spellings become one Path and so one history key |
| Edit.CallKeepsValid | butler/edit.py:31-93 | every call keeps the invariant that a path with a history is a file |
| Edit.EditTool.constructor | butler/edit.py:27-29 | the history starts empty over the given files |
| Edit.EditTool.StrReplace | butler/edit.py:168-214 | answers StrReplaceResult and leaves StrReplaceAfter |
| Edit.EditTool.Insert | butler/edit.py:216-253 | answers InsertResult and leaves InsertAfter |
| Edit.EditTool.UndoEdit | butler/edit.py:255-265 | answers UndoResult and leaves UndoAfter |
| Edit.EditTool.View | butler/edit.py:121-166 | answers ViewResult and changes nothing |
| Edit.EditTool.Dispatch | butler/edit.py:66-93 | answers DispatchResult and leaves DispatchAfter |
| Edit.EditTool.Call | butler/edit.py:31-93 | answers CallResult and leaves CallAfter, checking and dispatching on the Path()-normalised path |
| PyPath.PathParts | butler/edit.py:65 | the components Path keeps are never empty and never "."; there are at most as many as pieces |
| PyPath.PathRoot | butler/edit.py:65 | a root is present exactly when the path is absolute |
| PyPath.PurePath | butler/edit.py:65 | str(Path(path)) is never empty and is absolute exactly when path is |
| PyPath.PathPartsNoSep | butler/edit.py:65 | components taken from the pieces between slashes hold no slash |
| PyPath.PathPartsAppend | butler/edit.py:65 | the components of two runs of pieces are the components of each run, in order |
| PyPath.SplitAppend | butler/edit.py:65 | the pieces of a + "/" + b are those of a followed by those of b |
| PyPath.SplitRooted | butler/edit.py:65 | a root followed by clean components joined by "/" splits back into those components |
| PyPath.RootOfRooted | butler/edit.py:65 | the root of a root followed by clean components joined by "/" is that root |
| PyPath.PurePathIdempotent | butler/edit.py:65 | Path applied to its own text gives the same text |
| PyPath.PurePathSkipsPiece | butler/edit.py:65 | an empty or "." component after the root does not change the Path |
| PyPath.PurePathCollapsesSlash | butler/edit.py:65 | a + "//" + b and a + "/" + b are the same Path when the doubled slash is not the root |
| PyPath.PurePathDropsDot | butler/edit.py:65 | a + "/./" + b and a + "/" + b are the same Path |
| PyPath.PurePathDropsTrailingSlash | butler/edit.py:65 | a trailing slash is dropped, except on the root "//" |
| Truncation.MaybeTruncate | butler/run.py:9-15 | a falsy limit or content within the limit comes back unchanged; longer content keeps exactly its first truncate_after characters followed by the note; a negative limit keeps the content minus that many characters from the end, then the note |
| Truncation.TruncatedIsPrefixPlusNote | butler/run.py:9-15 | whatever the limit, the result is the content or a prefix of it followed by the note |
| Truncation.DefaultBound | butler/run.py:6-15 | with the default limit the result is at most MAX_RESPONSE_LEN plus the note long |
| ToolResults.CombineFields | jarvis/base.py:36-43 | two truthy fields are concatenated, or refused when concatenation is off (and only then); otherwise the truthy one, or the second; the result is truthy exactly when one of the inputs is |
| ToolResults.Add | jarvis/base.py:35-50 | adding fails exactly when both images are truthy; the sum is truthy exactly when one of the operands is |
| ToolResults.AddFalsy | jarvis/base.py:32-50 | an all-falsy result on the left gives the other result back; on the right it keeps every truthy field |
| ToolResults.AddEmpty | jarvis/base.py:27-50 | the all-None result is a left identity, and a right identity exactly when no field holds "" (since `"" or None` is None) |
| ToolResults.CombineAssociative | jarvis/base.py:36-43 | combining fields is associative where it succeeds |
| ToolResults.AddAssociative | jarvis/base.py:35-50 | adding results is associative where no image clash stops it |
| ToolResults.ReplaceFields | jarvis/base.py:52-54 | the named fields take the given values and every other field is copied (what that means for a caller is ReplaceNothing and ReplaceTwice) |
| ToolResults.ReplaceNothing | jarvis/base.py:52-54 | replace() with no keyword gives the result back unchanged |
| ToolResults.ReplaceTwice | jarvis/base.py:52-54 | two replaces in a row are one replace in which, field by field, the later value wins |
| Computer.ChunksOf | butler/computer.py:65-67 | a zero size raises, a negative size gives no pieces; a positive size gives pieces that concatenate back to s, all of that size except a non-empty shorter last one, ceil(len(s)/n) of them, and none for "" |
| Chunking.Chunks | butler/computer.py:67 | the comprehension gives no pieces exactly for the empty string |
| Chunking.FlattenChunks | butler/computer.py:67 | concatenating the pieces gives the string back |
| Chunking.ChunksWellCut | butler/computer.py:67 | every piece has the chunk size except the last, which has between 1 and the chunk size |
| Chunking.ChunksCount | butler/computer.py:67 | there are ceil(len(s)/n) pieces |
| Chunking.ChunksStep | butler/computer.py:67 | the comprehension's step i cuts s[i:i+n] and leaves the rest to the following steps |
| Computer.Rename | butler/computer.py:184-190 | key_map.get(key, key): a key outside the four names is kept |
| Computer.RenamedClean | butler/computer.py:184-190 | the four new names are themselves lower-case without "_" |
| Computer.NormalizeKeyClean | butler/computer.py:181-190 | every normalised key is lower-case without "_"; a clean key outside the four renamed names comes back unchanged |
| Computer.NormalizeClean | butler/computer.py:181-190 | a key already lower-case without "_" is only renamed |
| Computer.NormalizeTwice | butler/computer.py:181-190 | normalising twice equals normalising once except that enter and return swap back: normalize_key is not idempotent |
| Computer.KeyList | butler/computer.py:192 | k "+" separators give k+1 keys, each normalised |
| Computer.Keystroke | butler/computer.py:199-202 | the AppleScript keystroke is the last key itself unless it is space or enter |
| Computer.KeyEffectOf | butler/computer.py:175-213 | off macOS a single key is pressed (normalised) and several are sent together as a hotkey of the normalised keys |
| Computer.Perform | butler/computer.py:156-247 | the call is refused exactly for an unknown action, a mouse move or drag without a coordinate, or key/type without text, each with its own message; key sends KeyEffectOf, type writes the text, only cursor_position reads the cursor |
| Util.Without | my_package/util.py:31-32 | `del item[key]`: the entries other than key, each of them kept |
| Util.RemoveKey | my_package/util.py:29-38 | dicts stay dicts, lists stay lists of the same length, and every other value is returned as it is |
| Util.RemoveKeyFree | my_package/util.py:29-38 | after remove_key no dict at any depth has the key |
| Util.WithoutAbsent | my_package/util.py:31-32 | deleting a key that is absent keeps the dict |
| Util.RemoveKeyOfFree | my_package/util.py:29-38 | data without the key at any depth comes back unchanged |
| Util.RemoveKeyIdempotent | my_package/util.py:29-38 | removing a key twice is removing it once |
| Util.RemoveKeyKeepsKeys | my_package/util.py:29-38 | the top-level keys afterwards are the old ones except key, in the old order |
| Util.RemovedFieldsCons | my_package/util.py:32-34 | the cleaned dict is the cleaned first pair (dropped when its key is key) followed by the cleaned rest |
| Util.LookupRemovedKey | my_package/util.py:31-32 | after remove_key the dict has no entry for key |
| Util.LookupRemoved | my_package/util.py:33-34 | after remove_key the entry for any other name is remove_key of the old one, and absent when it was absent |
| Util.RemoveKeyAt | my_package/util.py:29-38 | at every depth: a path through key leads nowhere afterwards, and any other path leads to remove_key of what it led to before (nowhere if it led nowhere) |
| Util.RemoveKeyKeepsLeaves | my_package/util.py:29-38 | a non-container value is found at a path afterwards exactly when it was found there before and the path does not go through key |
| Util.Lookup | my_package/util.py:47 | a key is absent exactly when no pair has it |
| Util.Put | my_package/util.py:49 | assignment makes the key map to the value, keeps every other key, and grows the dict only for a new key |
| Util.ChangeName | my_package/util.py:63-67 | a name outside the reserved list is kept |
| Util.ChangeNameIdempotent | my_package/util.py:63-67 | a renamed name is never reserved, so renaming twice is renaming once |
| Util.RenameKeysLookup | my_package/util.py:49 | in the renamed dict a name holds the value of the last key that renames to it, and no other names appear |
| Util.LowercaseParameterKeys | my_package/util.py:46-50 | only a dict-valued "parameters" entry changes, to its keys renamed; every other entry and the size stay the same, and without such an entry nothing changes |
| Util.ParametersRenamed | my_package/util.py:46-50 | every renamed parameter holds the value of the last key that renames to it (collisions keep the last value) |
| Util.Sanitize | my_package/util.py:71-72 | every character outside CJK U+4E00-U+9FA5, ASCII letters, digits, "_" and "^" becomes "_", the others stay |
| Util.Collapse | my_package/util.py:73 | the result has no "__", uses only characters of the input, is empty only for empty input, and keeps the first and last character |
| Util.DropLeading | my_package/util.py:74-80 | the first loop removes exactly the leading "_" |
| Util.DropTrailing | my_package/util.py:81-87 | the second loop removes exactly the trailing "_" |
| Util.Standardize | my_package/util.py:70-90 | the loops compute Standardized |
| Util.StandardizedShape | my_package/util.py:70-90 | standardize gives only kept characters, no upper-case letter, no "__", no "_" at either end, and no leading digit ("get_" is prepended) |
| Util.StandardizedEmpty | my_package/util.py:74-87 | input whose only kept characters are "_" standardises to "" |
| Util.TruncateString | my_package/util.py:146-147 | the result is a prefix of the string; for length >= 0 it has min(len, length) characters; a string within the length comes back whole |
| Util.ConvertToBoolean | my_package/util.py:161-167 | a string is true exactly when lower-cased to "true" or "1", an int (a bool is one) when non-zero, None is false, and a list or dict when non-empty |
| Util.ConvertToBooleanRoundTrip | my_package/util.py:161-167 | str(b) and int(b) convert back to b, but a non-zero int written as "2" converts to false |
| SciNotation.Zeros | package/math.py:31 | `"0" * n` has max(n, 0) characters, all "0" |
| SciNotation.DotIndex | package/math.py:28 | the index of the first "." when there is one, the length otherwise |
| SciNotation.SplitExponent | package/math.py:17-21 | without "e" the whole text and 0; with two or more the text before the first "e" and 0; with exactly one the text before it and int() of the text after it, or ValueError when that text, less surrounding whitespace, is not an integer literal ("1e 3" gives exponent 3) |
| SciNotation.SplitExponentSpacedExponent | package/math.py:19-21 | int() ignores the space before the exponent: "1e 3" splits into "1" and 3 |
| SciNotation.SplitAtE | package/math.py:18-20 | `split("e")` has two parts exactly when there is one "e", the first part ending before the first "e" |
| SciNotation.InsertPoint | package/math.py:33 | `s[:k] + "." + s[k:]` has one point, at k, and the same digits |
| SciNotation.PaddedPoint | package/math.py:29-33 | the positive branch keeps the digits, pads zeros up to the new index and puts one point there only when digits remain past it |
| SciNotation.MultiplyBy10AsWritten | package/math.py:23-42 | exponent 0 returns the text; a positive exponent gives the digits padded with zeros and the point at index + exponent (none at the end); a negative one gives "0.", max(0, -(index + exponent)) zeros, then every digit |
| SciNotation.MoveDotAgrees | package/math.py:27-42 | moving the point of the same digits with the correction and as written gives the same text exactly when the shift is to the right or reaches past the digits before the point |
| SciNotation.MultiplyBy10Agrees | package/math.py:36-42 | the written negative branch is right exactly when the exponent reaches past the digits before the point |
| SciNotation.MultiplyBy10Shifts | package/math.py:23-42 | the corrected rewrite keeps the coefficient's digits in order, adds only zeros, and moves the point by exactly the exponent, in both directions |
| SciNotation.AsWrittenMisplacesPoint | package/math.py:36-42 | for a coefficient with two or more digits before the point and exponent -1 the written code gives "0." + the digits, which is not the coefficient divided by ten, while the corrected rewrite is |
| SciNotation.TrimZeros | package/math.py:48-49 | `rstrip("0")` with a point keeps a prefix, drops only zeros, keeps the point where it was and ends in something other than "0" |
| SciNotation.ScitoDecimal | package/math.py:16-51 | the corrected version (multiplyby_10 fixed as in Findings; the as-written one is ScitoDecimalAsWritten): without "e" the coefficient, with trailing zeros stripped only when it has a point; fails exactly when the one exponent, less surrounding whitespace, is not an integer literal |
| SciNotation.ScitoDecimalValue | package/math.py:44-51 | for the corrected version: the result is the coefficient with its point moved by the exponent, less trailing zeros behind the point |
| SciNotation.ScitoDecimalAsWritten | package/math.py:16-51 | scito_decimal as written: fails exactly where the corrected version fails, and agrees with it whenever the exponent is not negative or moves the point past every digit before it ("12.5e-1" is where they differ, see Findings) |
| MathOps.Values | package/math.py:70-71 | the integer values of arguments that all passed the number check, in order |
| MathOps.NormalizeInt | package/math.py:54-67 | normalize of an int raises OverflowError exactly when the int is too large for a float (custom_round formats it with ".10f" at line 5); otherwise its decimal text, which parses back to the int and has no "." and no "e" |
| MathOps.MultiplyOverflows | package/math.py:84-91 | multiply_ of 10**200 and 10**200 raises OverflowError in normalize instead of returning the product |
| MathOps.SumConcat | package/math.py:73 | the sum of two runs is the sum of their sums |
| MathOps.ProductConcat | package/math.py:89-90 | the left-to-right product of two runs is the product of their products |
| MathOps.ProductZero | package/math.py:87-91 | a product is zero exactly when a factor is |
| MathOps.AddOf | package/math.py:69-73 | add_ raises TypeError("所有参数必须是数字") exactly when an argument is not a number; otherwise OverflowError exactly when the sum is too large for a float, and the text of the sum (0 for no arguments) else |
| MathOps.DifferenceIsSum | package/math.py:78-80 | subtracting the others one by one equals adding the first and the negated others |
| MathOps.NegatedSum | package/math.py:78-80 | the sum of the negations is the negated sum |
| MathOps.SubtractOf | package/math.py:75-82 | subtract_ fails exactly for a non-number (TypeError, checked first), no arguments (IndexError at args[0]) or a difference too large for a float (OverflowError); otherwise the text of the difference |
| MathOps.Subtract | package/math.py:75-82 | the loop computes SubtractOf |
| MathOps.MultiplyOf | package/math.py:84-91 | multiply_ fails exactly for a non-number (TypeError), no arguments (IndexError) or a product too large for a float (OverflowError); otherwise the text of the product |
| MathOps.Multiply | package/math.py:84-91 | the loop computes MultiplyOf |
| MathOps.MultiplyZero | package/math.py:84-91 | multiply_ gives "0" exactly when an argument is 0 |
| MathOps.MeanOperands | package/math.py:209-213 | mean_ raises TypeError for a non-number and divides by zero for no arguments; otherwise it divides the sum by the count |
| MathOps.DividesCombination | package/math.py:190-201 | a common divisor of x and y divides x * m + y |
| MathOps.DividesTrans | package/math.py:190-201 | divisibility is transitive |
| MathOps.DividesAbs | package/math.py:190-194 | d divides x exactly when it divides abs(x) |
| MathOps.GcdNat | package/math.py:193 | Euclid's gcd is 0 exactly for two zeros |
| MathOps.GcdNatDivides | package/math.py:193 | Euclid's gcd divides both numbers |
| MathOps.GcdNatGreatest | package/math.py:193 | every common divisor divides Euclid's gcd |
| MathOps.Gcd | package/math.py:193 | math.gcd is never negative and 0 only for two zeros |
| MathOps.GcdIsGreatest | package/math.py:193 | math.gcd divides both arguments and every common divisor divides it |
| MathOps.GcdFold | package/math.py:190-194 | the fold fails exactly when an argument is not a number; for two or more integers the result is not negative |
| MathOps.GcdFoldDivides | package/math.py:190-194 | for two or more integers gcd_ folds to their greatest common divisor: it divides every argument and every common divisor divides it |
| MathOps.GcdOf | package/math.py:190-194 | no arguments raise IndexError, a non-number is refused, a gcd too large for a float raises OverflowError, otherwise the text of the fold |
| MathOps.Gcds | package/math.py:190-194 | the loop computes GcdOf |
| MathOps.LcmFold | package/math.py:197-201 | a non-number makes the fold fail |
| MathOps.LcmFoldErr | package/math.py:199-200 | an error in a prefix of the fold is the error of the whole fold |
| MathOps.LcmStep | package/math.py:200 | one step on positive numbers gives a positive common multiple of both |
| MathOps.LcmFoldDivisible | package/math.py:197-201 | for positive integers lcm_ never divides by zero and gives a positive multiple of every argument |
| MathOps.LcmOf | package/math.py:197-201 | no arguments raise IndexError, a failing fold passes its error on, an lcm too large for a float raises OverflowError, otherwise the text of the fold |
| MathOps.Lcms | package/math.py:197-201 | the loop computes LcmOf |
| MathOps.RemainderOf | package/math.py:203-207 | remainder_ fails exactly with fewer than two arguments, a non-number, a zero divisor or a remainder too large for a float; otherwise it gives m with a = b * (a // b) + m and m of the divisor's sign, below it in size |
| MathOps.OneArgument | package/math.py:134-175 | abs_, the trigonometric functions and exp_ accept exactly one argument, otherwise ValueError with the function's message |
| MathOps.ArityMessagesDistinct | package/math.py:134-175 | each function's ValueError message names it alone |
| MathOps.AbsOf | package/math.py:134-137 | abs_ of one integer gives the text of a non-negative number equal to x or -x, or OverflowError exactly when x is too large for a float; more or fewer arguments raise ValueError |
| MathOps.LogArguments | package/math.py:114-126 | log_ takes one argument (base 10) or two (value and base), and otherwise raises "Invalid number of arguments passed to log function" |
| TaskDivision.Divided | package/thread.py:44-52 | zero threads divide by zero; a batch size of 0 gives [tasks]; a positive batch size gives batches that concatenate back to tasks in order, each of that size but a shorter non-empty last one, ceil(len/batch) of them |
| TaskDivision.DivideTasks | package/thread.py:44-52 | the stepped loop computes Divided |
| TaskDivision.ThreadCount | package/thread.py:104 | min(len(tasks), cpu_count or 1) is at least 1 for a non-empty list and 0 for an empty one |
| TaskDivision.ProcessTasksDivides | package/thread.py:44-52 | with the thread count of line 104 the division is defined exactly for a non-empty task list and gives every task back in order |
| TaskDivision.MoreBatchesThanThreads | package/thread.py:44-52 | ten tasks over four threads give five batches, more than the threads |
| SortSpec.Swap | butler/algorithms.py:50-55 | a tuple swap exchanges exactly the two elements and moves nothing else |
| ButlerSort.RotationMultiset | butler/algorithms.py:23-29 | shifting arr[h..i) right and dropping the key at h keeps the elements |
| ButlerSort.InsertedSorted | butler/algorithms.py:23-29 | after one insertion step arr[low..i] is sorted |
| ButlerSort.ShiftGreater | butler/algorithms.py:24-28 | the inner loop moves one step right exactly the elements above the first one not greater than the key, and returns where the key goes, leaving the rest alone |
| ButlerSort.InsertOne | butler/algorithms.py:24-29 | one pass moves arr[i] left past every strictly greater element: arr[low..i] is sorted, a rearrangement of itself |
| ButlerSort.InsertionSortRange | butler/algorithms.py:12-31 | _insertion_sort sorts arr[low..high] ascending in place, rearranging only that range |
| ButlerSort.Median3 | butler/algorithms.py:48-55 | the median is one of the three and lies between the other two |
| ButlerSort.OrderPair | butler/algorithms.py:49-54 | one compare-and-swap leaves the smaller value first and the larger second and touches nothing else |
| ButlerSort.MedianToHigh | butler/algorithms.py:48-55 | the three compare-and-swaps rearrange only arr[low..high] and put the median of low, mid and high at high when they are distinct |
| ButlerSort.PartitionScan | butler/algorithms.py:57-70 | the scan keeps the pivot at high and returns i with arr[low..i) <= pivot <= arr[i..high), rearranging only arr[low..high) |
| ButlerSort.Partition | butler/algorithms.py:33-72 | _partition returns p in [low, high] with nothing larger than arr[p] before it and nothing smaller after it in arr[low..high], rearranging only that range; arr[p] is the median of three when the range has three or more elements |
| ButlerSort.SubtreeTrans | butler/algorithms.py:178-206 | a subtree of a subtree is a subtree |
| ButlerSort.HeapRootMax | butler/algorithms.py:208-226 | the root of a max-heap is at least every element |
| ButlerSort.HeapifyRecursiveCase | butler/algorithms.py:200-206 | after the swap and the recursive call the heap property holds from i down |
| ButlerSort.HeapifyFrame | butler/algorithms.py:200-206 | the swap and the recursive call change only i's subtree, and node i holds the larger child's value |
| ButlerSort.Heapify | butler/algorithms.py:178-206 | _heapify restores the heap property from node i down, moving only nodes of i's subtree, with node i ending with its own or a child's value |
| ButlerSort.ExtractStep | butler/algorithms.py:220-226 | swapping the root to position i and restoring the heap grows the sorted tail, every element before it being at most it |
| ButlerSort.BuildHeap | butler/algorithms.py:216-217 | heapifying the inner nodes from the last up gives a max-heap, rearranging only the range |
| ButlerSort.ExtractAll | butler/algorithms.py:220-226 | the extraction loop turns a heap into a sorted range |
| ButlerSort.ExtractOne | butler/algorithms.py:220-226 | one extraction round shrinks the heap by one and grows the sorted tail, which dominates the heap |
| ButlerSort.HeapSortRange | butler/algorithms.py:208-226 | _heap_sort_range sorts arr[low..high] in place, rearranging only that range |
| ButlerSort.HeapSort | butler/algorithms.py:228-254 | heap_sort returns a sorted permutation of its argument, the empty list as it is |
| ButlerSort.JoinSorted | butler/algorithms.py:86-96 | sorting the left part in place, when it lies below the sorted right part, sorts the whole range |
| ButlerSort.PartitionStep | butler/algorithms.py:92-94 | partitioning, then sorting right of the pivot, leaves arr[p..high] sorted and above everything left of p |
| ButlerSort.IntrosortUtil | butler/algorithms.py:74-96 | _introsort_util sorts arr[low..high] in place, rearranging only that range, whatever the depth budget |
| ButlerSort.Pow2 | butler/algorithms.py:118 | powers of two are positive |
| ButlerSort.Log2Floor | butler/algorithms.py:118 | int(math.log2(n)) is the k with 2^k <= n < 2^(k+1) |
| ButlerSort.QuickSort | butler/algorithms.py:98-126 | quick_sort returns a sorted permutation of its argument, the empty list as it is |
| ButlerSearch.Merged | butler/algorithms.py:151-176 | the merge has as many elements as both lists together |
| ButlerSearch.MergedMultiset | butler/algorithms.py:151-176 | merging loses and invents nothing: the multiset is the sum of both |
| ButlerSearch.MergedHead | butler/algorithms.py:166-171 | the first element of a merge is the smaller head, and on equal heads the right one (the comparison is strict) |
| ButlerSearch.MergedSorted | butler/algorithms.py:151-176 | the merge of two sorted lists is sorted |
| ButlerSearch.Merge | butler/algorithms.py:151-176 | the two-index loop and the two extends compute Merged (ties taken from the right), keep the elements, and give a sorted list from sorted inputs |
| ButlerSearch.MergeSort | butler/algorithms.py:128-149 | merge_sort returns a sorted permutation of its argument, and a list of at most one element as it is |
| ButlerSearch.MergeSortLength | butler/algorithms.py:128-149 | merge_sort keeps the length |
| ButlerSearch.BinarySearch | butler/algorithms.py:257-282 | a non-negative answer is an index holding the target; on a sorted list the answer is -1 exactly when the target is absent |
| HybridSort.MedianOfThree | my_package/algorithm.py:69-95 | median_of_three returns one of the three indices, whose element is neither below both others nor above both |
| HybridSort.Rotation | my_package/algorithm.py:106-112 | shifting elements right and placing the key keeps the elements |
| HybridSort.Inserted | my_package/algorithm.py:106-112 | after one insertion step the range up to i is ascending |
| HybridSort.ShiftAbove | my_package/algorithm.py:107-111 | the inner loop moves one step right exactly the elements the key is strictly below, above the first it is not, and returns where the key goes |
| HybridSort.InsertOne | my_package/algorithm.py:107-112 | the key moves left past every element it is strictly below, leaving arr[left..i] ascending and a rearrangement of itself |
| HybridSort.InsertionSort | my_package/algorithm.py:97-112 | insertionSort makes arr[left..right] ascending, rearranging only that range; an empty range changes nothing |
| HybridSort.Scan | my_package/algorithm.py:53-65 | the scan keeps the pivot at left and ends with everything in arr[left+1..j] below it and nothing in arr[j+1..right] below it |
| HybridSort.PivotPlaced | my_package/algorithm.py:66 | the closing swap puts the pivot between the two parts |
| HybridSort.Partition | my_package/algorithm.py:35-67 | partition returns j in [left, right] holding the median-of-three pivot, with arr[left..j) below it and nothing below it in arr(j..right], rearranging only that range |
| HybridSort.Kept | my_package/algorithm.py:50-66 | a rearrangement inside a range keeps every property of the elements in it |
| HybridSort.Joined | my_package/algorithm.py:26-33 | after partition and the two recursive sorts, in either order, the range is ascending |
| HybridSort.SideSorted | my_package/algorithm.py:28-33 | sorting one side keeps the pivot in place and every bound the partition set |
| HybridSort.HybridSortRange | my_package/algorithm.py:2-33 | hybridSort sorts arr[left..right] ascending in place, a rearrangement of that range, with insertion sort below 11 elements; the recursion is on strictly smaller ranges without the pivot |
| HybridSort.Sort | my_package/algorithm.py:15-22 | with the default bounds the whole list ends ascending, a permutation of the old list |
| HybridSort.SortIntegers | my_package/algorithm.py:2-112 | hybridSort on integers leaves the list sorted and a permutation of the old one |
| FileList.EntryLessIrreflexive | package/algorithm.py:63-64 | no tuple is below itself |
| FileList.EntryLessTransitive | package/algorithm.py:63-64 | tuple `<` is transitive |
| FileList.EntryLessTotal | package/algorithm.py:63-64 | of two different tuples one is below the other |
| FileList.EntryOrder | package/algorithm.py:63-64 | tuple `<` is a strict weak order, as the sort needs |
| FileList.SortFileList | package/algorithm.py:9-119 | hybridSort leaves the tuples in ascending tuple order, a permutation of the old list (median_of_three looking at the priority only) |
| FileList.SortedByNameFirst | package/algorithm.py:63-64 | the sorted list is ordered by name first: the priority decides only between equal names |
| FileList.ParseLine | package/algorithm.py:7 | a non-blank line parses exactly when it has three words and an integer second word, to (first, int(second), third); ValueError exactly when the second word is not an integer |
| FileList.NonBlankLines | package/algorithm.py:7 | only non-blank lines are kept |
| FileList.AllParseCons | package/algorithm.py:7 | all lines parse exactly when the first does and the rest all do |
| FileList.ParsedAsCons | package/algorithm.py:7 | the parse of the first line followed by the parses of the rest is the parse of all |
| FileList.ParseAll | package/algorithm.py:7 | the list comprehension succeeds exactly when every line parses, with one tuple per line in order |
| FileList.ReadFileList | package/algorithm.py:4-7 | read_file_list succeeds exactly when every non-blank line parses, giving one tuple per non-blank line in file order |
| FileList.InsertIntoFile | package/algorithm.py:141-155 | a missing marker raises ValueError; otherwise the content up to the end of the first marker, "\n", the text, "\n", then the rest |
| FileList.InsertIntoFileUndo | package/algorithm.py:141-155 | cutting the inserted block out gives the old content back, and the marker still first occurs where it did |
| GraphSpec.WalkExtend | butler/algorithms.py:388-395 | a walk followed by an edge of its end node is a walk; its end and weight grow by that edge |
| GraphSpec.WalkBound | butler/algorithms.py:379-397 | once the start is at 0 and every node with a finite distance has all its edges relaxed, every walk from the start ends at a node whose distance is finite and at most the walk's weight |
| GraphSpec.LowerDecreases | butler/algorithms.py:392-395 | lowering a distance never raises the count of infinite distances and, for a listed node, lowers (that count, the sum of finite distances) lexicographically: why the queue loops end |
| GraphSpec.PathExtend | butler/algorithms.py:423-426 | a path followed by a neighbour of its last node is a path with the same first node |
| GraphSpec.AllNodes | butler/algorithms.py:423 | every key and every node named in an adjacency list is in the set |
| GraphSpec.ClosedHoldsPath | butler/algorithms.py:399-428 | a set that holds the first node of a path and every neighbour of its members holds the path's last node |
| GraphSpec.ClosedHoldsReachable | butler/algorithms.py:399-428 | a set holding s and closed under neighbours holds everything reachable from s |
| GraphSpec.MinEntry | butler/algorithms.py:381 | the entry heappop takes has a priority no larger than any other entry of the queue (used by Dijkstra on distances and A* on f-scores) |
| ButlerDijkstra.Removed | butler/algorithms.py:381 | removing one entry of a queue of distinct entries leaves the others, each once, and drops that one |
| ButlerDijkstra.PopStale | butler/algorithms.py:383-385 | skipping an out-of-date entry keeps the queue, settled-node and finite-distance invariants |
| ButlerDijkstra.PopSettles | butler/algorithms.py:381-385 | popping a smallest up-to-date entry settles a node not settled before, whose distance is at least every settled distance |
| ButlerDijkstra.LowerQueue | butler/algorithms.py:392-395 | lowering an unsettled node's distance and pushing the new entry keeps the queue invariants |
| ButlerDijkstra.LowerPred | butler/algorithms.py:392-394 | the new predecessor entry names a settled node joined by an edge whose weight is the difference of the distances |
| ButlerDijkstra.LowerWalks | butler/algorithms.py:389-393 | the lowered distance is the weight of a walk from the start |
| ButlerDijkstra.LowerRelaxed | butler/algorithms.py:392-393 | lowering an unsettled node's distance leaves every settled node's edges relaxed |
| ButlerDijkstra.Initial | butler/algorithms.py:370-377 | before the loop only the start is finite, at 0, and the queue holds (0, start) |
| ButlerDijkstra.FewerUnsettled | butler/algorithms.py:379-385 | settling a node shrinks the set of unsettled keys |
| ButlerDijkstra.Shortest | butler/algorithms.py:379-397 | with the queue empty no walk from the start beats the distance of its end, and every end it reaches is finite |
| ButlerDijkstra.FinishRelax | butler/algorithms.py:388-395 | once every edge of the settled node is relaxed, all settled nodes are |
| ButlerDijkstra.RelaxEdges | butler/algorithms.py:388-395 | the loop over the edges of the node just settled keeps the invariant and leaves every settled node relaxed |
| ButlerDijkstra.RelaxEdge | butler/algorithms.py:389-395 | one edge: afterwards its target's distance is finite and at most the settled distance plus the weight, and no distance went up |
| ButlerDijkstra.Dijkstra | butler/algorithms.py:346-397 | the distances cover exactly the graph's keys with the start at 0; every finite distance is the weight of some walk from the start and no walk to a node is lighter than its distance (so unreachable nodes stay infinite); the start has no predecessor and every predecessor entry is an edge whose weight closes the gap between the two distances, and every node other than the start with a finite distance has a predecessor |
| ButlerAStar.Reverse | butler/algorithms.py:330 | path[::-1]: the same length, read from the other end |
| ButlerAStar.Queued | butler/algorithms.py:338 | true exactly when some open-set entry names the node |
| ButlerAStar.PopEntry | butler/algorithms.py:319 | popping keeps the invariant, the popped node has a finite g-score, and only it may be left uncovered |
| ButlerAStar.PopCovered | butler/algorithms.py:319 | removing an entry from the open set uncovers at most its node |
| ButlerAStar.NoPath | butler/algorithms.py:318-340 | when the open set runs empty without reaching the goal, no walk from the start ends at the goal |
| ButlerAStar.ReconstructPath | butler/algorithms.py:324-330 | following came_from back from the goal and reversing gives a path that starts at start, ends at goal and follows edges |
| ButlerAStar.Expand | butler/algorithms.py:332-339 | the loop over the current node's edges keeps the invariant, covers the current node, and the search measure does not go up |
| ButlerAStar.EdgesDoneStep | butler/algorithms.py:332-339 | one more relaxed edge extends the relaxed prefix of the adjacency list |
| ButlerAStar.NotAboveTrans | butler/algorithms.py:318-339 | the search measure's "not above" order is transitive |
| ButlerAStar.CoveredGrows | butler/algorithms.py:332 | counting the current node as expanded keeps coverage |
| ButlerAStar.CloseCovered | butler/algorithms.py:332-339 | once the current node's edges are relaxed nothing is left uncovered |
| ButlerAStar.RelaxNeighbor | butler/algorithms.py:333-339 | one edge: the neighbour's g-score ends finite and at most the current g-score plus the weight, no g-score goes up, and the invariant and coverage hold |
| ButlerAStar.LowerCore | butler/algorithms.py:334-339 | an improving edge with its came_from entry and (unless queued already) its push keeps the invariant |
| ButlerAStar.PushFinite | butler/algorithms.py:337-339 | after the update every open entry still names a node with a finite g-score |
| ButlerAStar.QueuedGrows | butler/algorithms.py:339 | a push keeps every node already in the open set there |
| ButlerAStar.LowerChains | butler/algorithms.py:334-336 | the improved neighbour is neither the current node nor the start, and every reached node's chain still leads to the start |
| ButlerAStar.LowerMeasure | butler/algorithms.py:334-336 | lowering a g-score lowers the search measure whatever the open set does |
| ButlerAStar.LowerCovered | butler/algorithms.py:334-339 | after lowering a neighbour every other node stays covered and the neighbour is in the open set |
| ButlerAStar.AStar | butler/algorithms.py:285-341 | a returned path starts at start, ends at goal and follows edges of the graph, whatever the heuristic; None is returned only when no walk leads from start to goal |
| ButlerTraversal.ReachStep | butler/algorithms.py:423-426 | a neighbour of a reachable node is reachable |
| ButlerTraversal.ReachVia | butler/algorithms.py:450-451 | what a neighbour reaches, the node reaches |
| ButlerTraversal.ReachSelf | butler/algorithms.py:411-416 | every node reaches itself |
| ButlerTraversal.SubsetSmaller | butler/algorithms.py:446-451 | a proper subset is smaller: why the recursion ends |
| ButlerTraversal.BfsPop | butler/algorithms.py:420-421 | popleft and append keep the invariant; the popped node was not listed yet |
| ButlerTraversal.BfsPush | butler/algorithms.py:423-426 | marking and queuing an unvisited neighbour keeps the invariant |
| ButlerTraversal.VisitNeighbors | butler/algorithms.py:423-426 | after the inner loop every neighbour of the vertex is visited and the invariant holds |
| ButlerTraversal.AllVisitedGrow | butler/algorithms.py:423-426 | the visited neighbours grow by one |
| ButlerTraversal.ClosedAdd | butler/algorithms.py:423-426 | once every neighbour of the vertex is visited, it need not be excepted |
| ButlerTraversal.BfsDone | butler/algorithms.py:419-428 | with the queue empty the order starts at start, has no repeats, holds exactly the reachable nodes, and every node after the first has an earlier neighbour parent in level order |
| ButlerTraversal.BreadthFirstSearch | butler/algorithms.py:399-428 | [] when the start is not a key; otherwise the start first, each node once, and exactly the nodes reachable from the start; every node after the first is a neighbour of an earlier one, and in level order: a node listed before a neighbour of some node j has a neighbour parent no later than j |
| ButlerTraversal.BfsRound | butler/algorithms.py:419-426 | one round of the outer loop keeps the invariant and the record of who discovered each listed or queued node |
| ButlerTraversal.BfsPopStep | butler/algorithms.py:420-421 | popleft and append keep the invariant and the discovery record, with the popped node last in the order |
| ButlerTraversal.DiscoverPop | butler/algorithms.py:420-421 | moving the head of the queue to the order keeps the discovery record, one more node now listed |
| ButlerTraversal.DiscoverPush | butler/algorithms.py:423-426 | queuing a neighbour of the last listed node that no earlier listed node has as a neighbour records that node as its discoverer |
| ButlerTraversal.NotEarlierNeighbor | butler/algorithms.py:423-426 | an unvisited neighbour of the vertex is no neighbour of any node listed before it |
| ButlerTraversal.DiscoverDone | butler/algorithms.py:419-428 | a full discovery record gives every node after the first an earlier neighbour parent, in level order |
| ButlerTraversal.DfsAppend | butler/algorithms.py:450-451 | extending the order by a neighbour's result keeps it distinct, reachable and closed |
| ButlerTraversal.Preorder | butler/algorithms.py:446-453 | the recursion as a definition: a visited node gives nothing; otherwise the node, then PreorderAll of its neighbours from the visited set with the node added; the visited set only grows |
| ButlerTraversal.PreorderAll | butler/algorithms.py:450-451 | the neighbour loop as a definition: each neighbour's Preorder concatenated in adjacency order, each computed from the visited set the previous ones left; the visited set only grows |
| ButlerTraversal.PreorderStep | butler/algorithms.py:450-451 | one more neighbour: its result goes right after the order so far, and the rest start from the visited set it left |
| ButlerTraversal.ParentsAppend | butler/algorithms.py:450-451 | extending by a neighbour's result that starts with the neighbour keeps every listed node after the first a neighbour of an earlier one |
| ButlerTraversal.DepthFirstSearch | butler/algorithms.py:446-453 | the result and the visited set after are those of Preorder: nothing when the node was visited, otherwise the node, then each neighbour's result in adjacency order; every node after the first is a neighbour of an earlier one; each newly reached node once, none already visited, all reachable, and the visited set grows by exactly the listed nodes |
| ButlerTraversal.DfsNeighbors | butler/algorithms.py:448-451 | for an unvisited node: the node, then each neighbour's result in adjacency order, which is Preorder; each newly reached node once, all reachable, every node after the first a neighbour of an earlier one |
| ButlerTraversal.DfsStep | butler/algorithms.py:450-451 | one neighbour's result appended keeps the loop invariant and the remaining Preorder |
| ButlerTraversal.DepthFirstSearchFrom | butler/algorithms.py:443-453 | with no visited set: the preorder from the start (Preorder with the empty set), the start first, each node once, every node after the first a neighbour of an earlier one, and a node is listed exactly when it is reachable from the start |
| ButlerFibonacci.MulQ | butler/algorithms.py:494-507 | multiplying by [[1, 1], [1, 0]] adds the columns into the first and shifts the first into the second |
| ButlerFibonacci.MulIdentity | butler/algorithms.py:494-507 | the identity matrix is neutral on the right |
| ButlerFibonacci.MulTimesQ | butler/algorithms.py:494-507 | the product is associative with the Q step |
| ButlerFibonacci.PowAdd | butler/algorithms.py:509-522 | Q^(i+j) = Q^i * Q^j |
| ButlerFibonacci.PowQ | butler/algorithms.py:524-543 | Q^k holds F(k+1), F(k), F(k), F(k-1) for k >= 1 |
| ButlerFibonacci.MultiplyMatrices | butler/algorithms.py:494-507 | F becomes F * M computed from the old entries, so F * F squares F |
| ButlerFibonacci.NewQ | butler/algorithms.py:516 | a fresh 2x2 array holding [[1, 1], [1, 0]] |
| ButlerFibonacci.Square | butler/algorithms.py:518-519 | squaring Q^h gives Q^(2h) |
| ButlerFibonacci.SquareTimesQ | butler/algorithms.py:521-522 | one extra factor of Q after squaring gives Q^(2h+1) |
| ButlerFibonacci.FibFromPower | butler/algorithms.py:540-543 | the top-left entry of Q^(n-1) is F(n) |
| ButlerFibonacci.Power | butler/algorithms.py:509-522 | with F holding Q, F ends holding Q^n for n >= 1 and still Q for n = 0 |
| ButlerFibonacci.Fibonacci | butler/algorithms.py:524-543 | 0 for n <= 0 and the n-th Fibonacci number otherwise |
| ButlerFibonacci.FibonacciIterative | butler/main.py:197-207 | the two-variable loop gives the same answers: 0 for n <= 0 and F(n) otherwise |
| Jarvis.Below | butler/main.py:101 | every element kept is below the pivot |
| Jarvis.Equal | butler/main.py:102 | every element kept equals the pivot |
| Jarvis.Above | butler/main.py:103 | every element kept is above the pivot |
| Jarvis.SplitMultiset | butler/main.py:101-103 | the three comprehensions together hold every element of the list exactly once |
| Jarvis.SplitShorter | butler/main.py:100-103 | with the pivot taken from the list, each side is strictly shorter, so the recursion ends |
| Jarvis.JoinAroundPivot | butler/main.py:104 | sorted smaller elements, then the pivot copies, then sorted larger elements form a sorted list |
| Jarvis.QuickSort | butler/main.py:96-104 | the result is sorted and a permutation of the input |
| Jarvis.Values | butler/main.py:389 | the numbers of an all-number list, position by position |
| Jarvis.SortNumbers | butler/main.py:386-395 | refused exactly when the list is empty or holds a non-number; otherwise the reply is the numbers sorted, with the same elements |
| Jarvis.KeyIndex | butler/main.py:464 | the first key equal to the name, or -1 exactly when no key equals it |
| Jarvis.FirstContaining | butler/main.py:474-477 | the first key, in insertion order, containing the name, or -1 exactly when none contains it |
| Jarvis.OpenProgram | butler/main.py:457-480 | an empty name, and only that, is refused; an exact program_mapping key wins, then the dynamically found programs, then the first mapping key containing the name; "not found" exactly when none of these applies, naming the program |
| Jarvis.Trim | butler/main.py:297-298 | the last max entries when the history is longer, all of it otherwise |
| Jarvis.Assistant.constructor | butler/main.py:81 | the history starts empty |
| Jarvis.Assistant.Speak | butler/main.py:291-298 | the reply is recorded last and the history is cut back to its last MAX_HISTORY_MESSAGES (10) entries |
| Jarvis.Assistant.RecordCommand | butler/main.py:345-350 | a command is appended as the user's, untrimmed; a missing command changes nothing |
| PluginResults.NewPluginResult | plugin/abstract_plugin.py:5-8 | building the named tuple fails exactly when result is left out; otherwise the fields are those given, error_message defaulting to "" |
| PluginResults.FailureAsWrittenRaises | plugin/MemoPlugin.py:92 | a failure built without a result raises instead of being returned, whatever the message |
| PluginResults.Failure | plugin/abstract_plugin.py:5-8 | the intended failure is a valid construction with result None, success false and the message |
| PluginResults.Success | plugin/MemoPlugin.py:91 | a success with a text result is a valid construction with error_message left at its default |
| FileSearch.BasenameIsLast | plugin/GlobalFileSearchPlugin.py:79 | the base name holds no "/", ends the path, and is preceded by a "/" unless it is the whole path |
| FileSearch.Without | plugin/GlobalFileSearchPlugin.py:85 | every copy of the path goes and everything else stays, as many times as before |
| FileSearch.Added | plugin/GlobalFileSearchPlugin.py:78-80 | the key of the path gains it at the end (a new key starts with it alone); other keys are untouched |
| FileSearch.Removed | plugin/GlobalFileSearchPlugin.py:82-89 | a missing key changes nothing; otherwise every copy of the path leaves its key, the key goes when nothing else was under it, and other keys are untouched |
| FileSearch.Drop | plugin/GlobalFileSearchPlugin.py:89 | deleting a key from the key order keeps every other key and the absence of repeats |
| FileSearch.AddedWellFormed | plugin/GlobalFileSearchPlugin.py:78-80 | an addition keeps the keys in insertion order, each once, none with an empty list |
| FileSearch.RemovedWellFormed | plugin/GlobalFileSearchPlugin.py:82-89 | a removal keeps the index well formed: no key is ever left with an empty list |
| FileSearch.RemovedCases | plugin/GlobalFileSearchPlugin.py:84-89 | the three cases: missing key, key with paths left, key deleted from the dictionary and its order |
| FileSearch.FileIndexer.constructor | plugin/GlobalFileSearchPlugin.py:10-15 | the index starts empty and well formed |
| FileSearch.IndexUpdateHandler.constructor | plugin/GlobalFileSearchPlugin.py:62-63 | the handler works on the indexer it is given |
| FileSearch.IndexUpdateHandler.AddToIndex | plugin/GlobalFileSearchPlugin.py:78-80 | the indexer's dictionary and key order become those of an addition, and stay well formed |
| FileSearch.IndexUpdateHandler.RemoveFromIndex | plugin/GlobalFileSearchPlugin.py:82-89 | the indexer's dictionary and key order become those of a removal, and stay well formed |
| FileSearch.IndexUpdateHandler.OnCreated | plugin/GlobalFileSearchPlugin.py:65-67 | a directory event changes nothing; a file is added |
| FileSearch.IndexUpdateHandler.OnDeleted | plugin/GlobalFileSearchPlugin.py:69-71 | a directory event changes nothing; a file is removed |
| FileSearch.IndexUpdateHandler.OnMoved | plugin/GlobalFileSearchPlugin.py:73-76 | a directory event changes nothing; a file is removed from its old path and added under its new one |
| FileSearch.MoveRelocates | plugin/GlobalFileSearchPlugin.py:73-76 | after a move the new path is under its name and, when the paths differ, the old path is no longer under its name |
| FileSearch.Fuzzy | plugin/GlobalFileSearchPlugin.py:127-131 | the loop only appends to the results collected so far |
| FileSearch.FuzzyCompleteOrFull | plugin/GlobalFileSearchPlugin.py:127-131 | either the loop went through every key and collected every fuzzy match, or it stopped with at least 50 results |
| FileSearch.FuzzySound | plugin/GlobalFileSearchPlugin.py:127-131 | every fuzzy result is a path under a key that contains the pattern |
| FileSearch.ResultsProperties | plugin/GlobalFileSearchPlugin.py:118-131 | the exact key's paths come first; every result lies under a key containing the pattern; unless the loop stopped early at 50, every path under such a key is there |
| FileSearch.ResultsCanExceedMax | plugin/GlobalFileSearchPlugin.py:127-131 | the loop stops only after a whole key's list, so 49 exact matches and a fuzzy key with 10 paths give 59 results |
| FileSearch.Listed | plugin/GlobalFileSearchPlugin.py:138-139 | the numbered lines are appended after the text so far |
| FileSearch.Report | plugin/GlobalFileSearchPlugin.py:134-144 | "not found" exactly when there are no results; otherwise the text starts with the count header, and ends with the note when there are more than 50 results |
| FileSearch.Format | plugin/GlobalFileSearchPlugin.py:134-144 | the text-building loop gives the report |
| FileSearch.GlobalFileSearchPlugin.constructor | plugin/GlobalFileSearchPlugin.py:92-95 | there is no indexer until init |
| FileSearch.GlobalFileSearchPlugin.SearchFiles | plugin/GlobalFileSearchPlugin.py:118-144 | the report of the results for the lower-cased pattern |
| FileSearch.GlobalFileSearchPlugin.Run | plugin/GlobalFileSearchPlugin.py:149-161 | the intended version, with failures built as PluginResults.Failure (the as-written one is RunAsWritten): a missing or empty pattern fails with the prompt; before init the search fails with the AttributeError text; otherwise it succeeds with the search report |
| FileSearch.GlobalFileSearchPlugin.RunAsWritten | plugin/GlobalFileSearchPlugin.py:149-161 | run as written: a missing or empty pattern and a search before init both raise TypeError, since their failure results leave out result (lines 152-155 and 161); otherwise the search report |
| Memos.FirstWithId | plugin/MemoPlugin.py:67-68 | the first memo with the id, or none exactly when no memo has it |
| Memos.Added | plugin/MemoPlugin.py:41-51 | the new memo goes last, numbered one past the length of the list, with its text and time, not done; the others stay |
| Memos.Completed | plugin/MemoPlugin.py:65-72 | only the first memo with the id is marked done, no field of any other memo changes, and an unknown id changes nothing |
| Memos.Deleted | plugin/MemoPlugin.py:74-82 | only the first memo with the id is removed and the others keep their order; an unknown id changes nothing |
| Memos.IdsCanRepeat | plugin/MemoPlugin.py:45 | numbering by length does not keep ids apart: after deleting the first memo (line 79) the next one added repeats the last id |
| Memos.CompleteMessage | plugin/MemoPlugin.py:71-72 | names the text of the memo marked, or says no memo has the id |
| Memos.DeleteMessage | plugin/MemoPlugin.py:81-82 | names the text of the memo removed, or says no memo has the id |
| Memos.Pending | plugin/MemoPlugin.py:60 | keeps only memos that are not done, no more than there were |
| Memos.Listed | plugin/MemoPlugin.py:59-62 | the loop only appends lines to the text so far |
| Memos.ListedAll | plugin/MemoPlugin.py:59-62 | listing everything appends the line of every memo, in order |
| Memos.ListedPending | plugin/MemoPlugin.py:60 | leaving out the memos done lists exactly the pending ones |
| Memos.ListingShows | plugin/MemoPlugin.py:53-63 | an empty list says there are no memos; otherwise the header, then the line of every memo or of exactly the pending ones |
| Memos.StatusText | plugin/MemoPlugin.py:124 | the fixed prefix and suffix around a number that reads back as the count |
| Memos.RequestOf | plugin/MemoPlugin.py:84-118 | the command words are checked in the order add, list, complete, delete; an add with nothing left after the word is refused; "所有" asks for all; an id int() refuses is none |
| Memos.MemoPlugin.constructor | plugin/MemoPlugin.py:10 | no memos |
| Memos.MemoPlugin.AddMemo | plugin/MemoPlugin.py:41-51 | the list gains the new memo and the answer names its text |
| Memos.MemoPlugin.ListMemos | plugin/MemoPlugin.py:53-63 | the loop builds the listing |
| Memos.MemoPlugin.CompleteMemo | plugin/MemoPlugin.py:65-72 | the list becomes its completion and the answer is the completion message |
| Memos.MemoPlugin.DeleteMemo | plugin/MemoPlugin.py:74-82 | the list becomes its deletion and the answer is the deletion message |
| Memos.MemoPlugin.Run | plugin/MemoPlugin.py:84-118 | the intended version, with failures built as PluginResults.Failure (the as-written one is RunAsWritten): each kind of request changes the list as its operation does and succeeds with its answer; an empty add, an id that is not a number and an unrecognised command fail with their messages and change nothing |
| Memos.MemoPlugin.RunAsWritten | plugin/MemoPlugin.py:84-118 | run as written: the successful requests change the list and answer as in Run; an empty add, an id that is not a number and an unrecognised command raise TypeError (lines 92, 105, 113 and 115-118) and change nothing |
| Memos.MemoPlugin.Status | plugin/MemoPlugin.py:123-124 | succeeds with the number of memos kept |
| SafeTools.SetGpioPin | local_interpreter/tools/safe_tools.py:74-85 | "invalid pin" exactly when the pin is not an int (bools count) from 0 to 40; "invalid state" exactly when the pin is valid and the state does not equal True or False; otherwise the report names the pin and the state |
| SafeTools.SetPin17 | local_interpreter/executor/test_executor.py:51-56 | setting pin 17 to True reports "Pin 17 set to True" |
| SafeTools.StatesByEquality | local_interpreter/tools/safe_tools.py:81-85 | the state test is by equality, so 0 and 1 pass and are reported as numbers while every other int is refused |
| SafeTools.BoolIsAPin | local_interpreter/tools/safe_tools.py:79 | a bool passes as a pin number and is reported by name |
| SafeTools.ResolveClean | local_interpreter/tools/safe_tools.py:21 | normalising keeps a path free of empty, "." and ".." components |
| SafeTools.ResolveAllUp | local_interpreter/tools/safe_tools.py:21 | each ".." component climbs one level, and the root is never climbed above |
| SafeTools.Rendered | local_interpreter/tools/safe_tools.py:21-23 | a path of one component or more is text starting with "/" |
| SafeTools.RenderedAppend | local_interpreter/tools/safe_tools.py:23 | the text of joined components is the joined texts |
| SafeTools.RenderedLength | local_interpreter/tools/safe_tools.py:23 | each clean component adds at least two characters |
| SafeTools.RenderedLastSlash | local_interpreter/tools/safe_tools.py:23 | the last "/" of a path's text comes right before its last component |
| SafeTools.RenderedInjective | local_interpreter/tools/safe_tools.py:23 | different clean paths have different texts |
| SafeTools.RenderedPrefix | local_interpreter/tools/safe_tools.py:23 | a prefix of the components gives a prefix of the text, followed by "/" when proper |
| SafeTools.SlashPrefixIsComponentPrefix | local_interpreter/tools/safe_tools.py:23 | a text starting with the safe directory's text and a "/" has the safe directory's components as a proper prefix |
| SafeTools.ListSafeDirectoryAsWritten | local_interpreter/tools/safe_tools.py:11-26 | the resolved path is let through exactly when its text starts with the safe directory's text; otherwise PermissionError with the message |
| SafeTools.AncestorRefused | local_interpreter/tools/safe_tools.py:21-24 | a sub-path resolving to a proper ancestor of the safe directory is refused |
| SafeTools.SplitUpThree | local_interpreter/tools/safe_tools.py:21 | "../../.." splits at "/" into three ".." pieces |
| SafeTools.UpThree | local_interpreter/executor/test_executor.py:60 | "../../.." climbs three levels, or to the root |
| SafeTools.UpThreeRefused | local_interpreter/executor/test_executor.py:60-65 | climbing out with "../../.." raises PermissionError |
| SafeTools.SiblingJoin | local_interpreter/tools/safe_tools.py:21 | "../name" with a name without "/" replaces the last component of the safe directory with name |
| SafeTools.SiblingPassesAsWritten | local_interpreter/tools/safe_tools.py:23 | a sibling directory whose name extends the safe directory's, reached with "../", passes the written test |
| SafeTools.ListSafeDirectory | local_interpreter/tools/safe_tools.py:11-26 | the corrected test: what passes is the resolved path, what fails is PermissionError with the message |
| SafeTools.ContainmentExact | local_interpreter/tools/safe_tools.py:21-24 | the corrected test lets a path through exactly when its components begin with the safe directory's |
| SafeTools.SiblingRefused | local_interpreter/tools/safe_tools.py:21-24 | the corrected test refuses the sibling the written one lets through |
| Todos.FirstIndex | plugin/TodoPlugin.py:64 | the position of the first occurrence of the task |
| Todos.RemoveFirst | plugin/TodoPlugin.py:64 | list.remove: the first occurrence goes, the rest keep their order, the multiset loses exactly that task |
| Todos.Step | plugin/TodoPlugin.py:46-71 | a missing action, a missing task for add or remove, and an unknown action fail with their messages and change nothing; add appends; list shows the list; remove drops the first occurrence or reports it missing; nothing asks for the brain |
| Todos.AddThenRemove | plugin/TodoPlugin.py:53-67 | adding a new task and then removing it gives the list back |
| Todos.TodoPlugin.constructor | plugin/TodoPlugin.py:14 | the list starts empty |
| Todos.TodoPlugin.Run | plugin/TodoPlugin.py:46-71 | the new list and the answer are those of one step |
| CommandMatch.PhraseList | plugin/plugin.py:72-74 | a single phrase becomes a list of one; a list is kept (what that means for matching is SinglePhraseFires) |
| CommandMatch.SinglePhraseFires | plugin/plugin.py:72-77 | a plugin with a single-phrase trigger fires exactly when that phrase occurs in the command, as it would with a list holding only that phrase |
| CommandMatch.FirstFiring | plugin/plugin.py:69-79 | the first entry from a position on with a phrase occurring in the command, or none exactly when no entry has one |
| CommandMatch.MatchOf | plugin/plugin.py:67-79 | no match exactly when no entry has a phrase occurring in the command |
| CommandMatch.MatchIsFirst | plugin/plugin.py:69-78 | a match is the name and args of the first entry, in table order, with a phrase in the command |
| CommandMatch.MatchArgsEmpty | plugin/plugin.py:16-61 | every match from the table hands empty args on |
| CommandMatch.SearchComesFirst | plugin/plugin.py:16-79 | a command holding "搜索" goes to the file search unless it names the time or a countdown, whatever later phrase it holds |
| CommandMatch.MatchCommandToPlugin | plugin/plugin.py:67-79 | the loop over the table gives the first match |
| InputProcessing.ContainsChar | jarvis/InputProcessor.py:50 | a one-character substring occurs exactly when the character does |
| InputProcessing.ValidateCommand | jarvis/InputProcessor.py:47-50 | true exactly when no character of the command is a semicolon, ampersand, vertical bar, backtick or dollar sign |
| InputProcessing.VoiceInput | jarvis/InputProcessor.py:22-45 | a heard command that passes the check comes back lower-cased; anything else gives ""; whatever comes back passes the check |
| InputProcessing.VoiceInputAsWrittenLosesCommands | jarvis/InputProcessor.py:31 | as written every heard command is lost, including those the intended version returns |
| InputProcessing.TextInput | jarvis/InputProcessor.py:52-69 | the typed line lower-cased, "" on an exception |
| InputProcessing.TextInputUnchecked | jarvis/InputProcessor.py:52-69 | a typed line holding a metacharacter keeps it: the text input is not checked |
| Authority.Lookup | my_package/Limits_of_authority.py:59 | the value of the first pair with the key (no earlier pair has it), and none exactly when no pair has it |
| Authority.RequiredPermission | my_package/Limits_of_authority.py:58-59 | a known operation needs a level from 1 to the highest |
| Authority.OperationLevels | my_package/Limits_of_authority.py:13-18 | the four operations need levels 1, 2, 3 and 2 |
| Authority.PermissionLevels | my_package/Limits_of_authority.py:6-10 | the permission names stand for 1, 2 and 3, and a verified key grants 3 |
| Authority.Verify | my_package/Limits_of_authority.py:32-55 | passes exactly when the last success is under thirty minutes old or the key matches and the level is within the key's; only a fresh success on the key records the time |
| Authority.CacheSkipsKey | my_package/Limits_of_authority.py:36-38 | within the window the key is not consulted, whatever level is asked for |
| Authority.SuccessIsRemembered | my_package/Limits_of_authority.py:36-53 | a success on the key at a time other than 0 lets every check in the next thirty minutes through without a key |
| Authority.PermissionName | my_package/Limits_of_authority.py:82-84 | the name found for a level stands for that level |
| Authority.LevelsNameOnePermission | my_package/Limits_of_authority.py:6-18 | every level an operation needs names exactly one permission |
| Authority.PrintOperations | my_package/Limits_of_authority.py:80-84 | the heading, then one line per operation in table order with the name of its level |
| Authority.PermissionGate.constructor | my_package/Limits_of_authority.py:29 | never verified |
| Authority.PermissionGate.VerifyPermission | my_package/Limits_of_authority.py:32-55 | the answer and the new time are those of the check |
| Authority.PermissionGate.Allowed | package/Limits_of_authority.py:82-83 | an unknown operation is refused without asking for the key; a known one takes the check of its level |
| Authority.PermissionGate.ModifyConfig | my_package/Limits_of_authority.py:65-70 | the check at level 2, then the message or the refusal |
| Authority.PermissionGate.CoreOperation | my_package/Limits_of_authority.py:72-77 | the check at level 3, then the message or the refusal |
| Authority.PermissionGate.RequirePermission | package/Limits_of_authority.py:79-89 | the wrapped call's result when the check passes, None otherwise |
| Authority.PermissionGate.DecoratedModifyConfig | package/Limits_of_authority.py:106-112 | the wrapper's check, then the body's own; after a fresh success on the key the second passes from the window |
| Authority.PermissionGate.DecoratedCoreOperation | package/Limits_of_authority.py:114-120 | the same for the core operation at level 3 |
| PyStrings.ContainsPrefix | plugin/plugin.py:77 | a string contains each of its prefixes |
| PyStrings.LowerChar | plugin/GlobalFileSearchPlugin.py:119 | str.lower on a character: never upper case, and a character that is not upper case is kept |
| PyStrings.Lower | plugin/GlobalFileSearchPlugin.py:119 | str.lower: same length, each character lowered |
| PyStrings.LowerIdempotent | plugin/GlobalFileSearchPlugin.py:79 | lowering twice is lowering once |
| PyStrings.FindFrom | package/algorithm.py:146 | the first occurrence at or after a position, or -1 exactly when there is none |
| PyStrings.Find | package/algorithm.py:146 | str.find: the first occurrence, or -1 exactly when the needle does not occur |
| PyStrings.SpaceRun | package/algorithm.py:7 | the leading run of whitespace, up to the first other character |
| PyStrings.WordRun | package/algorithm.py:7 | the leading run of non-whitespace, up to the first whitespace |
| PyStrings.Split | package/algorithm.py:7 | str.split(): the words are non-empty and hold no whitespace |
| PyStrings.NonSpaceAppend | package/algorithm.py:7 | the non-whitespace of a concatenation is that of its parts |
| PyStrings.NonSpaceOfBlank | package/algorithm.py:7 | a blank string has no non-whitespace |
| PyStrings.NonSpaceOfWord | package/algorithm.py:7 | a word is all non-whitespace |
| PyStrings.ConcatCons | package/algorithm.py:7 | concatenating words starts with the first |
| PyStrings.SplitStep | package/algorithm.py:7 | split skips the leading blank run and takes the first word |
| PyStrings.SkipBlank | package/algorithm.py:7 | a blank prefix contributes no text |
| PyStrings.TakeWord | package/algorithm.py:7 | a leading word contributes all of itself |
| PyStrings.SplitKeepsText | package/algorithm.py:7 | splitting loses exactly the whitespace: the words put together are the non-whitespace characters |
| PyStrings.SplitEmptyIffBlank | package/algorithm.py:7 | a line splits into no words exactly when line.strip() is empty |
| PyStrings.Strip | plugin/MemoPlugin.py:88 | str.strip(): no longer than the input and neither end is whitespace |
| PyStrings.StripEmptyIffBlank | plugin/MemoPlugin.py:88-89 | stripping leaves nothing exactly when the string is all whitespace |
| PyStrings.ParseLiteral | plugin/MemoPlugin.py:101 | a literal is read exactly when it is an optional sign and decimal digits, and the sign decides the sign of the value |
| PyStrings.ParseInt | plugin/MemoPlugin.py:101 | int() succeeds exactly when the text less surrounding whitespace is an optional sign and decimal digits, and that sign decides the sign of the value |
| PyStrings.ParseIntSurroundingSpace | plugin/MemoPlugin.py:101 | int(" 3") and int("3 ") are both 3 |
| PyStrings.NatToStr | package/math.py:57 | str of a natural number is a non-empty run of digits |
| PyStrings.NatToStrValue | package/math.py:57 | the digits of str(n) read back as n |
| PyStrings.ParseIntOfIntToStr | package/math.py:57 | int(str(n)) == n |
| PyStrings.StrLessIrreflexive | package/algorithm.py:63-64 | no string is below itself |
| PyStrings.StrLessTransitive | package/algorithm.py:63-64 | string order is transitive |
| PyStrings.StrLessTotal | package/algorithm.py:63-64 | of two different strings one is below the other |
| PyText.IndexOf | package/math.py:28 | str.find of a character: -1 exactly when absent, otherwise its first position |
| PyText.SplitOn | butler/edit.py:143 | str.split with a one-character separator: at least one piece, none holding the separator |
| PyText.SplitCount | butler/edit.py:202 | k separators give k + 1 pieces |
| PyText.JoinSplit | butler/edit.py:143 | joining the pieces back (as line 160 does) with the separator gives the text again |
| PyText.SplitNoSep | butler/edit.py:143 | text without the separator splits into itself |
| PyText.SplitFirst | butler/edit.py:143 | a separator-free first piece is split off first |
| PyText.SplitJoin | butler/edit.py:228 | splitting a join (the one of line 240) of separator-free pieces gives the pieces back |
| PyText.JoinAppend | butler/edit.py:240 | joining two non-empty lists joins the two joins with a separator |
| PyText.JoinFramed | butler/edit.py:240 | joining a line, the pieces and an empty piece ends in a separator |
| PyText.SplitFramed | butler/edit.py:228 | such a framed text splits back into the line, the pieces and one empty piece |
| PyText.SliceTo | butler/run.py:14 | s[:k]: a negative k counts from the end and both bounds are clamped |
| PyText.CountFrom | butler/edit.py:176 | no occurrence is counted exactly when none is found |
| PyText.ReplaceUnique | butler/edit.py:176-193 | with exactly one occurrence, replace splices the new text in at that occurrence |
| PyText.Spaces | butler/edit.py:171 | n spaces |
| PyText.ExpandFrom | butler/edit.py:171 | expandtabs from a column leaves no tab and keeps non-empty text non-empty |
| PyText.ExpandTabs | butler/edit.py:171 | expandtabs leaves no tab and keeps non-empty text non-empty |
| PyText.ExpandNoTabs | butler/edit.py:171-172 | text without tabs is left alone |
| PyText.ExpandTabsIdempotent | butler/edit.py:171-173 | expanding twice is expanding once |
| PyText.RemoveChar | package/math.py:29 | replace(c, ""): no c is left, and text without c is unchanged |
| PyText.RemoveCharLength | package/math.py:29 | exactly the occurrences of c go |
| PyText.RemoveCharSubset | package/math.py:29 | nothing but characters of the input remains |
| PyText.RemoveCharAppend | package/math.py:29 | removing from a concatenation removes from each part |
| PyText.StripStart | package/math.py:8 | lstrip(c): a suffix of the input not starting with c |
| PyText.StripEnd | package/math.py:49 | rstrip(c): a prefix of the input not ending in c |
| PyText.StripEndRemovesRun | package/math.py:49 | what rstrip removes is a run of c |
| PyArith.FloorDiv | package/thread.py:45 | a // b: the quotient rounded down, for either sign of b |
| PyArith.FloorMod | package/math.py:207 | a % b: the remainder that goes with a // b, with the sign of b |
| PyArith.DivUnique | package/thread.py:45 | a quotient and remainder in range are the ones division gives |
| PyArith.MulAtLeast | package/thread.py:45 | a positive multiple is at least the number |
| PyArith.DivPlusOne | package/thread.py:45 | adding the divisor once adds one to the quotient |
| PyArith.ExactDiv | package/math.py:200 | dividing a multiple exactly gives the factor back |

## Left out

- ButlerAStar.AStar: does not state that the path it returns is a shortest one. The docstring says so, but the source puts no admissibility requirement on the heuristic, so that promise does not hold in general. The method requires the start node to be in the graph and the graph to be closed, because the source raises KeyError otherwise (unless start equals goal). Weights are natural numbers rather than floats, so negative weights, and the non-termination they can cause through a negative cycle, are not modelled. The order in which heapq breaks ties between equal f-scores is not modelled, so among several paths the model may return another one than the source. The tqdm progress bar (algorithms.py:315) is not modelled.
- ButlerDijkstra.Dijkstra: weights are natural numbers rather than floats. The method requires the start node to be in the graph and the graph to be closed, because the source raises KeyError otherwise. The order in which heapq breaks ties between equal distances is not modelled.
- MemPool.Pool.Free: requires a non-NULL pointer to lie in the pool, because any other pointer is undefined behaviour in C.
- MemPool.Pool.Set: requires offset + s to stay within the pool when the start lies in it, because the source does not check the end of the range and would write past the arena.
- MemoryObject.MyMemory.GetData: the RuntimeError branch for a block whose own refcount is 0 reads a freed object, since mymemory_dealloc has already called tp_free on it (Memory_management.c:17); in C that read is a use-after-free with no defined outcome, while the model keeps the freed object readable and returns the error.
- MemoryObject.MyMemory.GetSize: the same use-after-free as GetData in its freed-block branch.
- MemoryObject.MyMemory.Retain: the same use-after-free as GetData in its freed-block branch.
- MemoryObject.MyMemory.Release: the same use-after-free as GetData in its freed-block branch.
- MemoryObject.Lifecycle: requires a size that init accepts and a malloc that succeeds. The failing paths are stated by MemoryObject.Init itself.
- Floating point is not modelled. This covers normalize and custom_round on float results (on an int they are modelled, with the OverflowError of an int too large for a float), and the division, power, root, logarithm, trigonometric and rounding functions of package/math.py; for those, only the argument checks are modelled. Values that are neither int nor float are lumped together as one operand error.
- Jarvis sort entries carry integer values, and set_gpio_pin values carry no floats.
- Python's recursion limit is not modelled: depth_first_search, merge_sort, the quick-sort recursions and the quick_sort of butler/main.py raise RecursionError on deep enough inputs, while the models return their results for inputs of any size.
- The file system's own resolution of ".." and of symbolic links is not modelled: the file map is keyed by the text of Path(path), which keeps "..", as pathlib does.
- File I/O and persistence are not modelled: memos.json, the pickled index cache, edit.py's read_file and write_file, and the `find` call in view. The file system is a map from path to text.
- Watching and walking the disk is not modelled: the watchdog observer, build_index and the walk over the disk. The index starts from the entries given to it.
- The clock is a parameter: time.time() and the memo timestamps.
- The getpass prompt and the SHA-256 comparison become the boolean keyMatches, and USER_KEYS holds one key.
- Prints are not modelled; the gated operations return their messages instead.
- os.listdir and os.makedirs in safe_tools.py are not modelled; the resolved path is returned instead. view_data (the file-integrity check) is not modelled, and the user's confirmation prompt is a boolean parameter.
- FileSearch.GlobalFileSearchPlugin.constructor: the class does not define get_name, valid, stop or status, which plugin/abstract_plugin.py:11-37 declares abstract, so GlobalFileSearchPlugin() raises TypeError in Python; the model takes those methods as present and models what the defined methods do.
- Todos.TodoPlugin.constructor: likewise TodoPlugin does not define stop, cleanup or status, so TodoPlugin() raises TypeError in Python; the model takes them as present.
- FileSearch.Basename splits on "/" only; Windows separators are not modelled.
- PyStrings.ParseInt does not accept underscores between digits ("1_000") or non-ASCII decimal digits, both of which int() accepts; whitespace around the literal is accepted, as int() does.
- PyStrings.Lower lower-cases ASCII letters only; str.lower also maps other alphabets.
- The path resolution of safe_tools.py treats a path with two leading slashes like one with one slash. POSIX normpath keeps exactly two.
- Util.RemoveKey works on values: the in-place update of the source and any aliasing between nested containers are not captured. Argument values other than strings are not modelled.
- The threading and the microphone of process_voice_input are not modelled; what was heard is a parameter.
- The devices of butler/computer.py are not modelled: the mouse, keyboard and screen, the sleeps, and the coordinate scaling.
- Computer.KeyEffectOf: the body models the macOS branch (super+ becomes command+, and a combination is sent as an AppleScript keystroke), but the contract states only the other platforms.
- The thread pools, queues and retries of package/thread.py are not modelled; only divide_tasks and the thread count are.
- The module and type registration glue of extension/Memory_management.c is not modelled.
- MemPool.FirstFit: the request size s is an unbounded natural number, so the size_t wrap of s + 2 in MM_SpaceSearch (mymemory.c:30) is not modelled. For s = 2^64 - 1 the C sum is 1 and the search returns a base, where the model answers -1; the contract holds for s + 2 < 2^64.
- MemPool.EmptyPoolFirstFit: holds for s + 2 < 2^64 only; with the size_t wrap, s = 2^64 - 1 gets base 1 on an empty pool in C.
- MemPool.Pool.SpaceSearch: does not model the size_t wrap of s + 2 (mymemory.c:30) nor the int16_t cast of i - s (line 32), both of which matter only for s + 2 >= 2^64.
- MemPool.Pool.Alloc: does not model the size_t wrap of spaceIndex + s (mymemory.c:45). In C, MM_Alloc((size_t)-1) on an empty pool returns &memPool[1] with no bit set; the model returns NULL. The contract holds for s + 2 < 2^64.

## Findings

| source | as written | input that shows it | evidently intended | confidence | as-written member | corrected member |
|---|---|---|---|---|---|---|
| package/math.py:36-42 | a negative exponent puts "0." in front of all the digits whatever the position of the point | "12.5e-1" gives "0.125" | "1.25": the point moves left by the exponent from where it stood | not executed | SciNotation.AsWrittenMisplacesPoint | SciNotation.MultiplyBy10Shifts |
| plugin/abstract_plugin.py:5-8 | the PluginResult named tuple has no default for result (line 7), and the failure results of plugin/MemoPlugin.py (lines 92, 105, 113 and 115-118) and plugin/GlobalFileSearchPlugin.py (lines 152-155 and 161) leave it out | PluginResult(success=False, error_message="...") raises TypeError, for example an empty "添加备忘录" command | a failure result with result None and the error message | not executed | PluginResults.FailureAsWrittenRaises | PluginResults.Failure |
| jarvis/InputProcessor.py:31 | concurrent.futures is used without being imported, so every call ends in the handler at lines 42-45 | any heard command, for example "open notepad", gives "" | the heard command, lower-cased, when it passes the check | not executed | InputProcessing.VoiceInputAsWrittenLosesCommands | InputProcessing.VoiceInput |
| local_interpreter/tools/safe_tools.py:23 | containment is a plain string-prefix test against the base directory | the sub_path "../workspace2" resolves to a sibling of the base directory, and the test lets it pass | only the base directory itself and paths below it | not executed | SafeTools.SiblingPassesAsWritten | SafeTools.ContainmentExact |

=== FILE: Authority.dfy ===
/** The permission check of my_package/Limits_of_authority.py and
    package/Limits_of_authority.py (the two copies share their tables and
    verify_permission): permission levels, the level each operation needs,
    and a key check whose success is remembered for thirty minutes.

    The global last_verified_time is the field of a gate object. The
    clock is a parameter (time.time() in whole seconds), and so is the
    outcome of the key prompt: whether the SHA-256 of the typed key equals
    a stored hash. The prints are not modelled; the messages of the two
    gated operations are returned. */
module Authority {
  import opened Wrappers

  /** PERMISSIONS, in order. */
  const Permissions: seq<(string, int)> := [("普通用户", 1), ("受限操作", 2), ("高级操作", 3)]

  /** OPERATIONS, in order. */
  const Operations: seq<(string, int)> := [("查看数据", 1), ("修改配置", 2), ("核心操作", 3), ("写入文件", 2)]

  /** PERMISSION_VALID_TIME: thirty minutes. */
  const ValidTime := 30 * 60

  /** The level a verified key grants: PERMISSIONS["高级操作"]. */
  const KeyLevel := 3

  /** dict.get on a table of pairs: the value of the first pair with that
      key. */
  function Lookup(table: seq<(string, int)>, key: string): (r: Option<int>)
    ensures r.None? <==> forall i :: 0 <= i < |table| ==> table[i].0 != key
    ensures r.Some? ==> exists i :: 0 <= i < |table| && table[i] == (key, r.value) &&
                                   forall j :: 0 <= j < i ==> table[j].0 != key
  {
    if table == [] then None
    else if table[0].0 == key then Some(table[0].1)
    else
      var r := Lookup(table[1..], key);
      FirstAfterHead(table, key, r);
      r
  }

  /** A first pair with the key in the tail, behind a head with another
      key, is the first pair with the key in the whole table. */
  lemma {:induction false} FirstAfterHead(table: seq<(string, int)>, key: string, r: Option<int>)
    requires table != [] && table[0].0 != key
    requires r.Some? ==> exists i :: 0 <= i < |table| - 1 && table[1..][i] == (key, r.value) &&
                                     forall j :: 0 <= j < i ==> table[1..][j].0 != key
    ensures r.Some? ==> exists i :: 0 <= i < |table| && table[i] == (key, r.value) &&
                                   forall j :: 0 <= j < i ==> table[j].0 != key
  {
    if r.Some? {
      var i :| 0 <= i < |table| - 1 && table[1..][i] == (key, r.value) &&
               forall j :: 0 <= j < i ==> table[1..][j].0 != key;
      forall j | 0 < j < i + 1
        ensures table[j].0 != key
      {
        assert table[j] == table[1..][j - 1];
      }
      assert table[i + 1] == (key, r.value);
    }
  }

  /** get_required_permission: OPERATIONS.get(operation, None). */
  function RequiredPermission(operation: string): (r: Option<int>)
    ensures r.Some? ==> 1 <= r.value <= KeyLevel
  {
    Lookup(Operations, operation)
  }

  /** The four operations need 1, 2, 3 and 2. */
  lemma {:induction false} OperationLevels()
    ensures RequiredPermission("查看数据") == Some(1)
    ensures RequiredPermission("修改配置") == Some(2)
    ensures RequiredPermission("核心操作") == Some(3)
    ensures RequiredPermission("写入文件") == Some(2)
  {
  }

  /** The levels are those of the permission names the operation table
      refers to, and a verified key has the highest. */
  lemma {:induction false} PermissionLevels()
    ensures Lookup(Permissions, "普通用户") == Some(1)
    ensures Lookup(Permissions, "受限操作") == Some(2)
    ensures Lookup(Permissions, "高级操作") == Some(KeyLevel)
  {
  }

  /** `last_verified_time and time.time() - last_verified_time < 1800`:
      a time of None or of 0 counts as never verified. */
  predicate StillValid(last: Option<int>, now: int)
  {
    last.Some? && last.value != 0 && now - last.value < ValidTime
  }

  /** verify_permission: the answer and the new last_verified_time. */
  function Verify(last: Option<int>, required: int, now: int, keyMatches: bool): (out: (bool, Option<int>))
    ensures out.0 <==> StillValid(last, now) || (keyMatches && required <= KeyLevel)
    ensures !out.0 || StillValid(last, now) ==> out.1 == last
    ensures out.0 && !StillValid(last, now) ==> out.1 == Some(now)
  {
    if StillValid(last, now) then (true, last)
    else if keyMatches then
      if KeyLevel >= required then (true, Some(now)) else (false, last)
    else (false, last)
  }

  /** The key is not asked for within the window, whatever level is
      required; a key that matches passes every level an operation can
      require. */
  lemma {:induction false} CacheSkipsKey(last: Option<int>, required: int, now: int, keyMatches: bool)
    requires StillValid(last, now)
    ensures Verify(last, required, now, keyMatches) == Verify(last, required, now, false) == (true, last)
  {
  }

  /** A successful check at a time other than 0 lets every check in the
      next thirty minutes through without a key. */
  lemma {:induction false} SuccessIsRemembered(last: Option<int>, required: int, now: int, keyMatches: bool, later: int, required2: int)
    requires Verify(last, required, now, keyMatches).0
    requires now <= later < now + ValidTime
    requires !StillValid(last, now) && now != 0
    ensures Verify(Verify(last, required, now, keyMatches).1, required2, later, false) ==
            (true, Some(now))
  {
  }

  const ModifyingConfig := "正在修改配置..."
  const RunningCore := "执行核心操作..."
  const Refused := "操作被拒绝：权限不足"

  /** print_operations: the permission name of a level, the first with
      that value ([...][0]; None where the list would be empty). */
  function PermissionName(level: int): (r: Option<string>)
    ensures r.Some? ==> Lookup(Permissions, r.value) == Some(level)
  {
    if level == 1 then Some("普通用户")
    else if level == 2 then Some("受限操作")
    else if level == 3 then Some("高级操作")
    else None
  }

  /** Levels are distinct, so each level an operation needs names exactly
      one permission. */
  lemma {:induction false} LevelsNameOnePermission(i: nat)
    requires i < |Operations|
    ensures PermissionName(Operations[i].1).Some?
    ensures forall j :: 0 <= j < |Permissions| && Permissions[j].1 == Operations[i].1 ==>
              Permissions[j].0 == PermissionName(Operations[i].1).value
  {
  }

  /** One line of print_operations. */
  function OperationLine(op: (string, int)): string
    requires PermissionName(op.1).Some?
  {
    "- " + op.0 + ": " + PermissionName(op.1).value
  }

  /** print_operations: the heading, then one line per operation in table
      order. */
  method PrintOperations() returns (lines: seq<string>)
    ensures |lines| == |Operations| + 1 && lines[0] == "可用操作及其所需权限级别："
    ensures forall i :: 0 <= i < |Operations| ==>
              PermissionName(Operations[i].1).Some? && lines[i + 1] == OperationLine(Operations[i])
  {
    lines := ["可用操作及其所需权限级别："];
    var i := 0;
    while i < |Operations|
      invariant 0 <= i <= |Operations| && |lines| == i + 1 && lines[0] == "可用操作及其所需权限级别："
      invariant forall k :: 0 <= k < i ==>
                  PermissionName(Operations[k].1).Some? && lines[k + 1] == OperationLine(Operations[k])
    {
      LevelsNameOnePermission(i);
      lines := lines + [OperationLine(Operations[i])];
      i := i + 1;
    }
  }

  class PermissionGate {
    /** last_verified_time. */
    var lastVerified: Option<int>

    constructor ()
      ensures lastVerified == None
    {
      lastVerified := None;
    }

    method VerifyPermission(required: int, now: int, keyMatches: bool) returns (ok: bool)
      modifies this
      ensures (ok, lastVerified) == Verify(old(lastVerified), required, now, keyMatches)
    {
      if lastVerified.Some? && lastVerified.value != 0 && now - lastVerified.value < ValidTime {
        return true;
      }
      // USER_KEYS holds one key: the loop over it is this one test.
      if keyMatches {
        if KeyLevel >= required {
          lastVerified := Some(now);
          return true;
        }
        return false;
      }
      return false;
    }

    /** `required_permission and verify_permission(required_permission)`:
        the key is asked for only when the operation is known. */
    method Allowed(operation: string, now: int, keyMatches: bool) returns (ok: bool)
      modifies this
      ensures var req := RequiredPermission(operation);
        if req.None? then !ok && lastVerified == old(lastVerified)
        else (ok, lastVerified) == Verify(old(lastVerified), req.value, now, keyMatches)
    {
      var req := RequiredPermission(operation);
      if req.None? {
        return false;
      }
      ok := VerifyPermission(req.value, now, keyMatches);
    }

    /** modify_config of my_package/Limits_of_authority.py. */
    method ModifyConfig(now: int, keyMatches: bool) returns (message: string)
      modifies this
      ensures var (ok, last) := Verify(old(lastVerified), 2, now, keyMatches);
        lastVerified == last && message == (if ok then ModifyingConfig else Refused)
    {
      var ok := Allowed("修改配置", now, keyMatches);
      message := if ok then ModifyingConfig else Refused;
    }

    /** core_operation of my_package/Limits_of_authority.py. */
    method CoreOperation(now: int, keyMatches: bool) returns (message: string)
      modifies this
      ensures var (ok, last) := Verify(old(lastVerified), 3, now, keyMatches);
        lastVerified == last && message == (if ok then RunningCore else Refused)
    {
      var ok := Allowed("核心操作", now, keyMatches);
      message := if ok then RunningCore else Refused;
    }

    /** require_permission(operation)(func): the wrapped call runs only
        when the check passes, and otherwise the wrapper gives None. The
        wrapped function is represented by its result. */
    method RequirePermission<T>(operation: string, now: int, keyMatches: bool, call: T) returns (r: Option<T>)
      modifies this
      ensures var req := RequiredPermission(operation);
        if req.None? then r.None? && lastVerified == old(lastVerified)
        else var (ok, last) := Verify(old(lastVerified), req.value, now, keyMatches);
          lastVerified == last && r == (if ok then Some(call) else None)
    {
      var ok := Allowed(operation, now, keyMatches);
      r := if ok then Some(call) else None;
    }

    /** The decorated modify_config of package/Limits_of_authority.py: the
        wrapper checks, then the body checks again at a time not earlier.
        When the first check passed on the key at a time other than 0, the
        second passes from the window without asking for the key. */
    method DecoratedModifyConfig(now: int, keyMatches: bool, later: int, keyMatchesLater: bool)
      returns (r: Option<string>)
      modifies this
      ensures var (ok, last) := Verify(old(lastVerified), 2, now, keyMatches);
        var (ok2, last2) := Verify(last, 2, later, keyMatchesLater);
        if ok then r == Some(if ok2 then ModifyingConfig else Refused) && lastVerified == last2
        else r.None? && lastVerified == last
      ensures (Verify(old(lastVerified), 2, now, keyMatches).0 && !StillValid(old(lastVerified), now) &&
               now != 0 && now <= later < now + ValidTime) ==> r == Some(ModifyingConfig)
    {
      var ok := Allowed("修改配置", now, keyMatches);
      if !ok {
        return None;
      }
      var message := ModifyConfig(later, keyMatchesLater);
      r := Some(message);
    }

    /** The decorated core_operation of package/Limits_of_authority.py. */
    method DecoratedCoreOperation(now: int, keyMatches: bool, later: int, keyMatchesLater: bool)
      returns (r: Option<string>)
      modifies this
      ensures var (ok, last) := Verify(old(lastVerified), 3, now, keyMatches);
        var (ok2, last2) := Verify(last, 3, later, keyMatchesLater);
        if ok then r == Some(if ok2 then RunningCore else Refused) && lastVerified == last2
        else r.None? && lastVerified == last
      ensures (Verify(old(lastVerified), 3, now, keyMatches).0 && !StillValid(old(lastVerified), now) &&
               now != 0 && now <= later < now + ValidTime) ==> r == Some(RunningCore)
    {
      var ok := Allowed("核心操作", now, keyMatches);
      if !ok {
        return None;
      }
      var message := CoreOperation(later, keyMatchesLater);
      r := Some(message);
    }
  }
}

=== FILE: ButlerAStar.dfy ===
/** a_star of butler/algorithms.py: best-first search ordered by
    g + heuristic, with a came_from map from which the path is read back.
    The progress bar is display only and is not part of this model. */
module ButlerAStar {
  import opened GraphSpec
  import opened Wrappers

  /** path[::-1] */
  function Reverse<T>(s: seq<T>): (r: seq<T>)
    ensures |r| == |s| && forall i :: 0 <= i < |s| ==> r[i] == s[|s| - 1 - i]
  {
    if s == [] then [] else Reverse(s[1..]) + [s[0]]
  }

  /** The graph has an edge u -> v (of some weight). */
  ghost predicate HasEdge<N>(graph: map<N, seq<Edge<N>>>, u: N, v: N)
  {
    u in graph && exists e :: e in graph[u] && e.0 == v
  }

  /** `node in [i[1] for i in open_set]` */
  function Queued<N(==)>(q: seq<(int, N)>, v: N): (r: bool)
    ensures r <==> exists i :: 0 <= i < |q| && q[i].1 == v
  {
    if q == [] then false else q[0].1 == v || Queued(q[1..], v)
  }

  /** came_from[v] == u is an edge u -> v, and u ranks below v: a smaller
      g-score, or an equal one that was set earlier. The ranking is what
      makes the came_from chain from any node end. */
  ghost predicate CameOk<N>(graph: map<N, seq<Edge<N>>>, g: map<N, Dist>, stamp: map<N, nat>, u: N, v: N)
  {
    u in g && v in g && g[u].Fin? && g[v].Fin? && u in stamp && v in stamp && HasEdge(graph, u, v) &&
    (g[u].n < g[v].n || (g[u].n == g[v].n && stamp[u] < stamp[v]))
  }

  /** The came_from chain of every reached node leads back to start. */
  ghost predicate Chains<N>(graph: map<N, seq<Edge<N>>>, start: N, g: map<N, Dist>, came: map<N, N>, stamp: map<N, nat>)
  {
    start in g && g[start] == Fin(0) && start !in came &&
    (forall v :: v in g && g[v].Fin? && v != start ==> v in came) &&
    (forall v :: v in came ==> CameOk(graph, g, stamp, came[v], v))
  }

  /** Invariant of the search apart from coverage. `stamp` records when
      each g-score was last lowered; `counter` is the next stamp. */
  ghost predicate Core<N>(graph: map<N, seq<Edge<N>>>, start: N, goal: N, g: map<N, Dist>, came: map<N, N>,
                          queue: seq<(int, N)>, expanded: set<N>, stamp: map<N, nat>, counter: nat)
  {
    g.Keys == graph.Keys && Chains(graph, start, g, came, stamp) && FiniteEntries(g, queue) &&
    goal !in expanded && StampsBelow(g, stamp, counter)
  }

  /** Every node in the open set has a finite g-score. */
  ghost predicate FiniteEntries<N>(g: map<N, Dist>, queue: seq<(int, N)>)
  {
    forall i :: 0 <= i < |queue| ==> queue[i].1 in g && g[queue[i].1].Fin?
  }

  /** Every reached node has a stamp, and all stamps are below counter. */
  ghost predicate StampsBelow<N>(g: map<N, Dist>, stamp: map<N, nat>, counter: nat)
  {
    forall v :: v in g && g[v].Fin? ==> v in stamp && stamp[v] < counter
  }

  /** Every node with a finite g-score, other than those in `except`, is
      in the open set or has been expanded with all its edges relaxed. */
  ghost predicate Covered<N>(graph: map<N, seq<Edge<N>>>, g: map<N, Dist>, queue: seq<(int, N)>,
                             expanded: set<N>, except: set<N>)
  {
    forall v :: v in g && g[v].Fin? && v !in except ==>
      Queued(queue, v) || (v in expanded && Relaxed(graph, g, v))
  }

  /** (InfCount, SumFin, |queue|) went down or stayed put, lexicographically. */
  predicate NotAbove(i: nat, s: nat, q: nat, i0: nat, s0: nat, q0: nat)
  {
    i < i0 || (i == i0 && (s < s0 || (s == s0 && q <= q0)))
  }

  /** a_star(graph, start, goal, heuristic): a path from start to goal
      along edges of the graph, or None, which happens only when no walk
      leads from start to goal. */
  method AStar<N(!new)>(graph: map<N, seq<Edge<N>>>, start: N, goal: N, h: (N, N) -> int) returns (path: Option<seq<N>>)
    requires start in graph && Closed(graph)
    ensures path.Some? ==>
              |path.value| > 0 && path.value[0] == start && path.value[|path.value| - 1] == goal &&
              forall i :: 0 <= i < |path.value| - 1 ==> HasEdge(graph, path.value[i], path.value[i + 1])
    ensures path.None? ==> forall hops: seq<Edge<N>> :: IsWalk(graph, start, hops) ==> WalkEnd(start, hops) != goal
  {
    var queue: seq<(int, N)> := [(0, start)];
    var came: map<N, N> := map[];
    var g := (map v | v in graph :: Inf)[start := Fin(0)];
    ghost var keys := Enumerate(graph.Keys);
    ghost var expanded: set<N> := {};
    ghost var stamp: map<N, nat> := map[start := 0];
    ghost var counter: nat := 1;
    assert Queued(queue, start);
    while |queue| > 0
      invariant Core(graph, start, goal, g, came, queue, expanded, stamp, counter)
      invariant Covered(graph, g, queue, expanded, {})
      decreases InfCount(g, keys), SumFin(g, keys), |queue|
    {
      var m := MinEntry(queue);
      var current := queue[m].1;
      PopEntry(graph, start, goal, g, came, queue, expanded, stamp, counter, m);
      queue := queue[..m] + queue[m + 1..];
      if current == goal {
        var p := ReconstructPath(graph, start, goal, came, g, stamp);
        return Some(p);
      }
      g, came, queue, stamp, counter := Expand(graph, start, goal, h, g, came, queue, expanded, stamp, counter, keys, current);
      expanded := expanded + {current};
    }
    assert queue == [];
    NoPath(graph, start, goal, g, expanded);
    return None;
  }

  /** heappop keeps the invariant and uncovers at most the popped node. */
  lemma {:induction false} PopEntry<N>(graph: map<N, seq<Edge<N>>>, start: N, goal: N, g: map<N, Dist>, came: map<N, N>,
                    queue: seq<(int, N)>, expanded: set<N>, stamp: map<N, nat>, counter: nat, m: nat)
    requires m < |queue| && Core(graph, start, goal, g, came, queue, expanded, stamp, counter)
    requires Covered(graph, g, queue, expanded, {})
    ensures Core(graph, start, goal, g, came, queue[..m] + queue[m + 1..], expanded, stamp, counter)
    ensures Covered(graph, g, queue[..m] + queue[m + 1..], expanded, {queue[m].1})
    ensures queue[m].1 in g && g[queue[m].1].Fin?
  {
    PopCovered(graph, g, queue, expanded, m);
    var r := queue[..m] + queue[m + 1..];
    forall i | 0 <= i < |r|
      ensures r[i].1 in g && g[r[i].1].Fin?
    {
      if i < m {
        assert r[i] == queue[i];
      } else {
        assert r[i] == queue[i + 1];
      }
    }
  }

  /** Removing the entry m from the open set uncovers at most its node. */
  lemma {:induction false} PopCovered<N>(graph: map<N, seq<Edge<N>>>, g: map<N, Dist>, queue: seq<(int, N)>, expanded: set<N>, m: nat)
    requires m < |queue| && Covered(graph, g, queue, expanded, {})
    ensures Covered(graph, g, queue[..m] + queue[m + 1..], expanded, {queue[m].1})
  {
    var r := queue[..m] + queue[m + 1..];
    forall v | v in g && g[v].Fin? && v != queue[m].1 && Queued(queue, v)
      ensures Queued(r, v)
    {
      var i :| 0 <= i < |queue| && queue[i].1 == v;
      if i < m {
        assert r[i] == queue[i];
      } else {
        assert r[i - 1] == queue[i];
      }
    }
  }

  /** With the open set empty, every reached node is expanded and relaxed;
      the goal never was, so no walk reaches it. */
  lemma {:induction false} NoPath<N(!new)>(graph: map<N, seq<Edge<N>>>, start: N, goal: N, g: map<N, Dist>, expanded: set<N>)
    requires start in g && g[start] == Fin(0) && goal !in expanded
    requires Covered(graph, g, [], expanded, {})
    ensures forall hops: seq<Edge<N>> :: IsWalk(graph, start, hops) ==> WalkEnd(start, hops) != goal
  {
    forall x | x in g && g[x].Fin?
      ensures Relaxed(graph, g, x)
    {
      assert !Queued([], x);
    }
    forall hops | IsWalk(graph, start, hops)
      ensures WalkEnd(start, hops) != goal
    {
      WalkBound(graph, g, start, hops);
      var x := WalkEnd(start, hops);
      assert !Queued([], x);
    }
  }

  /** The reconstruction loop of a_star: follow came_from from the goal
      back to a node without an entry (the start), append start, reverse. */
  method ReconstructPath<N>(graph: map<N, seq<Edge<N>>>, start: N, goal: N, came: map<N, N>,
                            ghost g: map<N, Dist>, ghost stamp: map<N, nat>) returns (p: seq<N>)
    requires goal in g && g[goal].Fin? && goal in stamp
    requires Chains(graph, start, g, came, stamp)
    ensures |p| > 0 && p[0] == start && p[|p| - 1] == goal
    ensures forall i :: 0 <= i < |p| - 1 ==> HasEdge(graph, p[i], p[i + 1])
  {
    var current := goal;
    var path: seq<N> := [];
    while current in came
      invariant current in g && g[current].Fin? && current in stamp
      invariant |path| == 0 ==> current == goal
      invariant |path| > 0 ==> path[0] == goal
      invariant forall i :: 0 <= i < |path| - 1 ==> HasEdge(graph, path[i + 1], path[i])
      invariant |path| > 0 ==> HasEdge(graph, current, path[|path| - 1])
      decreases g[current].n, stamp[current]
    {
      assert CameOk(graph, g, stamp, came[current], current);
      path := path + [current];
      current := came[current];
    }
    assert current == start;
    var full := path + [start];
    assert forall j :: 0 <= j < |full| - 1 ==> HasEdge(graph, full[j + 1], full[j]) by {
      forall j | 0 <= j < |full| - 1
        ensures HasEdge(graph, full[j + 1], full[j])
      {
        assert full[j] == path[j];
        if j + 1 < |path| {
          assert full[j + 1] == path[j + 1];
        }
      }
    }
    p := Reverse(full);
    forall i | 0 <= i < |p| - 1
      ensures HasEdge(graph, p[i], p[i + 1])
    {
      var j := |full| - 2 - i;
      assert p[i] == full[j + 1] && p[i + 1] == full[j];
    }
  }

  /** The expansion of `current`: the loop over its edges. */
  method Expand<N>(graph: map<N, seq<Edge<N>>>, start: N, goal: N, h: (N, N) -> int, g0: map<N, Dist>,
                   came0: map<N, N>, queue0: seq<(int, N)>, ghost expanded: set<N>, ghost stamp0: map<N, nat>,
                   ghost counter0: nat, ghost keys: seq<N>, current: N)
    returns (g: map<N, Dist>, came: map<N, N>, queue: seq<(int, N)>, ghost stamp: map<N, nat>, ghost counter: nat)
    requires Closed(graph) && current in graph && current != goal && current in g0 && g0[current].Fin?
    requires forall v :: v in graph ==> v in keys
    requires Core(graph, start, goal, g0, came0, queue0, expanded, stamp0, counter0)
    requires Covered(graph, g0, queue0, expanded, {current})
    ensures Core(graph, start, goal, g, came, queue, expanded + {current}, stamp, counter)
    ensures Covered(graph, g, queue, expanded + {current}, {})
    ensures NotAbove(InfCount(g, keys), SumFin(g, keys), |queue|, InfCount(g0, keys), SumFin(g0, keys), |queue0|)
  {
    g, came, queue, stamp, counter := g0, came0, queue0, stamp0, counter0;
    ghost var done := expanded + {current};
    CoveredGrows(graph, g, queue, expanded, current);
    var gc := g[current].n;
    var adj := graph[current];
    var k := 0;
    while k < |adj|
      invariant 0 <= k <= |adj|
      invariant Core(graph, start, goal, g, came, queue, done, stamp, counter) && g[current] == Fin(gc)
      invariant Covered(graph, g, queue, done, {current})
      invariant EdgesDone(g, adj, k, gc)
      invariant NotAbove(InfCount(g, keys), SumFin(g, keys), |queue|, InfCount(g0, keys), SumFin(g0, keys), |queue0|)
    {
      ghost var g1 := g;
      ghost var q1 := queue;
      g, came, queue, stamp, counter := RelaxNeighbor(graph, start, goal, h, g, came, queue, done, stamp, counter, keys, current, adj[k]);
      NotAboveTrans(InfCount(g, keys), SumFin(g, keys), |queue|, InfCount(g1, keys), SumFin(g1, keys), |q1|,
                    InfCount(g0, keys), SumFin(g0, keys), |queue0|);
      EdgesDoneStep(g1, g, adj, k, gc);
      k := k + 1;
    }
    assert Relaxed(graph, g, current) by {
      assert EdgesDone(g, adj, |adj|, gc);
      forall e | e in adj
        ensures e.0 in g && g[e.0].Fin? && g[e.0].n <= gc + e.1
      {
        var i :| 0 <= i < |adj| && adj[i] == e;
      }
    }
    CloseCovered(graph, g, queue, done, current);
  }

  /** The first k edges of adj are relaxed from a node at g-score gc. */
  ghost predicate EdgesDone<N>(g: map<N, Dist>, adj: seq<Edge<N>>, k: nat, gc: nat)
    requires k <= |adj|
  {
    forall i :: 0 <= i < k ==> adj[i].0 in g && g[adj[i].0].Fin? && g[adj[i].0].n <= gc + adj[i].1
  }

  /** g-scores only go down, and reached nodes stay reached. */
  ghost predicate Lowered<N>(g0: map<N, Dist>, g: map<N, Dist>)
  {
    forall v :: v in g0 && g0[v].Fin? ==> v in g && g[v].Fin? && g[v].n <= g0[v].n
  }

  lemma {:induction false} EdgesDoneStep<N>(g1: map<N, Dist>, g: map<N, Dist>, adj: seq<Edge<N>>, k: nat, gc: nat)
    requires k < |adj| && EdgesDone(g1, adj, k, gc) && Lowered(g1, g)
    requires adj[k].0 in g && g[adj[k].0].Fin? && g[adj[k].0].n <= gc + adj[k].1
    ensures EdgesDone(g, adj, k + 1, gc)
  {
    forall i | 0 <= i < k + 1
      ensures adj[i].0 in g && g[adj[i].0].Fin? && g[adj[i].0].n <= gc + adj[i].1
    {
      if i < k {
        assert g1[adj[i].0].Fin?;
      }
    }
  }

  lemma {:induction false} NotAboveTrans(i: nat, s: nat, q: nat, i1: nat, s1: nat, q1: nat, i0: nat, s0: nat, q0: nat)
    requires NotAbove(i, s, q, i1, s1, q1) && NotAbove(i1, s1, q1, i0, s0, q0)
    ensures NotAbove(i, s, q, i0, s0, q0)
  {
  }

  /** Counting current as expanded changes nothing while it is excepted. */
  lemma {:induction false} CoveredGrows<N>(graph: map<N, seq<Edge<N>>>, g: map<N, Dist>, queue: seq<(int, N)>, expanded: set<N>, current: N)
    requires Covered(graph, g, queue, expanded, {current})
    ensures Covered(graph, g, queue, expanded + {current}, {current})
  {
  }

  /** Once current is expanded with its edges relaxed, nothing is excepted. */
  lemma {:induction false} CloseCovered<N>(graph: map<N, seq<Edge<N>>>, g: map<N, Dist>, queue: seq<(int, N)>, done: set<N>, current: N)
    requires Covered(graph, g, queue, done, {current}) && current in done
    requires current in g && g[current].Fin? && Relaxed(graph, g, current)
    ensures Covered(graph, g, queue, done, {})
  {
  }

  /** One edge (neighbor, weight) of current: lower the neighbour's
      g-score when the edge improves it, record current as its came_from
      entry, and add it to the open set unless it is already there. */
  method RelaxNeighbor<N>(graph: map<N, seq<Edge<N>>>, start: N, goal: N, h: (N, N) -> int, g0: map<N, Dist>,
                          came0: map<N, N>, queue0: seq<(int, N)>, ghost expanded: set<N>, ghost stamp0: map<N, nat>,
                          ghost counter0: nat, ghost keys: seq<N>, current: N, e: Edge<N>)
    returns (g: map<N, Dist>, came: map<N, N>, queue: seq<(int, N)>, ghost stamp: map<N, nat>, ghost counter: nat)
    requires Closed(graph) && current in graph && e in graph[current] && current in g0 && g0[current].Fin?
    requires forall v :: v in graph ==> v in keys
    requires Core(graph, start, goal, g0, came0, queue0, expanded, stamp0, counter0)
    requires Covered(graph, g0, queue0, expanded, {current})
    ensures Core(graph, start, goal, g, came, queue, expanded, stamp, counter) && g[current] == g0[current]
    ensures Covered(graph, g, queue, expanded, {current})
    ensures e.0 in g && g[e.0].Fin? && g[e.0].n <= g0[current].n + e.1
    ensures Lowered(g0, g)
    ensures NotAbove(InfCount(g, keys), SumFin(g, keys), |queue|, InfCount(g0, keys), SumFin(g0, keys), |queue0|)
  {
    g, came, queue, stamp, counter := g0, came0, queue0, stamp0, counter0;
    var (neighbor, weight) := e;
    var tentative := g[current].n + weight;
    if Below(tentative, g[neighbor]) {
      came := came[neighbor := current];
      g := g[neighbor := Fin(tentative)];
      stamp := stamp[neighbor := counter];
      counter := counter + 1;
      var f := tentative + h(neighbor, goal);
      if !Queued(queue, neighbor) {
        queue := queue + [(f, neighbor)];
      }
      assert neighbor in keys;
      LowerCore(graph, start, goal, g0, came0, queue0, expanded, stamp0, counter0, current, e, f,
                g, came, queue, stamp, counter);
      LowerCovered(graph, g0, queue0, expanded, current, neighbor, tentative, f, g, queue);
      LowerMeasure(g0, keys, neighbor, tentative, g, |queue|, |queue0|);
    }
  }

  /** The invariant after one improving edge current -> e.0, with the
      entry (f, e.0) pushed unless e.0 is already in the open set. */
  lemma {:induction false} LowerCore<N>(graph: map<N, seq<Edge<N>>>, start: N, goal: N, g: map<N, Dist>, came: map<N, N>,
                     queue: seq<(int, N)>, expanded: set<N>, stamp: map<N, nat>, counter: nat,
                     current: N, e: Edge<N>, f: int,
                     g': map<N, Dist>, came': map<N, N>, q': seq<(int, N)>, stamp': map<N, nat>, counter': nat)
    requires current in graph && e in graph[current] && current in g && g[current].Fin?
    requires Core(graph, start, goal, g, came, queue, expanded, stamp, counter)
    requires e.0 in g && Below(g[current].n + e.1, g[e.0])
    requires g' == g[e.0 := Fin(g[current].n + e.1)] && came' == came[e.0 := current]
    requires stamp' == stamp[e.0 := counter] && counter' == counter + 1
    requires q' == if Queued(queue, e.0) then queue else queue + [(f, e.0)]
    ensures Core(graph, start, goal, g', came', q', expanded, stamp', counter') && g'[current] == g[current]
  {
    LowerChains(graph, start, g, came, stamp, counter, current, e, g[current].n + e.1, g', came', stamp');
    PushFinite(g, queue, e.0, g[current].n + e.1, f, g', q');
  }

  /** Lowering v to a finite g-score and pushing it keeps every open
      entry finite. */
  lemma {:induction false} PushFinite<N>(g: map<N, Dist>, queue: seq<(int, N)>, v: N, t: nat, f: int, g': map<N, Dist>, q': seq<(int, N)>)
    requires FiniteEntries(g, queue) && v in g && g' == g[v := Fin(t)]
    requires q' == if Queued(queue, v) then queue else queue + [(f, v)]
    ensures FiniteEntries(g', q')
  {
    forall i | 0 <= i < |q'|
      ensures q'[i].1 in g' && g'[q'[i].1].Fin?
    {
      if i < |queue| {
        assert q'[i] == queue[i];
      }
    }
  }

  lemma {:induction false} QueuedGrows<N>(q: seq<(int, N)>, f: int, v: N)
    ensures forall x :: Queued(q, x) ==> Queued(q + [(f, v)], x)
  {
    forall x | Queued(q, x)
      ensures Queued(q + [(f, v)], x)
    {
      var i :| 0 <= i < |q| && q[i].1 == x;
      assert (q + [(f, v)])[i] == q[i];
    }
  }

  /** Lowering neighbor v of current to g[current] + w keeps every
      came_from entry ranked and every reached node on its chain. */
  lemma {:induction false} LowerChains<N>(graph: map<N, seq<Edge<N>>>, start: N, g: map<N, Dist>, came: map<N, N>,
                       stamp: map<N, nat>, counter: nat, current: N, e: Edge<N>, t: nat,
                       g': map<N, Dist>, came': map<N, N>, stamp': map<N, nat>)
    requires Chains(graph, start, g, came, stamp) && StampsBelow(g, stamp, counter)
    requires current in graph && e in graph[current] && current in g && g[current].Fin?
    requires e.0 in g && t == g[current].n + e.1 && Below(t, g[e.0])
    requires g' == g[e.0 := Fin(t)] && came' == came[e.0 := current] && stamp' == stamp[e.0 := counter]
    ensures e.0 != current && e.0 != start
    ensures Chains(graph, start, g', came', stamp') && StampsBelow(g', stamp', counter + 1)
  {
    var v := e.0;
    assert HasEdge(graph, current, v);
    assert CameOk(graph, g', stamp', current, v);
    forall c | c in came' && c != v
      ensures CameOk(graph, g', stamp', came'[c], c)
    {
      assert CameOk(graph, g, stamp, came[c], c);
    }
  }

  /** Lowering a listed node's g-score makes the search measure drop,
      however the open set changed. */
  lemma {:induction false} LowerMeasure<N>(g: map<N, Dist>, keys: seq<N>, v: N, t: nat, g': map<N, Dist>, q': nat, q: nat)
    requires v in keys && v in g && Below(t, g[v]) && g' == g[v := Fin(t)]
    ensures NotAbove(InfCount(g', keys), SumFin(g', keys), q', InfCount(g, keys), SumFin(g, keys), q)
  {
    LowerDecreases(g, keys, v, t);
  }

  /** Lowering v keeps every other node covered, and v is in the open set
      afterwards (pushed unless already there). */
  lemma {:induction false} LowerCovered<N>(graph: map<N, seq<Edge<N>>>, g: map<N, Dist>, queue: seq<(int, N)>, expanded: set<N>,
                        current: N, v: N, t: nat, f: int, g': map<N, Dist>, q': seq<(int, N)>)
    requires Covered(graph, g, queue, expanded, {current}) && v in g && Below(t, g[v])
    requires g' == g[v := Fin(t)] && q' == if Queued(queue, v) then queue else queue + [(f, v)]
    ensures Covered(graph, g', q', expanded, {current})
  {
    QueuedGrows(queue, f, v);
    assert Queued(q', v) by {
      if !Queued(queue, v) {
        assert q'[|queue|].1 == v;
      }
    }
    forall x | x in g' && g'[x].Fin? && x != current
      ensures Queued(q', x) || (x in expanded && Relaxed(graph, g', x))
    {
      if x != v && !Queued(queue, x) {
        assert Relaxed(graph, g, x);
      }
    }
  }
}

=== FILE: ButlerDijkstra.dfy ===
/** dijkstra of butler/algorithms.py: single-source shortest paths with a
    lazy-deletion priority queue of (distance, node) entries. */
module ButlerDijkstra {
  import opened GraphSpec

  /** Each queue entry names a node with a finite distance no larger than
      the entry's, and no entry occurs twice. */
  ghost predicate QueueOk<N>(dist: map<N, Dist>, queue: seq<(nat, N)>)
  {
    (forall e :: e in queue ==> e.1 in dist && dist[e.1].Fin? && dist[e.1].n <= e.0) &&
    (forall i, j :: 0 <= i < j < |queue| ==> queue[i] != queue[j])
  }

  /** A node with a finite distance that has not been settled still has
      an entry carrying exactly that distance. */
  ghost predicate FiniteQueued<N>(dist: map<N, Dist>, queue: seq<(nat, N)>, settled: set<N>)
  {
    forall v :: v in dist && dist[v].Fin? && v !in settled ==> (dist[v].n, v) in queue
  }

  /** A settled node has a finite distance, no entry with that distance
      any more, and a distance no larger than any entry still queued. */
  ghost predicate SettledOk<N>(dist: map<N, Dist>, queue: seq<(nat, N)>, settled: set<N>)
  {
    forall x :: x in settled ==>
      x in dist && dist[x].Fin? && (dist[x].n, x) !in queue &&
      forall e :: e in queue ==> dist[x].n <= e.0
  }

  /** The predecessor p of v is settled and an edge p -> v of weight
      distances[v] - distances[p] exists. */
  ghost predicate PredOk<N>(graph: map<N, seq<Edge<N>>>, dist: map<N, Dist>, pred: map<N, N>, settled: set<N>)
  {
    forall v :: v in pred ==>
      pred[v] in settled && PredEdge(graph, dist, pred[v], v)
  }

  /** Every node other than the start whose distance is finite has a
      predecessor: a distance becomes finite only where it is lowered,
      and lowering sets predecessors[neighbor] at the same time. */
  ghost predicate PredComplete<N>(start: N, dist: map<N, Dist>, pred: map<N, N>)
  {
    forall v :: v in dist && dist[v].Fin? && v != start ==> v in pred
  }

  /** distances[v] == distances[p] + graph[p][v]. */
  ghost predicate PredEdge<N>(graph: map<N, seq<Edge<N>>>, dist: map<N, Dist>, p: N, v: N)
  {
    p in dist && v in dist && dist[p].Fin? && dist[v].Fin? && p in graph &&
    dist[p].n <= dist[v].n && (v, dist[v].n - dist[p].n) in graph[p]
  }

  /** Every finite distance is the weight of a walk from the start. */
  ghost predicate Witnessed<N>(graph: map<N, seq<Edge<N>>>, start: N, dist: map<N, Dist>, walks: map<N, seq<Edge<N>>>)
  {
    forall v :: v in dist && dist[v].Fin? ==>
      v in walks && IsWalk(graph, start, walks[v]) &&
      WalkEnd(start, walks[v]) == v && WalkWeight(walks[v]) == dist[v].n
  }

  ghost predicate AllRelaxed<N>(graph: map<N, seq<Edge<N>>>, dist: map<N, Dist>, S: set<N>)
  {
    forall x {:trigger Relaxed(graph, dist, x)} :: x in S && x in dist && dist[x].Fin? ==> Relaxed(graph, dist, x)
  }

  // ---------------------------------------------------------------------
  // Popping an entry

  /** The queue with entry m removed. */
  lemma {:induction false} Removed<T>(q: seq<T>, m: nat)
    requires m < |q|
    ensures var r := q[..m] + q[m + 1..];
      |r| == |q| - 1 &&
      (forall e :: e in r ==> e in q) &&
      (forall e :: e in q && e != q[m] ==> e in r) &&
      ((forall i, j :: 0 <= i < j < |q| ==> q[i] != q[j]) ==>
         q[m] !in r && forall i, j :: 0 <= i < j < |r| ==> r[i] != r[j])
  {
    var r := q[..m] + q[m + 1..];
    forall e | e in q && e != q[m]
      ensures e in r
    {
      var k :| 0 <= k < |q| && q[k] == e;
      if k < m {
        assert r[k] == e;
      } else {
        assert r[k - 1] == e;
      }
    }
    if forall i, j :: 0 <= i < j < |q| ==> q[i] != q[j] {
      forall i, j | 0 <= i < j < |r|
        ensures r[i] != r[j]
      {
        var i' := if i < m then i else i + 1;
        var j' := if j < m then j else j + 1;
        assert q[i'] == r[i] && q[j'] == r[j];
      }
      forall i | 0 <= i < |r|
        ensures r[i] != q[m]
      {
        if i < m {
          assert q[i] == r[i];
        } else {
          assert q[i + 1] == r[i];
        }
      }
    }
  }

  /** A popped entry that is out of date (its distance exceeds the node's)
      leaves the invariant intact. */
  lemma {:induction false} PopStale<N>(dist: map<N, Dist>, q: seq<(nat, N)>, m: nat, settled: set<N>)
    requires m < |q| && QueueOk(dist, q) && FiniteQueued(dist, q, settled) && SettledOk(dist, q, settled)
    requires q[m].1 in dist && dist[q[m].1].Fin? && q[m].0 > dist[q[m].1].n
    ensures var r := q[..m] + q[m + 1..];
      QueueOk(dist, r) && FiniteQueued(dist, r, settled) && SettledOk(dist, r, settled)
  {
    Removed(q, m);
  }

  /** Popping a smallest entry (d, u) with d == distances[u] settles u. */
  lemma {:induction false} PopSettles<N>(dist: map<N, Dist>, q: seq<(nat, N)>, m: nat, settled: set<N>)
    requires m < |q| && QueueOk(dist, q) && FiniteQueued(dist, q, settled) && SettledOk(dist, q, settled)
    requires forall k :: 0 <= k < |q| ==> q[m].0 <= q[k].0
    requires q[m].1 in dist && dist[q[m].1] == Fin(q[m].0)
    ensures q[m].1 !in settled
    ensures forall x :: x in settled ==> dist[x].n <= q[m].0
    ensures var r := q[..m] + q[m + 1..];
      QueueOk(dist, r) && FiniteQueued(dist, r, settled + {q[m].1}) && SettledOk(dist, r, settled + {q[m].1})
  {
    Removed(q, m);
    var r := q[..m] + q[m + 1..];
    forall e | e in r
      ensures q[m].0 <= e.0
    {
      var k :| 0 <= k < |q| && q[k] == e;
    }
  }

  // ---------------------------------------------------------------------
  // Lowering the distance of one node v to nd and pushing (nd, v)

  lemma {:induction false} LowerQueue<N>(dist: map<N, Dist>, q: seq<(nat, N)>, settled: set<N>, v: N, nd: nat)
    requires QueueOk(dist, q) && FiniteQueued(dist, q, settled) && SettledOk(dist, q, settled)
    requires v in dist && Below(nd, dist[v]) && v !in settled
    requires forall x :: x in settled ==> dist[x].n <= nd
    ensures var d' := dist[v := Fin(nd)]; var q' := q + [(nd, v)];
      QueueOk(d', q') && FiniteQueued(d', q', settled) && SettledOk(d', q', settled)
  {
    var d' := dist[v := Fin(nd)];
    var q' := q + [(nd, v)];
    assert (nd, v) !in q;
    forall i, j | 0 <= i < j < |q'|
      ensures q'[i] != q'[j]
    {
      if j == |q| {
        assert q'[i] in q;
      }
    }
  }

  lemma {:induction false} LowerPred<N>(graph: map<N, seq<Edge<N>>>, dist: map<N, Dist>, pred: map<N, N>, settled: set<N>,
                     u: N, v: N, w: nat, nd: nat)
    requires PredOk(graph, dist, pred, settled)
    requires u in settled && u in graph && (v, w) in graph[u] && v !in settled
    requires u in dist && dist[u].Fin? && v in dist && nd == dist[u].n + w && Below(nd, dist[v])
    ensures PredOk(graph, dist[v := Fin(nd)], pred[v := u], settled)
  {
    var d' := dist[v := Fin(nd)];
    assert d'[u] == dist[u];
    assert PredEdge(graph, d', u, v);
    forall x | x in pred && x != v
      ensures PredEdge(graph, d', pred[x], x)
    {
      assert pred[x] != v;
    }
  }

  lemma {:induction false} LowerWalks<N>(graph: map<N, seq<Edge<N>>>, start: N, dist: map<N, Dist>, walks: map<N, seq<Edge<N>>>,
                      u: N, v: N, w: nat, nd: nat)
    requires Witnessed(graph, start, dist, walks)
    requires u in graph && (v, w) in graph[u] && u in dist && dist[u].Fin? && v in dist && nd == dist[u].n + w
    ensures Witnessed(graph, start, dist[v := Fin(nd)], walks[v := walks[u] + [(v, w)]])
  {
    WalkExtend(graph, start, walks[u], (v, w));
  }

  lemma {:induction false} LowerRelaxed<N>(graph: map<N, seq<Edge<N>>>, dist: map<N, Dist>, S: set<N>, v: N, nd: nat)
    requires AllRelaxed(graph, dist, S) && v !in S && v in dist && Below(nd, dist[v])
    ensures AllRelaxed(graph, dist[v := Fin(nd)], S)
  {
    var d' := dist[v := Fin(nd)];
    forall x | x in S && x in d' && d'[x].Fin?
      ensures Relaxed(graph, d', x)
    {
      assert Relaxed(graph, dist, x);
    }
  }

  // ---------------------------------------------------------------------
  // The algorithm

  /** dijkstra(graph, start_node): the distances from start_node and the
      predecessor of every node whose distance was lowered. */
  method Dijkstra<N>(graph: map<N, seq<Edge<N>>>, start: N) returns (dist: map<N, Dist>, pred: map<N, N>)
    requires start in graph && Closed(graph)
    ensures dist.Keys == graph.Keys && dist[start] == Fin(0)
    ensures forall hops :: IsWalk(graph, start, hops) ==>
              WalkEnd(start, hops) in dist && dist[WalkEnd(start, hops)].Fin? &&
              dist[WalkEnd(start, hops)].n <= WalkWeight(hops)
    ensures forall v :: v in dist && dist[v].Fin? ==>
              exists hops :: IsWalk(graph, start, hops) && WalkEnd(start, hops) == v && WalkWeight(hops) == dist[v].n
    ensures start !in pred
    ensures forall v :: v in pred ==> PredEdge(graph, dist, pred[v], v)
    ensures forall v :: v in dist && dist[v].Fin? && v != start ==> v in pred
  {
    dist := map v | v in graph :: Inf;
    dist := dist[start := Fin(0)];
    var queue: seq<(nat, N)> := [(0, start)];
    pred := map[];
    ghost var settled: set<N> := {};
    ghost var walks: map<N, seq<Edge<N>>> := map[start := []];
    Initial(graph, start, dist);
    while |queue| > 0
      invariant Core(graph, start, dist, pred, queue, settled, walks)
      invariant AllRelaxed(graph, dist, settled)
      decreases |graph.Keys - settled|, |queue|
    {
      var m := MinEntry(queue);
      var (currentDistance, current) := queue[m];
      assert queue[m] in queue;
      if currentDistance > dist[current].n {
        PopStale(dist, queue, m, settled);
        queue := queue[..m] + queue[m + 1..];
        continue;
      }
      assert dist[current].Fin? && dist[current].n <= currentDistance;
      PopSettles(dist, queue, m, settled);
      queue := queue[..m] + queue[m + 1..];
      ghost var before := settled;
      settled := settled + {current};
      FewerUnsettled(graph.Keys, before, current);
      dist, pred, queue, walks := RelaxEdges(graph, start, dist, pred, queue, settled, walks, currentDistance, current);
    }
    Shortest(graph, start, dist, pred, settled, walks);
  }

  /** The state before the main loop: only the start is finite, with
      the single entry (0, start) queued. */
  lemma {:induction false} Initial<N>(graph: map<N, seq<Edge<N>>>, start: N, dist: map<N, Dist>)
    requires start in graph && dist == (map v | v in graph :: Inf)[start := Fin(0)]
    ensures Core(graph, start, dist, map[], [(0, start)], {}, map[start := []])
    ensures AllRelaxed(graph, dist, {})
  {
    assert IsWalk(graph, start, []);
  }

  lemma {:induction false} FewerUnsettled<N>(keys: set<N>, settled: set<N>, u: N)
    requires u in keys && u !in settled
    ensures |keys - (settled + {u})| < |keys - settled|
  {
    assert keys - (settled + {u}) == (keys - settled) - {u};
  }

  /** With the queue empty every node with a finite distance is settled,
      so every edge is relaxed and no walk beats a distance. */
  lemma {:induction false} Shortest<N>(graph: map<N, seq<Edge<N>>>, start: N, dist: map<N, Dist>, pred: map<N, N>,
                    settled: set<N>, walks: map<N, seq<Edge<N>>>)
    requires Core(graph, start, dist, pred, [], settled, walks)
    requires AllRelaxed(graph, dist, settled)
    ensures forall hops :: IsWalk(graph, start, hops) ==>
              WalkEnd(start, hops) in dist && dist[WalkEnd(start, hops)].Fin? &&
              dist[WalkEnd(start, hops)].n <= WalkWeight(hops)
  {
    forall x | x in dist && dist[x].Fin?
      ensures Relaxed(graph, dist, x)
    {
      assert x in settled;
    }
    forall hops | IsWalk(graph, start, hops)
      ensures WalkEnd(start, hops) in dist && dist[WalkEnd(start, hops)].Fin?
      ensures dist[WalkEnd(start, hops)].n <= WalkWeight(hops)
    {
      WalkBound(graph, dist, start, hops);
    }
  }

  /** The part of the loop invariant that holds at every point of both
      loops. */
  ghost predicate Core<N>(graph: map<N, seq<Edge<N>>>, start: N, dist: map<N, Dist>, pred: map<N, N>,
                          queue: seq<(nat, N)>, settled: set<N>, walks: map<N, seq<Edge<N>>>)
  {
    dist.Keys == graph.Keys && start in dist && dist[start] == Fin(0) && start !in pred && settled <= graph.Keys &&
    QueueOk(dist, queue) && FiniteQueued(dist, queue, settled) && SettledOk(dist, queue, settled) &&
    PredOk(graph, dist, pred, settled) && PredComplete(start, dist, pred) &&
    Witnessed(graph, start, dist, walks)
  }

  /** Once every edge of u is relaxed, all settled nodes are. */
  lemma {:induction false} FinishRelax<N>(graph: map<N, seq<Edge<N>>>, dist: map<N, Dist>, settled: set<N>, u: N, cd: nat)
    requires u in graph && u in dist && dist[u] == Fin(cd)
    requires AllRelaxed(graph, dist, settled - {u})
    requires dist.Keys == graph.Keys
    requires forall i :: 0 <= i < |graph[u]| ==>
               graph[u][i].0 in dist && dist[graph[u][i].0].Fin? && dist[graph[u][i].0].n <= cd + graph[u][i].1
    ensures AllRelaxed(graph, dist, settled)
  {
    assert Relaxed(graph, dist, u);
  }

  /** The inner loop of dijkstra: relax every edge of the node u just
      settled with distance cd. */
  method RelaxEdges<N>(graph: map<N, seq<Edge<N>>>, start: N, dist0: map<N, Dist>, pred0: map<N, N>,
                       queue0: seq<(nat, N)>, ghost settled: set<N>, ghost walks0: map<N, seq<Edge<N>>>,
                       cd: nat, u: N)
    returns (dist: map<N, Dist>, pred: map<N, N>, queue: seq<(nat, N)>, ghost walks: map<N, seq<Edge<N>>>)
    requires Closed(graph) && u in graph && u in settled && u in dist0 && dist0[u] == Fin(cd)
    requires Core(graph, start, dist0, pred0, queue0, settled, walks0)
    requires AllRelaxed(graph, dist0, settled - {u})
    requires forall e :: e in queue0 ==> cd <= e.0
    requires forall x :: x in settled ==> dist0[x].n <= cd
    ensures Core(graph, start, dist, pred, queue, settled, walks)
    ensures AllRelaxed(graph, dist, settled)
  {
    dist, pred, queue, walks := dist0, pred0, queue0, walks0;
    var adj := graph[u];
    var k := 0;
    while k < |adj|
      invariant 0 <= k <= |adj|
      invariant Core(graph, start, dist, pred, queue, settled, walks) && dist[u] == Fin(cd)
      invariant AllRelaxed(graph, dist, settled - {u})
      invariant forall i :: 0 <= i < k ==> adj[i].0 in dist && dist[adj[i].0].Fin? && dist[adj[i].0].n <= cd + adj[i].1
      invariant forall e :: e in queue ==> cd <= e.0
      invariant forall x :: x in settled ==> dist[x].n <= cd
    {
      ghost var d1 := dist;
      dist, pred, queue, walks := RelaxEdge(graph, start, dist, pred, queue, settled, walks, cd, u, adj[k]);
      forall i | 0 <= i <= k
        ensures adj[i].0 in dist && dist[adj[i].0].Fin? && dist[adj[i].0].n <= cd + adj[i].1
      {
        if i < k {
          assert d1[adj[i].0].Fin?;
        }
      }
      k := k + 1;
    }
    FinishRelax(graph, dist, settled, u, cd);
  }

  /** One iteration of the inner loop: relax the edge e of u. */
  method RelaxEdge<N>(graph: map<N, seq<Edge<N>>>, start: N, dist0: map<N, Dist>, pred0: map<N, N>,
                      queue0: seq<(nat, N)>, ghost settled: set<N>, ghost walks0: map<N, seq<Edge<N>>>,
                      cd: nat, u: N, e: Edge<N>)
    returns (dist: map<N, Dist>, pred: map<N, N>, queue: seq<(nat, N)>, ghost walks: map<N, seq<Edge<N>>>)
    requires Closed(graph) && u in graph && e in graph[u] && u in settled && u in dist0 && dist0[u] == Fin(cd)
    requires Core(graph, start, dist0, pred0, queue0, settled, walks0)
    requires AllRelaxed(graph, dist0, settled - {u})
    requires forall x :: x in queue0 ==> cd <= x.0
    requires forall x :: x in settled ==> dist0[x].n <= cd
    ensures Core(graph, start, dist, pred, queue, settled, walks) && dist[u] == Fin(cd)
    ensures AllRelaxed(graph, dist, settled - {u})
    ensures forall x :: x in queue ==> cd <= x.0
    ensures forall x :: x in settled ==> dist[x].n <= cd
    ensures e.0 in dist && dist[e.0].Fin? && dist[e.0].n <= cd + e.1
    ensures forall v :: v in dist0 && dist0[v].Fin? ==> dist[v].Fin? && dist[v].n <= dist0[v].n
  {
    dist, pred, queue, walks := dist0, pred0, queue0, walks0;
    var (neighbor, weight) := e;
    var distance := cd + weight;
    if Below(distance, dist[neighbor]) {
      assert neighbor !in settled;
      LowerQueue(dist, queue, settled, neighbor, distance);
      LowerPred(graph, dist, pred, settled, u, neighbor, weight, distance);
      LowerWalks(graph, start, dist, walks, u, neighbor, weight, distance);
      LowerRelaxed(graph, dist, settled - {u}, neighbor, distance);
      walks := walks[neighbor := walks[u] + [(neighbor, weight)]];
      dist := dist[neighbor := Fin(distance)];
      pred := pred[neighbor := u];
      queue := queue + [(distance, neighbor)];
    }
  }
}

=== FILE: ButlerFibonacci.dfy ===
/** fibonacci of butler/algorithms.py (2x2 matrix power, the matrices
    being lists of lists updated in place) and the iterative
    Jarvis.fibonacci of butler/main.py. */
module ButlerFibonacci {

  /** The 2x2 matrix [[a, b], [c, d]]. */
  datatype Mat = Mat(a: int, b: int, c: int, d: int)

  /** The matrix product x * y. */
  function Mul(x: Mat, y: Mat): Mat
  {
    Mat(x.a * y.a + x.b * y.c, x.a * y.b + x.b * y.d,
        x.c * y.a + x.d * y.c, x.c * y.b + x.d * y.d)
  }

  const Identity := Mat(1, 0, 0, 1)

  /** [[1, 1], [1, 0]], the matrix fibonacci raises to a power. */
  const Q := Mat(1, 1, 1, 0)

  /** x * Q, written out: [[a + b, a], [c + d, c]]. */
  function TimesQ(x: Mat): Mat
  {
    Mat(x.a + x.b, x.a, x.c + x.d, x.c)
  }

  /** Q to the power k. */
  function QPow(k: nat): Mat
  {
    if k == 0 then Identity else TimesQ(QPow(k - 1))
  }

  /** The Fibonacci numbers: F(0) = 0, F(1) = 1, F(n) = F(n-1) + F(n-2). */
  function Fib(n: nat): nat
  {
    if n < 2 then n else Fib(n - 1) + Fib(n - 2)
  }

  /** Multiplying by Q is TimesQ. */
  lemma {:induction false} MulQ(x: Mat)
    ensures Mul(x, Q) == TimesQ(x)
  {
  }

  lemma {:induction false} MulIdentity(x: Mat)
    ensures Mul(x, Identity) == x
  {
  }

  lemma {:induction false} MulTimesQ(x: Mat, y: Mat)
    ensures TimesQ(Mul(x, y)) == Mul(x, TimesQ(y))
  {
  }

  /** Q^(i+j) = Q^i * Q^j. */
  lemma {:induction false} PowAdd(i: nat, j: nat)
    ensures QPow(i + j) == Mul(QPow(i), QPow(j))
    decreases j
  {
    if j == 0 {
      MulIdentity(QPow(i));
    } else {
      PowAdd(i, j - 1);
      MulTimesQ(QPow(i), QPow(j - 1));
    }
  }

  /** Q^k = [[F(k+1), F(k)], [F(k), F(k-1)]] for k >= 1: the identity
      that makes F[0][0] after _power(F, n - 1) the n-th Fibonacci number. */
  lemma {:induction false} PowQ(k: nat)
    requires k >= 1
    ensures QPow(k) == Mat(Fib(k + 1), Fib(k), Fib(k), Fib(k - 1))
  {
    if k > 1 {
      PowQ(k - 1);
      assert QPow(k) == TimesQ(QPow(k - 1));
      assert Fib(k + 1) == Fib(k) + Fib(k - 1);
      assert Fib(k) == Fib(k - 1) + Fib(k - 2);
    } else {
      assert QPow(1) == TimesQ(Identity);
      assert Fib(2) == 1;
    }
  }

  /** The matrix held by a 2x2 array. */
  function Contents(F: array2<int>): Mat
    reads F
    requires F.Length0 == 2 && F.Length1 == 2
  {
    Mat(F[0, 0], F[0, 1], F[1, 0], F[1, 1])
  }

  /** _multiply_matrices(F, M): F := F * M in place. All four entries are
      computed before any is written, so the call _multiply_matrices(F, F)
      squares F even though both arguments are the same list. */
  method MultiplyMatrices(F: array2<int>, M: array2<int>)
    requires F.Length0 == 2 && F.Length1 == 2 && M.Length0 == 2 && M.Length1 == 2
    modifies F
    ensures Contents(F) == Mul(old(Contents(F)), old(Contents(M)))
  {
    var x := F[0, 0] * M[0, 0] + F[0, 1] * M[1, 0];
    var y := F[0, 0] * M[0, 1] + F[0, 1] * M[1, 1];
    var z := F[1, 0] * M[0, 0] + F[1, 1] * M[1, 0];
    var w := F[1, 0] * M[0, 1] + F[1, 1] * M[1, 1];
    F[0, 0] := x;
    F[0, 1] := y;
    F[1, 0] := z;
    F[1, 1] := w;
  }

  /** [[1, 1], [1, 0]] as a fresh 2x2 array. */
  method NewQ() returns (M: array2<int>)
    ensures fresh(M) && M.Length0 == 2 && M.Length1 == 2 && Contents(M) == Q
  {
    M := new int[2, 2];
    M[0, 0], M[0, 1], M[1, 0], M[1, 1] := 1, 1, 1, 0;
  }

  /** Squaring Q^h gives Q^(2h). */
  lemma {:induction false} Square(h: nat)
    ensures Mul(QPow(h), QPow(h)) == QPow(2 * h)
  {
    PowAdd(h, h);
  }

  /** Multiplying Q^(2h) by Q gives Q^(2h+1). */
  lemma {:induction false} SquareTimesQ(h: nat)
    ensures Mul(QPow(2 * h), Q) == QPow(2 * h + 1)
  {
    MulQ(QPow(2 * h));
  }

  /** The top-left entry of Q^(n-1) is F(n). */
  lemma {:induction false} FibFromPower(n: nat)
    requires n >= 2
    ensures QPow(n - 1).a == Fib(n)
  {
    PowQ(n - 1);
  }

  /** _power(F, n), called with F holding Q: F ends up holding Q^n for
      n >= 1; for n = 0 the call returns at once and F still holds Q. */
  method Power(F: array2<int>, n: nat)
    requires F.Length0 == 2 && F.Length1 == 2 && Contents(F) == Q
    modifies F
    ensures n == 0 ==> Contents(F) == Q
    ensures n >= 1 ==> Contents(F) == QPow(n)
    decreases n
  {
    if n == 0 || n == 1 {
      return;
    }
    var h := n / 2;
    assert h >= 1 && (n == 2 * h || n == 2 * h + 1);
    var M := NewQ();
    Power(F, h);
    MultiplyMatrices(F, F);
    Square(h);
    if n % 2 != 0 {
      MultiplyMatrices(F, M);
      SquareTimesQ(h);
    }
  }

  /** fibonacci(n): 0 for n <= 0, otherwise the n-th Fibonacci number. */
  method Fibonacci(n: int) returns (r: int)
    ensures n <= 0 ==> r == 0
    ensures n >= 1 ==> r == Fib(n)
  {
    if n <= 0 {
      return 0;
    }
    if n == 1 {
      return 1;
    }
    var F := NewQ();
    Power(F, n - 1);
    FibFromPower(n);
    return F[0, 0];
  }

  /** Jarvis.fibonacci: the two-variable loop over range(2, n + 1). */
  method FibonacciIterative(n: int) returns (r: int)
    ensures n <= 0 ==> r == 0
    ensures n >= 1 ==> r == Fib(n)
  {
    if n <= 0 {
      return 0;
    } else if n == 1 {
      return 1;
    }
    var a, b := 0, 1;
    for i := 2 to n + 1
      invariant a == Fib(i - 2) && b == Fib(i - 1)
    {
      a, b := b, a + b;
    }
    return b;
  }
}

=== FILE: ButlerSearch.dfy ===
/** Merge sort and binary search of butler/algorithms.py. butler/main.py
    carries letter-for-letter copies of merge_sort, merge and
    binary_search as Jarvis methods; they are the same members here. */
module ButlerSearch {
  import opened SortSpec

  /** What _merge computes: repeatedly take the smaller head, the right
      one on a tie (`left[i] < right[j]` fails on equal keys), and append
      whatever remains once one side is exhausted. */
  function Merged(left: seq<int>, right: seq<int>): (r: seq<int>)
    ensures |r| == |left| + |right|
    decreases |left| + |right|
  {
    if left == [] then right
    else if right == [] then left
    else if left[0] < right[0] then [left[0]] + Merged(left[1..], right)
    else [right[0]] + Merged(left, right[1..])
  }

  /** Merging loses and invents nothing. */
  lemma {:induction false} MergedMultiset(left: seq<int>, right: seq<int>)
    ensures multiset(Merged(left, right)) == multiset(left) + multiset(right)
    decreases |left| + |right|
  {
    if left == [] || right == [] {
    } else if left[0] < right[0] {
      MergedMultiset(left[1..], right);
      assert Merged(left, right) == [left[0]] + Merged(left[1..], right);
      assert left == [left[0]] + left[1..];
      assert multiset(left) == multiset([left[0]]) + multiset(left[1..]);
    } else {
      MergedMultiset(left, right[1..]);
      assert Merged(left, right) == [right[0]] + Merged(left, right[1..]);
      assert right == [right[0]] + right[1..];
      assert multiset(right) == multiset([right[0]]) + multiset(right[1..]);
    }
  }

  /** The first element of a merge is the smaller head, the right one on a
      tie. */
  lemma {:induction false} MergedHead(left: seq<int>, right: seq<int>)
    requires left != [] || right != []
    ensures Merged(left, right)[0] ==
            if left == [] then right[0]
            else if right == [] then left[0]
            else if left[0] < right[0] then left[0] else right[0]
  {
  }

  /** A sorted list stays sorted with an element no larger than its head in
      front. */
  lemma {:induction false} SortedCons(x: int, rest: seq<int>)
    requires Sorted(rest) && (rest == [] || x <= rest[0])
    ensures Sorted([x] + rest)
  {
    var s := [x] + rest;
    forall i, j | 0 <= i < j < |s|
      ensures s[i] <= s[j]
    {
      assert s[j] == rest[j - 1];
      if i == 0 {
        assert rest[0] <= rest[j - 1];
      } else {
        assert s[i] == rest[i - 1];
      }
    }
  }

  /** The merge of two sorted lists is sorted. */
  lemma {:induction false} MergedSorted(left: seq<int>, right: seq<int>)
    requires Sorted(left) && Sorted(right)
    ensures Sorted(Merged(left, right))
    decreases |left| + |right|
  {
    if left == [] || right == [] {
    } else if left[0] < right[0] {
      MergedSorted(left[1..], right);
      MergedHead(left[1..], right);
      assert |left| > 1 ==> left[0] <= left[1];
      SortedCons(left[0], Merged(left[1..], right));
    } else {
      MergedSorted(left, right[1..]);
      MergedHead(left, right[1..]);
      assert |right| > 1 ==> right[0] <= right[1];
      SortedCons(right[0], Merged(left, right[1..]));
    }
  }

  /** One step of the merge, with the remaining inputs: the smaller head
      goes first. */
  lemma {:induction false} MergedStep(l: seq<int>, r: seq<int>)
    requires l != [] && r != []
    ensures Merged(l, r) == if l[0] < r[0] then [l[0]] + Merged(l[1..], r) else [r[0]] + Merged(l, r[1..])
  {
  }

  /** _merge (and Jarvis.merge): the two-index loop followed by the two
      extends. */
  method Merge(left: seq<int>, right: seq<int>) returns (result: seq<int>)
    ensures result == Merged(left, right)
    ensures multiset(result) == multiset(left) + multiset(right)
    ensures Sorted(left) && Sorted(right) ==> Sorted(result)
  {
    result := [];
    var i, j := 0, 0;
    while i < |left| && j < |right|
      invariant 0 <= i <= |left| && 0 <= j <= |right|
      invariant result + Merged(left[i..], right[j..]) == Merged(left, right)
      decreases |left| - i + |right| - j
    {
      MergedStep(left[i..], right[j..]);
      if left[i] < right[j] {
        assert left[i..][1..] == left[i + 1..];
        result := result + [left[i]];
        i := i + 1;
      } else {
        assert right[j..][1..] == right[j + 1..];
        result := result + [right[j]];
        j := j + 1;
      }
    }
    ghost var done, rest := result, left[i..] + right[j..];
    assert Merged(left[i..], right[j..]) == rest by {
      if i == |left| {
        assert left[i..] == [];
      } else {
        assert right[j..] == [];
      }
    }
    result := result + left[i..];
    result := result + right[j..];
    assert result == done + rest;
    MergedMultiset(left, right);
    if Sorted(left) && Sorted(right) {
      MergedSorted(left, right);
    }
  }

  /** merge_sort (and Jarvis.merge_sort): lists of length at most one are
      returned as they are; otherwise both halves are sorted and merged. */
  function MergeSort(arr: seq<int>): (r: seq<int>)
    ensures Sorted(r) && multiset(r) == multiset(arr)
    ensures |arr| <= 1 ==> r == arr
    decreases |arr|
  {
    if |arr| <= 1 then arr
    else
      var mid := |arr| / 2;
      var left := MergeSort(arr[..mid]);
      var right := MergeSort(arr[mid..]);
      MergedSorted(left, right);
      MergedMultiset(left, right);
      assert arr == arr[..mid] + arr[mid..];
      Merged(left, right)
  }

  /** merge_sort keeps the length. */
  lemma {:induction false} MergeSortLength(arr: seq<int>)
    ensures |MergeSort(arr)| == |arr|
  {
    var r := MergeSort(arr);
    assert |r| == |multiset(r)| == |multiset(arr)| == |arr|;
  }

  /** binary_search (and Jarvis.binary_search). The list is not required
      to be sorted: a non-negative answer always holds the target, and on
      a sorted list -1 means the target is absent. */
  method BinarySearch(arr: seq<int>, target: int) returns (r: int)
    ensures -1 <= r < |arr|
    ensures r >= 0 ==> arr[r] == target
    ensures Sorted(arr) ==> (r == -1 <==> target !in arr)
  {
    var low, high := 0, |arr| - 1;
    while low <= high
      invariant 0 <= low <= high + 1 <= |arr|
      invariant Sorted(arr) ==> forall k :: 0 <= k < |arr| && !(low <= k <= high) ==> arr[k] != target
      decreases high - low
    {
      var mid := (low + high) / 2;
      var midVal := arr[mid];
      if midVal == target {
        return mid;
      } else if midVal < target {
        low := mid + 1;
      } else {
        high := mid - 1;
      }
    }
    return -1;
  }
}

=== FILE: ButlerSort.dfy ===
/** The in-place introsort of butler/algorithms.py: insertion sort on
    small ranges, median-of-three partitioning, and heapsort once the depth
    budget runs out. Lists of numbers are modelled as arrays of `int`. */
module ButlerSort {
  import opened SortSpec

  // ---------------------------------------------------------------------
  // Insertion sort

  /** Moving b[i] down to position h and shifting b[h..i) one step right
      is a rotation, so it keeps the multiset. */
  lemma {:induction false} RotationMultiset(b: seq<int>, c: seq<int>, h: int, i: int)
    requires 0 <= h <= i < |b| == |c|
    requires forall k :: 0 <= k < |b| && !(h <= k <= i) ==> c[k] == b[k]
    requires c[h] == b[i]
    requires forall k :: h + 1 <= k <= i ==> c[k] == b[k - 1]
    ensures multiset(c) == multiset(b)
  {
    assert c == c[..h] + [c[h]] + c[h + 1..i + 1] + c[i + 1..];
    assert b == b[..h] + b[h..i] + [b[i]] + b[i + 1..];
    assert c[..h] == b[..h];
    assert c[h + 1..i + 1] == b[h..i];
    assert c[i + 1..] == b[i + 1..];
  }

  /** The state after one insertion step: b[low..i) was sorted, key = b[i]
      went to position h, b[h..i) moved one step right, and everything
      before h stayed. The result is sorted on [low, i]. */
  lemma {:induction false} InsertedSorted(b: seq<int>, c: seq<int>, low: int, i: int, h: int)
    requires 0 <= low <= h <= i < |b| == |c|
    requires SortedRange(b, low, i)
    requires forall k :: low <= k < h ==> c[k] == b[k]
    requires c[h] == b[i]
    requires forall k :: h + 1 <= k <= i ==> c[k] == b[k - 1] && c[k] > b[i]
    requires h == low || b[h - 1] <= b[i]
    ensures SortedRange(c, low, i + 1)
  {
  }

  /** The inner loop of _insertion_sort: the elements of arr[low..i) that
      are greater than key = arr[i] and sit above the first smaller or
      equal one each move one step right. h is where key goes. */
  method ShiftGreater(a: array<int>, low: int, i: int) returns (h: int)
    requires 0 <= low <= i < a.Length
    modifies a
    ensures low <= h <= i
    ensures forall k :: 0 <= k < a.Length && !(h <= k <= i) ==> a[k] == old(a[k])
    ensures forall k :: h + 1 <= k <= i ==> a[k] == old(a[k - 1]) && a[k] > old(a[i])
    ensures h == low || old(a[h - 1]) <= old(a[i])
  {
    var key := a[i];
    var j := i - 1;
    while j >= low && a[j] > key
      invariant low - 1 <= j <= i - 1
      invariant forall k :: 0 <= k < a.Length && !(j + 1 <= k <= i) ==> a[k] == old(a[k])
      invariant forall k :: j + 2 <= k <= i ==> a[k] == old(a[k - 1]) && a[k] > key
    {
      a[j + 1] := a[j];
      j := j - 1;
    }
    h := j + 1;
  }

  /** One pass of the outer loop of _insertion_sort: arr[i] is moved left
      past every strictly greater element of the sorted arr[low..i). */
  method InsertOne(a: array<int>, low: int, i: int)
    requires 0 <= low < i < a.Length
    requires SortedRange(a[..], low, i)
    modifies a
    ensures SortedRange(a[..], low, i + 1)
    ensures PermutedWithin(old(a[..]), a[..], low, i + 1)
  {
    ghost var b := a[..];
    var key := a[i];
    var h := ShiftGreater(a, low, i);
    a[h] := key;
    ghost var c := a[..];
    assert forall k :: 0 <= k < |c| && !(h <= k <= i) ==> c[k] == b[k];
    assert forall k :: h + 1 <= k <= i ==> c[k] == b[k - 1] && c[k] > b[i];
    InsertedSorted(b, c, low, i, h);
    RotationMultiset(b, c, h, i);
  }

  /** _insertion_sort: sort arr[low..high] (inclusive) in place by shifting
      every larger element one step right; nothing outside moves. */
  method InsertionSortRange(a: array<int>, low: int, high: int)
    requires 0 <= low <= high + 1 <= a.Length
    modifies a
    ensures SortedRange(a[..], low, high + 1)
    ensures PermutedWithin(old(a[..]), a[..], low, high + 1)
  {
    var i := low + 1;
    while i <= high
      invariant low < i && (i <= high + 1 || high < low)
      invariant SortedRange(a[..], low, if i <= high + 1 then i else high + 1)
      invariant PermutedWithin(old(a[..]), a[..], low, high + 1)
    {
      InsertOne(a, low, i);
      i := i + 1;
    }
  }

  // ---------------------------------------------------------------------
  // Partition

  /** The median of three values. */
  function Median3(x: int, y: int, z: int): (m: int)
    ensures (x <= m || y <= m) && (x <= m || z <= m) && (y <= m || z <= m)
    ensures (m <= x || m <= y) && (m <= x || m <= z) && (m <= y || m <= z)
    ensures m == x || m == y || m == z
  {
    if x <= y then (if y <= z then y else if x <= z then z else x)
    else (if x <= z then x else if y <= z then z else y)
  }

  /** One compare-and-swap of _partition: `if arr[j] < arr[i]` the two
      are exchanged, so that arr[i] <= arr[j] afterwards. The swap stays
      inside [lo, hi). */
  method OrderPair(a: array<int>, i: int, j: int, lo: int, hi: int)
    requires 0 <= lo <= i < hi <= a.Length && lo <= j < hi && i != j
    modifies a
    ensures a[i] == (if old(a[j]) < old(a[i]) then old(a[j]) else old(a[i]))
    ensures a[j] == (if old(a[j]) < old(a[i]) then old(a[i]) else old(a[j]))
    ensures forall k :: 0 <= k < a.Length && k != i && k != j ==> a[k] == old(a[k])
    ensures PermutedWithin(old(a[..]), a[..], lo, hi)
  {
    if a[j] < a[i] {
      Swap(a, i, j);
    }
  }

  /** The three compare-and-swap steps of _partition: afterwards
      arr[low] <= arr[high] <= arr[mid], so arr[high] is the median of the
      three original values when the three positions are distinct. */
  method MedianToHigh(a: array<int>, low: int, mid: int, high: int)
    requires 0 <= low <= mid <= high < a.Length
    modifies a
    ensures PermutedWithin(old(a[..]), a[..], low, high + 1)
    ensures low < mid < high ==> a[high] == Median3(old(a[low]), old(a[mid]), old(a[high]))
  {
    ghost var s0 := a[..];
    ghost var x, y, z := a[low], a[mid], a[high];
    // A position compared with itself is never out of order, so the
    // guards skip only steps that would do nothing.
    if low < mid {
      OrderPair(a, low, mid, low, high + 1);
    }
    ghost var s1 := a[..];
    if low < high {
      OrderPair(a, low, high, low, high + 1);
    }
    ghost var s2 := a[..];
    PermutedWithinTrans(s0, s1, s2, low, high + 1, low, high + 1);
    if mid < high {
      OrderPair(a, high, mid, low, high + 1);
    }
    PermutedWithinTrans(s0, s2, a[..], low, high + 1, low, high + 1);
  }

  /** The scanning loop of _partition with pivot arr[high]: afterwards the
      returned i has arr[low..i) <= pivot <= arr[i..high). */
  method PartitionScan(a: array<int>, low: int, high: int) returns (i: int)
    requires 0 <= low <= high < a.Length
    modifies a
    ensures low <= i <= high && a[high] == old(a[high])
    ensures PermutedWithin(old(a[..]), a[..], low, high)
    ensures AllAtMost(a[..], low, i, a[high]) && AllAtLeast(a[..], i, high, a[high])
  {
    var pivot := a[high];
    i := low - 1;
    var j := high;
    while true
      invariant low - 1 <= i < j <= high
      invariant a[high] == pivot
      invariant AllAtMost(a[..], low, i + 1, pivot) && AllAtLeast(a[..], j, high, pivot)
      invariant PermutedWithin(old(a[..]), a[..], low, high)
      decreases j - i
    {
      i := i + 1;
      while a[i] < pivot
        invariant low <= i <= high
        invariant AllAtMost(a[..], low, i, pivot)
        decreases high - i
      {
        i := i + 1;
      }
      j := j - 1;
      while j >= low && a[j] > pivot
        invariant low - 1 <= j < high
        invariant AllAtLeast(a[..], j + 1, high, pivot)
        decreases j
      {
        j := j - 1;
      }
      if i >= j {
        break;
      }
      Swap(a, i, j);
    }
  }

  /** _partition: Hoare-style scan around the median-of-three pivot, which
      ends up at the returned index with nothing larger before it and
      nothing smaller after it in arr[low..high]. */
  method Partition(a: array<int>, low: int, high: int) returns (p: int)
    requires 0 <= low <= high < a.Length
    modifies a
    ensures low <= p <= high
    ensures PermutedWithin(old(a[..]), a[..], low, high + 1)
    ensures AllAtMost(a[..], low, p, a[p]) && AllAtLeast(a[..], p + 1, high + 1, a[p])
    ensures high - low >= 2 ==>
              a[p] == Median3(old(a[low]), old(a[(low + high) / 2]), old(a[high]))
  {
    var mid := (low + high) / 2;
    MedianToHigh(a, low, mid, high);
    ghost var pivot := a[high];
    var i := PartitionScan(a, low, high);
    Swap(a, i, high);
    p := i;
  }

  // ---------------------------------------------------------------------
  // Heapsort on arr[low..low+n), heap index k stored at arr[low + k]

  /** Node k of the heap of size n is at least each of its children. */
  predicate HeapAt(s: seq<int>, low: int, n: int, k: int)
    requires 0 <= low && low + n <= |s| && 0 <= k
  {
    (2 * k + 1 < n ==> s[low + 2 * k + 1] <= s[low + k]) &&
    (2 * k + 2 < n ==> s[low + 2 * k + 2] <= s[low + k])
  }

  /** s[low..low+n) is a max-heap. */
  predicate IsHeap(s: seq<int>, low: int, n: int)
    requires 0 <= low && low + n <= |s|
  {
    forall k :: 0 <= k < n ==> HeapAt(s, low, n, k)
  }

  /** k lies in the subtree rooted at r. */
  predicate InSubtree(k: int, r: int)
    decreases k
  {
    0 <= r <= k && (k == r || (k > 0 && InSubtree((k - 1) / 2, r)))
  }

  lemma {:induction false} SubtreeTrans(k: int, l: int, i: int)
    requires InSubtree(k, l) && InSubtree(l, i)
    ensures InSubtree(k, i)
    decreases k
  {
    if k != l {
      SubtreeTrans((k - 1) / 2, l, i);
    }
  }

  /** In a heap the root is a maximum. */
  lemma {:induction false} HeapRootMax(s: seq<int>, low: int, n: int, x: int)
    requires 0 <= low && low + n <= |s| && 0 <= x < n
    requires forall k :: 0 <= k < n ==> HeapAt(s, low, n, k)
    ensures s[low + x] <= s[low]
    decreases x
  {
    if x > 0 {
      var parent := (x - 1) / 2;
      assert HeapAt(s, low, n, parent);
      HeapRootMax(s, low, n, parent);
    }
  }

  /** The facts that close the recursive case of _heapify: node i received
      the larger child's value m, the old value of i went down to l and
      the recursive call restored the heap below l. */
  lemma {:induction false} HeapifyRecursiveCase(o: seq<int>, f: seq<int>, low: int, n: int, i: int, l: int)
    requires 0 <= low && low + n <= |o| == |f| && 0 <= i < l < n
    requires l == 2 * i + 1 || l == 2 * i + 2
    requires forall k :: i < k < n ==> HeapAt(o, low, n, k)
    requires o[low + i] <= o[low + l]
    requires 2 * i + 1 < n ==> o[low + 2 * i + 1] <= o[low + l]
    requires 2 * i + 2 < n ==> o[low + 2 * i + 2] <= o[low + l]
    requires f[low + i] == o[low + l]
    requires f[low + l] == o[low + i] ||
             (2 * l + 1 < n && f[low + l] == o[low + 2 * l + 1]) ||
             (2 * l + 2 < n && f[low + l] == o[low + 2 * l + 2])
    requires forall k :: l <= k < n ==> HeapAt(f, low, n, k)
    requires forall k :: 0 <= k < n && !InSubtree(k, l) && k != i ==> f[low + k] == o[low + k]
    ensures forall k :: i <= k < n ==> HeapAt(f, low, n, k)
  {
    assert HeapAt(o, low, n, l);
    forall k | i < k < l
      ensures HeapAt(f, low, n, k)
    {
      assert HeapAt(o, low, n, k);
      assert !InSubtree(k, l);
      assert 2 * k + 1 < n ==> !InSubtree(2 * k + 1, l);
      assert 2 * k + 2 < n ==> !InSubtree(2 * k + 2, l);
    }
    var sibling := if l == 2 * i + 1 then 2 * i + 2 else 2 * i + 1;
    assert sibling < n ==> !InSubtree(sibling, l);
  }

  /** Where the values of the recursive case of _heapify come from: node
      i keeps the child's value it was swapped, and only i's subtree
      changes. */
  lemma {:induction false} HeapifyFrame(o: seq<int>, mid: seq<int>, f: seq<int>, low: int, n: int, i: int, l: int)
    requires 0 <= low && low + n <= |o| == |mid| == |f| && 0 <= i < l < n
    requires l == 2 * i + 1 || l == 2 * i + 2
    requires mid == o[low + i := o[low + l]][low + l := o[low + i]]
    requires forall k :: 0 <= k < n && !InSubtree(k, l) ==> f[low + k] == mid[low + k]
    ensures f[low + i] == o[low + l]
    ensures forall k :: 0 <= k < n && !InSubtree(k, i) ==> f[low + k] == o[low + k]
    ensures forall k :: 0 <= k < n && !InSubtree(k, l) && k != i ==> f[low + k] == o[low + k]
  {
    assert InSubtree(l, i);
    assert !InSubtree(i, l);
    forall k | 0 <= k < n && !InSubtree(k, i)
      ensures f[low + k] == o[low + k]
    {
      if InSubtree(k, l) {
        SubtreeTrans(k, l, i);
      }
    }
  }

  /** _heapify: sift node i of the heap of size n down until both children
      are no larger; only nodes of i's subtree move. */
  method Heapify(a: array<int>, n: int, i: int, low: int)
    requires 0 <= low && 0 <= i < n && low + n <= a.Length
    requires forall k :: i < k < n ==> HeapAt(a[..], low, n, k)
    modifies a
    decreases n - i
    ensures forall k :: i <= k < n ==> HeapAt(a[..], low, n, k)
    ensures forall k :: 0 <= k < n && !InSubtree(k, i) ==> a[low + k] == old(a[low + k])
    ensures PermutedWithin(old(a[..]), a[..], low, low + n)
    ensures a[low + i] == old(a[low + i]) ||
            (2 * i + 1 < n && a[low + i] == old(a[low + 2 * i + 1])) ||
            (2 * i + 2 < n && a[low + i] == old(a[low + 2 * i + 2]))
  {
    var largest := i;
    var left := 2 * i + 1;
    var right := 2 * i + 2;
    if left < n && a[low + left] > a[low + largest] {
      largest := left;
    }
    if right < n && a[low + right] > a[low + largest] {
      largest := right;
    }
    if largest != i {
      ghost var o := a[..];
      Swap(a, low + i, low + largest);
      ghost var mid := a[..];
      forall k | largest < k < n
        ensures HeapAt(a[..], low, n, k)
      {
        assert HeapAt(o, low, n, k);
      }
      Heapify(a, n, largest, low);
      HeapifyFrame(o, mid, a[..], low, n, i, largest);
      HeapifyRecursiveCase(o, a[..], low, n, i, largest);
    }
  }

  /** One round of the extraction loop of _heap_sort_range: the root (a
      maximum) is swapped to heap position i, and the heap of size i is
      restored. The sorted tail grows by one. */
  lemma {:induction false} ExtractStep(p: seq<int>, q: seq<int>, f: seq<int>, low: int, n: int, i: int)
    requires 0 <= low && 0 < i < n && low + n <= |p|
    requires IsHeap(p, low, i + 1)
    requires SortedRange(p, low + i + 1, low + n)
    requires forall y :: low + i < y < low + n ==> AllAtMost(p, low, low + i + 1, p[y])
    requires q == p[low := p[low + i]][low + i := p[low]]
    requires PermutedWithin(q, f, low, low + i)
    ensures SortedRange(f, low + i, low + n)
    ensures forall y :: low + i - 1 < y < low + n ==> AllAtMost(f, low, low + i, f[y])
    ensures PermutedWithin(p, f, low, low + n)
  {
    var m := p[low];
    forall y | low <= y < low + i + 1
      ensures p[y] <= m
    {
      HeapRootMax(p, low, i + 1, y - low);
    }
    assert PermutedWithin(p, q, low, low + i + 1);
    assert AllAtMost(q, low, low + i, m);
    AtMostKept(q, f, low, low + i, m);
    forall y | low + i < y < low + n
      ensures AllAtMost(f, low, low + i, f[y])
    {
      AtMostKept(p, q, low, low + i + 1, p[y]);
      AtMostKept(q, f, low, low + i, p[y]);
    }
  }

  /** First half of _heap_sort_range: heapify every inner node, from the
      last one up to the root. */
  method BuildHeap(a: array<int>, low: int, n: int)
    requires 0 <= low && 0 <= n && low + n <= a.Length
    modifies a
    ensures IsHeap(a[..], low, n)
    ensures PermutedWithin(old(a[..]), a[..], low, low + n)
  {
    var i := n / 2 - 1;
    while i >= 0
      invariant -1 <= i <= n / 2 - 1
      invariant forall k :: i < k < n ==> HeapAt(a[..], low, n, k)
      invariant PermutedWithin(old(a[..]), a[..], low, low + n)
    {
      Heapify(a, n, i, low);
      i := i - 1;
    }
  }

  /** Second half of _heap_sort_range: swap the root to the end of the
      heap and shrink the heap by one, until one element is left. */
  method ExtractAll(a: array<int>, low: int, n: int)
    requires 0 <= low && 0 <= n && low + n <= a.Length
    requires IsHeap(a[..], low, n)
    modifies a
    ensures SortedRange(a[..], low, low + n)
    ensures PermutedWithin(old(a[..]), a[..], low, low + n)
  {
    if n == 0 {
      return;
    }
    var i := n - 1;
    while i > 0
      invariant 0 <= i < n
      invariant IsHeap(a[..], low, i + 1)
      invariant SortedRange(a[..], low + i + 1, low + n)
      invariant forall y :: low + i < y < low + n ==> AllAtMost(a[..], low, low + i + 1, a[y])
      invariant PermutedWithin(old(a[..]), a[..], low, low + n)
    {
      ExtractOne(a, low, n, i);
      i := i - 1;
    }
  }

  /** The body of the extraction loop for heap size i + 1. */
  method ExtractOne(a: array<int>, low: int, n: int, i: int)
    requires 0 <= low && 0 < i < n && low + n <= a.Length
    requires IsHeap(a[..], low, i + 1)
    requires SortedRange(a[..], low + i + 1, low + n)
    requires forall y :: low + i < y < low + n ==> AllAtMost(a[..], low, low + i + 1, a[y])
    modifies a
    ensures IsHeap(a[..], low, i)
    ensures SortedRange(a[..], low + i, low + n)
    ensures forall y :: low + i - 1 < y < low + n ==> AllAtMost(a[..], low, low + i, a[y])
    ensures PermutedWithin(old(a[..]), a[..], low, low + n)
  {
    ghost var p := a[..];
    Swap(a, low, low + i);
    ghost var q := a[..];
    forall k | 0 < k < i
      ensures HeapAt(q, low, i, k)
    {
      assert HeapAt(p, low, i + 1, k);
    }
    Heapify(a, i, 0, low);
    ExtractStep(p, q, a[..], low, n, i);
  }

  /** _heap_sort_range: build a max-heap on arr[low..high], then move the
      maximum to the end of the shrinking heap until it is empty. */
  method HeapSortRange(a: array<int>, low: int, high: int)
    requires 0 <= low <= high + 1 <= a.Length
    modifies a
    ensures SortedRange(a[..], low, high + 1)
    ensures PermutedWithin(old(a[..]), a[..], low, high + 1)
  {
    BuildHeap(a, low, high - low + 1);
    ExtractAll(a, low, high - low + 1);
  }

  /** heap_sort: an empty list is returned as it is; otherwise a sorted
      copy, leaving the argument alone. */
  method HeapSort(arr: seq<int>) returns (r: seq<int>)
    ensures Sorted(r) && multiset(r) == multiset(arr)
    ensures arr == [] ==> r == arr
  {
    if |arr| == 0 {
      return arr;
    }
    var a := new int[|arr|](k requires 0 <= k < |arr| => arr[k]);
    assert a[..] == arr;
    HeapSortRange(a, 0, |arr| - 1);
    r := a[..];
  }

  // ---------------------------------------------------------------------
  // Introsort

  /** A range whose every element is at most every element of the sorted
      tail after it, once sorted in place, extends the sorted tail. */
  lemma {:induction false} JoinSorted(s0: seq<int>, s1: seq<int>, low: int, hi: int, high: int)
    requires 0 <= low <= hi + 1 <= high + 1 <= |s0|
    requires SortedRange(s0, hi + 1, high + 1)
    requires forall y :: hi < y <= high ==> AllAtMost(s0, low, hi + 1, s0[y])
    requires PermutedWithin(s0, s1, low, hi + 1) && SortedRange(s1, low, hi + 1)
    ensures SortedRange(s1, low, high + 1)
  {
    forall y | hi < y <= high
      ensures AllAtMost(s1, low, hi + 1, s1[y])
    {
      AtMostKept(s0, s1, low, hi + 1, s0[y]);
    }
  }

  /** One round of the loop of _introsort_util: partition arr[low..hi],
      sort the part right of the pivot recursively, and continue with the
      part left of it. */
  lemma {:induction false} PartitionStep(s0: seq<int>, s1: seq<int>, s2: seq<int>, low: int, hi: int, high: int, p: int)
    requires 0 <= low <= p <= hi <= high < |s0|
    requires SortedRange(s0, hi + 1, high + 1)
    requires forall y :: hi < y <= high ==> AllAtMost(s0, low, hi + 1, s0[y])
    requires PermutedWithin(s0, s1, low, hi + 1)
    requires AllAtMost(s1, low, p, s1[p]) && AllAtLeast(s1, p + 1, hi + 1, s1[p])
    requires PermutedWithin(s1, s2, p + 1, hi + 1) && SortedRange(s2, p + 1, hi + 1)
    ensures SortedRange(s2, p, high + 1)
    ensures forall y :: p - 1 < y <= high ==> AllAtMost(s2, low, p, s2[y])
    ensures PermutedWithin(s0, s2, low, hi + 1)
  {
    AtLeastKept(s1, s2, p + 1, hi + 1, s1[p]);
    forall y | hi < y <= high
      ensures AllAtMost(s2, low, hi + 1, s2[y])
    {
      AtMostKept(s0, s1, low, hi + 1, s0[y]);
      AtMostKept(s1, s2, p + 1, hi + 1, s0[y]);
    }
  }

  /** _introsort_util: while the range has more than 17 elements, either
      heapsort it (depth budget spent) or partition it, recurse on the
      right part and loop on the left part; finish with insertion sort. */
  method IntrosortUtil(a: array<int>, low: int, high: int, depthLimit: int)
    requires 0 <= low <= high + 1 <= a.Length && depthLimit >= 0
    modifies a
    decreases high + 1 - low
    ensures SortedRange(a[..], low, high + 1)
    ensures PermutedWithin(old(a[..]), a[..], low, high + 1)
  {
    var hi := high;
    while hi - low > 16
      invariant low <= hi + 1 <= high + 1
      invariant SortedRange(a[..], hi + 1, high + 1)
      invariant forall y :: hi < y <= high ==> AllAtMost(a[..], low, hi + 1, a[y])
      invariant PermutedWithin(old(a[..]), a[..], low, high + 1)
      decreases hi - low
    {
      if depthLimit == 0 {
        ghost var before := a[..];
        HeapSortRange(a, low, hi);
        JoinSorted(before, a[..], low, hi, high);
        return;
      }
      ghost var s0 := a[..];
      var pivotIndex := Partition(a, low, hi);
      ghost var s1 := a[..];
      IntrosortUtil(a, pivotIndex + 1, hi, depthLimit - 1);
      PartitionStep(s0, s1, a[..], low, hi, high, pivotIndex);
      hi := pivotIndex - 1;
    }
    ghost var before := a[..];
    InsertionSortRange(a, low, hi);
    JoinSorted(before, a[..], low, hi, high);
  }

  function Pow2(k: nat): (r: nat)
    ensures r >= 1
  {
    if k == 0 then 1 else 2 * Pow2(k - 1)
  }

  /** int(math.log2(n)) for n >= 1: the largest k with 2^k <= n. */
  function Log2Floor(n: int): (k: nat)
    requires n >= 1
    ensures Pow2(k) <= n < 2 * Pow2(k)
  {
    if n < 2 then 0 else 1 + Log2Floor(n / 2)
  }

  /** quick_sort: an empty list is returned as it is; otherwise a sorted
      copy made by introsort with depth budget 2 * floor(log2 n). */
  method QuickSort(arr: seq<int>) returns (r: seq<int>)
    ensures Sorted(r) && multiset(r) == multiset(arr)
    ensures arr == [] ==> r == arr
  {
    if |arr| == 0 {
      return arr;
    }
    var a := new int[|arr|](k requires 0 <= k < |arr| => arr[k]);
    assert a[..] == arr;
    var depthLimit := 2 * Log2Floor(|arr|);
    IntrosortUtil(a, 0, |arr| - 1, depthLimit);
    r := a[..];
  }
}

=== FILE: ButlerTraversal.dfy ===
/** breadth_first_search and depth_first_search of butler/algorithms.py
    over an adjacency-list graph (a dict from node to list of neighbours,
    read with graph.get(v, [])). */
module ButlerTraversal {
  import opened GraphSpec

  /** No node occurs twice. */
  predicate Distinct<T(==)>(s: seq<T>)
  {
    forall i, j :: 0 <= i < j < |s| ==> s[i] != s[j]
  }

  /** A neighbour of a reachable node is reachable. */
  lemma {:induction false} ReachStep<N(!new)>(graph: map<N, seq<N>>, s: N, x: N, y: N)
    requires Reachable(graph, s, x) && y in Neighbors(graph, x)
    ensures Reachable(graph, s, y)
  {
    var p :| IsPath(graph, p) && p[0] == s && p[|p| - 1] == x;
    PathExtend(graph, p, y);
    assert (p + [y])[|p + [y]| - 1] == y;
  }

  /** What is reachable from a neighbour of s is reachable from s. */
  lemma {:induction false} ReachVia<N(!new)>(graph: map<N, seq<N>>, s: N, y: N, v: N)
    requires y in Neighbors(graph, s) && Reachable(graph, y, v)
    ensures Reachable(graph, s, v)
  {
    var p :| IsPath(graph, p) && p[0] == y && p[|p| - 1] == v;
    var q := [s] + p;
    assert forall i :: 1 <= i < |q| ==> q[i] == p[i - 1];
    assert IsPath(graph, q);
  }

  /** Every node reaches itself. */
  lemma {:induction false} ReachSelf<N(!new)>(graph: map<N, seq<N>>, s: N)
    ensures Reachable(graph, s, s)
  {
    assert IsPath(graph, [s]);
  }

  /** A proper subset is smaller. */
  lemma {:induction false} SubsetSmaller<N>(a: set<N>, b: set<N>)
    requires a < b
    ensures |a| < |b|
    decreases |b|
  {
    var x :| x in b && x !in a;
    if a == b - {x} {
    } else {
      SubsetSmaller(a, b - {x});
    }
  }

  /** Every neighbour of an order node outside `except` has been visited. */
  ghost predicate ClosedExcept<N>(graph: map<N, seq<N>>, order: seq<N>, visited: set<N>, except: set<N>)
  {
    forall x, y :: x in order && x !in except && y in Neighbors(graph, x) ==> y in visited
  }

  /** Invariant of the BFS loop: visited holds exactly the nodes already
      listed or still queued, no node is listed or queued twice, and every
      visited node is reachable from start. */
  ghost predicate BfsInv<N(!new)>(graph: map<N, seq<N>>, start: N, visited: set<N>, order: seq<N>, queue: seq<N>)
  {
    (forall v :: v in visited <==> v in order || v in queue) &&
    Distinct(order + queue) &&
    (forall v :: v in visited ==> Reachable(graph, start, v)) &&
    visited <= AllNodes(graph) &&
    (order != [] ==> order[0] == start)
  }

  /** queue.popleft() followed by order_visited.append(vertex). */
  lemma {:induction false} BfsPop<N(!new)>(graph: map<N, seq<N>>, start: N, visited: set<N>, order: seq<N>, queue: seq<N>)
    requires BfsInv(graph, start, visited, order, queue) && |queue| > 0
    requires order == [] ==> queue == [start]
    ensures BfsInv(graph, start, visited, order + [queue[0]], queue[1..])
    ensures queue[0] !in order && queue[0] in visited && queue[0] in AllNodes(graph)
  {
    var o, q := order + [queue[0]], queue[1..];
    assert order + queue == o + q;
    assert (order + queue)[|order|] == queue[0];
    forall i | 0 <= i < |order|
      ensures order[i] != queue[0]
    {
      assert (order + queue)[i] == order[i];
    }
    forall v | v in visited
      ensures v in o || v in q
    {
      if v in queue {
        var i :| 0 <= i < |queue| && queue[i] == v;
        if i > 0 {
          assert q[i - 1] == v;
        }
      }
    }
  }

  /** visited.add(neighbor) followed by queue.append(neighbor). */
  lemma {:induction false} BfsPush<N(!new)>(graph: map<N, seq<N>>, start: N, visited: set<N>, order: seq<N>, queue: seq<N>,
                         except: set<N>, x: N, y: N)
    requires BfsInv(graph, start, visited, order, queue) && ClosedExcept(graph, order, visited, except)
    requires x in visited && y in Neighbors(graph, x) && y !in visited
    ensures BfsInv(graph, start, visited + {y}, order, queue + [y])
    ensures ClosedExcept(graph, order, visited + {y}, except)
  {
    ReachStep(graph, start, x, y);
    assert forall i :: 0 <= i < |order + queue| ==> (order + queue)[i] != y;
    assert (order + queue) + [y] == order + (queue + [y]);
  }

  /** Every listed node after the first is a neighbour of a node listed
      before it, and nodes are listed in the order of the first listed
      node that has them as a neighbour: whenever order[k] is a neighbour
      of order[j], every node listed after the start and before order[k]
      is a neighbour of a node listed no later than order[j]. */
  ghost predicate BreadthFirst<N>(graph: map<N, seq<N>>, order: seq<N>)
  {
    forall i, j, k :: 0 < i < k < |order| && 0 <= j < |order| && order[k] in Neighbors(graph, order[j]) ==>
      HasParentUpTo(graph, order, i, j)
  }

  ghost predicate HasParentUpTo<N>(graph: map<N, seq<N>>, order: seq<N>, i: nat, j: nat)
    requires i < |order| && j < |order|
  {
    exists p :: 0 <= p <= j && order[i] in Neighbors(graph, order[p])
  }

  /** The discovery record of the BFS loop over all == order + queue, of
      which the first n are listed: par[i] is the position of the listed
      node that discovered all[i], the first listed node having all[i] as
      a neighbour, and positions are discovered in the order of their
      discoverers. */
  ghost predicate Discovered<N>(graph: map<N, seq<N>>, all: seq<N>, n: nat, par: seq<int>)
  {
    |par| == |all| && n <= |all| &&
    DiscoveredBy(graph, all, n, par) && DiscoveredFirst(graph, all, par) && DiscoveredInOrder(all, par)
  }

  ghost predicate DiscoveredBy<N>(graph: map<N, seq<N>>, all: seq<N>, n: nat, par: seq<int>)
    requires |par| == |all|
  {
    forall i :: 0 < i < |all| ==> 0 <= par[i] < n && par[i] < i && all[i] in Neighbors(graph, all[par[i]])
  }

  ghost predicate DiscoveredFirst<N>(graph: map<N, seq<N>>, all: seq<N>, par: seq<int>)
    requires |par| == |all|
  {
    forall i, j :: 0 < i < |all| && 0 <= j < par[i] && j < |all| ==> all[i] !in Neighbors(graph, all[j])
  }

  ghost predicate DiscoveredInOrder<N>(all: seq<N>, par: seq<int>)
    requires |par| == |all|
  {
    forall a, b :: 0 < a < b < |all| ==> par[a] <= par[b]
  }

  /** queue.popleft() and order_visited.append(vertex) list one more
      position of the same sequence. */
  lemma {:induction false} DiscoverPop<N>(graph: map<N, seq<N>>, order: seq<N>, queue: seq<N>, par: seq<int>)
    requires Discovered(graph, order + queue, |order|, par) && |queue| > 0
    ensures Discovered(graph, (order + [queue[0]]) + queue[1..], |order| + 1, par)
  {
    assert (order + [queue[0]]) + queue[1..] == order + queue;
  }

  /** Appending a neighbour y of the last listed node, which no earlier
      listed node has as a neighbour, records that node as y's discoverer. */
  lemma {:induction false} DiscoverPush<N>(graph: map<N, seq<N>>, all: seq<N>, n: nat, par: seq<int>, y: N)
    requires Discovered(graph, all, n, par) && 0 < n
    requires y in Neighbors(graph, all[n - 1]) && forall j :: 0 <= j < n - 1 ==> y !in Neighbors(graph, all[j])
    ensures Discovered(graph, all + [y], n, par + [n - 1])
  {
    PushedBy(graph, all, n, par, y);
    PushedFirst(graph, all, n, par, y);
    PushedInOrder(all, n, par, y);
  }

  lemma {:induction false} PushedBy<N>(graph: map<N, seq<N>>, all: seq<N>, n: nat, par: seq<int>, y: N)
    requires |par| == |all| && 0 < n <= |all| && DiscoveredBy(graph, all, n, par)
    requires y in Neighbors(graph, all[n - 1])
    ensures DiscoveredBy(graph, all + [y], n, par + [n - 1])
  {
    var all', p := all + [y], par + [n - 1];
    forall i | 0 < i < |all'|
      ensures 0 <= p[i] < n && p[i] < i && all'[i] in Neighbors(graph, all'[p[i]])
    {
      if i < |all| {
        assert all'[i] == all[i] && p[i] == par[i] && all'[par[i]] == all[par[i]];
      } else {
        assert all'[n - 1] == all[n - 1];
      }
    }
  }

  lemma {:induction false} PushedFirst<N>(graph: map<N, seq<N>>, all: seq<N>, n: nat, par: seq<int>, y: N)
    requires |par| == |all| && 0 < n <= |all| && DiscoveredFirst(graph, all, par)
    requires forall i :: 0 < i < |all| ==> par[i] < n
    requires forall j :: 0 <= j < n - 1 ==> y !in Neighbors(graph, all[j])
    ensures DiscoveredFirst(graph, all + [y], par + [n - 1])
  {
    var all', p := all + [y], par + [n - 1];
    forall i, j | 0 < i < |all'| && 0 <= j < p[i] && j < |all'|
      ensures all'[i] !in Neighbors(graph, all'[j])
    {
      if i < |all| {
        assert all'[i] == all[i] && p[i] == par[i] && all'[j] == all[j];
      } else {
        assert all'[j] == all[j];
      }
    }
  }

  lemma {:induction false} PushedInOrder<N>(all: seq<N>, n: nat, par: seq<int>, y: N)
    requires |par| == |all| && DiscoveredInOrder(all, par)
    requires forall i :: 0 < i < |all| ==> par[i] < n
    ensures DiscoveredInOrder(all + [y], par + [n - 1])
  {
    var p := par + [n - 1];
    forall a, b | 0 < a < b < |all| + 1
      ensures p[a] <= p[b]
    {
      assert p[a] == par[a];
    }
  }

  /** An unvisited node is a neighbour of no listed node other than the
      one whose neighbours are being visited, the last one. */
  lemma {:induction false} NotEarlierNeighbor<N(!new)>(graph: map<N, seq<N>>, start: N, visited: set<N>, order: seq<N>,
                                                        queue: seq<N>, x: N, y: N)
    requires BfsInv(graph, start, visited, order, queue) && ClosedExcept(graph, order, visited, {x})
    requires order != [] && order[|order| - 1] == x && y !in visited
    ensures forall j :: 0 <= j < |order| - 1 ==> y !in Neighbors(graph, (order + queue)[j])
  {
    var all := order + queue;
    forall j | 0 <= j < |order| - 1
      ensures y !in Neighbors(graph, all[j])
    {
      assert all[j] == order[j] && all[|order| - 1] == x;
      assert order[j] in order && order[j] != x;
    }
  }

  /** With the queue empty the discovery record gives breadth-first order. */
  lemma {:induction false} DiscoverDone<N>(graph: map<N, seq<N>>, order: seq<N>, par: seq<int>)
    requires Discovered(graph, order, |order|, par)
    ensures ParentsBefore(graph, order) && BreadthFirst(graph, order)
  {
    forall i | 0 < i < |order|
      ensures HasParentBefore(graph, order, i)
    {
      assert order[i] in Neighbors(graph, order[par[i]]);
    }
    forall i, j, k | 0 < i < k < |order| && 0 <= j < |order| && order[k] in Neighbors(graph, order[j])
      ensures HasParentUpTo(graph, order, i, j)
    {
      assert par[i] <= par[k] <= j;
      assert order[i] in Neighbors(graph, order[par[i]]);
    }
  }

  /** breadth_first_search(graph, start_node): [] when start is not a key;
      otherwise every node reachable from start, each once, start first,
      in breadth-first order. */
  method BreadthFirstSearch<N(!new)>(graph: map<N, seq<N>>, start: N) returns (order: seq<N>)
    ensures start !in graph ==> order == []
    ensures start in graph ==> |order| > 0 && order[0] == start
    ensures Distinct(order)
    ensures forall v :: v in order ==> Reachable(graph, start, v)
    ensures start in graph ==> forall v :: Reachable(graph, start, v) ==> v in order
    ensures ParentsBefore(graph, order) && BreadthFirst(graph, order)
  {
    if start !in graph {
      return [];
    }
    var visited := {start};
    var queue := [start];
    order := [];
    ghost var done: set<N> := {};
    ghost var par: seq<int> := [-1];
    ReachSelf(graph, start);
    while |queue| > 0
      invariant BfsInv(graph, start, visited, order, queue) && ClosedExcept(graph, order, visited, {})
      invariant forall v :: v in done <==> v in order
      invariant order == [] ==> queue == [start]
      invariant Discovered(graph, order + queue, |order|, par)
      decreases |AllNodes(graph) - done|
    {
      visited, order, queue, par, done := BfsRound(graph, start, visited, order, queue, par, done);
    }
    BfsDone(graph, start, visited, order, queue, par);
  }

  /** One round of the BFS loop: popleft a vertex, list it, and queue its
      unvisited neighbours. */
  method BfsRound<N(!new)>(graph: map<N, seq<N>>, start: N, visited0: set<N>, order0: seq<N>, queue0: seq<N>,
                           ghost par0: seq<int>, ghost done0: set<N>)
    returns (visited: set<N>, order: seq<N>, queue: seq<N>, ghost par: seq<int>, ghost done: set<N>)
    requires BfsInv(graph, start, visited0, order0, queue0) && ClosedExcept(graph, order0, visited0, {})
    requires (forall v :: v in done0 <==> v in order0) && |queue0| > 0 && (order0 == [] ==> queue0 == [start])
    requires Discovered(graph, order0 + queue0, |order0|, par0)
    ensures BfsInv(graph, start, visited, order, queue) && ClosedExcept(graph, order, visited, {})
    ensures (forall v :: v in done <==> v in order) && order != []
    ensures Discovered(graph, order + queue, |order|, par)
    ensures |AllNodes(graph) - done| < |AllNodes(graph) - done0|
  {
    var vertex := queue0[0];
    BfsPopStep(graph, start, visited0, order0, queue0, par0);
    queue := queue0[1..];
    order := order0 + [vertex];
    assert AllNodes(graph) - (done0 + {vertex}) == (AllNodes(graph) - done0) - {vertex};
    done := done0 + {vertex};
    visited, queue, par := VisitNeighbors(graph, start, vertex, visited0, order, queue, par0);
  }

  /** One popleft of the BFS loop: the invariant, the discovery record
      and closure (except for the popped vertex) carry over. */
  lemma {:induction false} BfsPopStep<N(!new)>(graph: map<N, seq<N>>, start: N, visited: set<N>, order: seq<N>,
                                                queue: seq<N>, par: seq<int>)
    requires BfsInv(graph, start, visited, order, queue) && ClosedExcept(graph, order, visited, {})
    requires |queue| > 0 && (order == [] ==> queue == [start])
    requires Discovered(graph, order + queue, |order|, par)
    ensures var o, q := order + [queue[0]], queue[1..];
      BfsInv(graph, start, visited, o, q) && ClosedExcept(graph, o, visited, {queue[0]}) &&
      Discovered(graph, o + q, |o|, par) && o != [] && o[|o| - 1] == queue[0]
    ensures queue[0] !in order && queue[0] in visited && queue[0] in AllNodes(graph)
  {
    BfsPop(graph, start, visited, order, queue);
    DiscoverPop(graph, order, queue, par);
  }

  /** The inner loop of breadth_first_search: every neighbour of vertex
      not yet visited is marked visited and appended to the queue. */
  method VisitNeighbors<N(!new)>(graph: map<N, seq<N>>, start: N, vertex: N, visited0: set<N>, order: seq<N>, queue0: seq<N>,
                                 ghost par0: seq<int>)
    returns (visited: set<N>, queue: seq<N>, ghost par: seq<int>)
    requires BfsInv(graph, start, visited0, order, queue0) && ClosedExcept(graph, order, visited0, {vertex})
    requires vertex in visited0
    requires order != [] && order[|order| - 1] == vertex && Discovered(graph, order + queue0, |order|, par0)
    ensures BfsInv(graph, start, visited, order, queue) && ClosedExcept(graph, order, visited, {})
    ensures Discovered(graph, order + queue, |order|, par)
  {
    visited, queue, par := visited0, queue0, par0;
    var nbrs := Neighbors(graph, vertex);
    var k := 0;
    while k < |nbrs|
      invariant 0 <= k <= |nbrs|
      invariant BfsInv(graph, start, visited, order, queue) && ClosedExcept(graph, order, visited, {vertex})
      invariant AllVisited(nbrs[..k], visited) && vertex in visited
      invariant Discovered(graph, order + queue, |order|, par)
    {
      var neighbor := nbrs[k];
      ghost var visited1 := visited;
      if neighbor !in visited {
        NotEarlierNeighbor(graph, start, visited, order, queue, vertex, neighbor);
        assert (order + queue)[|order| - 1] == vertex;
        DiscoverPush(graph, order + queue, |order|, par, neighbor);
        assert (order + queue) + [neighbor] == order + (queue + [neighbor]);
        BfsPush(graph, start, visited, order, queue, {vertex}, vertex, neighbor);
        visited := visited + {neighbor};
        queue := queue + [neighbor];
        par := par + [|order| - 1];
      }
      AllVisitedGrow(nbrs, k, visited1, visited);
      k := k + 1;
    }
    assert nbrs[..k] == nbrs;
    ClosedAdd(graph, order, visited, vertex);
  }

  /** Every node of s is in visited. */
  ghost predicate AllVisited<N>(s: seq<N>, visited: set<N>)
  {
    forall y :: y in s ==> y in visited
  }

  lemma {:induction false} AllVisitedGrow<N>(nbrs: seq<N>, k: nat, visited1: set<N>, visited: set<N>)
    requires k < |nbrs| && AllVisited(nbrs[..k], visited1) && visited1 <= visited && nbrs[k] in visited
    ensures AllVisited(nbrs[..k + 1], visited)
  {
    assert nbrs[..k + 1] == nbrs[..k] + [nbrs[k]];
  }

  /** Once all neighbours of x are visited, x need not be excepted. */
  lemma {:induction false} ClosedAdd<N>(graph: map<N, seq<N>>, order: seq<N>, visited: set<N>, x: N)
    requires ClosedExcept(graph, order, visited, {x}) && AllVisited(Neighbors(graph, x), visited)
    ensures ClosedExcept(graph, order, visited, {})
  {
  }

  /** With the queue empty, visited is closed under neighbours, so it holds
      everything reachable from start. */
  lemma {:induction false} BfsDone<N(!new)>(graph: map<N, seq<N>>, start: N, visited: set<N>, order: seq<N>, queue: seq<N>,
                                             par: seq<int>)
    requires BfsInv(graph, start, visited, order, queue) && ClosedExcept(graph, order, visited, {})
    requires queue == [] && order != [] && Discovered(graph, order + queue, |order|, par)
    ensures order[0] == start && Distinct(order)
    ensures forall v :: v in order ==> Reachable(graph, start, v)
    ensures forall v :: Reachable(graph, start, v) ==> v in order
    ensures ParentsBefore(graph, order) && BreadthFirst(graph, order)
  {
    assert order + queue == order;
    DiscoverDone(graph, order, par);
    forall v | Reachable(graph, start, v)
      ensures v in order
    {
      ClosedHoldsReachable(graph, visited, start, v);
    }
  }

  /** Invariant of the DFS loop: visitedOut is visited plus the listed
      nodes, which are distinct, new and reachable from node. */
  ghost predicate DfsInv<N(!new)>(graph: map<N, seq<N>>, node: N, visited: set<N>, order: seq<N>, visitedOut: set<N>)
  {
    (forall v :: v in visitedOut <==> v in visited || v in order) &&
    Distinct(order) && (forall v :: v in order ==> v !in visited) &&
    (forall v :: v in order ==> Reachable(graph, node, v))
  }

  /** order_visited.extend(depth_first_search(graph, neighbor, visited)). */
  lemma {:induction false} DfsAppend<N(!new)>(graph: map<N, seq<N>>, node: N, visited: set<N>, order: seq<N>, vis: set<N>,
                           nbr: N, sub: seq<N>, vis2: set<N>)
    requires DfsInv(graph, node, visited, order, vis) && ClosedExcept(graph, order, vis, {node})
    requires nbr in Neighbors(graph, node)
    requires forall v :: v in vis2 <==> v in vis || v in sub
    requires Distinct(sub) && forall v :: v in sub ==> v !in vis
    requires forall v :: v in sub ==> Reachable(graph, nbr, v)
    requires forall x, y :: x in sub && y in Neighbors(graph, x) ==> y in vis2
    ensures DfsInv(graph, node, visited, order + sub, vis2) && ClosedExcept(graph, order + sub, vis2, {node})
  {
    forall v | v in sub
      ensures Reachable(graph, node, v)
    {
      ReachVia(graph, node, nbr, v);
    }
    var o := order + sub;
    forall i, j | 0 <= i < j < |o|
      ensures o[i] != o[j]
    {
      if j >= |order| && i < |order| {
        assert o[j] == sub[j - |order|] && o[i] in vis;
      }
    }
  }

  /** A subset is not larger. */
  lemma {:induction false} SubsetNotLarger<N>(a: set<N>, b: set<N>)
    requires a <= b
    ensures |a| <= |b|
  {
    if a != b {
      SubsetSmaller(a, b);
    }
  }

  /** The recursion of depth_first_search as a definition: a visited node
      gives nothing; otherwise the node, then the results for its
      neighbours in adjacency order, each computed with the visited set the
      previous ones left. The second component is the visited set after. */
  ghost function Preorder<N(!new)>(graph: map<N, seq<N>>, node: N, visited: set<N>): (r: (seq<N>, set<N>))
    ensures visited <= r.1
    decreases |(AllNodes(graph) + {node}) - visited|, 0
  {
    if node in visited then ([], visited)
    else
      SubsetSmaller(AllNodes(graph) - (visited + {node}), (AllNodes(graph) + {node}) - visited);
      var rest := PreorderAll(graph, Neighbors(graph, node), visited + {node});
      ([node] + rest.0, rest.1)
  }

  /** The `for neighbor in ...: order_visited.extend(...)` loop as a
      definition. */
  ghost function PreorderAll<N(!new)>(graph: map<N, seq<N>>, nbrs: seq<N>, visited: set<N>): (r: (seq<N>, set<N>))
    requires forall v :: v in nbrs ==> v in AllNodes(graph)
    ensures visited <= r.1
    decreases |AllNodes(graph) - visited|, |nbrs|
  {
    if nbrs == [] then ([], visited)
    else
      assert AllNodes(graph) + {nbrs[0]} == AllNodes(graph);
      var first := Preorder(graph, nbrs[0], visited);
      SubsetNotLarger(AllNodes(graph) - first.1, AllNodes(graph) - visited);
      var rest := PreorderAll(graph, nbrs[1..], first.1);
      (first.0 + rest.0, rest.1)
  }

  /** Every node after the first is a neighbour of a node listed before it. */
  ghost predicate ParentsBefore<N>(graph: map<N, seq<N>>, order: seq<N>)
  {
    forall i :: 0 < i < |order| ==> HasParentBefore(graph, order, i)
  }

  ghost predicate HasParentBefore<N>(graph: map<N, seq<N>>, order: seq<N>, i: nat)
    requires i < |order|
  {
    exists j :: 0 <= j < i && order[i] in Neighbors(graph, order[j])
  }

  /** Extending by a neighbour's result, which starts with the neighbour,
      keeps every node after the first a neighbour of an earlier one. */
  lemma {:induction false} ParentsAppend<N>(graph: map<N, seq<N>>, order: seq<N>, nbr: N, sub: seq<N>)
    requires ParentsBefore(graph, order) && ParentsBefore(graph, sub)
    requires order != [] && nbr in Neighbors(graph, order[0])
    requires sub != [] ==> sub[0] == nbr
    ensures ParentsBefore(graph, order + sub)
  {
    var o := order + sub;
    forall i | 0 < i < |o|
      ensures HasParentBefore(graph, o, i)
    {
      if i < |order| {
        assert HasParentBefore(graph, order, i);
        var j :| 0 <= j < i && order[i] in Neighbors(graph, order[j]);
        assert o[j] == order[j] && o[i] == order[i];
      } else {
        var t := i - |order|;
        assert o[i] == sub[t];
        if t == 0 {
          assert o[0] == order[0];
        } else {
          assert HasParentBefore(graph, sub, t);
          var j :| 0 <= j < t && sub[t] in Neighbors(graph, sub[j]);
          assert o[|order| + j] == sub[j];
        }
      }
    }
  }

  /** One step of the neighbour loop: the first neighbour's result, then
      the others' from the visited set it left. */
  lemma {:induction false} PreorderStep<N(!new)>(graph: map<N, seq<N>>, nbrs: seq<N>, k: nat, visited: set<N>,
                                                  order: seq<N>, sub: seq<N>, vis: set<N>)
    requires k < |nbrs| && forall v :: v in nbrs ==> v in AllNodes(graph)
    requires (sub, vis) == Preorder(graph, nbrs[k], visited)
    ensures var rest, later := PreorderAll(graph, nbrs[k..], visited), PreorderAll(graph, nbrs[k + 1..], vis);
            (order + rest.0, rest.1) == ((order + sub) + later.0, later.1)
  {
    assert nbrs[k..][0] == nbrs[k] && nbrs[k..][1..] == nbrs[k + 1..];
    var later := PreorderAll(graph, nbrs[k + 1..], vis);
    assert PreorderAll(graph, nbrs[k..], visited) == (sub + later.0, later.1);
    assert order + (sub + later.0) == (order + sub) + later.0;
  }

  /** One round of the DFS neighbour loop: extending the order by the
      result for nbrs[k] keeps every loop invariant. */
  lemma {:induction false} DfsStep<N(!new)>(graph: map<N, seq<N>>, node: N, visited: set<N>, order: seq<N>, vis1: set<N>,
                                            nbrs: seq<N>, k: nat, sub: seq<N>, vis: set<N>)
    requires nbrs == Neighbors(graph, node) && k < |nbrs| && forall v :: v in nbrs ==> v in AllNodes(graph)
    requires DfsInv(graph, node, visited, order, vis1) && ClosedExcept(graph, order, vis1, {node})
    requires |order| > 0 && order[0] == node && AllVisited(nbrs[..k], vis1) && ParentsBefore(graph, order)
    requires var rest := PreorderAll(graph, nbrs[k..], vis1); Preorder(graph, node, visited) == (order + rest.0, rest.1)
    requires forall v :: v in vis <==> v in vis1 || v in sub
    requires Distinct(sub) && (forall v :: v in sub ==> v !in vis1)
    requires sub != [] ==> sub[0] == nbrs[k]
    requires forall v :: v in sub ==> Reachable(graph, nbrs[k], v)
    requires forall x, y :: x in sub && y in Neighbors(graph, x) ==> y in vis
    requires (sub, vis) == Preorder(graph, nbrs[k], vis1) && ParentsBefore(graph, sub)
    ensures DfsInv(graph, node, visited, order + sub, vis) && ClosedExcept(graph, order + sub, vis, {node})
    ensures |order + sub| > 0 && (order + sub)[0] == node && AllVisited(nbrs[..k + 1], vis)
    ensures ParentsBefore(graph, order + sub)
    ensures var rest := PreorderAll(graph, nbrs[k + 1..], vis); Preorder(graph, node, visited) == ((order + sub) + rest.0, rest.1)
  {
    DfsAppend(graph, node, visited, order, vis1, nbrs[k], sub, vis);
    ParentsAppend(graph, order, nbrs[k], sub);
    PreorderStep(graph, nbrs, k, vis1, order, sub, vis);
    AllVisitedGrow(nbrs, k, vis1, vis);
  }

  /** depth_first_search(graph, start_node, visited): the preorder of the
      nodes first reached from node, each once, none of them already in
      visited. The source mutates visited in place; here the set is passed
      in and handed back. */
  method DepthFirstSearch<N(!new)>(graph: map<N, seq<N>>, node: N, visited: set<N>) returns (order: seq<N>, visitedOut: set<N>)
    ensures forall v :: v in visitedOut <==> v in visited || v in order
    ensures Distinct(order) && forall v :: v in order ==> v !in visited
    ensures node in visited ==> order == []
    ensures node !in visited ==> |order| > 0 && order[0] == node
    ensures forall v :: v in order ==> Reachable(graph, node, v)
    ensures forall x, y :: x in order && y in Neighbors(graph, x) ==> y in visitedOut
    ensures (order, visitedOut) == Preorder(graph, node, visited)
    ensures ParentsBefore(graph, order)
    decreases |(AllNodes(graph) + {node}) - visited|, 0
  {
    if node in visited {
      return [], visited;
    }
    SubsetSmaller(AllNodes(graph) - (visited + {node}), (AllNodes(graph) + {node}) - visited);
    order, visitedOut := DfsNeighbors(graph, node, visited);
  }

  /** The body of depth_first_search for a node not yet visited: mark and
      list the node, then extend the order by the result for each
      neighbour in adjacency order. */
  method DfsNeighbors<N(!new)>(graph: map<N, seq<N>>, node: N, visited: set<N>) returns (order: seq<N>, visitedOut: set<N>)
    requires node !in visited
    ensures forall v :: v in visitedOut <==> v in visited || v in order
    ensures Distinct(order) && forall v :: v in order ==> v !in visited
    ensures |order| > 0 && order[0] == node
    ensures forall v :: v in order ==> Reachable(graph, node, v)
    ensures forall x, y :: x in order && y in Neighbors(graph, x) ==> y in visitedOut
    ensures (order, visitedOut) == Preorder(graph, node, visited)
    ensures ParentsBefore(graph, order)
    decreases |AllNodes(graph) - (visited + {node})|, 1
  {
    visitedOut := visited + {node};
    order := [node];
    ReachSelf(graph, node);
    var nbrs := Neighbors(graph, node);
    assert nbrs[0..] == nbrs;
    var k := 0;
    while k < |nbrs|
      invariant 0 <= k <= |nbrs|
      invariant DfsInv(graph, node, visited, order, visitedOut) && ClosedExcept(graph, order, visitedOut, {node})
      invariant |order| > 0 && order[0] == node && visited + {node} <= visitedOut
      invariant AllVisited(nbrs[..k], visitedOut)
      invariant ParentsBefore(graph, order)
      invariant var rest := PreorderAll(graph, nbrs[k..], visitedOut);
                Preorder(graph, node, visited) == (order + rest.0, rest.1)
    {
      var neighbor := nbrs[k];
      assert neighbor in AllNodes(graph) && AllNodes(graph) + {neighbor} == AllNodes(graph);
      SubsetNotLarger(AllNodes(graph) - visitedOut, AllNodes(graph) - (visited + {node}));
      var sub, vis := DepthFirstSearch(graph, neighbor, visitedOut);
      DfsStep(graph, node, visited, order, visitedOut, nbrs, k, sub, vis);
      order := order + sub;
      visitedOut := vis;
      k := k + 1;
    }
    assert nbrs[..k] == nbrs && nbrs[k..] == [];
    assert order + PreorderAll(graph, nbrs[k..], visitedOut).0 == order;
    ClosedAdd(graph, order, visitedOut, node);
  }

  /** depth_first_search(graph, start_node) with the default visited=None:
      the preorder from start, which lists every node reachable from start,
      each once, start first. */
  method DepthFirstSearchFrom<N(!new)>(graph: map<N, seq<N>>, start: N) returns (order: seq<N>)
    ensures |order| > 0 && order[0] == start && Distinct(order)
    ensures forall v :: v in order <==> Reachable(graph, start, v)
    ensures order == Preorder(graph, start, {}).0 && ParentsBefore(graph, order)
  {
    var visited;
    order, visited := DepthFirstSearch(graph, start, {});
    forall v | Reachable(graph, start, v)
      ensures v in order
    {
      ClosedHoldsReachable(graph, visited, start, v);
    }
  }
}

=== FILE: Chunking.dfy ===
/** Cutting a sequence into consecutive pieces of a fixed size, the last
    piece possibly shorter: the list comprehension
    `[s[i : i + n] for i in range(0, len(s), n)]` for a positive n. */
module Chunking {
  import opened PyArith

  /** The pieces put back together, in order. */
  function Flatten<T>(xs: seq<seq<T>>): seq<T>
  {
    if xs == [] then [] else xs[0] + Flatten(xs[1..])
  }

  /** The pieces of s of size n, left to right. */
  function Chunks<T>(s: seq<T>, n: nat): (r: seq<seq<T>>)
    requires n > 0
    ensures r == [] <==> s == []
    decreases |s|
  {
    if s == [] then []
    else if |s| <= n then [s]
    else [s[..n]] + Chunks(s[n..], n)
  }

  /** Every piece has n elements except the last, which has between 1
      and n. */
  ghost predicate WellCut<T>(r: seq<seq<T>>, n: nat)
  {
    (forall k :: 0 <= k < |r| - 1 ==> |r[k]| == n) &&
    (r != [] ==> 0 < |r[|r| - 1]| <= n)
  }

  lemma {:induction false} FlattenCons<T>(x: seq<T>, xs: seq<seq<T>>)
    ensures Flatten([x] + xs) == x + Flatten(xs)
  {
    assert ([x] + xs)[0] == x && ([x] + xs)[1..] == xs;
  }

  /** Putting the pieces back together gives s. */
  lemma {:induction false} FlattenChunks<T>(s: seq<T>, n: nat)
    requires n > 0
    ensures Flatten(Chunks(s, n)) == s
    decreases |s|
  {
    if s != [] && |s| > n {
      FlattenChunks(s[n..], n);
      FlattenCons(s[..n], Chunks(s[n..], n));
      assert s == s[..n] + s[n..];
    }
  }

  /** The pieces are cut to size. */
  lemma {:induction false} ChunksWellCut<T>(s: seq<T>, n: nat)
    requires n > 0
    ensures WellCut(Chunks(s, n), n)
    decreases |s|
  {
    if s != [] && |s| > n {
      ChunksWellCut(s[n..], n);
      var rest := Chunks(s[n..], n);
      var r := [s[..n]] + rest;
      forall k | 0 <= k < |r| - 1
        ensures |r[k]| == n
      {
        if k > 0 {
          assert r[k] == rest[k - 1];
        }
      }
      assert r[|r| - 1] == rest[|rest| - 1];
    }
  }

  /** There are ceil(|s| / n) pieces. */
  lemma {:induction false} ChunksCount<T>(s: seq<T>, n: nat)
    requires n > 0
    ensures |Chunks(s, n)| == (|s| + n - 1) / n
    decreases |s|
  {
    if s == [] {
      DivUnique(n - 1, n, 0, n - 1);
    } else if |s| <= n {
      DivUnique(|s| + n - 1, n, 1, |s| - 1);
    } else {
      ChunksCount(s[n..], n);
      DivPlusOne(|s| - n + n - 1, n);
    }
  }

  /** Cutting at a multiple of n splits the pieces there: one more piece
      of n elements is cut off the front of what is left. */
  lemma {:induction false} ChunksStep<T>(s: seq<T>, i: nat, n: nat)
    requires n > 0 && i < |s|
    ensures var end := if i + n <= |s| then i + n else |s|;
      Chunks(s[i..], n) == [s[i..end]] + (if end < |s| then Chunks(s[end..], n) else [])
  {
    var t := s[i..];
    if |t| > n {
      assert t[..n] == s[i..i + n];
      assert t[n..] == s[i + n..];
    } else {
      assert t == s[i..|s|];
    }
  }
}

=== FILE: CommandMatch.dfy ===
/** The command matcher of plugin/plugin.py: the table of plugins with
    the phrases that trigger each, and the search for the first plugin one
    of whose phrases occurs in a spoken command. */
module CommandMatch {
  import opened Wrappers
  import opened PyStrings

  /** A "takecommand" value: one phrase, or a list or set of phrases (a
      set is given in some order; any order gives the same answer). */
  datatype Trigger = Phrase(text: string) | Phrases(texts: seq<string>)

  datatype PluginEntry = PluginEntry(name: string, takecommand: Trigger, args: map<string, string>)

  /** A single phrase is treated as a list of one. */
  function PhraseList(t: Trigger): (r: seq<string>)
    ensures t.Phrase? ==> r == [t.text]
    ensures t.Phrases? ==> r == t.texts
  {
    match t
    case Phrase(text) => [text]
    case Phrases(texts) => texts
  }

  /** any(cmd in command for cmd in takecommands). */
  predicate Fires(e: PluginEntry, command: string)
  {
    exists k :: 0 <= k < |PhraseList(e.takecommand)| && Contains(command, PhraseList(e.takecommand)[k])
  }

  /** A plugin triggered by a single phrase fires exactly when that phrase
      occurs in the command, as one triggered by a list holding only it. */
  lemma {:induction false} SinglePhraseFires(name: string, text: string, args: map<string, string>, command: string)
    ensures Fires(PluginEntry(name, Phrase(text), args), command) <==> Contains(command, text)
    ensures Fires(PluginEntry(name, Phrase(text), args), command) <==>
            Fires(PluginEntry(name, Phrases([text]), args), command)
  {
    var e := PluginEntry(name, Phrase(text), args);
    var l := PluginEntry(name, Phrases([text]), args);
    if Contains(command, text) {
      assert PhraseList(e.takecommand)[0] == text;
      assert PhraseList(l.takecommand)[0] == text;
    }
  }

  /** plugins_to_manage, in its insertion order. */
  const Plugins: seq<PluginEntry> := [
    PluginEntry("TimePlugin", Phrase("查询时间"), map[]),
    PluginEntry("CountdownPlugin", Phrase("倒计时"), map[]),
    PluginEntry("FileSearchPlugin", Phrases(["搜索", "搜索一下"]), map[]),
    PluginEntry("JokePlugin", Phrases(["我无聊了", "休息一下", "讲个笑话", "好无聊"]), map[]),
    PluginEntry("NLPPlugin", Phrases(["执行 NLP 任务", "处理文本"]), map[]),
    PluginEntry("NotepadPlugin", Phrases(["记笔记", "添加笔记"]), map[]),
    PluginEntry("TodoPlugin", Phrases(["添加待办事项", "列出待办事项", "删除待办事项"]), map[]),
    PluginEntry("clear_recent_memory", Phrases(["清理长期记忆"]), map[]),
    PluginEntry("downloaded_url", Phrases(["下载网页"]), map[]),
    PluginEntry("read_file", Phrases(["读取", "读取文件"]), map[]),
    PluginEntry("write_file", Phrases(["写入", "写入文件"]), map[])
  ]

  /** The position of the first entry at or after from that fires. */
  function FirstFiring(table: seq<PluginEntry>, command: string, from: nat): (r: Option<nat>)
    ensures r.None? ==> forall i :: from <= i < |table| ==> !Fires(table[i], command)
    ensures r.Some? ==> from <= r.value < |table| && Fires(table[r.value], command) &&
                        forall i :: from <= i < r.value ==> !Fires(table[i], command)
    decreases |table| - from
  {
    if from >= |table| then None
    else if Fires(table[from], command) then Some(from)
    else FirstFiring(table, command, from + 1)
  }

  /** A match: the plugin's name and its args. */
  datatype Match = Match(name: string, args: map<string, string>)

  /** match_command_to_plugin over a table; None stands for (None, None). */
  function MatchOf(table: seq<PluginEntry>, command: string): (r: Option<Match>)
    ensures r.None? <==> forall i :: 0 <= i < |table| ==> !Fires(table[i], command)
  {
    var i := FirstFiring(table, command, 0);
    if i.None? then None else Some(Match(table[i.value].name, table[i.value].args))
  }

  /** A match is the entry of the first plugin, in table order, one of
      whose phrases occurs in the command. */
  lemma {:induction false} MatchIsFirst(table: seq<PluginEntry>, command: string)
    ensures var r := MatchOf(table, command);
      r.Some? ==> exists i :: 0 <= i < |table| && Fires(table[i], command) &&
                    (forall j :: 0 <= j < i ==> !Fires(table[j], command)) &&
                    r.value == Match(table[i].name, table[i].args)
  {
    var i := FirstFiring(table, command, 0);
    if i.Some? {
      assert Fires(table[i.value], command);
    }
  }

  /** Every entry of the table has no args, so every match hands {} on. */
  lemma {:induction false} MatchArgsEmpty(command: string)
    ensures MatchOf(Plugins, command).Some? ==> MatchOf(Plugins, command).value.args == map[]
  {
    var i := FirstFiring(Plugins, command, 0);
    if i.Some? {
      assert Plugins[i.value].args == map[];
    }
  }

  /** Table order decides between plugins: a command holding "搜索" goes
      to the file search unless it names the time or a countdown, whatever
      later plugin's phrase it also holds. */
  lemma {:induction false} SearchComesFirst(command: string)
    requires Contains(command, "搜索") && !Contains(command, "查询时间") && !Contains(command, "倒计时")
    ensures MatchOf(Plugins, command) == Some(Match("FileSearchPlugin", map[]))
  {
    assert !Fires(Plugins[0], command) by {
      assert PhraseList(Plugins[0].takecommand) == ["查询时间"];
    }
    assert !Fires(Plugins[1], command) by {
      assert PhraseList(Plugins[1].takecommand) == ["倒计时"];
    }
    assert Fires(Plugins[2], command) by {
      assert PhraseList(Plugins[2].takecommand)[0] == "搜索";
    }
    assert FirstFiring(Plugins, command, 2) == Some(2);
    assert FirstFiring(Plugins, command, 1) == Some(2);
  }

  /** match_command_to_plugin: the loop over the table. */
  method MatchCommandToPlugin(table: seq<PluginEntry>, command: string) returns (r: Option<Match>)
    ensures r == MatchOf(table, command)
  {
    var i := 0;
    while i < |table|
      invariant 0 <= i <= |table|
      invariant FirstFiring(table, command, i) == FirstFiring(table, command, 0)
    {
      var phrases := PhraseList(table[i].takecommand);
      var k := 0;
      while k < |phrases|
        invariant 0 <= k <= |phrases|
        invariant forall j :: 0 <= j < k ==> !Contains(command, phrases[j])
      {
        if Contains(command, phrases[k]) {
          assert Fires(table[i], command);
          return Some(Match(table[i].name, table[i].args));
        }
        k := k + 1;
      }
      i := i + 1;
    }
    return None;
  }
}

=== FILE: Computer.dfy ===
/** The pure parts of the computer-control tool of butler/computer.py:
    chunks, the key normalisation and key-combination split of the "key"
    action, and the argument checks that decide which device action
    __call__ performs. The devices themselves (mouse, keyboard, screen),
    the sleeps and the coordinate scaling are not modelled: the result is
    the action that would be sent to them. */
module Computer {
  import opened Wrappers
  import opened PyStrings
  import opened PyText
  import opened Chunking
  import opened ToolResults

  // ---------------------------------------------------------------------
  // chunks

  /** range(0, len(s), 0) raises ValueError. */
  datatype ChunkError = ZeroStep

  /** chunks(s, chunk_size): a zero size raises, a negative size gives no
      pieces (the range is empty), a positive size cuts s into pieces of
      that size that give s back when put together. */
  function ChunksOf(s: string, chunkSize: int): (r: Result<seq<string>, ChunkError>)
    ensures r.Err? <==> chunkSize == 0
    ensures chunkSize < 0 ==> r == Ok([])
    ensures chunkSize > 0 ==>
              r.Ok? && Flatten(r.value) == s && WellCut(r.value, chunkSize) &&
              |r.value| == (|s| + chunkSize - 1) / chunkSize &&
              (r.value == [] <==> s == [])
  {
    if chunkSize == 0 then Err(ZeroStep)
    else if chunkSize < 0 then Ok([])
    else
      FlattenChunks(s, chunkSize);
      ChunksWellCut(s, chunkSize);
      ChunksCount(s, chunkSize);
      Ok(Chunks(s, chunkSize))
  }

  // ---------------------------------------------------------------------
  // normalize_key

  /** The four key names normalize_key renames. */
  predicate Renamed(k: string)
  {
    k == "pagedown" || k == "pageup" || k == "enter" || k == "return"
  }

  /** The key_map lookup with the key itself as default. */
  function Rename(k: string): (r: string)
    ensures !Renamed(k) ==> r == k
  {
    if k == "pagedown" then "pgdn"
    else if k == "pageup" then "pgup"
    else if k == "enter" then "return"
    else if k == "return" then "enter"
    else k
  }

  /** normalize_key: lower-case, drop every "_", then rename. */
  function NormalizeKey(key: string): (r: string)
  {
    Rename(RemoveChar(Lower(key), '_'))
  }

  /** A key name already lower-case and without "_". */
  predicate Clean(k: string)
  {
    '_' !in k && forall i :: 0 <= i < |k| ==> !IsUpper(k[i])
  }

  /** The new names are clean key names. */
  lemma {:induction false} RenamedClean(k: string)
    requires Clean(k)
    ensures Clean(Rename(k))
  {
    if Renamed(k) {
      var r := Rename(k);
      assert r == "pgdn" || r == "pgup" || r == "return" || r == "enter";
      forall i | 0 <= i < |r|
        ensures r[i] != '_' && !IsUpper(r[i])
      {
      }
    }
  }

  lemma {:induction false} LowerOfClean(k: string)
    requires forall i :: 0 <= i < |k| ==> !IsUpper(k[i])
    ensures Lower(k) == k
  {
  }

  /** Every normalised key is lower-case and has no "_"; a key that is
      already so and is not one of the renamed names is left alone. */
  lemma {:induction false} NormalizeKeyClean(key: string)
    ensures Clean(NormalizeKey(key))
    ensures Clean(key) && !Renamed(key) ==> NormalizeKey(key) == key
  {
    var l := Lower(key);
    var k := RemoveChar(l, '_');
    RemoveCharSubset(l, '_');
    forall i | 0 <= i < |k|
      ensures !IsUpper(k[i])
    {
      assert k[i] in l;
    }
    RenamedClean(k);
    if Clean(key) {
      LowerOfClean(key);
    }
  }

  /** A clean key is only renamed. */
  lemma {:induction false} NormalizeClean(k: string)
    requires Clean(k)
    ensures NormalizeKey(k) == Rename(k)
  {
    LowerOfClean(k);
  }

  /** Normalising twice is normalising once, except that enter and return
      swap back: the renaming is not idempotent. */
  lemma {:induction false} NormalizeTwice(key: string)
    ensures var once := NormalizeKey(key);
      NormalizeKey(once) == if once == "enter" then "return" else if once == "return" then "enter" else once
  {
    var k := RemoveChar(Lower(key), '_');
    var once := Rename(k);
    NormalizeKeyClean(key);
    NormalizeClean(once);
    if k == "pagedown" {
      assert once == "pgdn" && !Renamed(once);
    } else if k == "pageup" {
      assert once == "pgup" && !Renamed(once);
    }
  }

  // ---------------------------------------------------------------------
  // the key action

  /** [normalize_key(k) for k in text.split("+")]. */
  function KeyList(text: string): (keys: seq<string>)
    ensures |keys| == CountChar(text, '+') + 1
    ensures forall i :: 0 <= i < |keys| ==> Clean(keys[i])
  {
    var parts := SplitOn(text, '+');
    SplitCount(text, '+');
    var keys := seq(|parts|, i requires 0 <= i < |parts| => NormalizeKey(parts[i]));
    forall i | 0 <= i < |keys|
      ensures Clean(keys[i])
    {
      NormalizeKeyClean(parts[i]);
    }
    keys
  }

  /** What the "key" action sends: one key pressed, a combination sent
      as a hotkey, or on macOS an AppleScript keystroke with the other
      keys as modifiers. */
  datatype KeyEffect =
    | Press(key: string)
    | Hotkey(keys: seq<string>)
    | AppleScript(keystroke: string, modifier: string)

  /** The keystroke AppleScript sends for the last key of a combination. */
  function Keystroke(key: string): (r: string)
    ensures Lower(key) != "space" && Lower(key) != "enter" ==> r == key
  {
    if Lower(key) == "space" then " " else if Lower(key) == "enter" then "\n" else key
  }

  /** The "key" branch of __call__; system is what platform.system()
      returns. */
  function KeyEffectOf(text: string, system: string): (r: KeyEffect)
    ensures system != "Darwin" ==> (r.Press? <==> '+' !in text)
    ensures system != "Darwin" && r.Press? ==> r.key == NormalizeKey(text)
    ensures system != "Darwin" && !Contains(Lower(system), "darwin") && !r.Press? ==>
              r == Hotkey(KeyList(text))
  {
    var t := if system == "Darwin" then Replace(text, "super+", "command+") else text;
    var keys := KeyList(t);
    if |keys| > 1 then
      if Contains(Lower(system), "darwin") then
        AppleScript(Keystroke(keys[|keys| - 1]), Lower(Join('+', keys[..|keys| - 1])) + " down")
      else Hotkey(keys)
    else
      assert '+' !in t by {
        assert multiset(t)['+'] == 0;
      }
      SplitNoSep(t, '+');
      Press(keys[0])
  }

  // ---------------------------------------------------------------------
  // __call__

  /** The device action __call__ performs (before its screenshot). */
  datatype Effect =
    | MoveTo(x: int, y: int)
    | DragTo(x: int, y: int)
    | Keys(keys: KeyEffect)
    | Write(text: string)
    | Click(button: string)
    | DoubleClick
    | TakeScreenshot
    | ReadCursor

  const KnownActions: set<string> :=
    {"key", "type", "mouse_move", "left_click", "left_click_drag", "right_click",
     "middle_click", "double_click", "screenshot", "cursor_position"}

  /** The checks and the branch of __call__: a mouse move or drag needs a
      coordinate, a key or type action needs text, any other name than the
      ten actions is refused. */
  function Perform(action: string, text: Option<string>, coordinate: Option<(int, int)>, system: string): (r: Result<Effect, ToolError>)
    ensures r.Ok? <==>
              action in KnownActions &&
              (action == "mouse_move" || action == "left_click_drag" ==> coordinate.Some?) &&
              (action == "key" || action == "type" ==> text.Some?)
    ensures (action == "mouse_move" || action == "left_click_drag") && coordinate.None? ==>
              r == Err(ToolError(action + "操作需要坐标参数"))
    ensures (action == "key" || action == "type") && text.None? ==>
              r == Err(ToolError(action + "操作需要文本参数"))
    ensures action !in KnownActions ==> r == Err(ToolError("无效操作: " + action))
    ensures r.Ok? ==> (r.value == ReadCursor <==> action == "cursor_position")
    ensures r.Ok? && action == "key" ==> r.value == Keys(KeyEffectOf(text.value, system))
    ensures r.Ok? && action == "type" ==> r.value == Write(text.value)
  {
    if action == "mouse_move" || action == "left_click_drag" then
      if coordinate.None? then Err(ToolError(action + "操作需要坐标参数"))
      else if action == "mouse_move" then Ok(MoveTo(coordinate.value.0, coordinate.value.1))
      else Ok(DragTo(coordinate.value.0, coordinate.value.1))
    else if action == "key" || action == "type" then
      if text.None? then Err(ToolError(action + "操作需要文本参数"))
      else if action == "key" then Ok(Keys(KeyEffectOf(text.value, system)))
      else Ok(Write(text.value))
    else if action == "left_click" then Ok(Click("left"))
    else if action == "right_click" then Ok(Click("right"))
    else if action == "middle_click" then Ok(Click("middle"))
    else if action == "double_click" then Ok(DoubleClick)
    else if action == "screenshot" then Ok(TakeScreenshot)
    else if action == "cursor_position" then Ok(ReadCursor)
    else Err(ToolError("无效操作: " + action))
  }
}

=== FILE: Edit.dfy ===
/** EditTool of butler/edit.py: the str_replace_editor tool that views,
    creates and edits files and undoes edits from a per-path history.
    The file system is a map from path to node; reading and writing a
    file is looking up and updating that map. */
module Edit {
  import opened Wrappers
  import opened PyStrings
  import opened PyText
  import opened PyPath
  import opened Truncation
  import opened ToolResults

  /** SNIPPET_LINES: context lines shown around an edit. */
  const SnippetLines: int := 4

  datatype Command = View | Create | StrReplace | Insert | UndoEdit | Unknown(name: string)

  datatype Node = File(text: string) | Directory

  /** The ToolError raised, one case per raise site. */
  datatype EditError =
    | NotAbsolute | DoesNotExist | AlreadyExists | DirectoryNeedsView
    | RangeOnDirectory | RangeNotPair | RangeStartOutside | RangeEndTooLarge | RangeEndBeforeStart
    | FileTextRequired | OldStrRequired | InsertLineRequired | NewStrRequired
    | NoOccurrence | SeveralOccurrences(lines: seq<int>)
    | InsertLineOutOfRange
    | NoHistory
    | UnrecognizedCommand

  /** The file system and the tool's _file_history. A path missing from
      the history has the empty history, as with the defaultdict. */
  datatype Editor = Editor(fs: map<string, Node>, history: map<string, seq<string>>)

  function History(history: map<string, seq<string>>, path: string): seq<string>
  {
    if path in history then history[path] else []
  }

  /** Every path with a history is a file. */
  ghost predicate Valid(ed: Editor)
  {
    forall p :: p in ed.history ==> p in ed.fs && ed.fs[p].File?
  }

  // ---------------------------------------------------------------------
  // validate_path

  /** validate_path(command, path): the first check that fails, if any. */
  function ValidatePath(command: Command, path: string, fs: map<string, Node>): (r: Option<EditError>)
    ensures r == Some(NotAbsolute) <==> !IsAbsolute(path)
    ensures r.None? <==>
              IsAbsolute(path) && (path in fs <==> command != Create) &&
              (path in fs && fs[path].Directory? ==> command == View)
  {
    if !IsAbsolute(path) then Some(NotAbsolute)
    else if path !in fs && command != Create then Some(DoesNotExist)
    else if path in fs && command == Create then Some(AlreadyExists)
    else if path in fs && fs[path].Directory? && command != View then Some(DirectoryNeedsView)
    else None
  }

  // ---------------------------------------------------------------------
  // _make_output

  /** s right-aligned in a field of width w, as f"{s:>w}". */
  function PadLeft(s: string, w: nat): (r: string)
    ensures |r| == if |s| >= w then |s| else w
    ensures r[|r| - |s|..] == s && forall i :: 0 <= i < |r| - |s| ==> r[i] == ' '
  {
    if |s| >= w then s else Spaces(w - |s|) + s
  }

  /** The line "{number:6}\t{line}". */
  function NumberedLine(number: int, line: string): string
  {
    PadLeft(IntToStr(number), 6) + "\t" + line
  }

  /** The lines numbered from init. */
  function NumberLines(lines: seq<string>, init: int): (r: seq<string>)
    ensures |r| == |lines|
    ensures forall k :: 0 <= k < |r| ==> r[k] == NumberedLine(init + k, lines[k])
  {
    seq(|lines|, k requires 0 <= k < |lines| => NumberedLine(init + k, lines[k]))
  }

  const HeaderStart: string := "Here's the result of running `cat -n` on "

  function OutputHeader(descriptor: string): string
  {
    HeaderStart + descriptor + ":"
  }

  lemma {:induction false} HeaderOneLine(descriptor: string)
    requires '\n' !in descriptor
    ensures '\n' !in OutputHeader(descriptor)
  {
    assert '\n' !in HeaderStart;
  }

  /** The header, the numbered lines of c and a final newline. */
  function NumberedOutput(c: string, descriptor: string, initLine: int): string
  {
    OutputHeader(descriptor) + "\n" + Join('\n', NumberLines(SplitOn(c, '\n'), initLine)) + "\n"
  }

  /** _make_output(content, descriptor, init_line): the truncated,
      tab-expanded content with numbered lines under a header. */
  function MakeOutput(content: string, descriptor: string, initLine: int): string
  {
    NumberedOutput(ExpandTabs(MaybeTruncate(content, Some(MaxResponseLen))), descriptor, initLine)
  }

  lemma {:induction false} NoNewlineInNumber(n: int)
    ensures '\n' !in IntToStr(n)
  {
    var d := if n < 0 then NatToStr(-n) else NatToStr(n);
    assert IntToStr(n) == if n < 0 then "-" + d else d;
    assert AllDigits(d);
  }

  lemma {:induction false} NoNewlineInNumbered(lines: seq<string>, init: int)
    requires forall k :: 0 <= k < |lines| ==> '\n' !in lines[k]
    ensures forall k :: 0 <= k < |lines| ==> '\n' !in NumberLines(lines, init)[k]
  {
    forall k | 0 <= k < |lines|
      ensures '\n' !in NumberLines(lines, init)[k]
    {
      NoNewlineInNumber(init + k);
      var p := PadLeft(IntToStr(init + k), 6);
      assert '\n' !in p;
    }
  }

  /** The output, split into lines, is the header, one numbered line per
      line of c counting up from init_line, and the empty piece after the
      final newline. */
  lemma {:induction false} NumberedOutputLines(c: string, descriptor: string, initLine: int)
    requires '\n' !in descriptor
    ensures var shown := SplitOn(c, '\n');
      var out := SplitOn(NumberedOutput(c, descriptor, initLine), '\n');
      |out| == |shown| + 2 && out[0] == OutputHeader(descriptor) && out[|out| - 1] == [] &&
      forall k :: 0 <= k < |shown| ==> out[k + 1] == NumberedLine(initLine + k, shown[k])
  {
    var shown := SplitOn(c, '\n');
    var numbered := NumberLines(shown, initLine);
    NoNewlineInNumbered(shown, initLine);
    HeaderOneLine(descriptor);
    SplitFramed(OutputHeader(descriptor), numbered, '\n');
  }

  // ---------------------------------------------------------------------
  // view

  /** The view_range checks and the selected lines: the text to show and
      the number of its first line. An empty range shows everything. */
  function SelectRange(content: string, viewRange: seq<int>): (r: Result<(string, int), EditError>)
    ensures viewRange == [] ==> r == Ok((content, 1))
    ensures viewRange != [] ==>
              var lines := SplitOn(content, '\n');
              (r.Ok? <==> |viewRange| == 2 && 1 <= viewRange[0] <= |lines| && viewRange[1] <= |lines| &&
                          (viewRange[1] == -1 || viewRange[1] >= viewRange[0]))
    ensures viewRange != [] && r.Ok? ==>
              var lines := SplitOn(content, '\n');
              var last := if viewRange[1] == -1 then |lines| else viewRange[1];
              r.value.1 == viewRange[0] && SplitOn(r.value.0, '\n') == lines[viewRange[0] - 1..last]
  {
    if viewRange == [] then Ok((content, 1))
    else if |viewRange| != 2 then Err(RangeNotPair)
    else
      var lines := SplitOn(content, '\n');
      var n := |lines|;
      var init, final := viewRange[0], viewRange[1];
      if init < 1 || init > n then Err(RangeStartOutside)
      else if final > n then Err(RangeEndTooLarge)
      else if final != -1 && final < init then Err(RangeEndBeforeStart)
      else
        var selected := if final == -1 then lines[init - 1..] else lines[init - 1..final];
        SplitJoin(selected, '\n');
        Ok((Join('\n', selected), init))
  }

  /** view(path, view_range); view changes nothing. A directory is listed
      by an external find command, whose output is passed in as listing. */
  function ViewResult(ed: Editor, path: string, viewRange: seq<int>, listing: string): (r: Result<string, EditError>)
    requires path in ed.fs
    ensures ed.fs[path].Directory? ==> (r.Err? <==> viewRange != [])
    ensures ed.fs[path].File? ==>
              (r.Ok? <==> SelectRange(ed.fs[path].text, viewRange).Ok?) &&
              (r.Ok? ==>
                 var sel := SelectRange(ed.fs[path].text, viewRange).value;
                 r.value == MakeOutput(sel.0, path, sel.1))
  {
    match ed.fs[path]
    case Directory => if viewRange != [] then Err(RangeOnDirectory) else Ok(listing)
    case File(text) =>
      match SelectRange(text, viewRange)
      case Err(e) => Err(e)
      case Ok(sel) => Ok(MakeOutput(sel.0, path, sel.1))
  }

  // ---------------------------------------------------------------------
  // str_replace

  /** The 1-based numbers of the lines that contain needle. */
  function LinesContaining(lines: seq<string>, needle: string, first: int): (r: seq<int>)
    ensures forall k :: 0 <= k < |r| ==> first <= r[k] < first + |lines| && Contains(lines[r[k] - first], needle)
  {
    if lines == [] then []
    else (if Contains(lines[0], needle) then [first] else []) + LinesContaining(lines[1..], needle, first + 1)
  }

  /** Every line containing needle is listed. */
  lemma {:induction false} LinesContainingComplete(lines: seq<string>, needle: string, first: int, k: int)
    requires 0 <= k < |lines| && Contains(lines[k], needle)
    ensures first + k in LinesContaining(lines, needle, first)
    decreases |lines|
  {
    if k > 0 {
      assert lines[1..][k - 1] == lines[k];
      LinesContainingComplete(lines[1..], needle, first + 1, k - 1);
    }
  }

  /** Strictly increasing. */
  ghost predicate Increasing(s: seq<int>)
  {
    forall a, b :: 0 <= a < b < |s| ==> s[a] < s[b]
  }

  lemma {:induction false} IncreasingCons(x: int, s: seq<int>)
    requires Increasing(s) && forall k :: 0 <= k < |s| ==> x < s[k]
    ensures Increasing([x] + s)
  {
    forall a, b | 0 <= a < b < |[x] + s|
      ensures ([x] + s)[a] < ([x] + s)[b]
    {
      assert ([x] + s)[b] == s[b - 1];
      if a > 0 {
        assert ([x] + s)[a] == s[a - 1];
      }
    }
  }

  /** The numbers are listed in increasing order. */
  lemma {:induction false} LinesContainingSorted(lines: seq<string>, needle: string, first: int)
    ensures Increasing(LinesContaining(lines, needle, first))
    decreases |lines|
  {
    if lines != [] {
      LinesContainingSorted(lines[1..], needle, first + 1);
      var rest := LinesContaining(lines[1..], needle, first + 1);
      if Contains(lines[0], needle) {
        IncreasingCons(first, rest);
      } else {
        assert LinesContaining(lines, needle, first) == rest;
      }
    }
  }

  function Max(a: int, b: int): int
  {
    if a >= b then a else b
  }

  /** xs[a:b] for 0 <= a <= b, clamped to the list. */
  function Slice<T>(xs: seq<T>, a: nat, b: nat): seq<T>
    requires a <= b
  {
    var lo := if a <= |xs| then a else |xs|;
    var hi := if b <= |xs| then b else |xs|;
    xs[lo..hi]
  }

  const ReplaceSuffix: string := "检查更改并确保它们符合预期。如有必要，再次编辑该文件。"
  const InsertSuffix: string := "检查更改并确保它们符合预期(正确的缩进、无重复行等)。 如有必要，再次编辑文件."

  /** The success message of str_replace: a snippet of the new text around
      the line where the replacement starts. */
  function ReplaceMessage(path: string, content: string, pat: string, rep: string, newContent: string): string
    requires pat != [] && Find(content, pat) >= 0
  {
    var replacementLine := CountChar(content[..Find(content, pat)], '\n');
    var startLine := Max(0, replacementLine - SnippetLines);
    var endLine := replacementLine + SnippetLines + CountChar(rep, '\n');
    var snippet := Join('\n', Slice(SplitOn(newContent, '\n'), startLine, endLine + 1));
    "The file " + path + " has been edited. " + MakeOutput(snippet, "a snippet of " + path, startLine + 1) + ReplaceSuffix
  }

  /** new_str after tab expansion; None is "". */
  function Replacement(newStr: Option<string>): string
  {
    if newStr.Some? then ExpandTabs(newStr.value) else []
  }

  /** What str_replace(path, old_str, new_str) returns. The text and both
      strings are tab-expanded first; old_str must then occur exactly
      once. */
  function StrReplaceResult(ed: Editor, path: string, oldStr: string, newStr: Option<string>): (r: Result<string, EditError>)
    requires path in ed.fs && ed.fs[path].File? && oldStr != []
    ensures var e, pat := ExpandTabs(ed.fs[path].text), ExpandTabs(oldStr);
      (r.Ok? <==> Count(e, pat) == 1) &&
      (r == Err(NoOccurrence) <==> Count(e, pat) == 0) &&
      (r.Err? && Count(e, pat) > 1 ==> r.error.SeveralOccurrences?)
  {
    var e := ExpandTabs(ed.fs[path].text);
    var pat := ExpandTabs(oldStr);
    var occurrences := Count(e, pat);
    if occurrences == 0 then Err(NoOccurrence)
    else if occurrences > 1 then Err(SeveralOccurrences(LinesContaining(SplitOn(e, '\n'), pat, 1)))
    else
      ReplaceUnique(e, pat, Replacement(newStr));
      Ok(ReplaceMessage(path, e, pat, Replacement(newStr), Replace(e, pat, Replacement(newStr))))
  }

  /** The state str_replace leaves: on success the file holds the expanded
      text with the one occurrence replaced and the expanded text before
      the edit is pushed on the path's history; on failure nothing
      changes. */
  function StrReplaceAfter(ed: Editor, path: string, oldStr: string, newStr: Option<string>): (r: Editor)
    requires path in ed.fs && ed.fs[path].File? && oldStr != []
    ensures var e, pat := ExpandTabs(ed.fs[path].text), ExpandTabs(oldStr);
      Count(e, pat) != 1 ==> r == ed
    ensures var e, pat := ExpandTabs(ed.fs[path].text), ExpandTabs(oldStr);
      Count(e, pat) == 1 ==>
        var i := Find(e, pat);
        0 <= i && i + |pat| <= |e| && e[i..i + |pat|] == pat &&
        r.fs == ed.fs[path := File(e[..i] + Replacement(newStr) + e[i + |pat|..])] &&
        r.history == ed.history[path := History(ed.history, path) + [e]]
  {
    var e := ExpandTabs(ed.fs[path].text);
    var pat := ExpandTabs(oldStr);
    if Count(e, pat) != 1 then ed
    else Replaced(ed, path, e, pat, Replacement(newStr))
  }

  /** The state after the one occurrence of pat in the expanded text e is
      replaced: the splice is written to the file and e is pushed on the
      path's history. */
  function Replaced(ed: Editor, path: string, e: string, pat: string, rep: string): (r: Editor)
    requires pat != [] && Count(e, pat) == 1
    ensures var i := Find(e, pat);
      0 <= i && i + |pat| <= |e| && e[i..i + |pat|] == pat &&
      r.fs == ed.fs[path := File(e[..i] + rep + e[i + |pat|..])] &&
      r.history == ed.history[path := History(ed.history, path) + [e]]
  {
    ReplaceUnique(e, pat, rep);
    Editor(ed.fs[path := File(Replace(e, pat, rep))], ed.history[path := History(ed.history, path) + [e]])
  }

  // ---------------------------------------------------------------------
  // insert

  /** The lines of the file after insert: the new text's lines after line
      insert_line, all tab-expanded. */
  function InsertedLines(text: string, insertLine: int, newStr: string): seq<string>
    requires 0 <= insertLine <= |SplitOn(ExpandTabs(text), '\n')|
  {
    var lines := SplitOn(ExpandTabs(text), '\n');
    lines[..insertLine] + SplitOn(ExpandTabs(newStr), '\n') + lines[insertLine..]
  }

  /** What insert(path, insert_line, new_str) returns: insert_line must lie
      in 0 .. the number of lines. */
  function InsertResult(ed: Editor, path: string, insertLine: int, newStr: string): (r: Result<string, EditError>)
    requires path in ed.fs && ed.fs[path].File?
    ensures r.Ok? <==> 0 <= insertLine <= |SplitOn(ExpandTabs(ed.fs[path].text), '\n')|
    ensures r.Err? ==> r.error == InsertLineOutOfRange
  {
    var fileTextLines := SplitOn(ExpandTabs(ed.fs[path].text), '\n');
    if insertLine < 0 || insertLine > |fileTextLines| then Err(InsertLineOutOfRange)
    else
      var snippetLines := fileTextLines[Max(0, insertLine - SnippetLines)..insertLine] + SplitOn(ExpandTabs(newStr), '\n') +
                          Slice(fileTextLines, insertLine, insertLine + SnippetLines);
      Ok("The file " + path + " has been edited. " +
         MakeOutput(Join('\n', snippetLines), "a snippet of the edited file", Max(1, insertLine - SnippetLines + 1)) +
         InsertSuffix)
  }

  /** The state insert leaves: the joined new lines in the file and the
      expanded old text pushed on the history; nothing on failure. */
  function InsertAfter(ed: Editor, path: string, insertLine: int, newStr: string): (r: Editor)
    requires path in ed.fs && ed.fs[path].File?
    ensures var n := |SplitOn(ExpandTabs(ed.fs[path].text), '\n')|;
      !(0 <= insertLine <= n) ==> r == ed
    ensures var n := |SplitOn(ExpandTabs(ed.fs[path].text), '\n')|;
      0 <= insertLine <= n ==>
        path in r.fs && r.fs[path].File? && r.fs == ed.fs[path := r.fs[path]] &&
        SplitOn(r.fs[path].text, '\n') == InsertedLines(ed.fs[path].text, insertLine, newStr) &&
        r.history == ed.history[path := History(ed.history, path) + [ExpandTabs(ed.fs[path].text)]]
  {
    var n := |SplitOn(ExpandTabs(ed.fs[path].text), '\n')|;
    if insertLine < 0 || insertLine > n then ed
    else
      var newLines := InsertedLines(ed.fs[path].text, insertLine, newStr);
      SplitJoin(newLines, '\n');
      Editor(ed.fs[path := File(Join('\n', newLines))],
             ed.history[path := History(ed.history, path) + [ExpandTabs(ed.fs[path].text)]])
  }

  /** The file keeps its lines in order around the inserted ones, and grows
      by exactly the number of inserted lines. */
  lemma {:induction false} InsertKeepsLines(text: string, insertLine: int, newStr: string)
    requires 0 <= insertLine <= |SplitOn(ExpandTabs(text), '\n')|
    ensures var lines := SplitOn(ExpandTabs(text), '\n');
      var after := InsertedLines(text, insertLine, newStr);
      var added := |SplitOn(ExpandTabs(newStr), '\n')|;
      added >= 1 && |after| == |lines| + added &&
      after[..insertLine] == lines[..insertLine] &&
      after[insertLine..insertLine + added] == SplitOn(ExpandTabs(newStr), '\n') &&
      after[insertLine + added..] == lines[insertLine..]
  {
    var lines := SplitOn(ExpandTabs(text), '\n');
    var ins := SplitOn(ExpandTabs(newStr), '\n');
    var after := InsertedLines(text, insertLine, newStr);
    assert after == lines[..insertLine] + ins + lines[insertLine..];
  }

  // ---------------------------------------------------------------------
  // undo_edit and create

  /** What undo_edit(path) returns: an empty history raises, otherwise the
      restored text is shown. */
  function UndoResult(ed: Editor, path: string): (r: Result<string, EditError>)
    ensures r.Err? <==> History(ed.history, path) == []
    ensures r.Err? ==> r.error == NoHistory
  {
    var h := History(ed.history, path);
    if h == [] then Err(NoHistory)
    else Ok("Last edit to " + path + " undone successfully. " + MakeOutput(h[|h| - 1], path, 1))
  }

  /** The state undo_edit leaves: the last history entry popped and written
      back to the file. */
  function UndoAfter(ed: Editor, path: string): (r: Editor)
    ensures History(ed.history, path) == [] ==> r == ed
    ensures var h := History(ed.history, path);
      h != [] ==>
        r.fs == ed.fs[path := File(h[|h| - 1])] &&
        r.history == ed.history[path := h[..|h| - 1]] &&
        |History(r.history, path)| == |h| - 1
  {
    var h := History(ed.history, path);
    if h == [] then ed else Editor(ed.fs[path := File(h[|h| - 1])], ed.history[path := h[..|h| - 1]])
  }

  /** The state the create branch of __call__ leaves: file_text written and
      pushed (the new text, not an earlier state) on the path's history. */
  function CreateAfter(ed: Editor, path: string, fileText: string): (r: Editor)
    ensures r.fs == ed.fs[path := File(fileText)]
    ensures r.history == ed.history[path := History(ed.history, path) + [fileText]]
  {
    Editor(ed.fs[path := File(fileText)], ed.history[path := History(ed.history, path) + [fileText]])
  }

  /** Pushing an entry and popping it again restores the history, and the
      popped entry is what the file holds afterwards. */
  lemma {:induction false} PushPop(history: map<string, seq<string>>, path: string, text: string, fs: map<string, Node>)
    ensures var pushed := history[path := History(history, path) + [text]];
      History(pushed, path) != [] &&
      UndoAfter(Editor(fs, pushed), path) == Editor(fs[path := File(text)], history[path := History(history, path)])
  {
    var h := History(history, path);
    assert (h + [text])[..|h|] == h;
  }

  /** Undoing a str_replace puts back the file as it was, tab-expanded, and
      the history as it was. */
  lemma {:induction false} UndoAfterStrReplace(ed: Editor, path: string, oldStr: string, newStr: Option<string>)
    requires path in ed.fs && ed.fs[path].File? && oldStr != []
    requires Count(ExpandTabs(ed.fs[path].text), ExpandTabs(oldStr)) == 1
    ensures var edited := StrReplaceAfter(ed, path, oldStr, newStr);
      UndoResult(edited, path).Ok? &&
      UndoAfter(edited, path) == Editor(ed.fs[path := File(ExpandTabs(ed.fs[path].text))],
                                        ed.history[path := History(ed.history, path)])
  {
    var e := ExpandTabs(ed.fs[path].text);
    var edited := StrReplaceAfter(ed, path, oldStr, newStr);
    assert edited.history == ed.history[path := History(ed.history, path) + [e]];
    assert edited.fs == ed.fs[path := edited.fs[path]];
    PushPop(ed.history, path, e, edited.fs);
    assert edited.fs[path := File(e)] == ed.fs[path := File(e)];
  }

  /** Undoing an insert puts back the file as it was, tab-expanded, and the
      history as it was. */
  lemma {:induction false} UndoAfterInsert(ed: Editor, path: string, insertLine: int, newStr: string)
    requires path in ed.fs && ed.fs[path].File?
    requires 0 <= insertLine <= |SplitOn(ExpandTabs(ed.fs[path].text), '\n')|
    ensures var edited := InsertAfter(ed, path, insertLine, newStr);
      UndoResult(edited, path).Ok? &&
      UndoAfter(edited, path) == Editor(ed.fs[path := File(ExpandTabs(ed.fs[path].text))],
                                        ed.history[path := History(ed.history, path)])
  {
    var e := ExpandTabs(ed.fs[path].text);
    var edited := InsertAfter(ed, path, insertLine, newStr);
    assert edited == Editor(ed.fs[path := edited.fs[path]], ed.history[path := History(ed.history, path) + [e]]);
    PushPop(ed.history, path, e, edited.fs);
    OverwriteTwice(ed.fs, path, edited.fs[path], File(e));
  }

  /** Writing a path twice leaves only the second write. */
  lemma OverwriteTwice(fs: map<string, Node>, path: string, first: Node, second: Node)
    ensures fs[path := first][path := second] == fs[path := second]
  {
  }

  /** Undoing a create does not remove the file: it writes the created
      text again. */
  lemma {:induction false} UndoAfterCreate(ed: Editor, path: string, fileText: string)
    ensures var created := CreateAfter(ed, path, fileText);
      UndoResult(created, path).Ok? &&
      UndoAfter(created, path) == Editor(ed.fs[path := File(fileText)], ed.history[path := History(ed.history, path)])
  {
    PushPop(ed.history, path, fileText, ed.fs[path := File(fileText)]);
  }

  // ---------------------------------------------------------------------
  // __call__

  /** The reply to a user who did not confirm. */
  const Cancelled := ToolResult(None, Some("User did not provide permission to execute the command."),
                                None, Some("Command execution cancelled by user"))

  /** The argument check of the dispatch branch, if it fails. */
  function ArgumentError(command: Command, fileText: Option<string>, oldStr: Option<string>,
                         newStr: Option<string>, insertLine: Option<int>): (r: Option<EditError>)
    ensures r.None? <==>
              (command == Create ==> Truthy(fileText)) && (command == StrReplace ==> Truthy(oldStr)) &&
              (command == Insert ==> insertLine.Some? && Truthy(newStr)) && !command.Unknown?
  {
    match command
    case Create => if !Truthy(fileText) then Some(FileTextRequired) else None
    case StrReplace => if !Truthy(oldStr) then Some(OldStrRequired) else None
    case Insert =>
      if insertLine.None? then Some(InsertLineRequired)
      else if !Truthy(newStr) then Some(NewStrRequired)
      else None
    case Unknown(_) => Some(UnrecognizedCommand)
    case _ => None
  }

  /** The checks __call__ makes before a command touches anything. */
  predicate Admitted(fs: map<string, Node>, command: Command, path: string, fileText: Option<string>,
                     oldStr: Option<string>, newStr: Option<string>, insertLine: Option<int>)
  {
    ValidatePath(command, path, fs).None? && ArgumentError(command, fileText, oldStr, newStr, insertLine).None?
  }

  function AsToolResult(r: Result<string, EditError>): Result<ToolResult, EditError>
  {
    match r
    case Ok(text) => Ok(ToolResult(Some(text), None, None, None))
    case Err(e) => Err(e)
  }

  /** What a command returns once every check has passed. */
  function DispatchResult(ed: Editor, command: Command, path: string, fileText: Option<string>,
                          viewRange: seq<int>, oldStr: Option<string>, newStr: Option<string>,
                          insertLine: Option<int>, listing: string): (r: Result<ToolResult, EditError>)
    requires Admitted(ed.fs, command, path, fileText, oldStr, newStr, insertLine)
    ensures command == Create ==> r.Ok?
    ensures command == UndoEdit ==> (r.Err? <==> History(ed.history, path) == [])
  {
    match command
    case View => AsToolResult(ViewResult(ed, path, viewRange, listing))
    case Create => Ok(ToolResult(Some("File created successfully at: " + path), None, None, None))
    case StrReplace => AsToolResult(StrReplaceResult(ed, path, oldStr.value, newStr))
    case Insert => AsToolResult(InsertResult(ed, path, insertLine.value, newStr.value))
    case UndoEdit => AsToolResult(UndoResult(ed, path))
  }

  /** The state a command leaves once every check has passed. */
  function DispatchAfter(ed: Editor, command: Command, path: string, fileText: Option<string>,
                         oldStr: Option<string>, newStr: Option<string>, insertLine: Option<int>): (r: Editor)
    requires Admitted(ed.fs, command, path, fileText, oldStr, newStr, insertLine)
    ensures command == View ==> r == ed
    ensures Valid(ed) ==> Valid(r)
  {
    match command
    case View => ed
    case Create => CreateAfter(ed, path, fileText.value)
    case StrReplace => StrReplaceAfter(ed, path, oldStr.value, newStr)
    case Insert => InsertAfter(ed, path, insertLine.value, newStr.value)
    case UndoEdit => UndoAfter(ed, path)
  }

  /** What __call__ returns: the cancellation, the first failed check, or
      the command's own result as the output field. */
  function CallResult(ed: Editor, confirmed: bool, command: Command, path: string, fileText: Option<string>,
                      viewRange: seq<int>, oldStr: Option<string>, newStr: Option<string>,
                      insertLine: Option<int>, listing: string): (r: Result<ToolResult, EditError>)
    ensures !confirmed ==> r == Ok(Cancelled)
    ensures confirmed && ValidatePath(command, PurePath(path), ed.fs).Some? ==>
              r == Err(ValidatePath(command, PurePath(path), ed.fs).value)
    ensures confirmed && ValidatePath(command, PurePath(path), ed.fs).None? &&
            ArgumentError(command, fileText, oldStr, newStr, insertLine).Some? ==>
              r == Err(ArgumentError(command, fileText, oldStr, newStr, insertLine).value)
    ensures confirmed && Admitted(ed.fs, command, PurePath(path), fileText, oldStr, newStr, insertLine) ==>
              r == DispatchResult(ed, command, PurePath(path), fileText, viewRange, oldStr, newStr, insertLine, listing)
  {
    var p := PurePath(path);
    if !confirmed then Ok(Cancelled)
    else if ValidatePath(command, p, ed.fs).Some? then Err(ValidatePath(command, p, ed.fs).value)
    else if ArgumentError(command, fileText, oldStr, newStr, insertLine).Some? then
      Err(ArgumentError(command, fileText, oldStr, newStr, insertLine).value)
    else DispatchResult(ed, command, p, fileText, viewRange, oldStr, newStr, insertLine, listing)
  }

  /** The state __call__ leaves: unchanged unless the user confirmed and
      every check passed. */
  function CallAfter(ed: Editor, confirmed: bool, command: Command, path: string, fileText: Option<string>,
                     oldStr: Option<string>, newStr: Option<string>, insertLine: Option<int>): (r: Editor)
    ensures !confirmed || !Admitted(ed.fs, command, PurePath(path), fileText, oldStr, newStr, insertLine) ==> r == ed
    ensures command == View ==> r == ed
  {
    var p := PurePath(path);
    if !confirmed || !Admitted(ed.fs, command, p, fileText, oldStr, newStr, insertLine) then ed
    else DispatchAfter(ed, command, p, fileText, oldStr, newStr, insertLine)
  }

  /** Two spellings of one path share a history: a file created at
      a + "//" + b is undone at a + "/" + b, as Path makes both one key. */
  lemma {:induction false} UndoUnderOtherSpelling(ed: Editor, a: string, b: string, text: string,
                                                 viewRange: seq<int>, listing: string)
    requires |a| >= 2 && IsAbsolute(a) && PurePath(a + "/" + b) !in ed.fs && text != []
    ensures var created := CallAfter(ed, true, Create, a + "//" + b, Some(text), None, None, None);
      CallResult(created, true, UndoEdit, a + "/" + b, None, viewRange, None, None, None, listing).Ok?
  {
    var p := PurePath(a + "/" + b);
    var created := CallAfter(ed, true, Create, a + "//" + b, Some(text), None, None, None);
    assert created == CreateAfter(ed, p, text) by {
      PurePathCollapsesSlash(a, b);
      assert Admitted(ed.fs, Create, p, Some(text), None, None, None);
    }
    assert History(created.history, p) != [];
    assert Admitted(created.fs, UndoEdit, p, None, None, None, None);
  }

  /** Every command keeps every path with a history a file. */
  lemma {:induction false} CallKeepsValid(ed: Editor, confirmed: bool, command: Command, path: string, fileText: Option<string>,
                       oldStr: Option<string>, newStr: Option<string>, insertLine: Option<int>)
    requires Valid(ed)
    ensures Valid(CallAfter(ed, confirmed, command, path, fileText, oldStr, newStr, insertLine))
  {
  }

  /** The tool object: _file_history is its own state; the file system it
      reads and writes is held beside it. */
  class EditTool {
    var files: map<string, Node>
    var fileHistory: map<string, seq<string>>

    function State(): Editor
      reads this
    {
      Editor(files, fileHistory)
    }

    constructor (files: map<string, Node>)
      ensures this.files == files && fileHistory == map[]
    {
      this.files := files;
      fileHistory := map[];
    }

    method StrReplace(path: string, oldStr: string, newStr: Option<string>) returns (r: Result<string, EditError>)
      requires path in files && files[path].File? && oldStr != []
      modifies this
      ensures r == StrReplaceResult(old(State()), path, oldStr, newStr)
      ensures State() == StrReplaceAfter(old(State()), path, oldStr, newStr)
    {
      var fileContent := ExpandTabs(files[path].text);
      var pat := ExpandTabs(oldStr);
      var rep := Replacement(newStr);
      var occurrences := Count(fileContent, pat);
      if occurrences == 0 {
        return Err(NoOccurrence);
      } else if occurrences > 1 {
        return Err(SeveralOccurrences(LinesContaining(SplitOn(fileContent, '\n'), pat, 1)));
      }
      var newFileContent := Replace(fileContent, pat, rep);
      files := files[path := File(newFileContent)];
      fileHistory := fileHistory[path := History(fileHistory, path) + [fileContent]];
      ReplaceUnique(fileContent, pat, rep);
      r := Ok(ReplaceMessage(path, fileContent, pat, rep, newFileContent));
    }

    method Insert(path: string, insertLine: int, newStr: string) returns (r: Result<string, EditError>)
      requires path in files && files[path].File?
      modifies this
      ensures r == InsertResult(old(State()), path, insertLine, newStr)
      ensures State() == InsertAfter(old(State()), path, insertLine, newStr)
    {
      var fileText := ExpandTabs(files[path].text);
      var fileTextLines := SplitOn(fileText, '\n');
      if insertLine < 0 || insertLine > |fileTextLines| {
        return Err(InsertLineOutOfRange);
      }
      var newStrLines := SplitOn(ExpandTabs(newStr), '\n');
      var newFileTextLines := fileTextLines[..insertLine] + newStrLines + fileTextLines[insertLine..];
      var snippetLines := fileTextLines[Max(0, insertLine - SnippetLines)..insertLine] + newStrLines +
                          Slice(fileTextLines, insertLine, insertLine + SnippetLines);
      files := files[path := File(Join('\n', newFileTextLines))];
      fileHistory := fileHistory[path := History(fileHistory, path) + [fileText]];
      r := Ok("The file " + path + " has been edited. " +
              MakeOutput(Join('\n', snippetLines), "a snippet of the edited file", Max(1, insertLine - SnippetLines + 1)) +
              InsertSuffix);
    }

    method UndoEdit(path: string) returns (r: Result<string, EditError>)
      modifies this
      ensures r == UndoResult(old(State()), path)
      ensures State() == UndoAfter(old(State()), path)
    {
      if path !in fileHistory || fileHistory[path] == [] {
        return Err(NoHistory);
      }
      var h := fileHistory[path];
      var oldText := h[|h| - 1];
      fileHistory := fileHistory[path := h[..|h| - 1]];
      files := files[path := File(oldText)];
      r := Ok("Last edit to " + path + " undone successfully. " + MakeOutput(oldText, path, 1));
    }

    method View(path: string, viewRange: seq<int>, listing: string) returns (r: Result<string, EditError>)
      requires path in files
      ensures r == ViewResult(State(), path, viewRange, listing)
    {
      if files[path].Directory? {
        if viewRange != [] {
          return Err(RangeOnDirectory);
        }
        return Ok(listing);
      }
      var selected := SelectRange(files[path].text, viewRange);
      if selected.Err? {
        return Err(selected.error);
      }
      r := Ok(MakeOutput(selected.value.0, path, selected.value.1));
    }

    /** The dispatch of __call__ once the path and the arguments passed
        their checks. */
    method Dispatch(command: Command, path: string, fileText: Option<string>,
                    viewRange: seq<int>, oldStr: Option<string>, newStr: Option<string>,
                    insertLine: Option<int>, listing: string) returns (r: Result<ToolResult, EditError>)
      requires Admitted(files, command, path, fileText, oldStr, newStr, insertLine)
      modifies this
      ensures r == DispatchResult(old(State()), command, path, fileText, viewRange, oldStr, newStr, insertLine, listing)
      ensures State() == DispatchAfter(old(State()), command, path, fileText, oldStr, newStr, insertLine)
    {
      var text: Result<string, EditError>;
      match command {
        case View =>
          text := View(path, viewRange, listing);
        case Create =>
          files := files[path := File(fileText.value)];
          fileHistory := fileHistory[path := History(fileHistory, path) + [fileText.value]];
          text := Ok("File created successfully at: " + path);
        case StrReplace =>
          text := StrReplace(path, oldStr.value, newStr);
        case Insert =>
          text := Insert(path, insertLine.value, newStr.value);
        case UndoEdit =>
          text := UndoEdit(path);
      }
      r := AsToolResult(text);
    }

    /** __call__; confirmed is the user's answer to the prompt and listing
        what find prints for a directory. */
    method Call(confirmed: bool, command: Command, path: string, fileText: Option<string>,
                viewRange: seq<int>, oldStr: Option<string>, newStr: Option<string>,
                insertLine: Option<int>, listing: string) returns (r: Result<ToolResult, EditError>)
      modifies this
      ensures r == CallResult(old(State()), confirmed, command, path, fileText, viewRange, oldStr, newStr, insertLine, listing)
      ensures State() == CallAfter(old(State()), confirmed, command, path, fileText, oldStr, newStr, insertLine)
    {
      if !confirmed {
        return Ok(Cancelled);
      }
      var p := PurePath(path);
      var invalid := ValidatePath(command, p, files);
      if invalid.Some? {
        return Err(invalid.value);
      }
      var missing := ArgumentError(command, fileText, oldStr, newStr, insertLine);
      if missing.Some? {
        return Err(missing.value);
      }
      r := Dispatch(command, p, fileText, viewRange, oldStr, newStr, insertLine, listing);
    }
  }
}

=== FILE: FileList.dfy ===
/** The list handling of package/algorithm.py: reading the
    (name, priority, marker) lines, sorting them with the hybrid sort, and
    splicing text into a file after a marker. The file reads and writes
    themselves are not modelled: lines and contents are parameters and
    results. */
module FileList {
  import opened Wrappers
  import opened PyStrings
  import opened HybridSort

  /** One (name, priority, marker) tuple of the file list. */
  datatype FileEntry = FileEntry(name: string, priority: int, marker: string)

  /** `<` on the tuples: the first field that differs decides. */
  function EntryLess(x: FileEntry, y: FileEntry): bool
  {
    if x.name != y.name then StrLess(x.name, y.name)
    else if x.priority != y.priority then x.priority < y.priority
    else StrLess(x.marker, y.marker)
  }

  /** The comparison median_of_three makes: field [1] only. */
  function PriorityLess(x: FileEntry, y: FileEntry): bool
  {
    x.priority < y.priority
  }

  lemma {:induction false} EntryLessIrreflexive(x: FileEntry)
    ensures !EntryLess(x, x)
  {
    StrLessIrreflexive(x.marker);
  }

  lemma {:induction false} EntryLessTransitive(x: FileEntry, y: FileEntry, z: FileEntry)
    requires EntryLess(x, y) && EntryLess(y, z)
    ensures EntryLess(x, z)
  {
    if x.name != y.name && y.name != z.name {
      StrLessTransitive(x.name, y.name, z.name);
      if x.name == z.name {
        StrLessIrreflexive(x.name);
        StrLessTransitive(y.name, x.name, y.name);
        StrLessIrreflexive(y.name);
      }
    } else if x.name == y.name && y.name == z.name && x.priority == y.priority && y.priority == z.priority {
      StrLessTransitive(x.marker, y.marker, z.marker);
    }
  }

  lemma {:induction false} EntryLessTotal(x: FileEntry, y: FileEntry)
    requires x != y
    ensures EntryLess(x, y) || EntryLess(y, x)
  {
    if x.name != y.name {
      StrLessTotal(x.name, y.name);
    } else if x.priority == y.priority {
      StrLessTotal(x.marker, y.marker);
    }
  }

  /** Tuple `<` is a strict weak order (a total one, in fact), as the sort
      needs. */
  lemma {:induction false} EntryOrder()
    ensures StrictWeakOrder(EntryLess)
  {
    forall x | true
      ensures !EntryLess(x, x)
    {
      EntryLessIrreflexive(x);
    }
    forall x, y, z | EntryLess(x, y) && EntryLess(y, z)
      ensures EntryLess(x, z)
    {
      EntryLessTransitive(x, y, z);
    }
    forall x, y, z | !EntryLess(x, y) && !EntryLess(y, z)
      ensures !EntryLess(x, z)
    {
      if EntryLess(x, z) {
        if x != y {
          EntryLessTotal(x, y);
          EntryLessTransitive(y, x, z);
        }
      }
    }
  }

  /** hybridSort(files_with_priority): the tuples end up in ascending
      tuple order, a rearrangement of the old list. */
  method SortFileList(a: array<FileEntry>)
    modifies a
    ensures SortedBy(a[..], 0, a.Length, EntryLess)
    ensures multiset(a[..]) == multiset(old(a[..]))
  {
    EntryOrder();
    Sort(a, EntryLess, PriorityLess);
  }

  /** The sorted order is by name first: the priority decides only among
      entries with the same name. */
  lemma {:induction false} SortedByNameFirst(s: seq<FileEntry>, i: int, j: int)
    requires SortedBy(s, 0, |s|, EntryLess)
    requires 0 <= i < j < |s|
    ensures s[i].name == s[j].name || StrLess(s[i].name, s[j].name)
    ensures s[i].name == s[j].name ==> s[i].priority <= s[j].priority
  {
    assert !EntryLess(s[j], s[i]);
    if s[i].name != s[j].name {
      StrLessTotal(s[i].name, s[j].name);
    }
  }

  // ---------------------------------------------------------------------
  // read_file_list

  datatype ReadError = IndexError | ValueError

  /** (line.split()[0], int(line.split()[1]), line.split()[2]) for a
      non-blank line, with the error Python raises first. */
  function ParseLine(line: string): (r: Result<FileEntry, ReadError>)
    requires !Blank(line)
    ensures var w := Split(line);
      r.Ok? <==> |w| >= 3 && ParseInt(w[1]).Some?
    ensures var w := Split(line);
      r.Ok? ==> r.value == FileEntry(w[0], ParseInt(w[1]).value, w[2])
    ensures r == Err(ValueError) <==> |Split(line)| >= 2 && ParseInt(Split(line)[1]).None?
  {
    SplitEmptyIffBlank(line);
    var w := Split(line);
    if |w| < 2 then Err(IndexError)
    else
      match ParseInt(w[1])
      case None => Err(ValueError)
      case Some(p) => if |w| < 3 then Err(IndexError) else Ok(FileEntry(w[0], p, w[2]))
  }

  /** The non-blank lines, in order. */
  function NonBlankLines(lines: seq<string>): (r: seq<string>)
    ensures forall k :: 0 <= k < |r| ==> !Blank(r[k])
    ensures |r| <= |lines|
  {
    if lines == [] then []
    else (if Blank(lines[0]) then [] else [lines[0]]) + NonBlankLines(lines[1..])
  }

  /** Every line parses. */
  ghost predicate AllParse(lines: seq<string>)
    requires forall k :: 0 <= k < |lines| ==> !Blank(lines[k])
  {
    forall k :: 0 <= k < |lines| ==> ParseLine(lines[k]).Ok?
  }

  /** entries holds the tuples the lines parse to, one per line. */
  ghost predicate ParsedAs(lines: seq<string>, entries: seq<FileEntry>)
    requires forall k :: 0 <= k < |lines| ==> !Blank(lines[k])
  {
    |entries| == |lines| && forall k :: 0 <= k < |lines| ==> ParseLine(lines[k]) == Ok(entries[k])
  }

  /** read_file_list: one tuple per non-blank line, in file order; the
      first line that does not parse raises. */
  function ReadFileList(lines: seq<string>): (r: Result<seq<FileEntry>, ReadError>)
    ensures r.Ok? <==> AllParse(NonBlankLines(lines))
    ensures r.Ok? ==> ParsedAs(NonBlankLines(lines), r.value)
  {
    ParseAll(NonBlankLines(lines))
  }

  lemma {:induction false} AllParseCons(lines: seq<string>)
    requires lines != [] && forall k :: 0 <= k < |lines| ==> !Blank(lines[k])
    ensures AllParse(lines) <==> ParseLine(lines[0]).Ok? && AllParse(lines[1..])
  {
    if ParseLine(lines[0]).Ok? && AllParse(lines[1..]) {
      forall k | 0 <= k < |lines|
        ensures ParseLine(lines[k]).Ok?
      {
        if k > 0 {
          assert lines[k] == lines[1..][k - 1];
        }
      }
    }
  }

  lemma {:induction false} ParsedAsCons(lines: seq<string>, entry: FileEntry, rest: seq<FileEntry>)
    requires lines != [] && forall k :: 0 <= k < |lines| ==> !Blank(lines[k])
    requires ParseLine(lines[0]) == Ok(entry) && ParsedAs(lines[1..], rest)
    ensures ParsedAs(lines, [entry] + rest)
  {
    forall k | 0 < k < |lines|
      ensures ParseLine(lines[k]) == Ok(([entry] + rest)[k])
    {
      assert lines[k] == lines[1..][k - 1];
      assert ([entry] + rest)[k] == rest[k - 1];
    }
  }

  function ParseAll(lines: seq<string>): (r: Result<seq<FileEntry>, ReadError>)
    requires forall k :: 0 <= k < |lines| ==> !Blank(lines[k])
    ensures r.Ok? <==> AllParse(lines)
    ensures r.Ok? ==> ParsedAs(lines, r.value)
  {
    if lines == [] then Ok([])
    else
      AllParseCons(lines);
      match ParseLine(lines[0])
      case Err(e) => Err(e)
      case Ok(entry) =>
        match ParseAll(lines[1..])
        case Err(e) => Err(e)
        case Ok(rest) => ParsedAsCons(lines, entry, rest); Ok([entry] + rest)
  }

  // ---------------------------------------------------------------------
  // insert_into_file

  /** The new content insert_into_file writes: everything up to and
      including the first occurrence of the marker, a newline, the
      inserted text, a newline, then the rest. A missing marker raises
      ValueError and nothing is written. */
  function InsertIntoFile(content: string, insertContent: string, afterMarker: string): (r: Result<string, ReadError>)
    ensures r.Err? <==> !Contains(content, afterMarker)
    ensures r.Err? ==> r.error == ValueError
    ensures r.Ok? ==>
              var k := Find(content, afterMarker) + |afterMarker|;
              k <= |content| && |r.value| == |content| + |insertContent| + 2 && r.value[..k] == content[..k] &&
              r.value[k..k + |insertContent| + 2] == "\n" + insertContent + "\n" &&
              r.value[k + |insertContent| + 2..] == content[k..]
  {
    var insertPoint := Find(content, afterMarker);
    if insertPoint == -1 then Err(ValueError)
    else
      var insertIndex := insertPoint + |afterMarker|;
      Ok(content[..insertIndex] + "\n" + insertContent + "\n" + content[insertIndex..])
  }

  /** Taking the inserted block back out gives the old content, and the
      marker still first occurs where it did. */
  lemma {:induction false} InsertIntoFileUndo(content: string, insertContent: string, afterMarker: string)
    requires Contains(content, afterMarker)
    ensures var r := InsertIntoFile(content, insertContent, afterMarker).value;
      var k := Find(content, afterMarker) + |afterMarker|;
      r[..k] + r[k + |insertContent| + 2..] == content
    ensures var r := InsertIntoFile(content, insertContent, afterMarker).value;
      Find(r, afterMarker) == Find(content, afterMarker)
  {
    var r := InsertIntoFile(content, insertContent, afterMarker).value;
    var f := Find(content, afterMarker);
    var k := f + |afterMarker|;
    assert content == content[..k] + content[k..];
    forall i | 0 <= i <= f
      ensures OccursAt(r, afterMarker, i) <==> OccursAt(content, afterMarker, i)
    {
      assert r[..k] == content[..k];
      if i + |afterMarker| <= k {
        assert r[i..i + |afterMarker|] == content[i..i + |afterMarker|];
      }
    }
    var g := Find(r, afterMarker);
    assert OccursAt(r, afterMarker, f);
    assert g <= f;
  }
}

=== FILE: FileSearch.dfy ===
/** The file index of plugin/GlobalFileSearchPlugin.py: the dictionary
    from lower-cased file names to full paths, kept up to date by the
    file-system events, and the search over it. Walking the disk, the
    pickle cache and the watchdog observer are not modelled: the events
    arrive as calls. */
module FileSearch {
  import opened Wrappers
  import opened PyStrings
  import opened PluginResults

  /** os.path.basename on a POSIX path: the text after the last "/". */
  function Basename(path: string): string
  {
    if path == [] || path[|path| - 1] == '/' then []
    else Basename(path[..|path| - 1]) + [path[|path| - 1]]
  }

  /** The base name is the end of the path after its last "/". */
  lemma {:induction false} BasenameIsLast(path: string)
    ensures '/' !in Basename(path) && |Basename(path)| <= |path|
    ensures Basename(path) == path[|path| - |Basename(path)|..]
    ensures |Basename(path)| < |path| ==> path[|path| - |Basename(path)| - 1] == '/'
  {
    if path != [] && path[|path| - 1] != '/' {
      var p := path[..|path| - 1];
      var c := path[|path| - 1];
      BasenameIsLast(p);
      var b := Basename(p);
      assert Basename(path) == b + [c];
      var n := |path| - |b| - 1;
      assert path[n..] == path[n..|path| - 1] + [c];
      assert path[n..|path| - 1] == p[|p| - |b|..];
      if |b| < |p| {
        assert path[n - 1] == p[|p| - |b| - 1];
      }
    }
  }

  /** The index key of a path. */
  function KeyOf(path: string): string
  {
    Lower(Basename(path))
  }

  /** [p for p in paths if p != path]. */
  function Without(paths: seq<string>, path: string): (r: seq<string>)
    ensures multiset(r) == multiset(paths)[path := 0]
    ensures path !in r && forall x :: x in r <==> x in paths && x != path
  {
    if paths == [] then []
    else
      assert paths == [paths[0]] + paths[1..];
      (if paths[0] == path then [] else [paths[0]]) + Without(paths[1..], path)
  }

  /** The paths under a key, none for a missing key. */
  function Paths(index: map<string, seq<string>>, key: string): seq<string>
  {
    if key in index then index[key] else []
  }

  /** index.setdefault(key, []).append(path). */
  function Added(index: map<string, seq<string>>, path: string): (r: map<string, seq<string>>)
    ensures r.Keys == index.Keys + {KeyOf(path)}
    ensures r[KeyOf(path)] == Paths(index, KeyOf(path)) + [path]
    ensures forall k :: k in index && k != KeyOf(path) ==> r[k] == index[k]
  {
    index[KeyOf(path) := Paths(index, KeyOf(path)) + [path]]
  }

  /** _remove_from_index on the dictionary: every copy of the path goes,
      and the key with it when nothing is left; a missing key changes
      nothing. */
  function Removed(index: map<string, seq<string>>, path: string): (r: map<string, seq<string>>)
    ensures KeyOf(path) !in index ==> r == index
    ensures forall k :: k in r ==> k in index && (k != KeyOf(path) ==> r[k] == index[k])
    ensures forall k :: k in index && k != KeyOf(path) ==> k in r
    ensures KeyOf(path) in r ==> r[KeyOf(path)] == Without(index[KeyOf(path)], path)
    ensures KeyOf(path) in index && KeyOf(path) !in r ==> forall x :: x in index[KeyOf(path)] ==> x == path
  {
    var key := KeyOf(path);
    if key !in index then index
    else
      var rest := Without(index[key], path);
      if rest != [] then index[key := rest] else index - {key}
  }

  /** The order of the dictionary's keys after an addition: a new key
      goes last. */
  function AddedOrder(order: seq<string>, index: map<string, seq<string>>, path: string): seq<string>
  {
    if KeyOf(path) in index then order else order + [KeyOf(path)]
  }

  /** The order after a removal: a deleted key leaves its place. */
  function RemovedOrder(order: seq<string>, index: map<string, seq<string>>, path: string): seq<string>
  {
    if KeyOf(path) in index && Without(index[KeyOf(path)], path) == [] then Drop(order, KeyOf(path))
    else order
  }

  function Drop(order: seq<string>, key: string): (r: seq<string>)
    ensures forall k :: k in r <==> k in order && k != key
    ensures Distinct(order) ==> Distinct(r)
  {
    if order == [] then []
    else
      var rest := Drop(order[1..], key);
      if order[0] == key then rest
      else
        assert order[0] !in order[1..] || !Distinct(order);
        [order[0]] + rest
  }

  predicate Distinct(order: seq<string>)
  {
    forall i, j :: 0 <= i < j < |order| ==> order[i] != order[j]
  }

  /** The index as the dictionary keeps it: the keys in insertion order,
      each once, and no key with an empty list. */
  ghost predicate WellFormed(order: seq<string>, index: map<string, seq<string>>)
  {
    Distinct(order) && (forall k :: k in order <==> k in index) &&
    (forall k :: k in index ==> index[k] != [])
  }

  /** Additions and removals keep the index well formed: in particular no
      key is ever left with an empty list. */
  lemma {:induction false} AddedWellFormed(order: seq<string>, index: map<string, seq<string>>, path: string)
    requires WellFormed(order, index)
    ensures WellFormed(AddedOrder(order, index, path), Added(index, path))
  {
  }

  lemma {:induction false} RemovedWellFormed(order: seq<string>, index: map<string, seq<string>>, path: string)
    requires WellFormed(order, index)
    ensures WellFormed(RemovedOrder(order, index, path), Removed(index, path))
  {
  }

  /** The three cases of _remove_from_index. */
  lemma {:induction false} RemovedCases(order: seq<string>, index: map<string, seq<string>>, path: string)
    ensures var key := KeyOf(path);
      if key !in index then Removed(index, path) == index && RemovedOrder(order, index, path) == order
      else
        var rest := Without(index[key], path);
        if rest != [] then Removed(index, path) == index[key := rest] && RemovedOrder(order, index, path) == order
        else Removed(index, path) == index - {key} && RemovedOrder(order, index, path) == Drop(order, key)
  {
  }

  /** FileIndexer: the dictionary and the order of its keys. */
  class FileIndexer {
    var index: map<string, seq<string>>
    var order: seq<string>

    ghost predicate Valid()
      reads this
    {
      WellFormed(order, index)
    }

    constructor ()
      ensures Valid() && index == map[] && order == []
    {
      index := map[];
      order := [];
    }
  }

  /** IndexUpdateHandler: the file-system events, applied to its
      indexer. */
  class IndexUpdateHandler {
    const indexer: FileIndexer

    constructor (indexer: FileIndexer)
      ensures this.indexer == indexer
    {
      this.indexer := indexer;
    }

    /** _add_to_index. */
    method AddToIndex(path: string)
      requires indexer.Valid()
      modifies indexer
      ensures indexer.index == Added(old(indexer.index), path)
      ensures indexer.order == AddedOrder(old(indexer.order), old(indexer.index), path)
      ensures indexer.Valid()
    {
      AddedWellFormed(indexer.order, indexer.index, path);
      var key := KeyOf(path);
      if key !in indexer.index {
        indexer.order := indexer.order + [key];
      }
      indexer.index := indexer.index[key := Paths(indexer.index, key) + [path]];
    }

    /** _remove_from_index. */
    method RemoveFromIndex(path: string)
      requires indexer.Valid()
      modifies indexer
      ensures indexer.index == Removed(old(indexer.index), path)
      ensures indexer.order == RemovedOrder(old(indexer.order), old(indexer.index), path)
      ensures indexer.Valid()
    {
      var key := KeyOf(path);
      var index, order := indexer.index, indexer.order;
      if key in index {
        var rest := Without(index[key], path);
        if rest != [] {
          index := index[key := rest];
        } else {
          index := index - {key};
          order := Drop(order, key);
        }
      }
      RemovedCases(indexer.order, indexer.index, path);
      RemovedWellFormed(indexer.order, indexer.index, path);
      indexer.index, indexer.order := index, order;
    }

    /** on_created: files only. */
    method OnCreated(path: string, isDirectory: bool)
      requires indexer.Valid()
      modifies indexer
      ensures indexer.Valid()
      ensures isDirectory ==> indexer.index == old(indexer.index) && indexer.order == old(indexer.order)
      ensures !isDirectory ==> indexer.index == Added(old(indexer.index), path)
    {
      if !isDirectory {
        AddToIndex(path);
      }
    }

    /** on_deleted: files only. */
    method OnDeleted(path: string, isDirectory: bool)
      requires indexer.Valid()
      modifies indexer
      ensures indexer.Valid()
      ensures isDirectory ==> indexer.index == old(indexer.index) && indexer.order == old(indexer.order)
      ensures !isDirectory ==> indexer.index == Removed(old(indexer.index), path)
    {
      if !isDirectory {
        RemoveFromIndex(path);
      }
    }

    /** on_moved: the old path removed, then the new one added. */
    method OnMoved(src: string, dest: string, isDirectory: bool)
      requires indexer.Valid()
      modifies indexer
      ensures indexer.Valid()
      ensures isDirectory ==> indexer.index == old(indexer.index) && indexer.order == old(indexer.order)
      ensures !isDirectory ==> indexer.index == Added(Removed(old(indexer.index), src), dest)
    {
      if !isDirectory {
        RemoveFromIndex(src);
        AddToIndex(dest);
      }
    }
  }

  /** After a move the new path is listed under its name and, if it is a
      different path, the old one is gone from under its name. */
  lemma {:induction false} MoveRelocates(index: map<string, seq<string>>, src: string, dest: string)
    ensures var r := Added(Removed(index, src), dest);
      dest in r[KeyOf(dest)] &&
      (src != dest && KeyOf(src) in r ==> src !in r[KeyOf(src)])
  {
    var mid := Removed(index, src);
    var r := Added(mid, dest);
    assert r[KeyOf(dest)][|r[KeyOf(dest)]| - 1] == dest;
    if src != dest && KeyOf(src) in r && KeyOf(src) == KeyOf(dest) {
      assert r[KeyOf(src)] == Paths(mid, KeyOf(src)) + [dest];
    }
  }

  // ---------------------------------------------------------------------
  // search_files

  const MaxResults := 50
  const NotFound := "未找到匹配的文件"

  /** The fuzzy loop from key number i on, results so far acc: paths of
      keys that contain the pattern and are not it, stopping once there
      are MaxResults results. */
  function Fuzzy(order: seq<string>, index: map<string, seq<string>>, pattern: string, acc: seq<string>): (r: seq<string>)
    ensures |r| >= |acc| && r[..|acc|] == acc
    decreases |order|
  {
    if order == [] then acc
    else
      var key := order[0];
      if Contains(key, pattern) && key != pattern then
        var acc' := acc + Paths(index, key);
        if |acc'| >= MaxResults then acc'
        else
          var r := Fuzzy(order[1..], index, pattern, acc');
          assert r[..|acc'|][..|acc|] == r[..|acc|];
          r
      else Fuzzy(order[1..], index, pattern, acc)
  }

  /** The paths of every key that contains the pattern and is not it, in
      key order. */
  function AllFuzzy(order: seq<string>, index: map<string, seq<string>>, pattern: string): seq<string>
    decreases |order|
  {
    if order == [] then []
    else
      (if Contains(order[0], pattern) && order[0] != pattern then Paths(index, order[0]) else []) +
      AllFuzzy(order[1..], index, pattern)
  }

  /** The results of search_files for a pattern already lower-cased: the
      exact key's paths first, then the fuzzy ones. */
  function Results(order: seq<string>, index: map<string, seq<string>>, pattern: string): seq<string>
  {
    Fuzzy(order, index, pattern, Paths(index, pattern))
  }

  /** Either the loop ran to the end and collected every fuzzy match, or
      it stopped with at least MaxResults results. */
  lemma {:induction false} FuzzyCompleteOrFull(order: seq<string>, index: map<string, seq<string>>, pattern: string, acc: seq<string>)
    ensures var r := Fuzzy(order, index, pattern, acc);
      r == acc + AllFuzzy(order, index, pattern) || |r| >= MaxResults
    decreases |order|
  {
    if order != [] {
      var key := order[0];
      if Contains(key, pattern) && key != pattern {
        var acc' := acc + Paths(index, key);
        if |acc'| < MaxResults {
          assert Fuzzy(order, index, pattern, acc) == Fuzzy(order[1..], index, pattern, acc');
          FuzzyCompleteOrFull(order[1..], index, pattern, acc');
          assert AllFuzzy(order, index, pattern) == Paths(index, key) + AllFuzzy(order[1..], index, pattern);
          assert acc' + AllFuzzy(order[1..], index, pattern) == acc + AllFuzzy(order, index, pattern);
        } else {
          assert Fuzzy(order, index, pattern, acc) == acc';
        }
      } else {
        assert Fuzzy(order, index, pattern, acc) == Fuzzy(order[1..], index, pattern, acc);
        assert AllFuzzy(order, index, pattern) == [] + AllFuzzy(order[1..], index, pattern);
        FuzzyCompleteOrFull(order[1..], index, pattern, acc);
      }
    }
  }

  /** Every result beyond acc is a path under a key containing the
      pattern. */
  lemma {:induction false} FuzzySound(order: seq<string>, index: map<string, seq<string>>, pattern: string, acc: seq<string>)
    ensures var r := Fuzzy(order, index, pattern, acc);
      forall i :: |acc| <= i < |r| ==> exists k :: k in order && Contains(k, pattern) && r[i] in Paths(index, k)
    decreases |order|
  {
    if order != [] {
      var key := order[0];
      var r := Fuzzy(order, index, pattern, acc);
      var matched := Contains(key, pattern) && key != pattern;
      var acc' := if matched then acc + Paths(index, key) else acc;
      assert acc'[..|acc|] == acc;
      if matched && |acc'| >= MaxResults {
        assert r == acc';
        forall i | |acc| <= i < |r|
          ensures exists k :: k in order && Contains(k, pattern) && r[i] in Paths(index, k)
        {
          assert r[i] == Paths(index, key)[i - |acc|];
          assert key in order;
        }
      } else {
        var rest := Fuzzy(order[1..], index, pattern, acc');
        assert r == rest;
        FuzzySound(order[1..], index, pattern, acc');
        forall i | |acc| <= i < |r|
          ensures exists k :: k in order && Contains(k, pattern) && r[i] in Paths(index, k)
        {
          if i < |acc'| {
            assert rest[..|acc'|][i] == acc'[i];
            assert matched;
            assert r[i] == Paths(index, key)[i - |acc|];
            assert key in order;
          } else {
            assert |acc'| <= i < |rest|;
            assert Fuzzy(order[1..], index, pattern, acc')[i] == rest[i];
            assert exists k :: k in order[1..] && Contains(k, pattern) && rest[i] in Paths(index, k);
            var k :| k in order[1..] && Contains(k, pattern) && rest[i] in Paths(index, k);
            var j :| 0 <= j < |order[1..]| && order[1..][j] == k;
            assert order[j + 1] == k;
          }
        }
      }
    }
  }

  /** search_files' results: the exact matches first; every result lies
      under a key containing the pattern; and unless the loop stopped
      early, every path under such a key is there. */
  lemma {:induction false} ResultsProperties(order: seq<string>, index: map<string, seq<string>>, pattern: string)
    requires WellFormed(order, index)
    ensures var r := Results(order, index, pattern);
      var exact := Paths(index, pattern);
      r[..|exact|] == exact &&
      (forall x :: x in r ==> exists k :: k in index && Contains(k, pattern) && x in index[k]) &&
      (r == exact + AllFuzzy(order, index, pattern) || |r| >= MaxResults)
  {
    var r := Results(order, index, pattern);
    var exact := Paths(index, pattern);
    FuzzySound(order, index, pattern, exact);
    FuzzyCompleteOrFull(order, index, pattern, exact);
    forall x | x in r
      ensures exists k :: k in index && Contains(k, pattern) && x in index[k]
    {
      var i :| 0 <= i < |r| && r[i] == x;
      if i < |exact| {
        assert x == exact[i] && r[..|exact|][i] == r[i];
        ContainsPrefix(pattern, pattern);
      } else {
        var k :| k in order && Contains(k, pattern) && r[i] in Paths(index, k);
      }
    }
  }

  /** The loop only stops after adding a key's whole list, so more than
      MaxResults results can come back: 49 exact matches and one fuzzy
      key with 10 paths give 59. */
  lemma {:induction false} ResultsCanExceedMax(index: map<string, seq<string>>, pattern: string, key: string)
    requires pattern in index && |index[pattern]| == 49
    requires key in index && |index[key]| == 10 && Contains(key, pattern) && key != pattern
    ensures |Results([key], index, pattern)| == 59
  {
  }

  /** The text so far followed by the numbered lines of paths, the first
      numbered start. */
  function Listed(text: string, paths: seq<string>, start: int): (r: string)
    ensures |text| <= |r| && r[..|text|] == text
    decreases |paths|
  {
    if paths == [] then text
    else
      var text' := text + Line(start, paths[0]);
      var r := Listed(text', paths[1..], start + 1);
      assert r[..|text'|][..|text|] == r[..|text|];
      r
  }

  /** f"{i}. {path}\n". */
  function Line(i: int, path: string): string
  {
    IntToStr(i) + ". " + path + "\n"
  }

  function Header(count: nat): string
  {
    "找到 " + IntToStr(count) + " 个结果:\n"
  }

  const Truncated := "\n(仅显示前 50 个结果)"

  /** The text search_files returns for its results. */
  function Report(results: seq<string>): (r: string)
    ensures r == NotFound <==> results == []
    ensures results != [] ==> |Header(|results|)| <= |r| && r[..|Header(|results|)|] == Header(|results|)
    ensures |results| > MaxResults ==> |Truncated| <= |r| && r[|r| - |Truncated|..] == Truncated
  {
    if results == [] then NotFound
    else
      var shown := if |results| > MaxResults then results[..MaxResults] else results;
      var h := Header(|results|);
      var r := Listed(h, shown, 1) + (if |results| > MaxResults then Truncated else "");
      var l := Listed(h, shown, 1);
      assert r[..|h|] == l[..|h|] == h;
      assert r[0] == h[0] != NotFound[0];
      assert |results| > MaxResults ==> r[|l|..] == Truncated;
      r
  }

  /** The text building loop of search_files. */
  method Format(results: seq<string>) returns (text: string)
    ensures text == Report(results)
  {
    if results == [] {
      return NotFound;
    }
    text := Header(|results|);
    var shown := if |results| > MaxResults then results[..MaxResults] else results;
    for i := 0 to |shown|
      invariant Listed(text, shown[i..], 1 + i) == Listed(Header(|results|), shown, 1)
    {
      assert shown[i..][1..] == shown[i + 1..];
      text := text + Line(1 + i, shown[i]);
    }
    text := text + if |results| > MaxResults then Truncated else "";
  }

  /** GlobalFileSearchPlugin: the search over the indexer, which is None
      until init. */
  class GlobalFileSearchPlugin {
    var indexer: FileIndexer?

    constructor ()
      ensures indexer == null
    {
      indexer := null;
    }

    /** search_files: lower-case the pattern, collect, report. */
    method SearchFiles(pattern: string) returns (text: string)
      requires indexer != null
      ensures text == Report(Results(indexer.order, indexer.index, Lower(pattern)))
    {
      var p := Lower(pattern);
      var index := indexer.index;
      var results := Paths(index, p);
      var order := indexer.order;
      ghost var full := Fuzzy(order, index, p, Paths(index, p));
      var i := 0;
      while i < |order|
        invariant 0 <= i <= |order|
        invariant Fuzzy(order[i..], index, p, results) == full
      {
        var key := order[i];
        assert order[i..][1..] == order[i + 1..];
        if Contains(key, p) && key != p {
          results := results + Paths(index, key);
          if |results| >= MaxResults {
            assert results == full;
            break;
          }
        }
        i := i + 1;
      }
      assert order[i..] == [] || results == full;
      text := Format(results);
    }

    /** run: a missing or empty pattern fails; searching before init fails
        with the AttributeError's text. */
    method Run(args: map<string, string>) returns (r: PluginResult)
      ensures "pattern" !in args || args["pattern"] == "" ==> r == Failure("请输入要搜索的文件名关键词")
      ensures "pattern" in args && args["pattern"] != "" && indexer == null ==>
                r == Failure("搜索失败: 'NoneType' object has no attribute 'index'")
      ensures "pattern" in args && args["pattern"] != "" && indexer != null ==>
                r == Success(Report(Results(indexer.order, indexer.index, Lower(args["pattern"]))))
    {
      if "pattern" !in args || args["pattern"] == "" {
        return Failure("请输入要搜索的文件名关键词");
      }
      if indexer == null {
        return Failure("搜索失败: 'NoneType' object has no attribute 'index'");
      }
      var text := SearchFiles(args["pattern"]);
      return Success(text);
    }

    /** run as written: both failure branches call the named tuple without
        its result, which raises TypeError (the error returned here); only
        a search on an initialised plugin returns a result. */
    method RunAsWritten(args: map<string, string>) returns (r: Result<PluginResult, ConstructError>)
      ensures r.Err? <==> "pattern" !in args || args["pattern"] == "" || indexer == null
      ensures r.Err? ==> r.error == MissingResult
      ensures r.Ok? ==> r.value == Success(Report(Results(indexer.order, indexer.index, Lower(args["pattern"]))))
    {
      var res := Run(args);
      if res.success {
        return Ok(res);
      }
      FailureAsWrittenRaises(res.errorMessage);
      return FailureAsWritten(res.errorMessage);
    }
  }
}

=== FILE: GraphSpec.dfy ===
/** Graph vocabulary for the path-finding and traversal functions of
    butler/algorithms.py. A weighted graph is a dict from node to a dict
    of neighbour -> weight; here the inner dict is a list of
    (neighbour, weight) pairs in the dict's iteration order. An
    unweighted graph is a dict from node to a list of neighbours. */
module GraphSpec {

  /** A distance entry: float('infinity') or a non-negative finite weight. */
  datatype Dist = Inf | Fin(n: nat)

  type Edge<N> = (N, nat)

  /** `x < d` where d may be float('infinity'). */
  function Below(x: nat, d: Dist): bool
  {
    d.Inf? || x < d.n
  }

  /** The position of an entry with the smallest priority: the entry
      heapq.heappop hands back from a queue of (priority, node) pairs (up
      to the order among equal priorities). */
  function MinEntry<N>(q: seq<(int, N)>): (m: nat)
    requires |q| > 0
    ensures m < |q| && forall k :: 0 <= k < |q| ==> q[m].0 <= q[k].0
  {
    if |q| == 1 then 0
    else
      var m := MinEntry(q[1..]);
      if q[0].0 <= q[m + 1].0 then 0 else m + 1
  }

  /** Every neighbour named in an adjacency list is itself a key, so that
      the `distances[neighbor]` lookups of the source cannot fail. */
  ghost predicate Closed<N>(graph: map<N, seq<Edge<N>>>)
  {
    forall u, e :: u in graph && e in graph[u] ==> e.0 in graph
  }

  /** The node a walk of hops from s has reached before hop i. */
  function HopSource<N>(s: N, hops: seq<Edge<N>>, i: nat): N
    requires i <= |hops|
  {
    if i == 0 then s else hops[i - 1].0
  }

  /** The node a walk from s ends at. */
  function WalkEnd<N>(s: N, hops: seq<Edge<N>>): N
  {
    HopSource(s, hops, |hops|)
  }

  /** hops is a walk from s: every hop is an edge (neighbour, weight) of
      the node it leaves. */
  ghost predicate IsWalk<N>(graph: map<N, seq<Edge<N>>>, s: N, hops: seq<Edge<N>>)
  {
    forall i {:trigger HopSource(s, hops, i)} ::
      0 <= i < |hops| ==> HopSource(s, hops, i) in graph && hops[i] in graph[HopSource(s, hops, i)]
  }

  /** The total weight of a walk. */
  function WalkWeight<N>(hops: seq<Edge<N>>): nat
  {
    if hops == [] then 0 else WalkWeight(hops[..|hops| - 1]) + hops[|hops| - 1].1
  }

  /** Extending a walk by one edge of its end node. */
  lemma {:induction false} WalkExtend<N>(graph: map<N, seq<Edge<N>>>, s: N, hops: seq<Edge<N>>, e: Edge<N>)
    requires IsWalk(graph, s, hops)
    requires WalkEnd(s, hops) in graph && e in graph[WalkEnd(s, hops)]
    ensures IsWalk(graph, s, hops + [e])
    ensures WalkEnd(s, hops + [e]) == e.0
    ensures WalkWeight(hops + [e]) == WalkWeight(hops) + e.1
  {
    var h := hops + [e];
    assert h[..|h| - 1] == hops;
    forall i | 0 <= i < |h|
      ensures HopSource(s, h, i) in graph && h[i] in graph[HopSource(s, h, i)]
    {
      if i < |hops| {
        assert HopSource(s, h, i) == HopSource(s, hops, i);
      }
    }
  }

  /** Node x has had every outgoing edge relaxed against the distances d. */
  ghost predicate Relaxed<N>(graph: map<N, seq<Edge<N>>>, d: map<N, Dist>, x: N)
    requires x in d && d[x].Fin?
  {
    x in graph ==>
      forall e :: e in graph[x] ==> e.0 in d && d[e.0].Fin? && d[e.0].n <= d[x].n + e.1
  }

  /** When the start has distance 0 and every node with a finite distance
      has all its edges relaxed, every walk from the start ends at a node
      whose distance is finite and at most the walk's weight. */
  lemma {:induction false} WalkBound<N>(graph: map<N, seq<Edge<N>>>, d: map<N, Dist>, s: N, hops: seq<Edge<N>>)
    requires s in d && d[s] == Fin(0)
    requires forall x {:trigger Relaxed(graph, d, x)} :: x in d && d[x].Fin? ==> Relaxed(graph, d, x)
    requires IsWalk(graph, s, hops)
    ensures WalkEnd(s, hops) in d && d[WalkEnd(s, hops)].Fin?
    ensures d[WalkEnd(s, hops)].n <= WalkWeight(hops)
    decreases |hops|
  {
    if hops != [] {
      var front := hops[..|hops| - 1];
      assert IsWalk(graph, s, front) by {
        forall i | 0 <= i < |front|
          ensures HopSource(s, front, i) in graph && front[i] in graph[HopSource(s, front, i)]
        {
          assert HopSource(s, front, i) == HopSource(s, hops, i);
        }
      }
      WalkBound(graph, d, s, front);
      var x := WalkEnd(s, front);
      assert x == HopSource(s, hops, |hops| - 1);
      assert Relaxed(graph, d, x);
    }
  }

  /** The nodes of a finite set, listed in some order. */
  ghost function Enumerate<N(!new)>(S: set<N>): (r: seq<N>)
    ensures forall v :: v in S <==> v in r
    decreases S
  {
    if S == {} then []
    else
      var v :| v in S;
      [v] + Enumerate(S - {v})
  }

  /** How many of the listed nodes are at float('infinity'). */
  function InfCount<N>(d: map<N, Dist>, keys: seq<N>): nat
  {
    if keys == [] then 0
    else (if keys[0] in d && d[keys[0]].Inf? then 1 else 0) + InfCount(d, keys[1..])
  }

  /** The sum of the finite distances of the listed nodes. */
  function SumFin<N>(d: map<N, Dist>, keys: seq<N>): nat
  {
    if keys == [] then 0
    else (if keys[0] in d && d[keys[0]].Fin? then d[keys[0]].n else 0) + SumFin(d, keys[1..])
  }

  /** Lowering the distance of a listed node decreases the pair
      (InfCount, SumFin) lexicographically: the measure under which the
      search loops terminate. */
  lemma {:induction false} LowerDecreases<N>(d: map<N, Dist>, keys: seq<N>, v: N, nd: nat)
    requires v in d && (d[v].Inf? || nd < d[v].n)
    ensures var d' := d[v := Fin(nd)];
      InfCount(d', keys) <= InfCount(d, keys) &&
      (d[v].Fin? ==> InfCount(d', keys) == InfCount(d, keys) && SumFin(d', keys) <= SumFin(d, keys))
    ensures var d' := d[v := Fin(nd)];
      v in keys ==>
        InfCount(d', keys) < InfCount(d, keys) ||
        (InfCount(d', keys) == InfCount(d, keys) && SumFin(d', keys) < SumFin(d, keys))
    decreases |keys|
  {
    if keys != [] {
      LowerDecreases(d, keys[1..], v, nd);
      if keys[0] != v {
        assert v in keys ==> v in keys[1..];
      }
    }
  }

  // ---------------------------------------------------------------------
  // Unweighted graphs

  /** graph.get(v, []): the neighbours of v, none when v is not a key. */
  function Neighbors<N>(graph: map<N, seq<N>>, v: N): seq<N>
  {
    if v in graph then graph[v] else []
  }

  /** p is a path: consecutive nodes are joined by an edge. */
  ghost predicate IsPath<N>(graph: map<N, seq<N>>, p: seq<N>)
  {
    |p| > 0 && forall i :: 0 <= i < |p| - 1 ==> p[i + 1] in Neighbors(graph, p[i])
  }

  /** v can be reached from s along a path. */
  ghost predicate Reachable<N(!new)>(graph: map<N, seq<N>>, s: N, v: N)
  {
    exists p :: IsPath(graph, p) && p[0] == s && p[|p| - 1] == v
  }

  /** Extending a path by a neighbour of its last node. */
  lemma {:induction false} PathExtend<N>(graph: map<N, seq<N>>, p: seq<N>, v: N)
    requires IsPath(graph, p) && v in Neighbors(graph, p[|p| - 1])
    ensures IsPath(graph, p + [v]) && (p + [v])[0] == p[0]
  {
  }

  /** Every node that occurs in some adjacency list or as a key. */
  function AllNodes<N>(graph: map<N, seq<N>>): (r: set<N>)
    ensures forall v :: v in graph ==> v in r
    ensures forall u, v :: u in graph && v in graph[u] ==> v in r
  {
    graph.Keys + set u, v | u in graph && v in graph[u] :: v
  }

  /** A set that holds s and every neighbour of each of its members holds
      everything reachable from s. */
  lemma {:induction false} ClosedHoldsPath<N>(graph: map<N, seq<N>>, S: set<N>, p: seq<N>)
    requires IsPath(graph, p) && p[0] in S
    requires forall x, y :: x in S && y in Neighbors(graph, x) ==> y in S
    ensures p[|p| - 1] in S
    decreases |p|
  {
    if |p| > 1 {
      var front := p[..|p| - 1];
      assert IsPath(graph, front);
      ClosedHoldsPath(graph, S, front);
      assert p[|p| - 1] in Neighbors(graph, front[|front| - 1]);
    }
  }

  lemma {:induction false} ClosedHoldsReachable<N(!new)>(graph: map<N, seq<N>>, S: set<N>, s: N, v: N)
    requires s in S && Reachable(graph, s, v)
    requires forall x, y :: x in S && y in Neighbors(graph, x) ==> y in S
    ensures v in S
  {
    var p :| IsPath(graph, p) && p[0] == s && p[|p| - 1] == v;
    ClosedHoldsPath(graph, S, p);
  }
}

=== FILE: HybridSort.dfy ===
/** The in-place hybrid quick/insertion sort of my_package/algorithm.py and
    package/algorithm.py. The two files hold the same code except that the
    package copy's median_of_three compares only the priority field [1] of
    its (name, priority, marker) tuples while everything else compares whole
    tuples. So the sort is written once, over any element type, with two
    orderings: `lt` (Python's `<` on elements) and `mlt` (the comparison
    median_of_three uses). */
module HybridSort {
  import opened SortSpec

  /** What Python's `<` guarantees for numbers and for tuples of strings and
      numbers: irreflexive, transitive, and incomparability is transitive
      too. */
  ghost predicate StrictWeakOrder<T(!new)>(lt: (T, T) -> bool)
  {
    (forall x :: !lt(x, x)) &&
    (forall x, y, z :: lt(x, y) && lt(y, z) ==> lt(x, z)) &&
    (forall x, y, z :: !lt(x, y) && !lt(y, z) ==> !lt(x, z))
  }

  /** What median_of_three needs of its comparison: no two elements are
      each below the other. */
  ghost predicate Asymmetric<T(!new)>(mlt: (T, T) -> bool)
  {
    forall x, y :: mlt(x, y) ==> !mlt(y, x)
  }

  /** s[lo..hi) is ascending: no element is smaller than one before it. */
  ghost predicate SortedBy<T>(s: seq<T>, lo: int, hi: int, lt: (T, T) -> bool)
    requires 0 <= lo && hi <= |s|
  {
    forall i, j :: lo <= i < j < hi ==> !lt(s[j], s[i])
  }

  /** Every element of s[lo..hi) is below v. */
  ghost predicate AllBelow<T>(s: seq<T>, lo: int, hi: int, v: T, lt: (T, T) -> bool)
    requires 0 <= lo && hi <= |s|
  {
    forall k :: lo <= k < hi ==> lt(s[k], v)
  }

  /** No element of s[lo..hi) is below v. */
  ghost predicate NoneBelow<T>(s: seq<T>, lo: int, hi: int, v: T, lt: (T, T) -> bool)
    requires 0 <= lo && hi <= |s|
  {
    forall k :: lo <= k < hi ==> !lt(s[k], v)
  }

  // ---------------------------------------------------------------------
  // median_of_three

  /** median_of_three(arr, left, mid, right): the index, among the three,
      of the median under mlt. The element at the returned index is
      neither below both of the others nor above both of them. */
  function MedianOfThree<T(!new)>(s: seq<T>, left: int, mid: int, right: int, mlt: (T, T) -> bool): (m: int)
    requires 0 <= left < |s| && 0 <= mid < |s| && 0 <= right < |s|
    requires Asymmetric(mlt)
    ensures m == left || m == mid || m == right
    ensures m == left ==> !(mlt(s[left], s[mid]) && mlt(s[left], s[right])) && !(mlt(s[mid], s[left]) && mlt(s[right], s[left]))
    ensures m == mid ==> !(mlt(s[mid], s[left]) && mlt(s[mid], s[right])) && !(mlt(s[left], s[mid]) && mlt(s[right], s[mid]))
    ensures m == right ==> !(mlt(s[right], s[left]) && mlt(s[right], s[mid])) && !(mlt(s[left], s[right]) && mlt(s[mid], s[right]))
  {
    if mlt(s[left], s[mid]) then
      if mlt(s[mid], s[right]) then mid
      else if mlt(s[left], s[right]) then right
      else left
    else
      if mlt(s[left], s[right]) then left
      else if mlt(s[mid], s[right]) then right
      else mid
  }

  // ---------------------------------------------------------------------
  // insertionSort

  /** Moving b[i] down to position h and shifting b[h..i) one step right
      is a rotation, so it keeps the multiset. */
  lemma {:induction false} Rotation<T>(b: seq<T>, c: seq<T>, h: int, i: int)
    requires 0 <= h <= i < |b| == |c|
    requires forall k :: 0 <= k < |b| && !(h <= k <= i) ==> c[k] == b[k]
    requires c[h] == b[i]
    requires forall k :: h + 1 <= k <= i ==> c[k] == b[k - 1]
    ensures multiset(c) == multiset(b)
  {
    assert c == c[..h] + [c[h]] + c[h + 1..i + 1] + c[i + 1..];
    assert b == b[..h] + b[h..i] + [b[i]] + b[i + 1..];
    assert c[..h] == b[..h];
    assert c[h + 1..i + 1] == b[h..i];
    assert c[i + 1..] == b[i + 1..];
  }

  /** After one insertion step, with key = b[i] placed at h behind the
      elements that are not greater than it, c[low..i] is ascending. */
  lemma {:induction false} Inserted<T(!new)>(b: seq<T>, c: seq<T>, low: int, i: int, h: int, lt: (T, T) -> bool)
    requires StrictWeakOrder(lt)
    requires 0 <= low <= h <= i < |b| == |c|
    requires SortedBy(b, low, i, lt)
    requires forall k :: low <= k < h ==> c[k] == b[k]
    requires c[h] == b[i]
    requires forall k :: h + 1 <= k <= i ==> c[k] == b[k - 1] && lt(b[i], c[k])
    requires h == low || !lt(b[i], b[h - 1])
    ensures SortedBy(c, low, i + 1, lt)
  {
    forall x, y | low <= x < y < i + 1
      ensures !lt(c[y], c[x])
    {
      if y == h {
        assert !lt(b[i], b[h - 1]) && !lt(b[h - 1], b[x]);
      } else if x == h {
        assert lt(c[x], c[y]);
      } else if y > h && x < h {
        assert !lt(b[y - 1], b[x]);
      }
    }
  }

  /** The inner loop of insertionSort: the elements of arr[left..i) that
      key = arr[i] is strictly below, and that sit above the first one it
      is not below, each move one step right. h is where key goes. */
  method ShiftAbove<T>(a: array<T>, left: int, i: int, lt: (T, T) -> bool) returns (h: int)
    requires 0 <= left <= i < a.Length
    modifies a
    ensures left <= h <= i
    ensures forall k :: 0 <= k < a.Length && !(h <= k <= i) ==> a[k] == old(a[k])
    ensures forall k :: h + 1 <= k <= i ==> a[k] == old(a[k - 1]) && lt(old(a[i]), a[k])
    ensures h == left || !lt(old(a[i]), old(a[h - 1]))
  {
    var key := a[i];
    var j := i - 1;
    while j >= left && lt(key, a[j])
      invariant left - 1 <= j <= i - 1
      invariant forall k :: 0 <= k < a.Length && !(j + 1 <= k <= i) ==> a[k] == old(a[k])
      invariant forall k :: j + 2 <= k <= i ==> a[k] == old(a[k - 1]) && lt(key, a[k])
    {
      a[j + 1] := a[j];
      j := j - 1;
    }
    h := j + 1;
  }

  /** One pass of insertionSort's outer loop: arr[i] moves left past every
      element it is strictly below. */
  method InsertOne<T(!new)>(a: array<T>, left: int, i: int, lt: (T, T) -> bool)
    requires StrictWeakOrder(lt)
    requires 0 <= left < i < a.Length
    requires SortedBy(a[..], left, i, lt)
    modifies a
    ensures SortedBy(a[..], left, i + 1, lt)
    ensures PermutedWithin(old(a[..]), a[..], left, i + 1)
  {
    ghost var b := a[..];
    var key := a[i];
    var h := ShiftAbove(a, left, i, lt);
    a[h] := key;
    ghost var c := a[..];
    assert forall k :: 0 <= k < |c| && !(h <= k <= i) ==> c[k] == b[k];
    assert forall k :: h + 1 <= k <= i ==> c[k] == b[k - 1] && lt(b[i], c[k]);
    Inserted(b, c, left, i, h, lt);
    Rotation(b, c, h, i);
  }

  /** insertionSort(arr, left, right): arr[left..right] (inclusive) ends up
      ascending; nothing outside it moves. An empty range (right < left)
      changes nothing. */
  method InsertionSort<T(!new)>(a: array<T>, left: int, right: int, lt: (T, T) -> bool)
    requires StrictWeakOrder(lt)
    requires 0 <= left <= right + 1 <= a.Length
    modifies a
    ensures SortedBy(a[..], left, right + 1, lt)
    ensures PermutedWithin(old(a[..]), a[..], left, right + 1)
  {
    var i := left + 1;
    while i <= right
      invariant left < i && (i <= right + 1 || right < left)
      invariant SortedBy(a[..], left, if i <= right + 1 then i else right + 1, lt)
      invariant PermutedWithin(old(a[..]), a[..], left, right + 1)
    {
      InsertOne(a, left, i, lt);
      i := i + 1;
    }
  }

  // ---------------------------------------------------------------------
  // partition

  /** The scanning loop of partition, with the pivot already at
      arr[left]: i moves right over elements below the pivot, j moves left
      over elements not below it, and out-of-place pairs are swapped until
      the two meet. Afterwards arr[left+1..j] is below the pivot and
      arr[j+1..right] is not. */
  method Scan<T(==)>(a: array<T>, left: int, right: int, lt: (T, T) -> bool) returns (j: int)
    requires 0 <= left < right < a.Length
    modifies a
    ensures left <= j <= right && a[left] == old(a[left])
    ensures PermutedWithin(old(a[..]), a[..], left + 1, right + 1)
    ensures AllBelow(a[..], left + 1, j + 1, a[left], lt) && NoneBelow(a[..], j + 1, right + 1, a[left], lt)
  {
    var pivot := left;
    var p := a[left];
    var i := left + 1;
    j := right;
    while true
      invariant left + 1 <= i <= j + 1 <= right + 1
      invariant a[left] == p
      invariant AllBelow(a[..], left + 1, i, p, lt) && NoneBelow(a[..], j + 1, right + 1, p, lt)
      invariant PermutedWithin(old(a[..]), a[..], left + 1, right + 1)
      decreases j - i + 2
    {
      while i <= j && lt(a[i], a[pivot])
        invariant left + 1 <= i <= j + 1
        invariant AllBelow(a[..], left + 1, i, p, lt)
        decreases j - i + 1
      {
        i := i + 1;
      }
      while i <= j && !lt(a[j], a[pivot])
        invariant i - 1 <= j <= right
        invariant NoneBelow(a[..], j + 1, right + 1, p, lt)
        decreases j - i + 1
      {
        j := j - 1;
      }
      if i <= j {
        Swap(a, i, j);
        i := i + 1;
        j := j - 1;
      } else {
        break;
      }
    }
  }

  /** The closing swap of partition: exchanging the pivot at left with
      the last element below it puts the pivot between the two parts. */
  lemma {:induction false} PivotPlaced<T>(s: seq<T>, t: seq<T>, left: int, j: int, right: int, lt: (T, T) -> bool)
    requires 0 <= left <= j <= right < |s|
    requires AllBelow(s, left + 1, j + 1, s[left], lt) && NoneBelow(s, j + 1, right + 1, s[left], lt)
    requires t == s[left := s[j]][j := s[left]]
    ensures AllBelow(t, left, j, t[j], lt) && NoneBelow(t, j + 1, right + 1, t[j], lt)
  {
  }

  /** partition(arr, left, right): the median of arr[left], arr[mid],
      arr[right] under mlt is swapped to arr[left] and used as the pivot;
      the scan leaves everything below the pivot before the returned
      index, the pivot at it, and nothing below the pivot after it. */
  method Partition<T(!new, ==)>(a: array<T>, left: int, right: int, lt: (T, T) -> bool, mlt: (T, T) -> bool) returns (j: int)
    requires 0 <= left < right < a.Length
    requires Asymmetric(mlt)
    modifies a
    ensures left <= j <= right
    ensures PermutedWithin(old(a[..]), a[..], left, right + 1)
    ensures a[j] == old(a[MedianOfThree(a[..], left, (left + right) / 2, right, mlt)])
    ensures AllBelow(a[..], left, j, a[j], lt) && NoneBelow(a[..], j + 1, right + 1, a[j], lt)
  {
    var mid := (left + right) / 2;
    var pivot := MedianOfThree(a[..], left, mid, right, mlt);
    Swap(a, left, pivot);
    pivot := left;
    j := Scan(a, left, right, lt);
    ghost var s := a[..];
    Swap(a, pivot, j);
    PivotPlaced(s, a[..], left, j, right, lt);
  }

  // ---------------------------------------------------------------------
  // hybridSort

  /** A range-restricted rearrangement keeps every property of the
      elements inside the range. */
  lemma {:induction false} Kept<T>(a: seq<T>, b: seq<T>, lo: int, hi: int, P: T -> bool)
    requires 0 <= lo <= hi <= |a|
    requires PermutedWithin(a, b, lo, hi)
    requires forall k :: lo <= k < hi ==> P(a[k])
    ensures forall k :: lo <= k < hi ==> P(b[k])
  {
    RangeMultiset(a, b, lo, hi);
    forall k | lo <= k < hi
      ensures P(b[k])
    {
      assert b[lo..hi][k - lo] == b[k];
      assert b[k] in multiset(a[lo..hi]);
      var k' :| 0 <= k' < hi - lo && a[lo..hi][k'] == b[k];
      assert a[lo + k'] == b[k];
    }
  }

  /** After the partition (s1) and the two recursive sorts of the sides
      (in either order, ending in s3), arr[left..right] is ascending and a
      rearrangement of what the partition left. */
  lemma {:induction false} Joined<T(!new)>(s1: seq<T>, s3: seq<T>, left: int, p: int, right: int, lt: (T, T) -> bool)
    requires StrictWeakOrder(lt)
    requires 0 <= left <= p <= right < |s1|
    requires AllBelow(s1, left, p, s1[p], lt) && NoneBelow(s1, p + 1, right + 1, s1[p], lt)
    requires PermutedWithin(s1, s3, left, right + 1) && s3[p] == s1[p]
    requires AllBelow(s3, left, p, s1[p], lt) && NoneBelow(s3, p + 1, right + 1, s1[p], lt)
    requires SortedBy(s3, left, p, lt) && SortedBy(s3, p + 1, right + 1, lt)
    ensures SortedBy(s3, left, right + 1, lt)
  {
    forall x, y | left <= x < y < right + 1
      ensures !lt(s3[y], s3[x])
    {
      if x < p && y > p {
        assert lt(s3[x], s1[p]) && !lt(s3[y], s1[p]);
      }
    }
  }

  /** The state after sorting one side [lo, hi) of a partition from s to
      t: every bound the partition established still holds on both sides,
      and the other side is untouched. */
  lemma {:induction false} SideSorted<T(!new)>(s: seq<T>, t: seq<T>, lo: int, hi: int, left: int, p: int, right: int, lt: (T, T) -> bool)
    requires 0 <= left <= p <= right < |s|
    requires (lo == left && hi == p) || (lo == p + 1 && hi == right + 1)
    requires PermutedWithin(s, t, lo, hi)
    requires AllBelow(s, left, p, s[p], lt) && NoneBelow(s, p + 1, right + 1, s[p], lt)
    ensures t[p] == s[p]
    ensures AllBelow(t, left, p, t[p], lt) && NoneBelow(t, p + 1, right + 1, t[p], lt)
  {
    var v := s[p];
    if lo == left {
      Kept(s, t, lo, hi, x => lt(x, v));
    } else {
      Kept(s, t, lo, hi, x => !lt(x, v));
    }
  }

  /** hybridSort(arr, left, right): ranges spanning fewer than 11 indices
      go to insertionSort; larger ones are partitioned and both sides
      sorted recursively, the shorter side first. Afterwards
      arr[left..right] is ascending and a rearrangement of its old
      contents; nothing outside moves. */
  method HybridSortRange<T(!new, ==)>(a: array<T>, left: int, right: int, lt: (T, T) -> bool, mlt: (T, T) -> bool)
    requires StrictWeakOrder(lt)
    requires Asymmetric(mlt)
    requires 0 <= left <= right + 1 <= a.Length
    modifies a
    ensures SortedBy(a[..], left, right + 1, lt)
    ensures PermutedWithin(old(a[..]), a[..], left, right + 1)
    decreases right - left
  {
    if right - left < 10 {
      InsertionSort(a, left, right, lt);
      return;
    }
    if left < right {
      var pivotIndex := Partition(a, left, right, lt, mlt);
      ghost var s1 := a[..];
      if pivotIndex - left < right - pivotIndex {
        HybridSortRange(a, left, pivotIndex - 1, lt, mlt);
        ghost var s2 := a[..];
        SideSorted(s1, s2, left, pivotIndex, left, pivotIndex, right, lt);
        HybridSortRange(a, pivotIndex + 1, right, lt, mlt);
        SideSorted(s2, a[..], pivotIndex + 1, right + 1, left, pivotIndex, right, lt);
      } else {
        HybridSortRange(a, pivotIndex + 1, right, lt, mlt);
        ghost var s2 := a[..];
        SideSorted(s1, s2, pivotIndex + 1, right + 1, left, pivotIndex, right, lt);
        HybridSortRange(a, left, pivotIndex - 1, lt, mlt);
        SideSorted(s2, a[..], left, pivotIndex, left, pivotIndex, right, lt);
      }
      Joined(s1, a[..], left, pivotIndex, right, lt);
    }
  }

  /** hybridSort(arr) with the default bounds: the whole list ascending,
      a rearrangement of the old list. */
  method Sort<T(!new, ==)>(a: array<T>, lt: (T, T) -> bool, mlt: (T, T) -> bool)
    requires StrictWeakOrder(lt)
    requires Asymmetric(mlt)
    modifies a
    ensures SortedBy(a[..], 0, a.Length, lt)
    ensures multiset(a[..]) == multiset(old(a[..]))
  {
    HybridSortRange(a, 0, a.Length - 1, lt, mlt);
  }

  // ---------------------------------------------------------------------
  // my_package/algorithm.py: lists of numbers

  function IntLess(x: int, y: int): bool
  {
    x < y
  }

  /** hybridSort(numbers) on a list of integers, where median_of_three and
      the scan both use `<`: the list ends up sorted in ascending order and
      is a rearrangement of the old list. */
  method SortIntegers(a: array<int>)
    modifies a
    ensures Sorted(a[..])
    ensures multiset(a[..]) == multiset(old(a[..]))
  {
    Sort(a, IntLess, IntLess);
    assert SortedBy(a[..], 0, a.Length, IntLess);
  }
}

=== FILE: InputProcessing.dfy ===
/** The input processor of jarvis/InputProcessor.py: the check that keeps
    shell metacharacters out of a spoken command, and what the voice and
    text inputs return. What the microphone heard and what was typed come
    in as parameters; the subtitles and the log are not modelled. */
module InputProcessing {
  import opened PyStrings

  /** The characters _validate_command refuses. */
  const ForbiddenChars: seq<char> := [';', '&', '|', '`', '$']

  /** `c in command` for one character. */
  lemma {:induction false} ContainsChar(command: string, c: char)
    ensures Contains(command, [c]) <==> c in command
  {
    if c in command {
      var i :| 0 <= i < |command| && command[i] == c;
      assert OccursAt(command, [c], i);
    }
    if Contains(command, [c]) {
      var i :| 0 <= i <= |command| - 1 && OccursAt(command, [c], i);
      assert command[i..i + 1][0] == c;
    }
  }

  /** _validate_command: all(c not in command for c in forbidden). */
  function ValidateCommand(command: string): (r: bool)
    ensures r <==> forall i :: 0 <= i < |command| ==> command[i] !in ForbiddenChars
    ensures command == [] ==> r
  {
    ContainsChar(command, ';');
    ContainsChar(command, '&');
    ContainsChar(command, '|');
    ContainsChar(command, '`');
    ContainsChar(command, '$');
    !Contains(command, ";") && !Contains(command, "&") && !Contains(command, "|") &&
    !Contains(command, "`") && !Contains(command, "$")
  }

  /** What waiting five seconds for the listener gives: the text heard,
      a timeout, or another exception. */
  datatype Heard = Heard(text: string) | TimedOut | Failed

  /** process_voice_input as it is meant to work: the heard text lower-
      cased when it passes the check, "" otherwise. */
  function VoiceInput(h: Heard): (r: string)
    ensures h.Heard? && ValidateCommand(Lower(h.text)) ==> r == Lower(h.text)
    ensures r != "" ==> h.Heard? && r == Lower(h.text)
    ensures ValidateCommand(r)
  {
    if h.Heard? && ValidateCommand(Lower(h.text)) then Lower(h.text) else ""
  }

  /** process_voice_input as written: the module uses concurrent.futures
      without importing it, so the name lookup raises NameError inside the
      outer try and every call ends in the handler that returns "". */
  function VoiceInputAsWritten(h: Heard): string
  {
    ""
  }

  /** Any command that is heard, is not empty and passes the check is lost
      as written. */
  lemma {:induction false} VoiceInputAsWrittenLosesCommands(text: string)
    requires text != [] && ValidateCommand(Lower(text))
    ensures VoiceInputAsWritten(Heard(text)) == ""
    ensures VoiceInput(Heard(text)) == Lower(text) != ""
  {
  }

  /** What input() gives: the typed line, or an exception. */
  datatype Typed = Typed(text: string) | InputFailed

  /** process_text_input: the typed line lower-cased, "" on an exception.
      Unlike the voice input it is not checked. */
  function TextInput(t: Typed): (r: string)
    ensures t.Typed? ==> r == Lower(t.text) && Lower(r) == r
    ensures t.InputFailed? ==> r == ""
  {
    if t.Typed? then LowerIdempotent(t.text); Lower(t.text) else ""
  }

  /** A typed line with a metacharacter keeps it. */
  lemma {:induction false} TextInputUnchecked(text: string)
    requires !ValidateCommand(text)
    ensures !ValidateCommand(TextInput(Typed(text)))
  {
    var i :| 0 <= i < |text| && text[i] in ForbiddenChars;
    assert TextInput(Typed(text))[i] == LowerChar(text[i]) == text[i];
  }
}

=== FILE: Jarvis.dfy ===
/** The non-I/O logic of the Jarvis class of butler/main.py: the
    comprehension quicksort, the conversation-history trim in speak, and
    the argument checks of the sort and open-program intent handlers.
    Jarvis.merge_sort, merge, binary_search, dijkstra and fibonacci are
    the members of ButlerSearch, ButlerDijkstra and ButlerFibonacci. */
module Jarvis {
  import opened SortSpec
  import opened PyStrings

  // ---------------------------------------------------------------------
  // quick_sort: [x for x in arr if x < pivot] + ... recursion

  /** [x for x in s if x < p] */
  function Below(s: seq<int>, p: int): (r: seq<int>)
    ensures forall i :: 0 <= i < |r| ==> r[i] < p
  {
    if s == [] then []
    else (if s[0] < p then [s[0]] else []) + Below(s[1..], p)
  }

  /** [x for x in s if x == p] */
  function Equal(s: seq<int>, p: int): (r: seq<int>)
    ensures forall i :: 0 <= i < |r| ==> r[i] == p
  {
    if s == [] then []
    else (if s[0] == p then [s[0]] else []) + Equal(s[1..], p)
  }

  /** [x for x in s if x > p] */
  function Above(s: seq<int>, p: int): (r: seq<int>)
    ensures forall i :: 0 <= i < |r| ==> r[i] > p
  {
    if s == [] then []
    else (if s[0] > p then [s[0]] else []) + Above(s[1..], p)
  }

  /** The three comprehensions split s: together they hold every element
      exactly once. */
  lemma {:induction false} SplitMultiset(s: seq<int>, p: int)
    ensures multiset(Below(s, p)) + multiset(Equal(s, p)) + multiset(Above(s, p)) == multiset(s)
  {
    if s != [] {
      SplitMultiset(s[1..], p);
      assert s == [s[0]] + s[1..];
    }
  }

  /** When the pivot is an element, each side is strictly shorter than s. */
  lemma {:induction false} SplitShorter(s: seq<int>, p: int)
    requires p in s
    ensures |Below(s, p)| < |s| && |Above(s, p)| < |s|
  {
    SplitMultiset(s, p);
    assert p in multiset(s);
    assert p !in multiset(Below(s, p)) && p !in multiset(Above(s, p));
    assert p in multiset(Equal(s, p));
    assert |multiset(Below(s, p))| + |multiset(Equal(s, p))| + |multiset(Above(s, p))| == |s|;
  }

  /** Three ascending runs separated by the pivot form one ascending run. */
  lemma {:induction false} JoinAroundPivot(l: seq<int>, m: seq<int>, g: seq<int>, p: int)
    requires Sorted(l) && Sorted(g)
    requires forall x :: x in multiset(l) ==> x < p
    requires forall i :: 0 <= i < |m| ==> m[i] == p
    requires forall x :: x in multiset(g) ==> x > p
    ensures Sorted(l + m + g)
  {
    var r := l + m + g;
    forall i, j | 0 <= i < j < |r|
      ensures r[i] <= r[j]
    {
      if i < |l| && j >= |l| {
        assert r[i] in multiset(l);
      }
      if j >= |l| + |m| && i < |l| + |m| {
        assert r[j] in multiset(g);
        if i < |l| {
          assert r[i] in multiset(l);
        }
      }
    }
  }

  /** Jarvis.quick_sort: a sorted rearrangement of arr. */
  function QuickSort(arr: seq<int>): (r: seq<int>)
    ensures Sorted(r) && multiset(r) == multiset(arr)
    decreases |arr|
  {
    if |arr| <= 1 then arr
    else
      var pivot := arr[|arr| / 2];
      SplitShorter(arr, pivot);
      SplitMultiset(arr, pivot);
      var left := QuickSort(Below(arr, pivot));
      var right := QuickSort(Above(arr, pivot));
      var middle := Equal(arr, pivot);
      assert forall x :: x in multiset(left) ==> x < pivot by {
        forall x | x in multiset(left) ensures x < pivot {
          assert x in Below(arr, pivot);
        }
      }
      assert forall x :: x in multiset(right) ==> x > pivot by {
        forall x | x in multiset(right) ensures x > pivot {
          assert x in Above(arr, pivot);
        }
      }
      JoinAroundPivot(left, middle, right, pivot);
      left + middle + right
  }

  // ---------------------------------------------------------------------
  // _handle_sort_numbers

  /** One entry of the "numbers" entity: a number (int or float; floats
      are not modelled and carry an integer value here) or anything else. */
  datatype Entry = Number(v: int) | NotNumber

  /** What _handle_sort_numbers says: a refusal, or the sorted numbers. */
  datatype SortReply = SortRefused | SortResult(sorted: seq<int>)

  function Values(entries: seq<Entry>): (r: seq<int>)
    requires forall i :: 0 <= i < |entries| ==> entries[i].Number?
    ensures |r| == |entries| && forall i :: 0 <= i < |r| ==> r[i] == entries[i].v
  {
    if entries == [] then [] else [entries[0].v] + Values(entries[1..])
  }

  /** _handle_sort_numbers(entities): a missing "numbers" entity is the
      empty list. An empty list, or one with any non-number, is refused
      before anything is sorted. */
  function SortNumbers(numbers: seq<Entry>): (r: SortReply)
    ensures r.SortRefused? <==> numbers == [] || exists i :: 0 <= i < |numbers| && numbers[i].NotNumber?
    ensures r.SortResult? ==>
              Sorted(r.sorted) && multiset(r.sorted) == multiset(Values(numbers))
  {
    if numbers == [] || exists i :: 0 <= i < |numbers| && numbers[i].NotNumber? then SortRefused
    else SortResult(QuickSort(Values(numbers)))
  }

  // ---------------------------------------------------------------------
  // _handle_open_program

  /** What _handle_open_program does: complain about a missing name,
      launch a program path, or report the name as not found. */
  datatype OpenOutcome = NoName | Launch(path: string) | NotFound(name: string)

  /** The index of the first key equal to name in an insertion-ordered
      dict, or -1. */
  function KeyIndex(mapping: seq<(string, string)>, name: string): (i: int)
    ensures -1 <= i < |mapping|
    ensures i == -1 <==> forall k :: 0 <= k < |mapping| ==> mapping[k].0 != name
    ensures i >= 0 ==> mapping[i].0 == name && forall k :: 0 <= k < i ==> mapping[k].0 != name
  {
    if mapping == [] then -1
    else if mapping[0].0 == name then 0
    else
      var j := KeyIndex(mapping[1..], name);
      if j == -1 then -1 else j + 1
  }

  /** The index of the first key, in insertion order, that contains name,
      or -1. */
  function FirstContaining(mapping: seq<(string, string)>, name: string): (i: int)
    ensures -1 <= i < |mapping|
    ensures i == -1 <==> forall k :: 0 <= k < |mapping| ==> !Contains(mapping[k].0, name)
    ensures i >= 0 ==> Contains(mapping[i].0, name) && forall k :: 0 <= k < i ==> !Contains(mapping[k].0, name)
  {
    if mapping == [] then -1
    else if Contains(mapping[0].0, name) then 0
    else
      var j := FirstContaining(mapping[1..], name);
      if j == -1 then -1 else j + 1
  }

  /** _handle_open_program(entities, programs), with self.program_mapping
      as a list of (name, path) pairs in insertion order. */
  function OpenProgram(programName: string, programMapping: seq<(string, string)>, programs: map<string, string>): (r: OpenOutcome)
    ensures programName == [] <==> r.NoName?
    ensures r.NotFound? ==> r.name == programName
    // an exact program_mapping key comes first
    ensures programName != [] && KeyIndex(programMapping, programName) >= 0 ==>
              r == Launch(programMapping[KeyIndex(programMapping, programName)].1)
    // then the dynamically found programs
    ensures programName != [] && KeyIndex(programMapping, programName) < 0 && programName in programs ==>
              r == Launch(programs[programName])
    // then the first key, in insertion order, that contains the name
    ensures programName != [] && KeyIndex(programMapping, programName) < 0 && programName !in programs ==>
              (r.NotFound? <==> forall k :: 0 <= k < |programMapping| ==> !Contains(programMapping[k].0, programName))
    ensures programName != [] && KeyIndex(programMapping, programName) < 0 && programName !in programs && r.Launch? ==>
              exists k :: 0 <= k < |programMapping| && Contains(programMapping[k].0, programName) &&
                (forall j :: 0 <= j < k ==> !Contains(programMapping[j].0, programName)) &&
                r.path == programMapping[k].1
  {
    if programName == [] then NoName
    else
      var exact := KeyIndex(programMapping, programName);
      if exact >= 0 then Launch(programMapping[exact].1)
      else if programName in programs then Launch(programs[programName])
      else
        var fuzzy := FirstContaining(programMapping, programName);
        if fuzzy >= 0 then Launch(programMapping[fuzzy].1)
        else NotFound(programName)
  }

  // ---------------------------------------------------------------------
  // speak: the conversation-history trim

  datatype Message = Message(role: string, content: string)

  /** history[-max:] when the history is longer than max, else history. */
  function Trim(history: seq<Message>, max: nat): (r: seq<Message>)
    ensures |r| <= max
    ensures |r| == if |history| > max then max else |history|
    ensures r == history[|history| - |r|..]
  {
    if |history| > max then history[|history| - max..] else history
  }

  class Assistant {
    var conversationHistory: seq<Message>
    const MaxHistoryMessages: nat := 10

    constructor ()
      ensures conversationHistory == []
    {
      conversationHistory := [];
    }

    /** The history part of speak(audio): record the reply, then keep only
        the last MAX_HISTORY_MESSAGES entries. */
    method Speak(audio: string)
      modifies this
      ensures conversationHistory == Trim(old(conversationHistory) + [Message("assistant", audio)], MaxHistoryMessages)
      ensures |conversationHistory| <= MaxHistoryMessages
      ensures conversationHistory[|conversationHistory| - 1] == Message("assistant", audio)
    {
      conversationHistory := conversationHistory + [Message("assistant", audio)];
      if |conversationHistory| > MaxHistoryMessages {
        conversationHistory := conversationHistory[|conversationHistory| - MaxHistoryMessages..];
      }
    }

    /** The history part of handle_user_command: a command is appended
        with no trim; a None command changes nothing. */
    method RecordCommand(command: string, present: bool)
      modifies this
      ensures present ==> conversationHistory == old(conversationHistory) + [Message("user", command)]
      ensures !present ==> conversationHistory == old(conversationHistory)
    {
      if present {
        conversationHistory := conversationHistory + [Message("user", command)];
      }
    }
  }
}

=== FILE: MathOps.dfy ===
/** The integer side of the calculator functions of package/math.py: the
    argument checks, the sum, difference and product, the gcd and lcm
    folds, the remainder, and normalize on an integer result. Floats and
    everything computed on them (division, powers, roots, logarithms, the
    trigonometric functions, rounding) are not modelled; for those
    operations only the argument checks are. */
module MathOps {
  import opened Wrappers
  import opened PyStrings
  import opened PyArith

  /** An argument as the operations see it: an int, or a value that is
      neither int nor float. */
  datatype Arg = Int(value: int) | NotNumber

  datatype MathError =
    | TypeError(message: string)   // raised by the functions themselves
    | ValueError(message: string)  // raised by the one-argument checks
    | Failure(message: string)     // the plain Exception of log_
    | IndexError                   // args[0] or args[1] of a list too short
    | ZeroDivisionError
    | OperandError                 // an operator or math.gcd refusing a non-number
    | OverflowError                // an int too large to be converted to a float

  const NotNumbers := "所有参数必须是数字"

  predicate AllInts(args: seq<Arg>)
  {
    forall i :: 0 <= i < |args| ==> args[i].Int?
  }

  function Values(args: seq<Arg>): (xs: seq<int>)
    requires AllInts(args)
    ensures |xs| == |args| && forall i :: 0 <= i < |args| ==> xs[i] == args[i].value
  {
    seq(|args|, i requires 0 <= i < |args| => args[i].value)
  }

  // ---------------------------------------------------------------------
  // normalize on an integer

  /** 2^1024 - 2^970: the smallest integer that converting to a float
      (rounding half to even) takes past the largest finite double,
      2^1024 - 2^971, so that the conversion raises OverflowError. */
  const FloatOverflow: int := 0xFF_FFFF_FFFF_FFFC_0000_0000_0000_0000_0000_0000_0000_0000_0000_0000_0000_0000_0000_0000_0000_0000_0000_0000_0000_0000_0000_0000_0000_0000_0000_0000_0000_0000_0000_0000_0000_0000_0000_0000_0000_0000_0000_0000_0000_0000_0000_0000_0000_0000_0000_0000_0000_0000_0000_0000_0000_0000_0000_0000_0000_0000_0000_0000_0000_0000_00

  predicate TooLarge(n: int)
  {
    n <= -FloatOverflow || FloatOverflow <= n
  }

  /** normalize(n) for an int n: custom_round formats n with ".10f", which
      converts it to a float and raises OverflowError when n is too large
      for one. Otherwise round(n, k) gives n back, and str(n) has no point
      and no "e", so the result is the decimal text of n. */
  function NormalizeInt(n: int): (r: Result<string, MathError>)
    ensures r.Err? <==> TooLarge(n)
    ensures r.Err? ==> r.error == OverflowError
    ensures r.Ok? ==> ParseInt(r.value) == Some(n)
    ensures r.Ok? ==> '.' !in r.value && 'e' !in r.value
  {
    if TooLarge(n) then Err(OverflowError)
    else
      ParseIntOfIntToStr(n);
      var s := IntToStr(n);
      assert forall i :: 0 <= i < |s| ==> s[i] == '-' || IsDigit(s[i]);
      Ok(s)
  }

  // ---------------------------------------------------------------------
  // add_, subtract_, multiply_, mean_

  /** sum, added from the left. */
  function Sum(xs: seq<int>): int
  {
    if xs == [] then 0 else Sum(xs[..|xs| - 1]) + xs[|xs| - 1]
  }

  /** The product, multiplied from the left. */
  function Product(xs: seq<int>): int
  {
    if xs == [] then 1 else Product(xs[..|xs| - 1]) * xs[|xs| - 1]
  }

  lemma {:induction false} SumConcat(a: seq<int>, b: seq<int>)
    ensures Sum(a + b) == Sum(a) + Sum(b)
    decreases |b|
  {
    if b == [] {
      assert a + b == a;
    } else {
      var b' := b[..|b| - 1];
      assert (a + b)[..|a + b| - 1] == a + b';
      SumConcat(a, b');
    }
  }

  lemma {:induction false} ProductConcat(a: seq<int>, b: seq<int>)
    ensures Product(a + b) == Product(a) * Product(b)
    decreases |b|
  {
    if b == [] {
      assert a + b == a;
    } else {
      var b' := b[..|b| - 1];
      assert (a + b)[..|a + b| - 1] == a + b';
      ProductConcat(a, b');
    }
  }

  /** A zero factor makes the product zero, and a product without one is
      not zero. */
  lemma {:induction false} ProductZero(xs: seq<int>)
    ensures Product(xs) == 0 <==> 0 in xs
  {
    if xs != [] {
      var p := xs[..|xs| - 1];
      ProductZero(p);
      assert xs == p + [xs[|xs| - 1]];
    }
  }

  /** add_: a TypeError for a non-number, otherwise the normalised sum
      (0 for no arguments). */
  function AddOf(args: seq<Arg>): (r: Result<string, MathError>)
    ensures r.Err? <==> !AllInts(args) || TooLarge(Sum(Values(args)))
    ensures !AllInts(args) ==> r.error == TypeError(NotNumbers)
    ensures AllInts(args) && r.Err? ==> r.error == OverflowError
    ensures r.Ok? ==> ParseInt(r.value) == Some(Sum(Values(args)))
  {
    if !AllInts(args) then Err(TypeError(NotNumbers)) else NormalizeInt(Sum(Values(args)))
  }

  /** The first argument minus the others, subtracted one by one. */
  function Difference(xs: seq<int>): int
    requires xs != []
  {
    xs[0] - Sum(xs[1..])
  }

  /** Subtracting the others is adding their negations: subtract_ is add_
      of the first argument and the negated rest. */
  lemma {:induction false} DifferenceIsSum(xs: seq<int>)
    requires xs != []
    ensures Difference(xs) == Sum([xs[0]] + seq(|xs| - 1, i requires 0 <= i < |xs| - 1 => -xs[i + 1]))
  {
    var neg := seq(|xs| - 1, i requires 0 <= i < |xs| - 1 => -xs[i + 1]);
    SumConcat([xs[0]], neg);
    assert Sum([xs[0]]) == xs[0] by {
      assert [xs[0]][..0] == [];
    }
    NegatedSum(xs[1..], neg);
  }

  lemma {:induction false} NegatedSum(xs: seq<int>, neg: seq<int>)
    requires |neg| == |xs| && forall i :: 0 <= i < |xs| ==> neg[i] == -xs[i]
    ensures Sum(neg) == -Sum(xs)
    decreases |xs|
  {
    if xs != [] {
      NegatedSum(xs[..|xs| - 1], neg[..|neg| - 1]);
    }
  }

  /** subtract_: the type check first, then args[0] (an IndexError for no
      arguments), then the others subtracted in a loop. */
  function SubtractOf(args: seq<Arg>): (r: Result<string, MathError>)
    ensures r.Err? <==> !AllInts(args) || args == [] || TooLarge(Difference(Values(args)))
    ensures !AllInts(args) ==> r == Err(TypeError(NotNumbers))
    ensures AllInts(args) && args == [] ==> r == Err(IndexError)
    ensures AllInts(args) && args != [] && r.Err? ==> r.error == OverflowError
    ensures r.Ok? ==> ParseInt(r.value) == Some(Difference(Values(args)))
  {
    if !AllInts(args) then Err(TypeError(NotNumbers))
    else if args == [] then Err(IndexError)
    else NormalizeInt(Difference(Values(args)))
  }

  method Subtract(args: seq<Arg>) returns (r: Result<string, MathError>)
    ensures r == SubtractOf(args)
  {
    if !AllInts(args) {
      return Err(TypeError(NotNumbers));
    }
    if |args| == 0 {
      return Err(IndexError);
    }
    var xs := Values(args);
    var res := xs[0];
    for i := 1 to |xs|
      invariant res == xs[0] - Sum(xs[1..i])
    {
      assert xs[1..i + 1][..i - 1] == xs[1..i];
      res := res - xs[i];
    }
    assert xs[1..|xs|] == xs[1..];
    return NormalizeInt(res);
  }

  /** multiply_: as subtract_, with the product. */
  function MultiplyOf(args: seq<Arg>): (r: Result<string, MathError>)
    ensures r.Err? <==> !AllInts(args) || args == [] || TooLarge(Product(Values(args)))
    ensures !AllInts(args) ==> r == Err(TypeError(NotNumbers))
    ensures AllInts(args) && args == [] ==> r == Err(IndexError)
    ensures AllInts(args) && args != [] && r.Err? ==> r.error == OverflowError
    ensures r.Ok? ==> ParseInt(r.value) == Some(Product(Values(args)))
  {
    if !AllInts(args) then Err(TypeError(NotNumbers))
    else if args == [] then Err(IndexError)
    else NormalizeInt(Product(Values(args)))
  }

  method Multiply(args: seq<Arg>) returns (r: Result<string, MathError>)
    ensures r == MultiplyOf(args)
  {
    if !AllInts(args) {
      return Err(TypeError(NotNumbers));
    }
    if |args| == 0 {
      return Err(IndexError);
    }
    var xs := Values(args);
    var res := xs[0];
    for i := 1 to |xs|
      invariant res == Product(xs[..i])
    {
      assert xs[..i + 1][..i] == xs[..i];
      res := res * xs[i];
    }
    assert xs[..|xs|] == xs;
    return NormalizeInt(res);
  }

  /** A product of integers is zero exactly when one factor is: multiply_
      gives "0" exactly then. */
  lemma {:induction false} MultiplyZero(args: seq<Arg>)
    requires AllInts(args) && args != []
    ensures MultiplyOf(args) == Ok("0") <==> 0 in Values(args)
  {
    ProductZero(Values(args));
    ParseIntOfIntToStr(0);
    var p := Product(Values(args));
    if MultiplyOf(args) == Ok("0") {
      assert ParseInt("0") == Some(p);
    }
  }

  /** An integer result too large for a float is not returned: multiply_
      of 10**200 and 10**200 raises OverflowError in normalize. */
  lemma {:induction false} MultiplyOverflows(args: seq<Arg>, x: int)
    requires x == 100000000000000000000000000000000000000000000000000000000000000000000000000000000000000000000000000000000000000000000000000000000000000000000000000000000000000000000000000000000000000000000000000000000
    requires args == [Int(x), Int(x)]
    ensures MultiplyOf(args) == Err(OverflowError)
  {
    var xs := Values(args);
    assert xs[..1][..0] == [] && xs[..1] == [x];
    assert Product(xs[..1]) == x;
    assert Product(xs) == x * x;
  }

  /** mean_: the type check, then sum(args) / len(args), which divides by
      zero for no arguments. The operands of the (float) division are
      the result. */
  function MeanOperands(args: seq<Arg>): (r: Result<(int, nat), MathError>)
    ensures !AllInts(args) ==> r == Err(TypeError(NotNumbers))
    ensures AllInts(args) && args == [] ==> r == Err(ZeroDivisionError)
    ensures r.Ok? ==> r.value.1 == |args| > 0 && r.value.0 == Sum(Values(args))
  {
    if !AllInts(args) then Err(TypeError(NotNumbers))
    else if args == [] then Err(ZeroDivisionError)
    else Ok((Sum(Values(args)), |args|))
  }

  // ---------------------------------------------------------------------
  // divisibility and math.gcd

  /** d divides n. */
  predicate Divides(d: nat, n: int)
  {
    if d == 0 then n == 0 else n % d == 0
  }

  function Abs(x: int): nat
  {
    if x < 0 then -x else x
  }

  lemma {:induction false} MultipleMod(t: int, d: nat)
    requires d > 0
    ensures (t * d) % d == 0 && (d * t) % d == 0
  {
    ExactDiv(t, d);
    assert t * d == d * t;
  }

  /** A common divisor of x and y divides x * m + y. */
  lemma {:induction false} DividesCombination(d: nat, x: int, y: int, m: int)
    requires Divides(d, x) && Divides(d, y)
    ensures Divides(d, x * m + y)
  {
    if d > 0 {
      var i, j := x / d, y / d;
      assert x == d * i && y == d * j;
      assert x * m + y == d * (i * m + j) by {
        assert x * m == d * (i * m);
      }
      MultipleMod(i * m + j, d);
    }
  }

  lemma {:induction false} DividesTrans(a: nat, b: nat, c: int)
    requires Divides(a, b) && Divides(b, c)
    ensures Divides(a, c)
  {
    if b > 0 {
      var j := c / b;
      assert c == b * j;
      DividesCombination(a, b, 0, j);
    }
  }

  lemma {:induction false} DividesAbs(d: nat, x: int)
    ensures Divides(d, x) <==> Divides(d, Abs(x))
  {
    if Divides(d, x) {
      DividesCombination(d, x, 0, -1);
    }
    if Divides(d, Abs(x)) {
      DividesCombination(d, Abs(x), 0, -1);
    }
  }

  /** Euclid's algorithm on natural numbers. */
  function GcdNat(a: nat, b: nat): (g: nat)
    ensures g == 0 <==> a == 0 && b == 0
    decreases b
  {
    if b == 0 then a else GcdNat(b, a % b)
  }

  lemma {:induction false} GcdNatDivides(a: nat, b: nat)
    ensures Divides(GcdNat(a, b), a) && Divides(GcdNat(a, b), b)
    decreases b
  {
    if b == 0 {
      if a > 0 {
        MultipleMod(1, a);
      }
    } else {
      GcdNatDivides(b, a % b);
      DividesCombination(GcdNat(b, a % b), b, a % b, a / b);
      assert b * (a / b) + a % b == a;
    }
  }

  lemma {:induction false} GcdNatGreatest(a: nat, b: nat, d: nat)
    requires Divides(d, a) && Divides(d, b)
    ensures Divides(d, GcdNat(a, b))
    decreases b
  {
    if b > 0 {
      DividesCombination(d, b, a, -(a / b));
      assert b * -(a / b) + a == a % b;
      GcdNatGreatest(b, a % b, d);
    }
  }

  /** math.gcd: never negative, zero only for two zeros. */
  function Gcd(a: int, b: int): (g: nat)
    ensures g == 0 <==> a == 0 && b == 0
  {
    GcdNat(Abs(a), Abs(b))
  }

  /** math.gcd(a, b) divides a and b, and every common divisor divides it. */
  lemma {:induction false} GcdIsGreatest(a: int, b: int)
    ensures Divides(Gcd(a, b), a) && Divides(Gcd(a, b), b)
    ensures forall d: nat :: Divides(d, a) && Divides(d, b) ==> Divides(d, Gcd(a, b))
  {
    GcdNatDivides(Abs(a), Abs(b));
    DividesAbs(Gcd(a, b), a);
    DividesAbs(Gcd(a, b), b);
    forall d: nat | Divides(d, a) && Divides(d, b)
      ensures Divides(d, Gcd(a, b))
    {
      DividesAbs(d, a);
      DividesAbs(d, b);
      GcdNatGreatest(Abs(a), Abs(b), d);
    }
  }

  // ---------------------------------------------------------------------
  // gcd_ and lcm_

  /** res = args[0], then res = math.gcd(res, arg) for the others; a
      non-number refused by math.gcd or, alone, by normalize. */
  function GcdFold(args: seq<Arg>): (r: Result<int, MathError>)
    requires args != []
    ensures r.Err? <==> !AllInts(args)
    ensures r.Err? ==> r.error == OperandError
    ensures |args| >= 2 && r.Ok? ==> r.value >= 0
  {
    var last := args[|args| - 1];
    if |args| == 1 then (if last.Int? then Ok(last.value) else Err(OperandError))
    else
      var prefix := args[..|args| - 1];
      assert forall i :: 0 <= i < |prefix| ==> prefix[i] == args[i];
      match GcdFold(prefix)
      case Err(e) => Err(e)
      case Ok(res) => if last.NotNumber? then Err(OperandError) else Ok(Gcd(res, last.value))
  }

  /** For two or more integers, gcd_ computes their greatest common
      divisor: it divides every argument, and every common divisor of the
      arguments divides it. */
  lemma {:induction false} GcdFoldDivides(args: seq<Arg>)
    requires |args| >= 2 && AllInts(args)
    ensures var g := GcdFold(args).value;
      g >= 0 &&
      (forall i :: 0 <= i < |args| ==> Divides(g, args[i].value)) &&
      (forall d: nat :: (forall i :: 0 <= i < |args| ==> Divides(d, args[i].value)) ==> Divides(d, g))
    decreases |args|
  {
    var n := |args|;
    var prefix := args[..n - 1];
    var last := args[n - 1].value;
    var res := GcdFold(prefix).value;
    var g := GcdFold(args).value;
    assert g == Gcd(res, last);
    GcdIsGreatest(res, last);
    if n == 2 {
      assert prefix[0] == args[0];
    } else {
      GcdFoldDivides(prefix);
      forall i | 0 <= i < n
        ensures Divides(g, args[i].value)
      {
        if i < n - 1 {
          assert prefix[i] == args[i];
          DividesTrans(g, res, args[i].value);
        }
      }
      forall d: nat | forall i :: 0 <= i < n ==> Divides(d, args[i].value)
        ensures Divides(d, g)
      {
        assert forall i :: 0 <= i < n - 1 ==> prefix[i] == args[i];
      }
    }
  }

  /** gcd_: args[0] of no arguments is an IndexError. */
  function GcdOf(args: seq<Arg>): (r: Result<string, MathError>)
    ensures args == [] ==> r == Err(IndexError)
    ensures args != [] && !AllInts(args) ==> r == Err(OperandError)
    ensures args != [] && AllInts(args) ==> (r.Err? <==> TooLarge(GcdFold(args).value))
    ensures args != [] && AllInts(args) && r.Err? ==> r.error == OverflowError
    ensures args != [] && AllInts(args) && r.Ok? ==> ParseInt(r.value) == Some(GcdFold(args).value)
  {
    if args == [] then Err(IndexError)
    else match GcdFold(args)
      case Err(e) => Err(e)
      case Ok(g) => NormalizeInt(g)
  }

  /** The loop of gcd_. */
  method Gcds(args: seq<Arg>) returns (r: Result<string, MathError>)
    ensures r == GcdOf(args)
  {
    if |args| == 0 {
      return Err(IndexError);
    }
    var res := args[0];
    for i := 1 to |args|
      invariant i > 1 ==> res.Int?
      invariant res.Int? ==> GcdFold(args[..i]) == Ok(res.value)
      invariant res.NotNumber? ==> args[0].NotNumber?
    {
      assert args[..i + 1][..i] == args[..i];
      if res.NotNumber? || args[i].NotNumber? {
        return Err(OperandError);
      }
      res := Int(Gcd(res.value, args[i].value));
    }
    if res.NotNumber? {
      return Err(OperandError);
    }
    assert args[..|args|] == args;
    return NormalizeInt(res.value);
  }

  /** res = args[0], then res = res * arg // math.gcd(res, arg): two zeros
      in a row divide by zero, a non-number is refused. */
  function LcmFold(args: seq<Arg>): (r: Result<int, MathError>)
    requires args != []
    ensures !AllInts(args) ==> r.Err?
  {
    var last := args[|args| - 1];
    if |args| == 1 then (if last.Int? then Ok(last.value) else Err(OperandError))
    else
      var prefix := args[..|args| - 1];
      assert forall i :: 0 <= i < |prefix| ==> prefix[i] == args[i];
      match LcmFold(prefix)
      case Err(e) => Err(e)
      case Ok(res) =>
        if last.NotNumber? then Err(OperandError)
        else if Gcd(res, last.value) == 0 then Err(ZeroDivisionError)
        else Ok(FloorDiv(res * last.value, Gcd(res, last.value)))
  }

  /** An error in a prefix is the error of the whole fold. */
  lemma {:induction false} LcmFoldErr(args: seq<Arg>, k: nat)
    requires 1 <= k <= |args| && LcmFold(args[..k]).Err?
    ensures LcmFold(args) == LcmFold(args[..k])
    decreases |args|
  {
    if k < |args| {
      var prefix := args[..|args| - 1];
      assert prefix[..k] == args[..k];
      LcmFoldErr(prefix, k);
    } else {
      assert args[..k] == args;
    }
  }

  /** One step of lcm_ on positive numbers: the result is positive and a
      multiple of both. */
  lemma {:induction false} LcmStep(res: int, arg: int)
    requires res > 0 && arg > 0
    ensures Gcd(res, arg) > 0
    ensures var l := FloorDiv(res * arg, Gcd(res, arg));
      l > 0 && Divides(res, l) && Divides(arg, l)
  {
    var g := Gcd(res, arg);
    GcdNatDivides(res, arg);
    var t, u := arg / g, res / g;
    assert arg == g * t && res == g * u;
    assert t > 0;
    assert res * arg == (res * t) * g;
    ExactDiv(res * t, g);
    var l := res * t;
    assert l == u * arg by {
      assert res * t == g * u * t;
    }
    MultipleMod(t, res);
    MultipleMod(u, arg);
  }

  /** For positive integers, lcm_ never divides by zero and its result is
      a positive multiple of every argument. */
  lemma {:induction false} LcmFoldDivisible(args: seq<Arg>)
    requires args != [] && AllInts(args)
    requires forall i :: 0 <= i < |args| ==> args[i].value > 0
    ensures LcmFold(args).Ok? && LcmFold(args).value > 0
    ensures forall i :: 0 <= i < |args| ==> Divides(args[i].value, LcmFold(args).value)
    decreases |args|
  {
    var n := |args|;
    if n == 1 {
      MultipleMod(1, args[0].value);
    } else {
      var prefix := args[..n - 1];
      assert forall i :: 0 <= i < n - 1 ==> prefix[i] == args[i];
      LcmFoldDivisible(prefix);
      var res := LcmFold(prefix).value;
      var last := args[n - 1].value;
      LcmStep(res, last);
      var l := LcmFold(args).value;
      forall i | 0 <= i < n - 1
        ensures Divides(args[i].value, l)
      {
        DividesTrans(args[i].value, res, l);
      }
    }
  }

  /** lcm_: args[0] of no arguments is an IndexError. */
  function LcmOf(args: seq<Arg>): (r: Result<string, MathError>)
    ensures args == [] ==> r == Err(IndexError)
    ensures args != [] && LcmFold(args).Err? ==> r == Err(LcmFold(args).error)
    ensures args != [] && LcmFold(args).Ok? ==> (r.Err? <==> TooLarge(LcmFold(args).value))
    ensures args != [] && LcmFold(args).Ok? && r.Err? ==> r.error == OverflowError
    ensures args != [] && LcmFold(args).Ok? && r.Ok? ==> ParseInt(r.value) == Some(LcmFold(args).value)
  {
    if args == [] then Err(IndexError)
    else match LcmFold(args)
      case Err(e) => Err(e)
      case Ok(l) => NormalizeInt(l)
  }

  /** The loop of lcm_. */
  method Lcms(args: seq<Arg>) returns (r: Result<string, MathError>)
    ensures r == LcmOf(args)
  {
    if |args| == 0 {
      return Err(IndexError);
    }
    var res := args[0];
    for i := 1 to |args|
      invariant i > 1 ==> res.Int?
      invariant res.Int? ==> LcmFold(args[..i]) == Ok(res.value)
      invariant res.NotNumber? ==> LcmFold(args[..1]) == Err(OperandError)
    {
      assert args[..i + 1][..i] == args[..i];
      if res.NotNumber? {
        LcmFoldErr(args, 1);
        return Err(OperandError);
      }
      var arg := args[i];
      if arg.NotNumber? {
        LcmFoldErr(args, i + 1);
        return Err(OperandError);
      }
      var g := Gcd(res.value, arg.value);
      if g == 0 {
        LcmFoldErr(args, i + 1);
        return Err(ZeroDivisionError);
      }
      res := Int(FloorDiv(res.value * arg.value, g));
    }
    if res.NotNumber? {
      assert args[..1] == args;
      return Err(OperandError);
    }
    assert args[..|args|] == args;
    return NormalizeInt(res.value);
  }

  // ---------------------------------------------------------------------
  // remainder_

  /** remainder_: args[0] % args[1] with Python's sign rule; further
      arguments are ignored. */
  function RemainderOf(args: seq<Arg>): (r: Result<string, MathError>)
    ensures r.Err? <==> |args| < 2 || args[0].NotNumber? || args[1].NotNumber? || args[1].value == 0 ||
                        TooLarge(FloorMod(args[0].value, args[1].value))
    ensures |args| < 2 ==> r == Err(IndexError)
    ensures |args| >= 2 && args[0].Int? && args[1] == Int(0) ==> r == Err(ZeroDivisionError)
    ensures r.Ok? ==>
              var a, b := args[0].value, args[1].value;
              exists m :: ParseInt(r.value) == Some(m) && a == b * FloorDiv(a, b) + m &&
                          (b > 0 ==> 0 <= m < b) && (b < 0 ==> b < m <= 0)
  {
    if |args| < 2 then Err(IndexError)
    else if args[0].NotNumber? || args[1].NotNumber? then Err(OperandError)
    else if args[1].value == 0 then Err(ZeroDivisionError)
    else
      var m := FloorMod(args[0].value, args[1].value);
      NormalizeInt(m)
  }

  // ---------------------------------------------------------------------
  // the one-argument functions and log_

  /** The functions that take exactly one argument, each with the message
      of its ValueError. */
  datatype Unary = AbsFn | Sin | Cos | Tan | Arcsin | Arccos | Arctan | Exp

  function ArityMessage(f: Unary): string
  {
    match f
    case AbsFn => "绝对值只接受一个参数"
    case Sin => "正弦只接受一个参数"
    case Cos => "余弦只接受一个参数"
    case Tan => "正切只接受一个参数"
    case Arcsin => "反正弦只接受一个参数"
    case Arccos => "反余弦只接受一个参数"
    case Arctan => "反正切只接受一个参数"
    case Exp => "指数函数只接受一个参数"
  }

  /** The check at the top of abs_, sin_ ... exp_: the one argument, or a
      ValueError naming the function. */
  function OneArgument(f: Unary, args: seq<Arg>): (r: Result<Arg, MathError>)
    ensures r.Ok? <==> |args| == 1
    ensures r.Ok? ==> r.value == args[0]
    ensures r.Err? ==> r.error.ValueError? && r.error.message == ArityMessage(f)
  {
    if |args| != 1 then Err(ValueError(ArityMessage(f))) else Ok(args[0])
  }

  /** Each function's ValueError tells which function refused. */
  lemma {:induction false} ArityMessagesDistinct(f: Unary, g: Unary)
    ensures ArityMessage(f) == ArityMessage(g) <==> f == g
  {
    if f != g {
      var mf, mg := ArityMessage(f), ArityMessage(g);
      assert |mf| != |mg| || mf[0] != mg[0] || mf[1] != mg[1] || mf[2] != mg[2];
    }
  }

  /** abs_: the arity check, then abs of the one argument. */
  function AbsOf(args: seq<Arg>): (r: Result<string, MathError>)
    ensures r.Ok? <==> |args| == 1 && args[0].Int? && !TooLarge(args[0].value)
    ensures |args| != 1 ==> r == Err(ValueError(ArityMessage(AbsFn)))
    ensures |args| == 1 && args[0].Int? && r.Err? ==> r.error == OverflowError
    ensures r.Ok? ==>
              var x := args[0].value;
              exists v :: ParseInt(r.value) == Some(v) && v >= 0 && (v == x || v == -x)
  {
    match OneArgument(AbsFn, args)
    case Err(e) => Err(e)
    case Ok(a) => if a.NotNumber? then Err(OperandError) else NormalizeInt(Abs(a.value))
  }

  /** log_: one argument is a logarithm to base 10, two are a value and a
      base, any other count fails. */
  function LogArguments(args: seq<Arg>): (r: Result<(Arg, Option<Arg>), MathError>)
    ensures r.Ok? <==> |args| == 1 || |args| == 2
    ensures r.Err? ==> r.error == Failure("Invalid number of arguments passed to log function")
    ensures r.Ok? ==> r.value.0 == args[0] && (r.value.1.Some? <==> |args| == 2)
    ensures r.Ok? && |args| == 2 ==> r.value.1 == Some(args[1])
  {
    if |args| == 1 then Ok((args[0], None))
    else if |args| == 2 then Ok((args[0], Some(args[1])))
    else Err(Failure("Invalid number of arguments passed to log function"))
  }
}

=== FILE: MemPool.dfy ===
/** Fixed-pool bitmap allocator of extension/mymemory.c.
    One 4096-byte arena and one occupancy bit per arena byte. The bitmap is
    modelled as one `bool` per byte (bit i of the table is the occupancy of
    arena byte i, in the MSB-first numbering that MM_SpaceSearch, MM_Alloc,
    MM_Free and MM_Occupation use). Pointers are offsets from the start of
    the arena. */
module MemPool {

  /** Pool_Size in mymemory.h. */
  const PoolSize: nat := 4 * 1024
  /** AllocTabel_Size in mymemory.h: the bitmap takes one bit per arena byte. */
  const AllocTableSize: nat := PoolSize / 8

  /** uint8_t, the element type of memPool. */
  newtype Byte = x: int | 0 <= x < 256

  /** A C pointer handed to or returned by the allocator: NULL, or an address
      given as its distance (possibly outside the arena) from &memPool[0]. */
  datatype Ptr = Null | Addr(offset: int)

  predicate InPool(p: Ptr)
  {
    p.Addr? && 0 <= p.offset < PoolSize
  }

  /** The C conversion of an `int` to `uint8_t`: reduction modulo 256. */
  function ToByte(v: int): (b: Byte)
    ensures b as int == v % 256
  {
    (v % 256) as Byte
  }

  /** A value that fits in a byte is stored as it is, and two values are
      stored as the same byte exactly when they differ by a multiple of
      256 (so -1 is stored as 255 and 256 as 0). */
  lemma {:induction false} ToByteKeepsBytes(v: int, w: int)
    ensures 0 <= v < 256 ==> ToByte(v) as int == v
    ensures ToByte(v) == ToByte(w) <==> (v - w) % 256 == 0
  {
    var q, p := v / 256, w / 256;
    assert v == 256 * q + v % 256 && w == 256 * p + w % 256;
    assert v - w == 256 * (q - p) + (v % 256 - w % 256);
    if ToByte(v) == ToByte(w) {
      assert v - w == 256 * (q - p);
    }
  }

  // ---------------------------------------------------------------------
  // The bitmap as a value

  /** The byte range [b, b+s) together with one clear byte before it and one
      after it lies in the pool and is entirely free. */
  predicate Fits(bits: seq<bool>, b: int, s: nat)
  {
    1 <= b && b + s + 1 <= |bits| &&
    forall k :: b - 1 <= k <= b + s ==> !bits[k]
  }

  /** First-fit search from base `from` on: the smallest base b >= from that
      Fits, or -1 when there is none. */
  function FirstFitFrom(bits: seq<bool>, s: nat, from: int): (r: int)
    requires 1 <= from
    decreases |bits| - from
    ensures r == -1 || (from <= r && Fits(bits, r, s))
    ensures r == -1 ==> forall c :: from <= c ==> !Fits(bits, c, s)
    ensures r != -1 ==> forall c :: from <= c < r ==> !Fits(bits, c, s)
  {
    if from + s + 1 > |bits| then -1
    else if Fits(bits, from, s) then from
    else FirstFitFrom(bits, s, from + 1)
  }

  /** The base MM_SpaceSearch returns for a request of s bytes. */
  function FirstFit(bits: seq<bool>, s: nat): (r: int)
    ensures r == -1 <==> forall c :: !Fits(bits, c, s)
    ensures r != -1 ==> Fits(bits, r, s) && forall c :: c < r ==> !Fits(bits, c, s)
    ensures s + 2 > |bits| ==> r == -1
  {
    FirstFitFrom(bits, s, 1)
  }

  /** The bitmap with bits [b, b+s) set. */
  function SetRange(bits: seq<bool>, b: int, s: nat): (r: seq<bool>)
    requires 0 <= b && b + s <= |bits|
    ensures |r| == |bits|
    ensures forall k :: 0 <= k < |bits| ==> r[k] == (b <= k < b + s || bits[k])
  {
    seq(|bits|, k requires 0 <= k < |bits| => b <= k < b + s || bits[k])
  }

  /** The bitmap with bits [lo, hi) cleared. */
  function ClearRange(bits: seq<bool>, lo: int, hi: int): (r: seq<bool>)
    requires 0 <= lo <= hi <= |bits|
    ensures |r| == |bits|
    ensures forall k :: 0 <= k < |bits| ==> r[k] == (!(lo <= k < hi) && bits[k])
  {
    seq(|bits|, k requires 0 <= k < |bits| => !(lo <= k < hi) && bits[k])
  }

  /** Where MM_Free's forward scan from i stops: the first clear bit at or
      after i. It exists because the last bit of the pool is always clear. */
  function RunEnd(bits: seq<bool>, i: int): (j: int)
    requires 0 <= i < |bits| && !bits[|bits| - 1]
    decreases |bits| - i
    ensures i <= j < |bits| && !bits[j]
    ensures forall k :: i <= k < j ==> bits[k]
  {
    if !bits[i] then i else RunEnd(bits, i + 1)
  }

  /** Number of set bits: what MM_Occupation returns. */
  function CountSet(bits: seq<bool>): (n: nat)
    ensures n <= |bits|
  {
    if bits == [] then 0
    else CountSet(bits[..|bits| - 1]) + (if bits[|bits| - 1] then 1 else 0)
  }

  /** A live block: bits [b, b+len) set, with a clear guard bit on each side,
      both inside the pool. */
  predicate IsBlock(bits: seq<bool>, b: int, len: nat)
  {
    1 <= b && 1 <= len && b + len < |bits| &&
    !bits[b - 1] && !bits[b + len] &&
    forall k :: b <= k < b + len ==> bits[k]
  }

  /** MM_MemPoolInit addresses bit i%8 counted from the least significant end
      (`1 << i%8`), the other functions from the most significant end
      (`0x80 >> i%8`). In the MSB-first numbering used here, the loop of
      MM_MemPoolInit at step i touches the occupancy of byte Mirror(i). */
  function Mirror(i: int): (m: int)
    requires 0 <= i
    ensures 8 * (i / 8) <= m < 8 * (i / 8) + 8
    ensures m / 8 == i / 8 && m % 8 == 7 - i % 8
  {
    8 * (i / 8) + (7 - i % 8)
  }

  // ---------------------------------------------------------------------
  // Lemmas about the bitmap functions

  lemma {:induction false} MirrorInvolution(i: nat)
    ensures Mirror(i) >= 0 && Mirror(Mirror(i)) == i
  {
  }

  lemma {:induction false} CountSetAppend(a: seq<bool>, b: seq<bool>)
    ensures CountSet(a + b) == CountSet(a) + CountSet(b)
    decreases |b|
  {
    if b == [] {
      assert a + b == a;
    } else {
      var b' := b[..|b| - 1];
      assert (a + b)[..|a + b| - 1] == a + b';
      CountSetAppend(a, b');
    }
  }

  lemma {:induction false} CountSetAllClear(bits: seq<bool>)
    requires forall k :: 0 <= k < |bits| ==> !bits[k]
    ensures CountSet(bits) == 0
    decreases |bits|
  {
    if bits != [] {
      CountSetAllClear(bits[..|bits| - 1]);
    }
  }

  lemma {:induction false} CountSetAllSet(bits: seq<bool>)
    requires forall k :: 0 <= k < |bits| ==> bits[k]
    ensures CountSet(bits) == |bits|
    decreases |bits|
  {
    if bits != [] {
      CountSetAllSet(bits[..|bits| - 1]);
    }
  }

  /** Splits a bitmap around [lo, hi) for counting. */
  lemma {:induction false} CountSetSplit(bits: seq<bool>, lo: int, hi: int)
    requires 0 <= lo <= hi <= |bits|
    ensures CountSet(bits) == CountSet(bits[..lo]) + CountSet(bits[lo..hi]) + CountSet(bits[hi..])
  {
    assert bits == bits[..lo] + bits[lo..hi] + bits[hi..];
    CountSetAppend(bits[..lo] + bits[lo..hi], bits[hi..]);
    CountSetAppend(bits[..lo], bits[lo..hi]);
  }

  /** Two bitmaps that agree outside [lo, hi) differ in count only by
      what lies inside. */
  lemma {:induction false} CountSetOutside(a: seq<bool>, b: seq<bool>, lo: int, hi: int)
    requires |a| == |b| && 0 <= lo <= hi <= |a|
    requires forall k :: 0 <= k < |a| && !(lo <= k < hi) ==> a[k] == b[k]
    ensures CountSet(a) - CountSet(a[lo..hi]) == CountSet(b) - CountSet(b[lo..hi])
  {
    CountSetSplit(a, lo, hi);
    CountSetSplit(b, lo, hi);
    assert a[..lo] == b[..lo];
    assert a[hi..] == b[hi..];
  }

  /** A successful allocation of s bytes raises the occupancy by exactly s. */
  lemma {:induction false} OccupationAfterAlloc(bits: seq<bool>, b: int, s: nat)
    requires Fits(bits, b, s)
    ensures CountSet(SetRange(bits, b, s)) == CountSet(bits) + s
  {
    var after := SetRange(bits, b, s);
    CountSetOutside(bits, after, b, b + s);
    var middle := bits[b..b + s];
    forall k | 0 <= k < |middle|
      ensures !middle[k]
    {
      assert middle[k] == bits[b + k];
    }
    CountSetAllClear(middle);
    var filled := after[b..b + s];
    forall k | 0 <= k < |filled|
      ensures filled[k]
    {
      assert filled[k] == after[b + k];
    }
    CountSetAllSet(filled);
  }

  /** Clearing a run of set bits lowers the occupancy by the run's length. */
  lemma {:induction false} OccupationAfterClear(bits: seq<bool>, lo: int, hi: int)
    requires 0 <= lo <= hi <= |bits|
    requires forall k :: lo <= k < hi ==> bits[k]
    ensures CountSet(ClearRange(bits, lo, hi)) == CountSet(bits) - (hi - lo)
  {
    var after := ClearRange(bits, lo, hi);
    CountSetOutside(bits, after, lo, hi);
    var middle := bits[lo..hi];
    forall k | 0 <= k < |middle|
      ensures middle[k]
    {
      assert middle[k] == bits[lo + k];
    }
    CountSetAllSet(middle);
    var cleared := after[lo..hi];
    forall k | 0 <= k < |cleared|
      ensures !cleared[k]
    {
      assert cleared[k] == after[lo + k];
    }
    CountSetAllClear(cleared);
  }

  /** The forward scan of MM_Free stops exactly at the end of a run. */
  lemma {:induction false} RunEndAt(bits: seq<bool>, i: int, j: int)
    requires 0 <= i <= j < |bits| && !bits[|bits| - 1]
    requires !bits[j] && forall k :: i <= k < j ==> bits[k]
    ensures RunEnd(bits, i) == j
    decreases j - i
  {
    if i < j {
      RunEndAt(bits, i + 1, j);
    }
  }

  /** On an empty pool the first block of s bytes gets base 1, and any
      request with s + 2 > Pool_Size fails. */
  lemma {:induction false} EmptyPoolFirstFit(s: nat)
    ensures var empty := seq(PoolSize, _ => false);
            FirstFit(empty, s) == if s + 2 <= PoolSize then 1 else -1
  {
    var empty := seq(PoolSize, _ => false);
    if s + 2 <= PoolSize {
      assert Fits(empty, 1, s);
    }
  }

  /** Round trip: freeing the base that an allocation just returned clears
      exactly the bits the allocation set, thanks to the clear guard byte
      after the block; the bitmap is back to what it was. */
  lemma {:induction false} FreeUndoesAlloc(bits: seq<bool>, s: nat)
    requires FirstFit(bits, s) != -1 && !bits[|bits| - 1]
    ensures var b := FirstFit(bits, s);
            var after := SetRange(bits, b, s);
            !after[|after| - 1] && b < |after| &&
            RunEnd(after, b) == b + s &&
            ClearRange(after, b, RunEnd(after, b)) == bits
  {
    var b := FirstFit(bits, s);
    var after := SetRange(bits, b, s);
    RunEndAt(after, b, b + s);
    assert ClearRange(after, b, b + s) == bits;
  }

  /** A double free is accepted silently: the scan from a clear bit stops at
      once and nothing changes. */
  lemma {:induction false} FreeOfClearBitChangesNothing(bits: seq<bool>, i: int)
    requires 0 <= i < |bits| && !bits[|bits| - 1] && !bits[i]
    ensures RunEnd(bits, i) == i && ClearRange(bits, i, RunEnd(bits, i)) == bits
  {
    assert ClearRange(bits, i, i) == bits;
  }

  /** Allocating a new block keeps every existing block a block: the new
      block never covers a guard byte of an old one. */
  lemma {:induction false} AllocKeepsBlocks(bits: seq<bool>, b: int, s: nat, c: int, len: nat)
    requires Fits(bits, b, s) && IsBlock(bits, c, len)
    ensures IsBlock(SetRange(bits, b, s), c, len)
  {
    var after := SetRange(bits, b, s);
    assert bits[c] && bits[c + len - 1];
    assert !(b <= c - 1 < b + s);
    assert !(b <= c + len < b + s);
  }

  /** Two distinct blocks are disjoint and separated by a clear byte, so
      freeing one leaves the other intact. */
  lemma {:induction false} FreeKeepsOtherBlocks(bits: seq<bool>, b: int, lb: nat, c: int, lc: nat)
    requires IsBlock(bits, b, lb) && IsBlock(bits, c, lc) && b != c
    ensures IsBlock(ClearRange(bits, b, b + lb), c, lc)
  {
    if c < b {
      assert !bits[b - 1];
      assert c + lc <= b - 1;
    } else {
      assert !bits[c - 1];
      assert b + lb <= c - 1;
    }
  }

  /** The recorded blocks that are still blocks of `bits`. */
  ghost function SurvivingBlocks(bits: seq<bool>, blocks: map<int, nat>): (m: map<int, nat>)
    ensures forall c | c in m :: c in blocks && m[c] == blocks[c] && IsBlock(bits, c, m[c])
  {
    map c | c in blocks && IsBlock(bits, c, blocks[c]) :: blocks[c]
  }

  /** Freeing the base of a recorded block clears exactly that block, and
      the other recorded blocks survive. */
  lemma {:induction false} FreeKeepsBlocks(bits: seq<bool>, after: seq<bool>, blocks: map<int, nat>, b: int)
    requires forall c | c in blocks :: IsBlock(bits, c, blocks[c])
    requires b in blocks && 0 <= b < |bits| && !bits[|bits| - 1]
    requires after == ClearRange(bits, b, RunEnd(bits, b))
    ensures RunEnd(bits, b) == b + blocks[b]
    ensures SurvivingBlocks(after, blocks) == blocks - {b}
  {
    RunEndAt(bits, b, b + blocks[b]);
    assert after == ClearRange(bits, b, b + blocks[b]);
    forall c | c in blocks && c != b
      ensures IsBlock(after, c, blocks[c])
    {
      FreeKeepsOtherBlocks(bits, b, blocks[b], c, blocks[c]);
    }
    assert !IsBlock(after, b, blocks[b]) by {
      assert !after[b];
    }
    SurvivorsAllBut(after, blocks, b);
  }

  /** When every recorded block but b is still a block and b is not, the
      survivors are the record less b. */
  lemma {:induction false} SurvivorsAllBut(bits: seq<bool>, blocks: map<int, nat>, b: int)
    requires b in blocks && !IsBlock(bits, b, blocks[b])
    requires forall c | c in blocks && c != b :: IsBlock(bits, c, blocks[c])
    ensures SurvivingBlocks(bits, blocks) == blocks - {b}
  {
  }

  /** The scan of MM_Free clears the bit it starts from and keeps both end
      bits of the pool clear. */
  lemma {:induction false} ClearRunEnds(bits: seq<bool>, i: int)
    requires |bits| == PoolSize && !bits[0] && !bits[PoolSize - 1] && 0 <= i < PoolSize
    ensures var after := ClearRange(bits, i, RunEnd(bits, i));
            !after[i] && !after[0] && !after[PoolSize - 1]
  {
    var j := RunEnd(bits, i);
    var after := ClearRange(bits, i, j);
    assert after[i] == (!(i <= i < j) && bits[i]);
  }

  // ---------------------------------------------------------------------
  // The allocator state

  /** The static arrays memPool and memAllocTabel. `blocks` is a ghost record
      of the live allocations (base to length); the source keeps none and
      finds a block's length by scanning the bitmap. */
  class Pool {
    const arena: array<Byte>
    const bits: array<bool>
    ghost var blocks: map<int, nat>

    /** The arrays have pool size, the first and last occupancy bits are
        clear (so a forward scan always ends inside the pool) and every
        recorded block is a run of set bits with a clear guard on each side. */
    ghost predicate Valid()
      reads this, bits
    {
      arena.Length == PoolSize && bits.Length == PoolSize && arena as object != bits &&
      !bits[0] && !bits[PoolSize - 1] &&
      forall b | b in blocks :: IsBlock(bits[..], b, blocks[b])
    }

    /** The arrays as C allocates static storage: all zero. */
    constructor ()
      ensures Valid() && fresh(arena) && fresh(bits)
      ensures arena[..] == seq(PoolSize, _ => 0) && bits[..] == seq(PoolSize, _ => false)
      ensures blocks == map[]
    {
      arena := new Byte[PoolSize](_ => 0);
      bits := new bool[PoolSize](_ => false);
      blocks := map[];
    }

    /** MM_MemPoolInit: zero every arena byte and clear every occupancy bit.
        Step i clears the bit that the LSB-first expression addresses, that
        is the occupancy of byte Mirror(i); over the whole loop that is
        every bit. */
    method MemPoolInit()
      requires Valid()
      modifies this, arena, bits
      ensures Valid()
      ensures arena[..] == seq(PoolSize, _ => 0) && bits[..] == seq(PoolSize, _ => false)
      ensures blocks == map[]
    {
      blocks := map[];
      for i := 0 to PoolSize
        modifies arena, bits
        invariant forall k :: 0 <= k < i ==> arena[k] == 0
        invariant forall k :: 0 <= k < i ==> !bits[Mirror(k)]
      {
        arena[i] := 0;
        // The source sets the bit when memPool[i] is non-zero, which it
        // never is right after the assignment above.
        bits[Mirror(i)] := false;
      }
      forall j | 0 <= j < PoolSize
        ensures !bits[j]
      {
        MirrorInvolution(j);
        assert !bits[Mirror(Mirror(j))];
      }
      assert bits[..] == seq(PoolSize, _ => false);
      assert arena[..] == seq(PoolSize, _ => 0);
    }

    /** MM_SpaceSearch: the first-fit scan with a running count of clear
        bits; it answers as soon as that count reaches s + 2. */
    method SpaceSearch(s: nat) returns (r: int)
      requires Valid()
      ensures r == FirstFit(bits[..], s)
    {
      var spaceSize := 0;
      for i := 0 to PoolSize
        invariant 0 <= spaceSize <= i && spaceSize < s + 2
        invariant forall k :: i - spaceSize <= k < i ==> !bits[k]
        invariant i - spaceSize == 0 || bits[i - spaceSize - 1]
        invariant forall c :: c + s < i ==> !Fits(bits[..], c, s)
      {
        if !bits[i] {
          spaceSize := spaceSize + 1;
        } else {
          spaceSize := 0;
        }
        if spaceSize == s + 2 {
          assert Fits(bits[..], i - s, s);
          return i - s;
        }
        assert !Fits(bits[..], i - s, s);
      }
      return -1;
    }

    /** MM_Alloc: on success set exactly the occupancy bits of [b, b+s) and
        return &memPool[b]; on failure return NULL and change nothing. The
        arena bytes are never touched. */
    method Alloc(s: nat) returns (p: Ptr)
      requires Valid()
      modifies this, bits
      ensures Valid()
      ensures var b := FirstFit(old(bits[..]), s);
              if b == -1 then p == Null && bits[..] == old(bits[..]) && blocks == old(blocks)
              else p == Addr(b) && bits[..] == SetRange(old(bits[..]), b, s) &&
                   blocks == if s == 0 then old(blocks) else old(blocks)[b := s]
    {
      var spaceIndex := SpaceSearch(s);
      if spaceIndex == -1 {
        return Null;
      }
      ghost var before := bits[..];
      for i := spaceIndex to spaceIndex + s
        modifies bits
        invariant forall k :: 0 <= k < PoolSize ==> bits[k] == (spaceIndex <= k < i || before[k])
      {
        bits[i] := true;
      }
      assert bits[..] == SetRange(before, spaceIndex, s);
      forall c | c in blocks
        ensures IsBlock(bits[..], c, blocks[c])
      {
        AllocKeepsBlocks(before, spaceIndex, s, c, blocks[c]);
      }
      if s != 0 {
        blocks := blocks[spaceIndex := s];
      }
      p := Addr(spaceIndex);
    }

    /** MM_Free: NULL gives 0. Any pointer into the pool clears the run of
        set bits that starts there and gives 1, even when that bit was
        already clear (a double free is not detected). Freeing the base of a
        recorded block clears exactly that block. */
    method Free(block: Ptr) returns (r: int)
      requires Valid()
      requires block.Addr? ==> InPool(block)
      modifies this, bits
      ensures Valid()
      ensures block == Null ==> r == 0 && bits[..] == old(bits[..]) && blocks == old(blocks)
      ensures block != Null ==>
                r == 1 &&
                bits[..] == ClearRange(old(bits[..]), block.offset, RunEnd(old(bits[..]), block.offset))
      ensures block != Null && block.offset in old(blocks) ==>
                RunEnd(old(bits[..]), block.offset) == block.offset + old(blocks)[block.offset] &&
                blocks == old(blocks) - {block.offset}
    {
      if block == Null {
        return 0;
      }
      var blockIndex := block.offset;
      ghost var before := bits[..];
      ClearRun(blockIndex);
      ghost var after := bits[..];
      ClearRunEnds(before, blockIndex);
      if blockIndex in blocks {
        FreeKeepsBlocks(before, after, blocks, blockIndex);
      }
      blocks := SurvivingBlocks(after, blocks);
      assert !bits[blockIndex] by {
        assert !after[blockIndex];
      }
      r := if !bits[blockIndex] then 1 else 0;
    }

    /** The forward scan of MM_Free: clear bits from i on until the first
        clear one. */
    method ClearRun(i: int)
      requires Valid() && 0 <= i < PoolSize
      modifies bits
      ensures bits[..] == ClearRange(old(bits[..]), i, RunEnd(old(bits[..]), i))
    {
      ghost var before := bits[..];
      ghost var stop := RunEnd(before, i);
      var pDev := i;
      while bits[pDev]
        modifies bits
        invariant i <= pDev <= stop
        invariant forall k :: 0 <= k < PoolSize ==> bits[k] == (!(i <= k < pDev) && before[k])
        decreases stop - pDev
      {
        bits[pDev] := false;
        pDev := pDev + 1;
      }
      assert bits[..] == ClearRange(before, i, stop);
    }

    /** MM_Set: when the start lies in the pool, write (uint8)val into the s
        bytes from there, whatever their occupancy, and give 1; otherwise
        give 0 and write nothing. The source does not check the end of the
        range, so callers must keep it inside the pool. */
    method Set(block: Ptr, val: int, s: nat) returns (r: int)
      requires Valid()
      requires InPool(block) ==> block.offset + s <= PoolSize
      modifies arena
      ensures Valid()
      ensures InPool(block) ==>
                r == 1 &&
                arena[..] == seq(PoolSize, k requires 0 <= k < PoolSize =>
                                   if block.offset <= k < block.offset + s then ToByte(val) else old(arena[k]))
      ensures !InPool(block) ==> r == 0 && arena[..] == old(arena[..])
    {
      if InPool(block) {
        var blockIndex := block.offset;
        for i := blockIndex to blockIndex + s
          modifies arena
          invariant forall k :: 0 <= k < PoolSize ==>
                      arena[k] == if blockIndex <= k < i then ToByte(val) else old(arena[k])
        {
          arena[i] := ToByte(val);
        }
        r := 1;
      } else {
        r := 0;
      }
    }

    /** MM_Occupation: the number of set occupancy bits. */
    method Occupation() returns (count: int)
      requires Valid()
      ensures count == CountSet(bits[..]) && 0 <= count <= PoolSize
    {
      count := 0;
      for i := 0 to PoolSize
        invariant count == CountSet(bits[..i])
      {
        assert bits[..i + 1][..i] == bits[..i];
        if bits[i] {
          count := count + 1;
        }
      }
      assert bits[..PoolSize] == bits[..];
    }
  }
}

=== FILE: MemoryObject.dfy ===
/** The MyMemory extension type of extension/Memory_management.c: a
    malloc-backed block with its own `refcount` field next to the host
    interpreter's reference count. The block is not taken from the fixed
    pool of MemPool; the methods below modify only the object itself. */
module MemoryObject {

  /** The exceptions the type raises, with their messages. */
  datatype Exception =
    | TypeError
    | OverflowError
    | ValueError(message: string)
    | MemoryError(message: string)
    | RuntimeError(message: string)

  /** A host call either returns a value or raises. */
  datatype Outcome<T> = Return(value: T) | Raise(error: Exception)

  /** The argument tuple of mymemory_init as the "i" format sees it: a
      Python integer or something else. */
  datatype Arg = IntArg(v: int) | OtherArg

  /** The argument tuple of the accessors as the "O!" format sees it: one
      MyMemory object, no single argument, or an object of another type. */
  datatype MemoryArg = Memory(m: MyMemory) | NoArg | OtherObject

  const InvalidSize := "Invalid size"
  const AllocationFailed := "Memory allocation failed"
  const AlreadyFreed := "Memory block is already freed"

  /** Range of the C `int` that the "i" format converts into. */
  predicate IsCInt(v: int)
  {
    -0x8000_0000 <= v < 0x8000_0000
  }

  class MyMemory {
    /** The object's own `refcount` field. */
    var refcount: int
    /** The `data` pointer: 0 for NULL, otherwise the address malloc gave. */
    var data: int
    /** The `size` field. */
    var size: nat
    /** The host interpreter's reference count (ob_refcnt), kept abstractly. */
    var hostRefs: nat
    /** Whether mymemory_dealloc has freed `data` and the object. */
    var released: bool

    /** The own refcount is 1 from construction until the single dealloc that
        frees the object, and 0 afterwards: nothing but dealloc changes it. */
    ghost predicate Valid()
      reads this
    {
      (released <==> refcount == 0) && (!released ==> refcount == 1)
    }

    /** mymemory_new after a successful tp_alloc: refcount 1, no data, size 0,
        one host reference. */
    constructor ()
      ensures Valid() && !released
      ensures refcount == 1 && data == 0 && size == 0 && hostRefs == 1
    {
      refcount := 1;
      data := 0;
      size := 0;
      hostRefs := 1;
      released := false;
    }

    /** mymemory_init. `mallocResult` is what malloc(size) returns (0 when it
        fails). The returned status is 0 or -1; on -1 the exception is set. */
    method Init(arg: Arg, mallocResult: int) returns (status: int, error: Outcome<()>)
      requires Valid()
      modifies this
      ensures Valid()
      ensures refcount == old(refcount) && hostRefs == old(hostRefs) && released == old(released)
      ensures arg.OtherArg? ==>
                status == -1 && error == Raise(TypeError) && data == old(data) && size == old(size)
      ensures arg.IntArg? && !IsCInt(arg.v) ==>
                status == -1 && error == Raise(OverflowError) && data == old(data) && size == old(size)
      ensures arg.IntArg? && IsCInt(arg.v) && arg.v <= 0 ==>
                status == -1 && error == Raise(ValueError(InvalidSize)) &&
                data == old(data) && size == old(size)
      ensures arg.IntArg? && IsCInt(arg.v) && arg.v > 0 && mallocResult == 0 ==>
                status == -1 && error == Raise(MemoryError(AllocationFailed)) &&
                data == 0 && size == old(size)
      ensures arg.IntArg? && IsCInt(arg.v) && arg.v > 0 && mallocResult != 0 ==>
                status == 0 && error == Return(()) && data == mallocResult && size == arg.v
    {
      if arg.OtherArg? {
        return -1, Raise(TypeError);
      }
      if !IsCInt(arg.v) {
        return -1, Raise(OverflowError);
      }
      var requested := arg.v;
      if requested <= 0 {
        return -1, Raise(ValueError(InvalidSize));
      }
      data := mallocResult;
      if data == 0 {
        return -1, Raise(MemoryError(AllocationFailed));
      }
      size := requested;
      return 0, Return(());
    }

    /** mymemory_dealloc, run by the host when its count reaches 0: decrement
        the own refcount and free data and object when it reaches 0. */
    method Dealloc()
      requires Valid() && !released
      modifies this
      ensures Valid() && released
      ensures refcount == old(refcount) - 1 == 0
      ensures data == old(data) && size == old(size) && hostRefs == old(hostRefs)
    {
      refcount := refcount - 1;
      if refcount == 0 {
        released := true;
      }
    }

    /** mymemory_get_data. The block read is the one passed as argument,
        not the receiver: `a.get_data(b)` reads `b`. */
    method GetData(arg: MemoryArg) returns (r: Outcome<int>)
      requires arg.Memory? ==> arg.m.Valid()
      ensures !arg.Memory? ==> r == Raise(TypeError)
      ensures arg.Memory? && arg.m.refcount == 0 ==> r == Raise(RuntimeError(AlreadyFreed))
      ensures arg.Memory? && arg.m.refcount != 0 ==> r == Return(arg.m.data)
      ensures arg.Memory? ==> (arg.m.released <==> r.Raise?)
    {
      if !arg.Memory? {
        return Raise(TypeError);
      }
      if arg.m.refcount == 0 {
        return Raise(RuntimeError(AlreadyFreed));
      }
      return Return(arg.m.data);
    }

    /** mymemory_get_size: the size stored in the argument block. */
    method GetSize(arg: MemoryArg) returns (r: Outcome<nat>)
      requires arg.Memory? ==> arg.m.Valid()
      ensures !arg.Memory? ==> r == Raise(TypeError)
      ensures arg.Memory? && arg.m.refcount == 0 ==> r == Raise(RuntimeError(AlreadyFreed))
      ensures arg.Memory? && arg.m.refcount != 0 ==> r == Return(arg.m.size)
      ensures arg.Memory? ==> (arg.m.released <==> r.Raise?)
    {
      if !arg.Memory? {
        return Raise(TypeError);
      }
      if arg.m.refcount == 0 {
        return Raise(RuntimeError(AlreadyFreed));
      }
      return Return(arg.m.size);
    }

    /** mymemory_retain: one more host reference to the argument block,
        which is returned; its own refcount is not touched. */
    method Retain(arg: MemoryArg) returns (r: Outcome<MyMemory>)
      requires arg.Memory? ==> arg.m.Valid()
      modifies if arg.Memory? then {arg.m} else {}
      ensures arg.Memory? ==> arg.m.Valid()
      ensures !arg.Memory? ==> r == Raise(TypeError)
      ensures arg.Memory? ==>
                arg.m.refcount == old(arg.m.refcount) && arg.m.data == old(arg.m.data) &&
                arg.m.size == old(arg.m.size) && arg.m.released == old(arg.m.released)
      ensures arg.Memory? && old(arg.m.refcount) == 0 ==>
                r == Raise(RuntimeError(AlreadyFreed)) && arg.m.hostRefs == old(arg.m.hostRefs)
      ensures arg.Memory? && old(arg.m.refcount) != 0 ==>
                r == Return(arg.m) && arg.m.hostRefs == old(arg.m.hostRefs) + 1
    {
      if !arg.Memory? {
        return Raise(TypeError);
      }
      var memory := arg.m;
      if memory.refcount == 0 {
        return Raise(RuntimeError(AlreadyFreed));
      }
      memory.hostRefs := memory.hostRefs + 1;
      return Return(memory);
    }

    /** mymemory_release: drop one host reference to the argument block. Its
        own refcount changes only when that was the last host reference,
        because the host then runs mymemory_dealloc on it. */
    method Release(arg: MemoryArg) returns (r: Outcome<()>)
      requires arg.Memory? ==> arg.m.Valid()
      requires arg.Memory? && !arg.m.released ==> arg.m.hostRefs >= 1
      modifies if arg.Memory? then {arg.m} else {}
      ensures arg.Memory? ==> arg.m.Valid()
      ensures !arg.Memory? ==> r == Raise(TypeError)
      ensures arg.Memory? ==> arg.m.data == old(arg.m.data) && arg.m.size == old(arg.m.size)
      ensures arg.Memory? && old(arg.m.refcount) == 0 ==>
                r == Raise(RuntimeError(AlreadyFreed)) && arg.m.hostRefs == old(arg.m.hostRefs) &&
                arg.m.released == old(arg.m.released)
      ensures arg.Memory? && old(arg.m.refcount) != 0 ==>
                r == Return(()) && arg.m.hostRefs == old(arg.m.hostRefs) - 1
      ensures arg.Memory? && old(arg.m.refcount) != 0 && old(arg.m.hostRefs) > 1 ==>
                arg.m.refcount == old(arg.m.refcount) && !arg.m.released
      ensures arg.Memory? && old(arg.m.refcount) != 0 && old(arg.m.hostRefs) == 1 ==>
                arg.m.refcount == 0 && arg.m.released
    {
      if !arg.Memory? {
        return Raise(TypeError);
      }
      var memory := arg.m;
      if memory.refcount == 0 {
        return Raise(RuntimeError(AlreadyFreed));
      }
      memory.hostRefs := memory.hostRefs - 1;
      if memory.hostRefs == 0 {
        memory.Dealloc();
      }
      return Return(());
    }
  }

  /** The lifecycle of one object: construct, initialise with a size,
      read the size back (also through another object's method, which reads
      its argument), refuse a call without the block, retain and release
      once, then release the last host reference, which frees the block. */
  method Lifecycle(requested: int, mallocResult: int) returns (m: MyMemory)
    requires 0 < requested < 0x8000_0000 && mallocResult != 0
    ensures m.released && m.refcount == 0 && m.size == requested
  {
    m := new MyMemory();
    var status, error := m.Init(IntArg(requested), mallocResult);
    assert status == 0;
    var got := m.GetSize(Memory(m));
    assert got == Return(requested);
    var other := new MyMemory();
    got := other.GetSize(Memory(m));
    assert got == Return(requested);
    got := m.GetSize(NoArg);
    assert got == Raise(TypeError);
    var again := m.Retain(Memory(m));
    assert again == Return(m) && m.hostRefs == 2;
    var dropped := m.Release(Memory(m));
    assert !m.released && m.refcount == 1;
    dropped := m.Release(Memory(m));
    assert m.released;
  }
}

=== FILE: Memos.dfy ===
/** The memo plugin of plugin/MemoPlugin.py: a list of memos, each with
    an id, its text, the time it was added and whether it is done, kept
    in the order they were added. The JSON file the list is saved to and
    loaded from is not modelled, nor is the clock: the time stamp of a new
    memo is a parameter. */
module Memos {
  import opened Wrappers
  import opened PyStrings
  import opened PyText
  import opened PluginResults

  datatype Memo = Memo(id: int, content: string, timestamp: string, completed: bool)

  // ---------------------------------------------------------------------
  // The list and what each operation does to it

  /** The position of the first memo with this id, if any. */
  function FirstWithId(memos: seq<Memo>, id: int): (r: Option<nat>)
    ensures r.None? <==> forall k :: 0 <= k < |memos| ==> memos[k].id != id
    ensures r.Some? ==> r.value < |memos| && memos[r.value].id == id &&
                        forall k :: 0 <= k < r.value ==> memos[k].id != id
  {
    if memos == [] then None
    else if memos[0].id == id then Some(0)
    else
      var rest := FirstWithId(memos[1..], id);
      if rest.None? then None else Some(rest.value + 1)
  }

  /** add_memo: the new memo goes last, numbered one past the length of
      the list, not yet done. */
  function Added(memos: seq<Memo>, content: string, timestamp: string): (r: seq<Memo>)
    ensures |r| == |memos| + 1 && r[..|memos|] == memos
    ensures r[|memos|].id == |memos| + 1 && !r[|memos|].completed
    ensures r[|memos|].content == content && r[|memos|].timestamp == timestamp
  {
    memos + [Memo(|memos| + 1, content, timestamp, false)]
  }

  /** complete_memo: the first memo with the id is marked done; every
      other memo, and every other field, stays as it was. */
  function Completed(memos: seq<Memo>, id: int): (r: seq<Memo>)
    ensures |r| == |memos|
    ensures FirstWithId(memos, id).None? ==> r == memos
    ensures forall k :: 0 <= k < |r| ==>
              r[k].id == memos[k].id && r[k].content == memos[k].content &&
              r[k].timestamp == memos[k].timestamp &&
              r[k].completed == (memos[k].completed || FirstWithId(memos, id) == Some(k))
  {
    var i := FirstWithId(memos, id);
    if i.None? then memos else memos[i.value := memos[i.value].(completed := true)]
  }

  /** delete_memo: the first memo with the id is removed, the others keep
      their order. */
  function Deleted(memos: seq<Memo>, id: int): (r: seq<Memo>)
    ensures FirstWithId(memos, id).None? ==> r == memos
    ensures FirstWithId(memos, id).Some? ==>
              var i := FirstWithId(memos, id).value;
              |r| == |memos| - 1 && r[..i] == memos[..i] && r[i..] == memos[i + 1..] &&
              multiset(r) + multiset{memos[i]} == multiset(memos)
  {
    var i := FirstWithId(memos, id);
    if i.None? then memos
    else
      assert memos == memos[..i.value] + [memos[i.value]] + memos[i.value + 1..];
      memos[..i.value] + memos[i.value + 1..]
  }

  /** Numbering by length does not keep ids apart: delete the first of
      two or more memos numbered 1, 2, ... and the next memo added takes
      the id of the last one. */
  lemma {:induction false} IdsCanRepeat(memos: seq<Memo>, content: string, timestamp: string)
    requires |memos| >= 2 && memos[|memos| - 1].id == |memos| && memos[0].id != |memos|
    ensures var after := Added(Deleted(memos, memos[0].id), content, timestamp);
      |after| == |memos| && after[|after| - 1].id == after[|after| - 2].id
  {
    var d := Deleted(memos, memos[0].id);
    assert FirstWithId(memos, memos[0].id) == Some(0);
    assert d[|d| - 1] == memos[|memos| - 1] by {
      assert d[0..] == memos[1..];
    }
  }

  // ---------------------------------------------------------------------
  // Messages

  const NoMemos := "当前没有备忘录"
  const ListHeader := "备忘录列表:\n"
  const EmptyContent := "备忘录内容不能为空"
  const InvalidId := "请输入有效的备忘录ID"
  const Unrecognised := "无法识别的备忘录命令，请使用添加备忘录/列出备忘录/完成备忘录/删除备忘录"

  function AddMessage(content: string): string
  {
    "已添加备忘录: " + content
  }

  function NotFoundMessage(id: int): string
  {
    "未找到ID为 " + IntToStr(id) + " 的备忘录"
  }

  /** What complete_memo answers: the text of the memo it marked, or that
      there is none with that id. */
  function CompleteMessage(memos: seq<Memo>, id: int): (r: string)
    ensures FirstWithId(memos, id).None? ==> r == NotFoundMessage(id)
    ensures FirstWithId(memos, id).Some? ==>
              r == "已将备忘录标记为完成: " + memos[FirstWithId(memos, id).value].content
  {
    var i := FirstWithId(memos, id);
    if i.None? then NotFoundMessage(id) else "已将备忘录标记为完成: " + memos[i.value].content
  }

  /** What delete_memo answers: the text of the memo it removed, or that
      there is none with that id. */
  function DeleteMessage(memos: seq<Memo>, id: int): (r: string)
    ensures FirstWithId(memos, id).None? ==> r == NotFoundMessage(id)
    ensures FirstWithId(memos, id).Some? ==>
              r == "已删除备忘录: " + memos[FirstWithId(memos, id).value].content
  {
    var i := FirstWithId(memos, id);
    if i.None? then NotFoundMessage(id) else "已删除备忘录: " + memos[i.value].content
  }

  // ---------------------------------------------------------------------
  // list_memos

  /** One line of the listing: id, a tick when done, the text and the
      time it was added. */
  function Entry(m: Memo): string
  {
    IntToStr(m.id) + ". [" + (if m.completed then "✓" else " ") + "] " + m.content + " (" + m.timestamp + ")\n"
  }

  /** The lines of the memos in order, all of them. */
  function Entries(ms: seq<Memo>): string
  {
    if ms == [] then "" else Entry(ms[0]) + Entries(ms[1..])
  }

  /** The memos not yet done, in order. */
  function Pending(ms: seq<Memo>): (r: seq<Memo>)
    ensures |r| <= |ms|
    ensures forall k :: 0 <= k < |r| ==> !r[k].completed
  {
    if ms == [] then []
    else if ms[0].completed then Pending(ms[1..])
    else [ms[0]] + Pending(ms[1..])
  }

  /** The loop of list_memos: acc followed by the line of every memo of
      ms that is shown. */
  function Listed(acc: string, ms: seq<Memo>, showAll: bool): (r: string)
    ensures |acc| <= |r| && r[..|acc|] == acc
    decreases |ms|
  {
    if ms == [] then acc
    else Listed(if showAll || !ms[0].completed then acc + Entry(ms[0]) else acc, ms[1..], showAll)
  }

  /** list_memos(show_all). */
  function Listing(memos: seq<Memo>, showAll: bool): string
  {
    if memos == [] then NoMemos else Listed(ListHeader, memos, showAll)
  }

  /** Listing everything appends every line. */
  lemma {:induction false} ListedAll(acc: string, ms: seq<Memo>)
    ensures Listed(acc, ms, true) == acc + Entries(ms)
    decreases |ms|
  {
    if ms != [] {
      var e, rest := Entry(ms[0]), Entries(ms[1..]);
      ListedAll(acc + e, ms[1..]);
      assert Listed(acc, ms, true) == Listed(acc + e, ms[1..], true);
      assert Entries(ms) == e + rest;
      assert acc + e + rest == acc + (e + rest);
    }
  }

  /** Leaving out the memos that are done is listing exactly the pending
      ones. */
  lemma {:induction false} ListedPending(acc: string, ms: seq<Memo>)
    ensures Listed(acc, ms, false) == Listed(acc, Pending(ms), true)
    decreases |ms|
  {
    if ms != [] {
      ListedPending(if ms[0].completed then acc else acc + Entry(ms[0]), ms[1..]);
      if !ms[0].completed {
        assert Pending(ms)[0] == ms[0] && Pending(ms)[1..] == Pending(ms[1..]);
      }
    }
  }

  /** An empty list answers that there are no memos; otherwise the header
      is followed by the line of every memo when all are asked for, and of
      exactly the pending ones when not. */
  lemma {:induction false} ListingShows(memos: seq<Memo>, showAll: bool)
    ensures memos == [] ==> Listing(memos, showAll) == NoMemos
    ensures memos != [] ==>
              Listing(memos, showAll) == ListHeader + Entries(if showAll then memos else Pending(memos))
  {
    if memos != [] {
      ListedPending(ListHeader, memos);
      ListedAll(ListHeader, memos);
      ListedAll(ListHeader, Pending(memos));
    }
  }

  // ---------------------------------------------------------------------
  // status

  const StatusPrefix := "已保存 "
  const StatusSuffix := " 条备忘录"

  /** The status text: the number of memos between the two fixed parts. */
  function StatusText(n: nat): (r: string)
    ensures |StatusPrefix| + |StatusSuffix| <= |r|
    ensures r[..|StatusPrefix|] == StatusPrefix && r[|r| - |StatusSuffix|..] == StatusSuffix
    ensures ParseInt(r[|StatusPrefix|..|r| - |StatusSuffix|]) == Some(n)
  {
    var s := IntToStr(n);
    ParseIntOfIntToStr(n);
    var r := StatusPrefix + s + StatusSuffix;
    assert r[|StatusPrefix|..|r| - |StatusSuffix|] == s;
    r
  }

  // ---------------------------------------------------------------------
  // run

  const AddWord := "添加备忘录"
  const ListWord := "列出备忘录"
  const CompleteWord := "完成备忘录"
  const DeleteWord := "删除备忘录"
  const AllWord := "所有"

  /** The request an original command makes, in the order run tests the
      command words; an id that int() refuses is None. */
  datatype Request =
    | AddRequest(content: string)
    | EmptyAdd
    | ListRequest(showAll: bool)
    | CompleteRequest(id: Option<int>)
    | DeleteRequest(id: Option<int>)
    | NotUnderstood

  /** The command with its command word taken out and stripped. */
  function Argument(command: string, word: string): string
    requires word != []
  {
    Strip(Replace(command, word, ""))
  }

  /** The branch of run a command takes. */
  function RequestOf(command: string): (r: Request)
    ensures r.AddRequest? || r.EmptyAdd? <==> Contains(command, AddWord)
    ensures r.ListRequest? <==> !Contains(command, AddWord) && Contains(command, ListWord)
    ensures r.CompleteRequest? <==>
              !Contains(command, AddWord) && !Contains(command, ListWord) && Contains(command, CompleteWord)
    ensures r.DeleteRequest? <==>
              !Contains(command, AddWord) && !Contains(command, ListWord) &&
              !Contains(command, CompleteWord) && Contains(command, DeleteWord)
    ensures r.EmptyAdd? <==> Contains(command, AddWord) && Blank(Replace(command, AddWord, ""))
    ensures r.AddRequest? ==> r.content == Argument(command, AddWord) && r.content != []
    ensures r.ListRequest? ==> (r.showAll <==> Contains(command, AllWord))
    ensures r.CompleteRequest? ==> r.id == ParseInt(Argument(command, CompleteWord))
    ensures r.DeleteRequest? ==> r.id == ParseInt(Argument(command, DeleteWord))
  {
    StripEmptyIffBlank(Replace(command, AddWord, ""));
    if Contains(command, AddWord) then
      var content := Argument(command, AddWord);
      if content != [] then AddRequest(content) else EmptyAdd
    else if Contains(command, ListWord) then ListRequest(Contains(command, AllWord))
    else if Contains(command, CompleteWord) then CompleteRequest(ParseInt(Argument(command, CompleteWord)))
    else if Contains(command, DeleteWord) then DeleteRequest(ParseInt(Argument(command, DeleteWord)))
    else NotUnderstood
  }

  /** args.get('original_command', ''). */
  function OriginalCommand(args: map<string, string>): string
  {
    if "original_command" in args then args["original_command"] else ""
  }

  class MemoPlugin {
    var memos: seq<Memo>

    /** A plugin with no saved memos. */
    constructor ()
      ensures memos == []
    {
      memos := [];
    }

    method AddMemo(content: string, timestamp: string) returns (message: string)
      modifies this
      ensures memos == Added(old(memos), content, timestamp)
      ensures message == AddMessage(content)
    {
      memos := memos + [Memo(|memos| + 1, content, timestamp, false)];
      message := AddMessage(content);
    }

    method ListMemos(showAll: bool) returns (text: string)
      ensures text == Listing(memos, showAll)
    {
      if memos == [] {
        return NoMemos;
      }
      text := ListHeader;
      var i := 0;
      while i < |memos|
        invariant 0 <= i <= |memos|
        invariant Listed(text, memos[i..], showAll) == Listed(ListHeader, memos, showAll)
      {
        assert memos[i..][1..] == memos[i + 1..];
        if showAll || !memos[i].completed {
          text := text + Entry(memos[i]);
        }
        i := i + 1;
      }
    }

    method CompleteMemo(id: int) returns (message: string)
      modifies this
      ensures memos == Completed(old(memos), id)
      ensures message == CompleteMessage(old(memos), id)
    {
      var i := 0;
      while i < |memos|
        invariant 0 <= i <= |memos|
        invariant forall k :: 0 <= k < i ==> memos[k].id != id
      {
        if memos[i].id == id {
          assert FirstWithId(memos, id) == Some(i);
          message := "已将备忘录标记为完成: " + memos[i].content;
          memos := memos[i := memos[i].(completed := true)];
          return;
        }
        i := i + 1;
      }
      message := NotFoundMessage(id);
    }

    method DeleteMemo(id: int) returns (message: string)
      modifies this
      ensures memos == Deleted(old(memos), id)
      ensures message == DeleteMessage(old(memos), id)
    {
      var i := 0;
      while i < |memos|
        invariant 0 <= i <= |memos|
        invariant forall k :: 0 <= k < i ==> memos[k].id != id
      {
        if memos[i].id == id {
          assert FirstWithId(memos, id) == Some(i);
          message := "已删除备忘录: " + memos[i].content;
          memos := memos[..i] + memos[i + 1..];
          return;
        }
        i := i + 1;
      }
      message := NotFoundMessage(id);
    }

    /** run: the failures are returned as failure results (see
        PluginResults.Failure). */
    method Run(args: map<string, string>, timestamp: string) returns (r: PluginResult)
      modifies this
      ensures var req := RequestOf(OriginalCommand(args));
        match req
        case AddRequest(content) =>
          memos == Added(old(memos), content, timestamp) && r == Success(AddMessage(content))
        case EmptyAdd => memos == old(memos) && r == Failure(EmptyContent)
        case ListRequest(showAll) => memos == old(memos) && r == Success(Listing(memos, showAll))
        case CompleteRequest(id) =>
          if id.None? then memos == old(memos) && r == Failure(InvalidId)
          else memos == Completed(old(memos), id.value) && r == Success(CompleteMessage(old(memos), id.value))
        case DeleteRequest(id) =>
          if id.None? then memos == old(memos) && r == Failure(InvalidId)
          else memos == Deleted(old(memos), id.value) && r == Success(DeleteMessage(old(memos), id.value))
        case NotUnderstood => memos == old(memos) && r == Failure(Unrecognised)
    {
      var req := RequestOf(OriginalCommand(args));
      match req
      case AddRequest(content) =>
        var message := AddMemo(content, timestamp);
        r := Success(message);
      case EmptyAdd =>
        r := Failure(EmptyContent);
      case ListRequest(showAll) =>
        var text := ListMemos(showAll);
        r := Success(text);
      case CompleteRequest(id) =>
        if id.None? {
          r := Failure(InvalidId);
        } else {
          var message := CompleteMemo(id.value);
          r := Success(message);
        }
      case DeleteRequest(id) =>
        if id.None? {
          r := Failure(InvalidId);
        } else {
          var message := DeleteMemo(id.value);
          r := Success(message);
        }
      case NotUnderstood =>
        r := Failure(Unrecognised);
    }

    /** run as written: every failure branch calls the named tuple without
        its result, which raises TypeError (the error returned here) before
        anything changes; the successful branches are those of Run. */
    method RunAsWritten(args: map<string, string>, timestamp: string) returns (r: Result<PluginResult, ConstructError>)
      modifies this
      ensures var req := RequestOf(OriginalCommand(args));
        match req
        case AddRequest(content) =>
          memos == Added(old(memos), content, timestamp) && r == Ok(Success(AddMessage(content)))
        case EmptyAdd => memos == old(memos) && r == Err(MissingResult)
        case ListRequest(showAll) => memos == old(memos) && r == Ok(Success(Listing(memos, showAll)))
        case CompleteRequest(id) =>
          if id.None? then memos == old(memos) && r == Err(MissingResult)
          else memos == Completed(old(memos), id.value) && r == Ok(Success(CompleteMessage(old(memos), id.value)))
        case DeleteRequest(id) =>
          if id.None? then memos == old(memos) && r == Err(MissingResult)
          else memos == Deleted(old(memos), id.value) && r == Ok(Success(DeleteMessage(old(memos), id.value)))
        case NotUnderstood => memos == old(memos) && r == Err(MissingResult)
    {
      var res := Run(args, timestamp);
      if res.success {
        r := Ok(res);
      } else {
        FailureAsWrittenRaises(res.errorMessage);
        r := FailureAsWritten(res.errorMessage);
      }
    }

    /** status: the number of memos kept. */
    function Status(): (r: PluginResult)
      reads this
      ensures r.success && r.result == Some(StatusText(|memos|))
    {
      Success(StatusText(|memos|))
    }
  }
}

=== FILE: PluginResults.dfy ===
/** The two result records plugins return: the named tuple of
    plugin/abstract_plugin.py and the result class of
    plugin/plugin_interface.py. */
module PluginResults {
  import opened Wrappers

  /** PluginResult(success, result, error_message=""), with the result
      as text or None. */
  datatype PluginResult = PluginResult(success: bool, result: Option<string>, errorMessage: string)

  /** An argument of a call: left out, or given. */
  datatype Argument<T> = Omitted | Given(value: T)

  /** Calling the named tuple without its result field raises TypeError. */
  datatype ConstructError = MissingResult

  /** The named tuple's constructor: result has no default, error_message
      defaults to "". */
  function NewPluginResult(success: bool, result: Argument<Option<string>>, errorMessage: Argument<string>): (r: Result<PluginResult, ConstructError>)
    ensures r.Err? <==> result.Omitted?
    ensures r.Ok? ==> r.value.success == success && r.value.result == result.value
    ensures r.Ok? && errorMessage.Omitted? ==> r.value.errorMessage == ""
    ensures r.Ok? && errorMessage.Given? ==> r.value.errorMessage == errorMessage.value
  {
    if result.Omitted? then Err(MissingResult)
    else Ok(PluginResult(success, result.value, if errorMessage.Given? then errorMessage.value else ""))
  }

  /** A failure as the plugins write it,
      PluginResult(success=False, error_message=message): the result
      field is left out. */
  function FailureAsWritten(message: string): (r: Result<PluginResult, ConstructError>)
  {
    NewPluginResult(false, Omitted, Given(message))
  }

  /** Every failure written that way raises instead of being returned. */
  lemma {:induction false} FailureAsWrittenRaises(message: string)
    ensures FailureAsWritten(message) == Err(MissingResult)
  {
  }

  /** The failure the plugins mean to return: no result, the message. */
  function Failure(message: string): (r: PluginResult)
    ensures NewPluginResult(false, Given(None), Given(message)) == Ok(r)
    ensures !r.success && r.errorMessage == message && r.result.None?
  {
    PluginResult(false, None, message)
  }

  /** PluginResult(success=True, result=text). */
  function Success(text: string): (r: PluginResult)
    ensures NewPluginResult(true, Given(Some(text)), Omitted) == Ok(r)
  {
    PluginResult(true, Some(text), "")
  }

  /** PluginResult.new(result, need_call_brain, success, error_message) of
      plugin/plugin_interface.py; the timing and metadata fields are not
      modelled. */
  datatype BrainResult = BrainResult(result: Option<string>, needCallBrain: bool, success: bool, errorMessage: Option<string>)
}

=== FILE: PyArith.dfy ===
/** Python's integer floor division and modulo, and the facts about
    Dafny's own division the other modules need. */
module PyArith {

  /** a // b: the largest q with q * b not past a on b's side. */
  function FloorDiv(a: int, b: int): (q: int)
    requires b != 0
    ensures b > 0 ==> q == a / b && b * q <= a < b * q + b
    ensures b < 0 ==> b * q >= a > b * q + b
  {
    if b > 0 then a / b
    else
      var q := (-a) / (-b);
      assert -a == (-b) * q + (-a) % (-b);
      q
  }

  /** a % b: the remainder that goes with a // b; it has b's sign. */
  function FloorMod(a: int, b: int): (m: int)
    requires b != 0
    ensures a == b * FloorDiv(a, b) + m
    ensures b > 0 ==> 0 <= m < b
    ensures b < 0 ==> b < m <= 0
  {
    a - b * FloorDiv(a, b)
  }

  /** A quotient and remainder in range are the ones division gives. */
  lemma {:induction false} DivUnique(m: int, n: nat, q: int, r: int)
    requires n > 0 && m == q * n + r && 0 <= r < n
    ensures m / n == q
  {
    var q', r' := m / n, m % n;
    assert m == q' * n + r' && 0 <= r' < n;
    if q > q' {
      MulAtLeast(q - q', n);
    } else if q < q' {
      MulAtLeast(q' - q, n);
    }
  }

  lemma {:induction false} MulAtLeast(a: nat, n: nat)
    requires a >= 1
    ensures a * n >= n
  {
    if a > 1 {
      MulAtLeast(a - 1, n);
      assert a * n == (a - 1) * n + n;
    }
  }

  /** Adding the divisor once adds one to the quotient. */
  lemma {:induction false} DivPlusOne(m: nat, n: nat)
    requires n > 0
    ensures (m + n) / n == m / n + 1
  {
    var q, r := m / n, m % n;
    assert m == q * n + r && 0 <= r < n;
    assert m + n == (q + 1) * n + r;
    DivUnique(m + n, n, q + 1, r);
  }

  /** Dividing a multiple of n by n is exact. */
  lemma {:induction false} ExactDiv(x: int, n: nat)
    requires n > 0
    ensures (x * n) / n == x && FloorDiv(x * n, n) == x
  {
    DivUnique(x * n, n, x, 0);
  }
}

=== FILE: PyPath.dfy ===
/** pathlib.Path on POSIX as the editing tool uses it: str(Path(path))
    collapses doubled slashes and "." components and drops a trailing
    slash, keeping ".." and the root. */
module PyPath {
  import opened PyText

  /** Path.is_absolute(): the path starts at the root. */
  predicate IsAbsolute(path: string)
  {
    |path| > 0 && path[0] == '/'
  }

  /** A piece pathlib keeps as a component: neither empty nor ".". */
  predicate Kept(piece: string)
  {
    piece != "" && piece != "."
  }

  /** The components pathlib keeps of the pieces between slashes: every
      piece except the empty ones and ".", in order. */
  function PathParts(pieces: seq<string>): (r: seq<string>)
    ensures |r| <= |pieces|
    ensures forall k :: 0 <= k < |r| ==> Kept(r[k])
  {
    if pieces == [] then []
    else (if Kept(pieces[0]) then [pieces[0]] else []) + PathParts(pieces[1..])
  }

  /** The root of a POSIX path: "//" for exactly two leading slashes, "/"
      for one or for three and more, nothing for a relative path. */
  function PathRoot(path: string): (r: string)
    ensures r == [] <==> !IsAbsolute(path)
  {
    if |path| >= 2 && path[0] == '/' && path[1] == '/' && (|path| == 2 || path[2] != '/') then "//"
    else if IsAbsolute(path) then "/"
    else ""
  }

  /** str(Path(path)) on POSIX: the root, then the kept components joined
      by "/"; "." when nothing is left. ".." is kept, as pathlib does. */
  function PurePath(path: string): (r: string)
    ensures r != [] && (IsAbsolute(r) <==> IsAbsolute(path))
  {
    var root, parts := PathRoot(path), PathParts(SplitOn(path, '/'));
    PathPartsNoSep(SplitOn(path, '/'));
    RootOfRooted(root, parts);
    var s := root + Join('/', parts);
    if s == [] then "." else s
  }

  /** The kept components of one piece in front of others. */
  lemma PathPartsCons(piece: string, rest: seq<string>)
    ensures PathParts([piece] + rest) == (if Kept(piece) then [piece] else []) + PathParts(rest)
  {
    assert ([piece] + rest)[1..] == rest;
  }

  /** Components taken from separator-free pieces hold no separator. */
  lemma {:induction false} PathPartsNoSep(pieces: seq<string>)
    requires forall k :: 0 <= k < |pieces| ==> '/' !in pieces[k]
    ensures forall k :: 0 <= k < |PathParts(pieces)| ==> '/' !in PathParts(pieces)[k]
  {
    if pieces != [] {
      PathPartsNoSep(pieces[1..]);
    }
  }

  /** Components that are already clean are all kept. */
  lemma {:induction false} PathPartsOfClean(parts: seq<string>)
    requires forall k :: 0 <= k < |parts| ==> Kept(parts[k])
    ensures PathParts(parts) == parts
  {
    if parts != [] {
      PathPartsOfClean(parts[1..]);
    }
  }

  /** Two paths with the same root and the same kept components are the
      same Path. */
  lemma PurePathSame(p: string, q: string)
    requires PathRoot(p) == PathRoot(q)
    requires PathParts(SplitOn(p, '/')) == PathParts(SplitOn(q, '/'))
    ensures PurePath(p) == PurePath(q)
  {
  }

  /** The pieces of joined clean components, behind no root. */
  lemma SplitUnrooted(parts: seq<string>)
    requires forall k :: 0 <= k < |parts| ==> Kept(parts[k]) && '/' !in parts[k]
    ensures PathParts(SplitOn(Join('/', parts), '/')) == parts
  {
    if parts == [] {
      assert SplitOn(Join('/', parts), '/') == [""];
    } else {
      SplitJoin(parts, '/');
      PathPartsOfClean(parts);
    }
  }

  /** A leading slash adds one empty piece, which is dropped. */
  lemma SplitSlash(s: string)
    ensures PathParts(SplitOn(['/'] + s, '/')) == PathParts(SplitOn(s, '/'))
  {
    assert SplitOn(['/'] + s, '/') == [""] + SplitOn(s, '/') by {
      assert ['/'] + s == "" + ['/'] + s;
      SplitFirst("", s, '/');
    }
    PathPartsCons("", SplitOn(s, '/'));
  }

  /** The pieces of a root followed by joined clean components. */
  lemma {:induction false} SplitRooted(root: string, parts: seq<string>)
    requires root == "" || root == "/" || root == "//"
    requires forall k :: 0 <= k < |parts| ==> Kept(parts[k]) && '/' !in parts[k]
    ensures PathParts(SplitOn(root + Join('/', parts), '/')) == parts
  {
    var j := Join('/', parts);
    assert PathParts(SplitOn(j, '/')) == parts by {
      SplitUnrooted(parts);
    }
    if root == "/" {
      assert root + j == ['/'] + j;
      SplitSlash(j);
    } else if root == "//" {
      assert root + j == ['/'] + (['/'] + j);
      assert PathParts(SplitOn(['/'] + j, '/')) == parts by {
        SplitSlash(j);
      }
      SplitSlash(['/'] + j);
    } else {
      assert root + j == j;
    }
  }

  /** The first character of a join is that of its first component. */
  lemma {:induction false} JoinStart(parts: seq<string>)
    requires parts != [] && parts[0] != []
    ensures Join('/', parts) != [] && Join('/', parts)[0] == parts[0][0]
  {
  }

  /** A root followed by text that does not start with a slash keeps that
      root. */
  lemma RootBefore(root: string, j: string)
    requires root == "" || root == "/" || root == "//"
    requires j == [] || j[0] != '/'
    ensures PathRoot(root + j) == root
  {
    if root == "//" {
      assert (root + j)[0] == '/' && (root + j)[1] == '/';
      assert |root + j| == 2 || (root + j)[2] == j[0];
    } else if root == "/" {
      assert (root + j)[0] == '/';
      assert |root + j| == 1 || (root + j)[1] == j[0];
    } else {
      assert root + j == j;
    }
  }

  /** The root of a root followed by joined clean components. */
  lemma RootOfRooted(root: string, parts: seq<string>)
    requires root == "" || root == "/" || root == "//"
    requires forall k :: 0 <= k < |parts| ==> Kept(parts[k]) && '/' !in parts[k]
    ensures PathRoot(root + Join('/', parts)) == root
  {
    var j := Join('/', parts);
    assert j == [] || j[0] != '/' by {
      if parts != [] {
        JoinStart(parts);
        assert parts[0][0] in parts[0];
      }
    }
    RootBefore(root, j);
  }

  /** Path is idempotent: a path already in the form str(Path(...)) gives
      is kept as it is. */
  lemma {:induction false} PurePathIdempotent(path: string)
    ensures PurePath(PurePath(path)) == PurePath(path)
  {
    var root, parts := PathRoot(path), PathParts(SplitOn(path, '/'));
    var s := root + Join('/', parts);
    if s == [] {
      SplitNoSep(".", '/');
      PathPartsCons(".", []);
    } else {
      PathPartsNoSep(SplitOn(path, '/'));
      SplitRooted(root, parts);
      RootOfRooted(root, parts);
    }
  }

  /** The pieces around a separator are the pieces of each side. */
  lemma {:induction false} SplitAppend(a: string, b: string)
    ensures SplitOn(a + ['/'] + b, '/') == SplitOn(a, '/') + SplitOn(b, '/')
    decreases |a|
  {
    if '/' !in a {
      SplitNoSep(a, '/');
      SplitFirst(a, b, '/');
    } else {
      var i := IndexOf(a, '/');
      var w, rest := a[..i], a[i + 1..];
      assert a == w + ['/'] + rest;
      assert a + ['/'] + b == w + ['/'] + (rest + ['/'] + b);
      SplitAppend(rest, b);
      SplitAppendStep(w, rest, rest + ['/'] + b, b);
    }
  }

  /** One separator-free piece in front of both sides. */
  lemma {:induction false} SplitAppendStep(w: string, rest: string, restb: string, b: string)
    requires '/' !in w
    requires SplitOn(restb, '/') == SplitOn(rest, '/') + SplitOn(b, '/')
    ensures SplitOn(w + ['/'] + restb, '/') == SplitOn(w + ['/'] + rest, '/') + SplitOn(b, '/')
  {
    var rr, rb := SplitOn(rest, '/'), SplitOn(b, '/');
    assert SplitOn(w + ['/'] + rest, '/') == [w] + rr by {
      SplitFirst(w, rest, '/');
    }
    assert SplitOn(w + ['/'] + restb, '/') == [w] + (rr + rb) by {
      SplitFirst(w, restb, '/');
    }
    ConcatAssoc([w], rr, rb);
  }

  lemma ConcatAssoc<T>(x: seq<T>, y: seq<T>, z: seq<T>)
    ensures x + (y + z) == (x + y) + z
  {
  }

  /** The kept components of two runs of pieces are those of each run. */
  lemma {:induction false} PathPartsAppend(x: seq<string>, y: seq<string>)
    ensures PathParts(x + y) == PathParts(x) + PathParts(y)
  {
    if x != [] {
      var h := if Kept(x[0]) then [x[0]] else [];
      assert PathParts(x + y) == h + PathParts(x[1..] + y) by {
        assert x + y == [x[0]] + (x[1..] + y);
        PathPartsCons(x[0], x[1..] + y);
      }
      assert PathParts(x) == h + PathParts(x[1..]) by {
        assert x == [x[0]] + x[1..];
        PathPartsCons(x[0], x[1..]);
      }
      PathPartsAppend(x[1..], y);
      ConcatAssoc(h, PathParts(x[1..]), PathParts(y));
    } else {
      assert x + y == y;
    }
  }

  /** A dropped piece between two runs leaves the components unchanged. */
  lemma PathPartsSkip(x: seq<string>, piece: string, y: seq<string>)
    requires !Kept(piece)
    ensures PathParts(x + ([piece] + y)) == PathParts(x + y)
  {
    PathPartsAppend(x, [piece] + y);
    PathPartsCons(piece, y);
    PathPartsAppend(x, y);
  }

  /** The pieces of a + "/" + piece + "/" + b. */
  lemma SplitAround(a: string, piece: string, b: string)
    requires '/' !in piece
    ensures SplitOn(a + ['/'] + (piece + ['/'] + b), '/') == SplitOn(a, '/') + ([piece] + SplitOn(b, '/'))
  {
    SplitAppend(a, piece + ['/'] + b);
    SplitFirst(piece, b, '/');
  }

  /** Paths that agree on their first three characters have one root. */
  lemma RootOfPrefix(p: string, q: string)
    requires |p| >= 3 && |q| >= 3 && p[0] == q[0] && p[1] == q[1] && p[2] == q[2]
    ensures PathRoot(p) == PathRoot(q)
  {
  }

  /** A dropped piece between two slashes after the root leaves the Path
      unchanged. */
  lemma {:induction false} PurePathSkipsPiece(a: string, piece: string, b: string)
    requires |a| >= 2 && !Kept(piece) && '/' !in piece
    ensures PurePath(a + ['/'] + (piece + ['/'] + b)) == PurePath(a + ['/'] + b)
  {
    var long, short := a + ['/'] + (piece + ['/'] + b), a + ['/'] + b;
    assert PathParts(SplitOn(long, '/')) == PathParts(SplitOn(short, '/')) by {
      SplitAround(a, piece, b);
      SplitAppend(a, b);
      PathPartsSkip(SplitOn(a, '/'), piece, SplitOn(b, '/'));
    }
    assert PathRoot(long) == PathRoot(short) by {
      assert long[0] == short[0] == a[0] && long[1] == short[1] == a[1];
      assert long[2] == short[2];
      RootOfPrefix(long, short);
    }
    PurePathSame(long, short);
  }

  /** Path collapses a doubled slash: a + "//" + b names a + "/" + b once a
      holds at least two characters (so that the root is not touched). */
  lemma {:induction false} PurePathCollapsesSlash(a: string, b: string)
    requires |a| >= 2
    ensures PurePath(a + "//" + b) == PurePath(a + "/" + b)
  {
    assert a + "//" + b == a + ['/'] + ("" + ['/'] + b);
    assert a + "/" + b == a + ['/'] + b;
    PurePathSkipsPiece(a, "", b);
  }

  /** Path drops a "." component: a + "/./" + b names a + "/" + b. */
  lemma {:induction false} PurePathDropsDot(a: string, b: string)
    requires |a| >= 2
    ensures PurePath(a + "/./" + b) == PurePath(a + "/" + b)
  {
    assert a + "/./" + b == a + ['/'] + ("." + ['/'] + b);
    assert a + "/" + b == a + ['/'] + b;
    PurePathSkipsPiece(a, ".", b);
  }

  /** Path drops a trailing slash, unless the path is the root "//". */
  lemma {:induction false} PurePathDropsTrailingSlash(a: string)
    requires |a| >= 2 && a != "//"
    ensures PurePath(a + "/") == PurePath(a)
  {
    var slashed := a + "/";
    assert PathParts(SplitOn(slashed, '/')) == PathParts(SplitOn(a, '/')) by {
      assert slashed == a + ['/'] + "";
      SplitAppend(a, "");
      SplitNoSep("", '/');
      PathPartsAppend(SplitOn(a, '/'), [""]);
      PathPartsCons("", []);
      assert SplitOn(a, '/') + [] == SplitOn(a, '/');
    }
    assert PathRoot(slashed) == PathRoot(a) by {
      assert slashed[0] == a[0] && slashed[1] == a[1];
      if |a| >= 3 {
        assert slashed[2] == a[2];
        RootOfPrefix(slashed, a);
      } else {
        assert a == [a[0], a[1]];
      }
    }
    PurePathSame(slashed, a);
  }
}

=== FILE: PyStrings.dfy ===
/** The few Python string operations the modelled code relies on, over
    strings as sequences of characters. Case mapping covers ASCII only. */
module PyStrings {
  import opened Wrappers

  /** needle occurs in hay starting at index i. */
  predicate OccursAt(hay: string, needle: string, i: int)
  {
    0 <= i && i + |needle| <= |hay| && hay[i..i + |needle|] == needle
  }

  /** Python's `needle in hay`. */
  predicate Contains(hay: string, needle: string)
  {
    exists i :: 0 <= i <= |hay| - |needle| && OccursAt(hay, needle, i)
  }

  /** A string always contains its own prefixes: the witness at index 0. */
  lemma {:induction false} ContainsPrefix(hay: string, needle: string)
    requires |needle| <= |hay| && hay[..|needle|] == needle
    ensures Contains(hay, needle)
  {
    assert OccursAt(hay, needle, 0);
  }

  predicate IsUpper(c: char)
  {
    'A' <= c <= 'Z'
  }

  /** str.lower() on one character. */
  function LowerChar(c: char): (r: char)
    ensures !IsUpper(r)
    ensures !IsUpper(c) ==> r == c
  {
    if IsUpper(c) then (c as int + 32) as char else c
  }

  /** str.lower(). */
  function Lower(s: string): (r: string)
    ensures |r| == |s|
    ensures forall i :: 0 <= i < |s| ==> r[i] == LowerChar(s[i])
  {
    if s == [] then [] else [LowerChar(s[0])] + Lower(s[1..])
  }

  /** Lowering twice is lowering once. */
  lemma {:induction false} LowerIdempotent(s: string)
    ensures Lower(Lower(s)) == Lower(s)
  {
    if s != [] {
      LowerIdempotent(s[1..]);
      assert Lower(s)[1..] == Lower(s[1..]);
    }
  }

  predicate IsDigit(c: char)
  {
    '0' <= c <= '9'
  }

  // ---------------------------------------------------------------------
  // find

  /** The first occurrence of needle at or after from, or -1. */
  function FindFrom(hay: string, needle: string, from: nat): (r: int)
    ensures r == -1 || from <= r
    ensures r == -1 ==> forall i :: from <= i ==> !OccursAt(hay, needle, i)
    ensures r >= 0 ==> from <= r && OccursAt(hay, needle, r) && forall i :: from <= i < r ==> !OccursAt(hay, needle, i)
    decreases |hay| - from
  {
    if from + |needle| > |hay| then -1
    else if hay[from..from + |needle|] == needle then from
    else FindFrom(hay, needle, from + 1)
  }

  /** str.find(needle): the first index where needle occurs, or -1. */
  function Find(hay: string, needle: string): (r: int)
    ensures r == -1 <==> !Contains(hay, needle)
    ensures r >= 0 ==> OccursAt(hay, needle, r) && forall i :: 0 <= i < r ==> !OccursAt(hay, needle, i)
  {
    FindFrom(hay, needle, 0)
  }

  // ---------------------------------------------------------------------
  // split

  /** str.isspace() on one character: the characters Python's str.split()
      with no separator splits on. */
  predicate IsSpace(c: char)
  {
    var n := c as int;
    n == 32 || 9 <= n <= 13 || 28 <= n <= 31 || n == 0x85 || n == 0xA0 || n == 0x1680 ||
    0x2000 <= n <= 0x200A || n == 0x2028 || n == 0x2029 || n == 0x202F || n == 0x205F || n == 0x3000
  }

  /** The string holds nothing but whitespace: line.strip() is empty. */
  predicate Blank(s: string)
  {
    forall i :: 0 <= i < |s| ==> IsSpace(s[i])
  }

  /** The length of the leading run of whitespace. */
  function SpaceRun(s: string): (n: nat)
    ensures n <= |s| && Blank(s[..n]) && (n == |s| || !IsSpace(s[n]))
  {
    if s == [] || !IsSpace(s[0]) then 0 else 1 + SpaceRun(s[1..])
  }

  /** The length of the leading run of non-whitespace. */
  function WordRun(s: string): (n: nat)
    ensures n <= |s| && (forall i :: 0 <= i < n ==> !IsSpace(s[i])) && (n == |s| || IsSpace(s[n]))
  {
    if s == [] || IsSpace(s[0]) then 0 else 1 + WordRun(s[1..])
  }

  /** str.split() with no separator: the maximal runs of non-whitespace,
      in order. */
  function Split(s: string): (r: seq<string>)
    ensures forall k :: 0 <= k < |r| ==> r[k] != [] && forall i :: 0 <= i < |r[k]| ==> !IsSpace(r[k][i])
    decreases |s|
  {
    var t := s[SpaceRun(s)..];
    if t == [] then []
    else
      var n := WordRun(t);
      [t[..n]] + Split(t[n..])
  }

  /** The characters of s that are not whitespace, in order. */
  function NonSpace(s: string): string
  {
    if s == [] then [] else (if IsSpace(s[0]) then [] else [s[0]]) + NonSpace(s[1..])
  }

  function Concat(words: seq<string>): string
  {
    if words == [] then [] else words[0] + Concat(words[1..])
  }

  lemma {:induction false} NonSpaceAppend(a: string, b: string)
    ensures NonSpace(a + b) == NonSpace(a) + NonSpace(b)
  {
    if a != [] {
      NonSpaceAppend(a[1..], b);
      assert (a + b)[0] == a[0];
      assert (a + b)[1..] == a[1..] + b;
    } else {
      assert a + b == b;
    }
  }

  lemma {:induction false} NonSpaceOfBlank(s: string)
    requires Blank(s)
    ensures NonSpace(s) == []
  {
    if s != [] {
      NonSpaceOfBlank(s[1..]);
    }
  }

  lemma {:induction false} NonSpaceOfWord(s: string)
    requires forall i :: 0 <= i < |s| ==> !IsSpace(s[i])
    ensures NonSpace(s) == s
  {
    if s != [] {
      NonSpaceOfWord(s[1..]);
    }
  }

  lemma {:induction false} ConcatCons(w: string, rest: seq<string>)
    ensures Concat([w] + rest) == w + Concat(rest)
  {
    assert ([w] + rest)[0] == w && ([w] + rest)[1..] == rest;
  }

  /** One step of Split: blank prefix, first word, rest. */
  lemma {:induction false} SplitStep(s: string, m: nat, n: nat)
    requires m == SpaceRun(s) && m < |s| && n == WordRun(s[m..])
    ensures Split(s) == [s[m..][..n]] + Split(s[m..][n..])
  {
  }

  /** A blank prefix contributes no text. */
  lemma {:induction false} SkipBlank(s: string, m: nat)
    requires m <= |s| && Blank(s[..m])
    ensures NonSpace(s) == NonSpace(s[m..])
  {
    assert s == s[..m] + s[m..];
    NonSpaceAppend(s[..m], s[m..]);
    NonSpaceOfBlank(s[..m]);
  }

  /** A leading word contributes all of itself. */
  lemma {:induction false} TakeWord(t: string, n: nat)
    requires n <= |t| && forall i :: 0 <= i < n ==> !IsSpace(t[i])
    ensures NonSpace(t) == t[..n] + NonSpace(t[n..])
  {
    assert t == t[..n] + t[n..];
    NonSpaceAppend(t[..n], t[n..]);
    NonSpaceOfWord(t[..n]);
  }

  /** Splitting loses exactly the whitespace: the words, joined back
      without separators, are the non-whitespace characters of s. */
  lemma {:induction false} SplitKeepsText(s: string)
    ensures Concat(Split(s)) == NonSpace(s)
    decreases |s|
  {
    var m := SpaceRun(s);
    SkipBlank(s, m);
    if m < |s| {
      var t := s[m..];
      var n := WordRun(t);
      TakeWord(t, n);
      SplitKeepsText(t[n..]);
      SplitStep(s, m, n);
      ConcatCons(t[..n], Split(t[n..]));
    } else {
      assert s[m..] == [];
    }
  }

  /** A line splits into no words exactly when it is blank. */
  lemma {:induction false} SplitEmptyIffBlank(s: string)
    ensures Split(s) == [] <==> Blank(s)
  {
    var m := SpaceRun(s);
    if m == |s| {
      assert s[..m] == s;
    }
  }

  /** str.strip() with no argument: whitespace removed from both ends. */
  function Strip(s: string): (r: string)
    ensures |r| <= |s|
    ensures r == [] || (!IsSpace(r[0]) && !IsSpace(r[|r| - 1]))
    decreases |s|
  {
    if s != [] && IsSpace(s[0]) then Strip(s[1..])
    else if s != [] && IsSpace(s[|s| - 1]) then Strip(s[..|s| - 1])
    else s
  }

  /** Stripping leaves nothing exactly when the string is all whitespace. */
  lemma {:induction false} StripEmptyIffBlank(s: string)
    ensures Strip(s) == [] <==> Blank(s)
    decreases |s|
  {
    if s != [] && IsSpace(s[0]) {
      StripEmptyIffBlank(s[1..]);
      assert Blank(s) <==> Blank(s[1..]) by {
        if Blank(s[1..]) {
          forall i | 0 <= i < |s| ensures IsSpace(s[i]) {
            if i > 0 { assert s[i] == s[1..][i - 1]; }
          }
        }
      }
    } else if s != [] && IsSpace(s[|s| - 1]) {
      StripEmptyIffBlank(s[..|s| - 1]);
      assert Blank(s) <==> Blank(s[..|s| - 1]) by {
        if Blank(s[..|s| - 1]) {
          forall i | 0 <= i < |s| ensures IsSpace(s[i]) {
            if i < |s| - 1 { assert s[i] == s[..|s| - 1][i]; }
          }
        }
      }
    } else if s != [] {
      assert !IsSpace(s[0]);
    }
  }

  // ---------------------------------------------------------------------
  // int() and str() on integers

  predicate AllDigits(s: string)
  {
    forall i :: 0 <= i < |s| ==> IsDigit(s[i])
  }

  function DigitsValue(s: string): nat
    requires AllDigits(s)
  {
    if s == [] then 0 else 10 * DigitsValue(s[..|s| - 1]) + (s[|s| - 1] as int - '0' as int)
  }

  /** An integer literal as int() accepts it once split into a word: an
      optional sign and at least one decimal digit. */
  predicate IsIntLiteral(s: string)
  {
    if |s| > 0 && (s[0] == '+' || s[0] == '-') then |s| > 1 && AllDigits(s[1..])
    else |s| > 0 && AllDigits(s)
  }

  /** An optional sign and decimal digits, read as an integer; None for
      anything else. */
  function ParseLiteral(s: string): (r: Option<int>)
    ensures r.Some? <==> IsIntLiteral(s)
    ensures r.Some? && s[0] == '-' ==> r.value <= 0
    ensures r.Some? && s[0] != '-' ==> r.value >= 0
  {
    if |s| > 1 && s[0] == '-' && AllDigits(s[1..]) then Some(0 - DigitsValue(s[1..]))
    else if |s| > 1 && s[0] == '+' && AllDigits(s[1..]) then Some(DigitsValue(s[1..]))
    else if |s| > 0 && AllDigits(s) then Some(DigitsValue(s))
    else None
  }

  /** int(s), None where Python raises ValueError: whitespace around the
      literal is ignored. */
  function ParseInt(s: string): (r: Option<int>)
    ensures r.Some? <==> IsIntLiteral(Strip(s))
    ensures r.Some? ==> Strip(s)[0] == '-' ==> r.value <= 0
    ensures r.Some? ==> Strip(s)[0] != '-' ==> r.value >= 0
  {
    ParseLiteral(Strip(s))
  }

  /** int() reads " 3" and "3 " as 3: surrounding whitespace does not count. */
  lemma ParseIntSurroundingSpace()
    ensures ParseInt(" 3") == Some(3) && ParseInt("3 ") == Some(3)
  {
    assert Strip(" 3") == Strip("3") == "3";
    assert Strip("3 ") == Strip("3") == "3";
    assert DigitsValue("3") == 10 * DigitsValue("") + 3;
  }

  /** str(n) for n >= 0. */
  function NatToStr(n: nat): (r: string)
    ensures r != [] && AllDigits(r)
  {
    if n < 10 then [('0' as int + n) as char]
    else NatToStr(n / 10) + [('0' as int + n % 10) as char]
  }

  /** str(n). */
  function IntToStr(n: int): (r: string)
  {
    if n < 0 then "-" + NatToStr(-n) else NatToStr(n)
  }

  lemma {:induction false} NatToStrValue(n: nat)
    ensures DigitsValue(NatToStr(n)) == n
  {
    if n >= 10 {
      NatToStrValue(n / 10);
      var s := NatToStr(n);
      assert s[..|s| - 1] == NatToStr(n / 10);
    }
  }

  /** int(str(n)) == n. */
  lemma {:induction false} ParseIntOfIntToStr(n: int)
    ensures ParseInt(IntToStr(n)) == Some(n)
  {
    var s := IntToStr(n);
    assert Strip(s) == s by {
      assert !IsSpace(s[0]) && IsDigit(s[|s| - 1]);
    }
    if n < 0 {
      NatToStrValue(-n);
      assert s[0] == '-' && s[1..] == NatToStr(-n);
    } else {
      NatToStrValue(n);
      assert IsDigit(s[0]);
    }
  }

  // ---------------------------------------------------------------------
  // str comparison

  /** a < b on str: code point by code point, a proper prefix first. */
  function StrLess(a: string, b: string): bool
  {
    if b == [] then false
    else if a == [] then true
    else if a[0] != b[0] then a[0] < b[0]
    else StrLess(a[1..], b[1..])
  }

  lemma {:induction false} StrLessIrreflexive(a: string)
    ensures !StrLess(a, a)
  {
    if a != [] {
      StrLessIrreflexive(a[1..]);
    }
  }

  lemma {:induction false} StrLessTransitive(a: string, b: string, c: string)
    requires StrLess(a, b) && StrLess(b, c)
    ensures StrLess(a, c)
  {
    if a != [] && a[0] == b[0] && b[0] == c[0] {
      StrLessTransitive(a[1..], b[1..], c[1..]);
    }
  }

  lemma {:induction false} StrLessTotal(a: string, b: string)
    requires a != b
    ensures StrLess(a, b) || StrLess(b, a)
  {
    if a != [] && b != [] && a[0] == b[0] {
      assert a == [a[0]] + a[1..] && b == [b[0]] + b[1..];
      StrLessTotal(a[1..], b[1..]);
    }
  }
}

=== FILE: PyText.dfy ===
/** The line-oriented Python string operations the editing tool uses:
    str.split on one separator character, str.join, str.count,
    str.replace and str.expandtabs. */
module PyText {
  import opened PyStrings

  // ---------------------------------------------------------------------
  // split(sep) and join

  /** The index of the first c in s, or -1: s.find(c). */
  function IndexOf(s: string, c: char): (i: int)
    ensures i == -1 <==> c !in s
    ensures i >= 0 ==> i < |s| && s[i] == c && c !in s[..i]
  {
    if s == [] then -1
    else if s[0] == c then 0
    else
      var j := IndexOf(s[1..], c);
      assert j >= 0 ==> s[..j + 1] == [s[0]] + s[1..][..j];
      if j < 0 then -1 else j + 1
  }

  /** s.split(sep) for a one-character separator: the pieces between the
      separators, in order. */
  function SplitOn(s: string, sep: char): (r: seq<string>)
    ensures |r| >= 1
    ensures forall k :: 0 <= k < |r| ==> sep !in r[k]
    decreases |s|
  {
    var i := IndexOf(s, sep);
    if i < 0 then [s] else [s[..i]] + SplitOn(s[i + 1..], sep)
  }

  /** sep.join(parts) for a one-character separator. */
  function Join(sep: char, parts: seq<string>): string
  {
    if parts == [] then []
    else if |parts| == 1 then parts[0]
    else parts[0] + [sep] + Join(sep, parts[1..])
  }

  /** The number of times c occurs in s: s.count(c). */
  function CountChar(s: string, c: char): nat
  {
    multiset(s)[c]
  }

  /** A string with k separators splits into k + 1 pieces. */
  lemma {:induction false} SplitCount(s: string, sep: char)
    ensures |SplitOn(s, sep)| == CountChar(s, sep) + 1
    decreases |s|
  {
    var i := IndexOf(s, sep);
    if i >= 0 {
      SplitCount(s[i + 1..], sep);
      assert s == s[..i] + [sep] + s[i + 1..];
      assert multiset(s[..i])[sep] == 0;
    } else {
      assert multiset(s)[sep] == 0;
    }
  }

  /** Joining the pieces back with the separator gives s again. */
  lemma {:induction false} JoinSplit(s: string, sep: char)
    ensures Join(sep, SplitOn(s, sep)) == s
    decreases |s|
  {
    var i := IndexOf(s, sep);
    if i >= 0 {
      var rest := SplitOn(s[i + 1..], sep);
      JoinSplit(s[i + 1..], sep);
      var r := [s[..i]] + rest;
      assert r[0] == s[..i] && r[1..] == rest;
      assert s == s[..i] + [sep] + s[i + 1..];
    }
  }

  /** A piece with no separator in it splits into itself. */
  lemma {:induction false} SplitNoSep(w: string, sep: char)
    requires sep !in w
    ensures SplitOn(w, sep) == [w]
  {
  }

  /** A separator-free first piece is split off first. */
  lemma {:induction false} SplitFirst(w: string, t: string, sep: char)
    requires sep !in w
    ensures SplitOn(w + [sep] + t, sep) == [w] + SplitOn(t, sep)
  {
    var s := w + [sep] + t;
    var i := IndexOf(s, sep);
    assert s[|w|] == sep;
    assert s[..|w|] == w && s[|w| + 1..] == t;
  }

  /** Splitting a join of separator-free pieces gives the pieces back. */
  lemma {:induction false} SplitJoin(parts: seq<string>, sep: char)
    requires |parts| >= 1 && forall k :: 0 <= k < |parts| ==> sep !in parts[k]
    ensures SplitOn(Join(sep, parts), sep) == parts
  {
    if |parts| == 1 {
      SplitNoSep(parts[0], sep);
    } else {
      SplitJoin(parts[1..], sep);
      SplitFirst(parts[0], Join(sep, parts[1..]), sep);
      assert [parts[0]] + parts[1..] == parts;
    }
  }

  /** Joining a concatenation of non-empty lists joins the two joins. */
  lemma {:induction false} JoinAppend(sep: char, xs: seq<string>, ys: seq<string>)
    requires xs != [] && ys != []
    ensures Join(sep, xs + ys) == Join(sep, xs) + [sep] + Join(sep, ys)
  {
    if |xs| == 1 {
      assert (xs + ys)[0] == xs[0] && (xs + ys)[1..] == ys;
    } else {
      JoinAppend(sep, xs[1..], ys);
      assert (xs + ys)[0] == xs[0] && (xs + ys)[1..] == xs[1..] + ys;
    }
  }

  /** Joining a line, the pieces and an empty piece puts the line, a
      separator, the pieces' join and a final separator together. */
  lemma {:induction false} JoinFramed(head: string, mid: seq<string>, sep: char)
    requires mid != []
    ensures Join(sep, [head] + mid + [[]]) == head + [sep] + Join(sep, mid) + [sep]
  {
    var tail := mid + [[]];
    JoinAppend(sep, mid, [[]]);
    JoinAppend(sep, [head], tail);
    assert [head] + tail == [head] + mid + [[]];
  }

  /** A separator-free line, the pieces joined, and a final separator
      split back into the line, the pieces and one empty piece. */
  lemma {:induction false} SplitFramed(head: string, mid: seq<string>, sep: char)
    requires mid != [] && sep !in head
    requires forall k :: 0 <= k < |mid| ==> sep !in mid[k]
    ensures SplitOn(head + [sep] + Join(sep, mid) + [sep], sep) == [head] + mid + [[]]
  {
    var parts := [head] + mid + [[]];
    forall k | 0 <= k < |parts|
      ensures sep !in parts[k]
    {
      if 0 < k <= |mid| {
        assert parts[k] == mid[k - 1];
      }
    }
    JoinFramed(head, mid, sep);
    SplitJoin(parts, sep);
  }

  // ---------------------------------------------------------------------
  // slicing

  /** s[:k] for any integer k: a negative k counts from the end, and
      either bound is clamped to the string. */
  function SliceTo(s: string, k: int): (r: string)
    ensures |r| == if k >= 0 then (if k <= |s| then k else |s|) else (if |s| + k >= 0 then |s| + k else 0)
    ensures r == s[..|r|]
  {
    if k >= 0 then (if k <= |s| then s[..k] else s)
    else if |s| + k >= 0 then s[..|s| + k] else []
  }

  // ---------------------------------------------------------------------
  // count and replace

  /** needle occurs in hay at or after from. */
  predicate ContainsFrom(hay: string, needle: string, from: nat)
  {
    exists i :: from <= i <= |hay| && OccursAt(hay, needle, i)
  }

  /** hay.count(needle, from): the non-overlapping occurrences, found left
      to right. */
  function CountFrom(hay: string, needle: string, from: nat): (r: nat)
    requires needle != []
    ensures r == 0 <==> FindFrom(hay, needle, from) == -1
    decreases |hay| - from
  {
    var i := FindFrom(hay, needle, from);
    if i == -1 then 0 else 1 + CountFrom(hay, needle, i + |needle|)
  }

  function Count(hay: string, needle: string): nat
    requires needle != []
  {
    CountFrom(hay, needle, 0)
  }

  /** hay[from:].replace(pat, rep): every non-overlapping occurrence,
      left to right, replaced. */
  function ReplaceFrom(hay: string, pat: string, rep: string, from: nat): string
    requires pat != [] && from <= |hay|
    decreases |hay| - from
  {
    var i := FindFrom(hay, pat, from);
    if i == -1 then hay[from..] else hay[from..i] + rep + ReplaceFrom(hay, pat, rep, i + |pat|)
  }

  function Replace(hay: string, pat: string, rep: string): string
    requires pat != []
  {
    ReplaceFrom(hay, pat, rep, 0)
  }

  /** With exactly one occurrence, replace is one splice at that
      occurrence, which is the first. */
  lemma {:induction false} ReplaceUnique(hay: string, pat: string, rep: string)
    requires pat != [] && Count(hay, pat) == 1
    ensures Find(hay, pat) >= 0
    ensures var i := Find(hay, pat);
      Replace(hay, pat, rep) == hay[..i] + rep + hay[i + |pat|..]
  {
    var i := Find(hay, pat);
    var j := i + |pat|;
    assert FindFrom(hay, pat, j) == -1;
    assert ReplaceFrom(hay, pat, rep, j) == hay[j..];
    assert Replace(hay, pat, rep) == hay[0..i] + rep + ReplaceFrom(hay, pat, rep, j);
  }

  // ---------------------------------------------------------------------
  // expandtabs

  /** n spaces. */
  function Spaces(n: nat): (r: string)
    ensures |r| == n && forall i :: 0 <= i < n ==> r[i] == ' '
  {
    if n == 0 then [] else [' '] + Spaces(n - 1)
  }

  /** s.expandtabs() continued at column col: a tab becomes the spaces up
      to the next multiple of 8, a newline or carriage return puts the
      column back to 0, any other character advances it by one. */
  function ExpandFrom(s: string, col: nat): (r: string)
    ensures '\t' !in r
    ensures s != [] ==> r != []
  {
    if s == [] then []
    else if s[0] == '\t' then Spaces(8 - col % 8) + ExpandFrom(s[1..], col + (8 - col % 8))
    else if s[0] == '\n' || s[0] == '\r' then [s[0]] + ExpandFrom(s[1..], 0)
    else [s[0]] + ExpandFrom(s[1..], col + 1)
  }

  /** s.expandtabs() with the default tab size 8. */
  function ExpandTabs(s: string): (r: string)
    ensures '\t' !in r
    ensures s != [] ==> r != []
  {
    ExpandFrom(s, 0)
  }

  /** Text without tabs is left alone, from any column. */
  lemma {:induction false} ExpandNoTabs(s: string, col: nat)
    requires '\t' !in s
    ensures ExpandFrom(s, col) == s
  {
    if s != [] {
      if s[0] == '\n' || s[0] == '\r' {
        ExpandNoTabs(s[1..], 0);
      } else {
        ExpandNoTabs(s[1..], col + 1);
      }
      assert s == [s[0]] + s[1..];
    }
  }

  /** Expanding twice is expanding once. */
  lemma {:induction false} ExpandTabsIdempotent(s: string)
    ensures ExpandTabs(ExpandTabs(s)) == ExpandTabs(s)
  {
    ExpandNoTabs(ExpandTabs(s), 0);
  }

  // ---------------------------------------------------------------------
  // replace(c, ""), lstrip(c) and rstrip(c)

  /** s.replace(c, ""): s without any c, the other characters in order. */
  function RemoveChar(s: string, c: char): (r: string)
    ensures c !in r
    ensures c !in s ==> r == s
  {
    if s == [] then []
    else (if s[0] == c then [] else [s[0]]) + RemoveChar(s[1..], c)
  }

  /** Exactly the occurrences of c go. */
  lemma {:induction false} RemoveCharLength(s: string, c: char)
    ensures |RemoveChar(s, c)| == |s| - CountChar(s, c)
  {
    if s != [] {
      RemoveCharLength(s[1..], c);
      assert s == [s[0]] + s[1..];
    }
  }

  /** Nothing but characters of s remains. */
  lemma {:induction false} RemoveCharSubset(s: string, c: char)
    ensures forall x :: x in RemoveChar(s, c) ==> x in s
  {
    if s != [] {
      RemoveCharSubset(s[1..], c);
    }
  }

  lemma {:induction false} RemoveCharAppend(a: string, b: string, c: char)
    ensures RemoveChar(a + b, c) == RemoveChar(a, c) + RemoveChar(b, c)
    decreases |a|
  {
    if a == [] {
      assert a + b == b;
    } else {
      var h := if a[0] == c then [] else [a[0]];
      assert (a + b)[0] == a[0] && (a + b)[1..] == a[1..] + b;
      RemoveCharAppend(a[1..], b, c);
      calc {
        RemoveChar(a + b, c);
        h + RemoveChar(a[1..] + b, c);
        h + (RemoveChar(a[1..], c) + RemoveChar(b, c));
        (h + RemoveChar(a[1..], c)) + RemoveChar(b, c);
      }
    }
  }

  /** s.lstrip(c): s without its leading run of c. */
  function StripStart(s: string, c: char): (r: string)
    ensures r == [] || r[0] != c
    ensures |r| <= |s| && r == s[|s| - |r|..]
  {
    if s != [] && s[0] == c then StripStart(s[1..], c) else s
  }

  /** s.rstrip(c): s without its trailing run of c. */
  function StripEnd(s: string, c: char): (r: string)
    ensures r == [] || r[|r| - 1] != c
    ensures |r| <= |s| && r == s[..|r|]
  {
    if s != [] && s[|s| - 1] == c then StripEnd(s[..|s| - 1], c) else s
  }

  /** What rstrip removes is a run of c. */
  lemma {:induction false} StripEndRemovesRun(s: string, c: char)
    ensures forall i :: |StripEnd(s, c)| <= i < |s| ==> s[i] == c
    decreases |s|
  {
    if s != [] && s[|s| - 1] == c {
      StripEndRemovesRun(s[..|s| - 1], c);
    }
  }
}

=== FILE: SafeTools.dfy ===
/** Two of the tools local_interpreter/tools/safe_tools.py hands to
    sandboxed code: set_gpio_pin, which checks its arguments before
    pretending to drive a pin, and the containment check of
    list_safe_directory, which resolves a sub-path against the safe
    working directory and refuses what falls outside it.

    Python values passed to set_gpio_pin are modelled as ints, bools,
    strings and None. A path is modelled by the components of its
    absolute, normalised form; the directory listing itself (and the
    creation of the directory) is not modelled: the result is the resolved
    path that would be listed. */
module SafeTools {
  import opened Wrappers
  import opened PyStrings
  import opened PyText

  // ---------------------------------------------------------------------
  // set_gpio_pin

  datatype PyValue = IntValue(i: int) | BoolValue(b: bool) | StrValue(s: string) | NoneValue

  /** isinstance(v, int): bool is a subclass of int. */
  predicate IsInt(v: PyValue)
  {
    v.IntValue? || v.BoolValue?
  }

  /** The integer value of an int or a bool. */
  function AsInt(v: PyValue): int
    requires IsInt(v)
  {
    if v.IntValue? then v.i else if v.b then 1 else 0
  }

  /** `v in [True, False]`: membership tests equality, and True == 1,
      False == 0. */
  predicate IsTruthValue(v: PyValue)
  {
    IsInt(v) && (AsInt(v) == 0 || AsInt(v) == 1)
  }

  /** str(v). */
  function Str(v: PyValue): string
  {
    match v
    case IntValue(i) => IntToStr(i)
    case BoolValue(b) => if b then "True" else "False"
    case StrValue(s) => s
    case NoneValue => "None"
  }

  const InvalidPin := "Error: Invalid pin number."
  const InvalidState := "Error: Invalid state, must be True or False."

  /** A pin set_gpio_pin accepts: an int (or bool) from 0 to 40. */
  predicate ValidPin(pin: PyValue)
  {
    IsInt(pin) && 0 <= AsInt(pin) <= 40
  }

  /** set_gpio_pin(pin_number, state): the pin is checked first, then the
      state; what passes both is reported as set. */
  function SetGpioPin(pin: PyValue, state: PyValue): (r: string)
    ensures r == InvalidPin <==> !ValidPin(pin)
    ensures r == InvalidState <==> ValidPin(pin) && !IsTruthValue(state)
    ensures ValidPin(pin) && IsTruthValue(state) ==> r == "Pin " + Str(pin) + " set to " + Str(state)
  {
    if !ValidPin(pin) then InvalidPin
    else if !IsTruthValue(state) then InvalidState
    else
      var r := "Pin " + Str(pin) + " set to " + Str(state);
      assert r[0] == 'P';
      r
  }

  /** Setting pin 17 to True reports "Pin 17 set to True". */
  lemma {:induction false} SetPin17()
    ensures SetGpioPin(IntValue(17), BoolValue(true)) == "Pin " + "17" + " set to " + "True"
  {
    assert IntToStr(17) == "17" by {
      assert NatToStr(17) == NatToStr(1) + ['7'];
    }
  }

  /** Because the state test is by equality, 0 and 1 pass as states and
      are reported as numbers; any other int is refused. */
  lemma {:induction false} StatesByEquality(pin: int, state: int)
    requires 0 <= pin <= 40
    ensures state == 0 || state == 1 ==>
              SetGpioPin(IntValue(pin), IntValue(state)) == "Pin " + IntToStr(pin) + " set to " + IntToStr(state)
    ensures state != 0 && state != 1 ==> SetGpioPin(IntValue(pin), IntValue(state)) == InvalidState
  {
  }

  /** A bool passes as a pin number too, and is reported by name. */
  lemma {:induction false} BoolIsAPin(b: bool, state: PyValue)
    requires IsTruthValue(state)
    ensures SetGpioPin(BoolValue(b), state) == "Pin " + (if b then "True" else "False") + " set to " + Str(state)
  {
  }

  // ---------------------------------------------------------------------
  // Paths

  /** The components of an absolute normalised path: none is empty, "."
      or "..", and none holds a separator. */
  predicate Clean(comps: seq<string>)
  {
    forall k :: 0 <= k < |comps| ==> comps[k] != "" && comps[k] != "." && comps[k] != ".." && '/' !in comps[k]
  }

  /** os.path.normpath over the pieces of a path split at "/", starting
      from the components already resolved: empty pieces and "." are
      dropped, ".." goes up one level (and stays at the root). */
  function Resolve(stack: seq<string>, parts: seq<string>): (r: seq<string>)
    decreases |parts|
  {
    if parts == [] then stack
    else if parts[0] == "" || parts[0] == "." then Resolve(stack, parts[1..])
    else if parts[0] == ".." then Resolve(if stack == [] then [] else stack[..|stack| - 1], parts[1..])
    else Resolve(stack + [parts[0]], parts[1..])
  }

  /** Resolving keeps a path clean. */
  lemma {:induction false} ResolveClean(stack: seq<string>, parts: seq<string>)
    requires Clean(stack) && forall k :: 0 <= k < |parts| ==> '/' !in parts[k]
    ensures Clean(Resolve(stack, parts))
    decreases |parts|
  {
    if parts != [] {
      var next := if parts[0] == "" || parts[0] == "." then stack
                  else if parts[0] == ".." then (if stack == [] then [] else stack[..|stack| - 1])
                  else stack + [parts[0]];
      assert Resolve(stack, parts) == Resolve(next, parts[1..]);
      ResolveClean(next, parts[1..]);
    }
  }

  /** os.path.abspath(os.path.join(base, sub)) for a clean base: an
      absolute sub replaces the base. */
  function JoinResolved(base: seq<string>, sub: string): seq<string>
  {
    var parts := SplitOn(sub, '/');
    if sub != [] && sub[0] == '/' then Resolve([], parts) else Resolve(base, parts)
  }

  /** The text of a path of at least one component: "/" before each. */
  function Rendered(comps: seq<string>): (r: string)
    ensures comps != [] ==> |r| > 0 && r[0] == '/'
  {
    if comps == [] then "" else Rendered(comps[..|comps| - 1]) + "/" + comps[|comps| - 1]
  }

  /** The text of a path: "/" for the root. */
  function Render(comps: seq<string>): string
  {
    if comps == [] then "/" else Rendered(comps)
  }

  /** str.startswith. */
  predicate StartsWith(s: string, prefix: string)
  {
    |prefix| <= |s| && s[..|prefix|] == prefix
  }

  lemma {:induction false} RenderedAppend(a: seq<string>, b: seq<string>)
    ensures Rendered(a + b) == Rendered(a) + Rendered(b)
    decreases |b|
  {
    if b != [] {
      var b' := b[..|b| - 1];
      assert (a + b)[..|a + b| - 1] == a + b';
      RenderedAppend(a, b');
    } else {
      assert a + b == a;
    }
  }

  /** Clean components render longer the more there are. */
  lemma {:induction false} RenderedLength(comps: seq<string>)
    requires Clean(comps)
    ensures |Rendered(comps)| >= 2 * |comps|
    decreases |comps|
  {
    if comps != [] {
      RenderedLength(comps[..|comps| - 1]);
    }
  }

  /** The last "/" of a rendered path comes right before its last
      component. */
  lemma {:induction false} RenderedLastSlash(comps: seq<string>)
    requires Clean(comps) && comps != []
    ensures var m := |Rendered(comps[..|comps| - 1])|;
      Rendered(comps)[m] == '/' && forall j :: m < j < |Rendered(comps)| ==> Rendered(comps)[j] != '/'
  {
    var m := |Rendered(comps[..|comps| - 1])|;
    var x := comps[|comps| - 1];
    forall j | m < j < |Rendered(comps)|
      ensures Rendered(comps)[j] != '/'
    {
      assert Rendered(comps)[j] == x[j - m - 1];
    }
  }

  /** Different clean paths render differently. */
  lemma {:induction false} RenderedInjective(a: seq<string>, b: seq<string>)
    requires Clean(a) && Clean(b) && Rendered(a) == Rendered(b)
    ensures a == b
    decreases |a|
  {
    if a == [] || b == [] {
      RenderedLength(a);
      RenderedLength(b);
    } else {
      var a', b' := a[..|a| - 1], b[..|b| - 1];
      var ma, mb := |Rendered(a')|, |Rendered(b')|;
      RenderedLastSlash(a);
      RenderedLastSlash(b);
      assert ma == mb;
      assert Rendered(a') == Rendered(a)[..ma];
      assert Rendered(b') == Rendered(b)[..mb];
      RenderedInjective(a', b');
      assert a[|a| - 1] == Rendered(a)[ma + 1..] == Rendered(b)[mb + 1..] == b[|b| - 1];
      assert a == a' + [a[|a| - 1]] && b == b' + [b[|b| - 1]];
    }
  }

  /** A prefix of the components gives a prefix of the text. */
  lemma {:induction false} RenderedPrefix(a: seq<string>, r: seq<string>)
    requires |a| <= |r| && r[..|a|] == a
    ensures StartsWith(Rendered(r), Rendered(a))
    ensures |a| < |r| ==> StartsWith(Rendered(r), Rendered(a) + "/")
  {
    var b := r[|a|..];
    assert r == a + b;
    RenderedAppend(a, b);
    if |a| < |r| {
      assert Rendered(b)[0] == '/';
      assert Rendered(r)[..|Rendered(a)| + 1] == Rendered(a) + "/";
    }
  }

  /** When the text of r begins with the text of safe and a "/", safe is
      a proper prefix of r's components. */
  lemma {:induction false} SlashPrefixIsComponentPrefix(safe: seq<string>, r: seq<string>)
    requires Clean(safe) && Clean(r) && safe != []
    requires StartsWith(Rendered(r), Rendered(safe) + "/")
    ensures |safe| < |r| && r[..|safe|] == safe
    decreases |r|
  {
    var p := Rendered(safe) + "/";
    var l := |p|;
    if r == [] {
    } else {
      var r' := r[..|r| - 1];
      var m := |Rendered(r')|;
      RenderedLastSlash(r);
      assert Rendered(r) == Rendered(r') + "/" + r[|r| - 1];
      if m >= l {
        assert Rendered(r')[..l] == Rendered(r)[..l];
        SlashPrefixIsComponentPrefix(safe, r');
      } else {
        assert Rendered(r)[l - 1] == '/';
        assert m == l - 1;
        assert Rendered(r') == Rendered(r)[..m] == Rendered(safe);
        RenderedInjective(r', safe);
        assert r[..|safe|] == r';
      }
    }
  }

  // ---------------------------------------------------------------------
  // list_safe_directory

  datatype AccessError = PermissionError(message: string)

  const Denied := "Access denied: Path is outside the safe working directory."

  /** The containment test of list_safe_directory as written: a plain
      prefix test on the text of the paths. */
  function ListSafeDirectoryAsWritten(safe: seq<string>, sub: string): (r: Result<seq<string>, AccessError>)
    ensures r.Ok? <==> StartsWith(Render(JoinResolved(safe, sub)), Render(safe))
    ensures r.Ok? ==> r.value == JoinResolved(safe, sub)
    ensures r.Err? ==> r.error == PermissionError(Denied)
  {
    var path := JoinResolved(safe, sub);
    if StartsWith(Render(path), Render(safe)) then Ok(path) else Err(PermissionError(Denied))
  }

  /** A sub-path that resolves to a proper ancestor of the safe directory
      is refused. */
  lemma {:induction false} AncestorRefused(safe: seq<string>, sub: string)
    requires Clean(safe) && safe != []
    requires var r := JoinResolved(safe, sub); |r| < |safe| && safe[..|r|] == r
    ensures ListSafeDirectoryAsWritten(safe, sub).Err?
  {
    var r := JoinResolved(safe, sub);
    RenderedLength(safe);
    if r != [] {
      RenderedAppend(r, safe[|r|..]);
      assert safe == r + safe[|r|..];
      RenderedLength(safe[|r|..]);
    }
  }

  /** "../../.." splits into three "..". */
  lemma {:induction false} SplitUpThree(sub: string)
    requires sub == "../../.."
    ensures SplitOn(sub, '/') == ["..", "..", ".."]
  {
    var up := "..";
    assert '/' !in up;
    assert sub == up + ['/'] + (up + ['/'] + up);
    SplitFirst(up, up + ['/'] + up, '/');
    SplitFirst(up, up, '/');
    SplitNoSep(up, '/');
  }

  /** Each ".." piece climbs one level, and none climbs above the root. */
  lemma {:induction false} ResolveAllUp(stack: seq<string>, parts: seq<string>)
    requires forall k :: 0 <= k < |parts| ==> parts[k] == ".."
    ensures Resolve(stack, parts) == if |stack| >= |parts| then stack[..|stack| - |parts|] else []
    decreases |parts|
  {
    if parts != [] {
      var next := if stack == [] then [] else stack[..|stack| - 1];
      assert Resolve(stack, parts) == Resolve(next, parts[1..]);
      ResolveAllUp(next, parts[1..]);
      if |stack| >= |parts| {
        assert next[..|next| - (|parts| - 1)] == stack[..|stack| - |parts|];
      }
    }
  }

  /** "../../.." climbs three levels (or to the root). */
  lemma {:induction false} UpThree(safe: seq<string>, sub: string)
    requires sub == "../../.."
    ensures JoinResolved(safe, sub) == (if |safe| >= 3 then safe[..|safe| - 3] else [])
  {
    SplitUpThree(sub);
    JoinRelative(safe, sub);
    ResolveAllUp(safe, ["..", "..", ".."]);
  }

  /** A sub-path that does not start with "/" is resolved from the base. */
  lemma {:induction false} JoinRelative(base: seq<string>, sub: string)
    requires sub != [] && sub[0] != '/'
    ensures JoinResolved(base, sub) == Resolve(base, SplitOn(sub, '/'))
  {
  }

  /** Climbing out of the safe directory with "../../.." is refused. */
  lemma {:induction false} UpThreeRefused(safe: seq<string>, sub: string)
    requires Clean(safe) && safe != [] && sub == "../../.."
    ensures ListSafeDirectoryAsWritten(safe, sub).Err?
  {
    UpThree(safe, sub);
    AncestorRefused(safe, sub);
  }

  /** "../name" for a name without "/" replaces the last component. */
  lemma {:induction false} SiblingJoin(safe: seq<string>, suffix: string)
    requires Clean(safe) && safe != [] && suffix != [] && '/' !in suffix
    ensures var name := safe[|safe| - 1] + suffix;
      JoinResolved(safe, "../" + name) == safe[..|safe| - 1] + [name]
  {
    var parent, last := safe[..|safe| - 1], safe[|safe| - 1];
    var name := last + suffix;
    var sub := "../" + name;
    assert '/' !in name;
    assert IndexOf(sub, '/') == 2 && sub[..2] == ".." && sub[3..] == name;
    assert SplitOn(name, '/') == [name];
    assert SplitOn(sub, '/') == [".."] + SplitOn(name, '/');
    assert name != "" && name != "." && name != ".." by {
      assert |name| >= 2 || (|name| == 1 && |last| == 0);
      if |name| == 2 { assert name[0] == last[0] && |last| == 1; }
    }
    assert JoinResolved(safe, sub) == Resolve(parent, [name]) == parent + [name];
  }

  /** Lengthening the last component lengthens the text by as much. */
  lemma {:induction false} RenderedLonger(parent: seq<string>, last: string, suffix: string)
    ensures Rendered(parent + [last + suffix]) == Rendered(parent + [last]) + suffix
  {
    var r, t := parent + [last + suffix], parent + [last];
    assert r[..|r| - 1] == parent && t[..|t| - 1] == parent;
    var head := Rendered(parent) + "/";
    assert Rendered(r) == head + (last + suffix);
    assert Rendered(t) == head + last;
  }

  /** The sibling directory named like the safe one with something after
      it, reached with "../name", passes the prefix test. */
  lemma {:induction false} SiblingPassesAsWritten(safe: seq<string>, suffix: string)
    requires Clean(safe) && safe != [] && suffix != [] && '/' !in suffix
    ensures var name := safe[|safe| - 1] + suffix;
      var r := ListSafeDirectoryAsWritten(safe, "../" + name);
      r.Ok? && r.value == safe[..|safe| - 1] + [name]
  {
    var parent, last := safe[..|safe| - 1], safe[|safe| - 1];
    var name := last + suffix;
    var sub := "../" + name;
    var r := parent + [name];
    SiblingJoin(safe, suffix);
    RenderedLonger(parent, last, suffix);
    assert safe == parent + [last];
    var whole, prefix := Render(r), Render(safe);
    assert whole == prefix + suffix;
    assert StartsWith(whole, prefix) by {
      assert (prefix + suffix)[..|prefix|] == prefix;
    }
  }

  /** The containment test as meant: the path is the safe directory or
      lies below it, "/" included in the prefix. */
  function ListSafeDirectory(safe: seq<string>, sub: string): (r: Result<seq<string>, AccessError>)
    ensures r.Ok? ==> r.value == JoinResolved(safe, sub)
    ensures r.Err? ==> r.error == PermissionError(Denied)
  {
    var path := JoinResolved(safe, sub);
    if Render(path) == Render(safe) || StartsWith(Render(path), Render(safe) + "/") then Ok(path)
    else Err(PermissionError(Denied))
  }

  /** The corrected test lets through exactly the paths whose components
      begin with those of the safe directory. */
  lemma {:induction false} ContainmentExact(safe: seq<string>, sub: string)
    requires Clean(safe) && safe != []
    ensures var r := JoinResolved(safe, sub);
      ListSafeDirectory(safe, sub).Ok? <==> |safe| <= |r| && r[..|safe|] == safe
  {
    var r := JoinResolved(safe, sub);
    var parts := SplitOn(sub, '/');
    if sub != [] && sub[0] == '/' {
      ResolveClean([], parts);
    } else {
      ResolveClean(safe, parts);
    }
    RenderedLength(safe);
    if |safe| <= |r| && r[..|safe|] == safe {
      RenderedPrefix(safe, r);
      if |safe| == |r| {
        assert r == safe;
      }
    }
    if ListSafeDirectory(safe, sub).Ok? {
      if Render(r) == Render(safe) {
        if r != [] {
          RenderedInjective(r, safe);
        }
      } else {
        SlashPrefixIsComponentPrefix(safe, r);
      }
    }
  }

  /** The corrected test refuses the sibling the written one lets
      through. */
  lemma {:induction false} SiblingRefused(safe: seq<string>, suffix: string)
    requires Clean(safe) && safe != [] && suffix != [] && '/' !in suffix
    ensures ListSafeDirectory(safe, "../" + safe[|safe| - 1] + suffix).Err?
  {
    var name := safe[|safe| - 1] + suffix;
    assert "../" + safe[|safe| - 1] + suffix == "../" + name;
    SiblingPassesAsWritten(safe, suffix);
    ContainmentExact(safe, "../" + name);
  }
}

=== FILE: SciNotation.dfy ===
/** scito_decimal of package/math.py: a number written in scientific
    notation ("1.5e-3") rewritten as a plain decimal string ("0.0015") by
    moving the decimal point. The text is handled as characters; no
    number is ever computed from it. */
module SciNotation {
  import opened Wrappers
  import opened PyStrings
  import opened PyText

  /** int() of the exponent text raised ValueError. */
  datatype SciError = NotAnInteger(text: string)

  /** "0" * n; Python gives "" for n <= 0. */
  function Zeros(n: int): (r: string)
    ensures |r| == if n > 0 then n else 0
    ensures forall i :: 0 <= i < |r| ==> r[i] == '0'
    decreases if n > 0 then n else 0
  {
    if n <= 0 then [] else Zeros(n - 1) + "0"
  }

  lemma {:induction false} NoDotInZeros(n: int)
    ensures '.' !in Zeros(n) && RemoveChar(Zeros(n), '.') == Zeros(n)
  {
    var z := Zeros(n);
    assert forall x :: x in z ==> x == '0';
  }

  /** Where the decimal point is: the index of the first ".", or the
      length when there is none. */
  function DotIndex(s: string): (r: nat)
    ensures r <= |s| && '.' !in s[..r]
    ensures r < |s| <==> '.' in s
    ensures r < |s| ==> s[r] == '.'
  {
    if '.' in s then IndexOf(s, '.') else
      assert s[..|s|] == s;
      |s|
  }

  /** split_exponent: the text before the first "e", and int() of the text
      after it when there is exactly one "e" (0 when there is none or more
      than one). */
  function SplitExponent(s: string): (r: Result<(string, int), SciError>)
    ensures 'e' !in s ==> r == Ok((s, 0))
    ensures CountChar(s, 'e') >= 2 ==> r == Ok((s[..IndexOf(s, 'e')], 0))
    ensures CountChar(s, 'e') == 1 ==>
              var i := IndexOf(s, 'e');
              r == if IsIntLiteral(Strip(s[i + 1..])) then Ok((s[..i], ParseInt(s[i + 1..]).value))
                   else Err(NotAnInteger(s[i + 1..]))
  {
    var parts := SplitOn(s, 'e');
    SplitAtE(s);
    if |parts| == 2 then
      match ParseInt(parts[1])
      case Some(n) => Ok((parts[0], n))
      case None => Err(NotAnInteger(parts[1]))
    else Ok((parts[0], 0))
  }

  /** int() ignores whitespace around the exponent: "1e 3" is 1 and 3. */
  lemma SplitExponentSpacedExponent()
    ensures SplitExponent("1e 3") == Ok(("1", 3))
  {
    var s := "1e 3";
    assert CountChar(s, 'e') == 1 && IndexOf(s, 'e') == 1;
    assert s[2..] == " 3" && s[..1] == "1";
    ParseIntSurroundingSpace();
  }

  /** How s.split("e") relates to the first "e" and the number of "e"s. */
  lemma {:induction false} SplitAtE(s: string)
    ensures 'e' !in s ==> SplitOn(s, 'e') == [s]
    ensures 'e' in s ==>
              var i := IndexOf(s, 'e');
              var parts := SplitOn(s, 'e');
              parts[0] == s[..i] &&
              (|parts| == 2 <==> CountChar(s, 'e') == 1) &&
              (|parts| == 2 ==> parts[1] == s[i + 1..])
  {
    if 'e' in s {
      var i := IndexOf(s, 'e');
      var t := s[i + 1..];
      var parts := SplitOn(s, 'e');
      assert parts == [s[..i]] + SplitOn(t, 'e');
      SplitCount(s, 'e');
      if |parts| == 2 {
        assert IndexOf(t, 'e') < 0;
      }
    } else {
      SplitNoSep(s, 'e');
    }
  }

  /** The decimal point of r sits e places right of where it sits in coef
      (left for a negative e), with coef's digits unchanged between p zeros
      in front and q zeros behind: r denotes coef times ten to the e. */
  predicate Placed(coef: string, r: string, e: int, p: nat, q: nat)
  {
    PlacedDigits(RemoveChar(coef, '.'), DotIndex(coef), r, e, p, q)
  }

  /** The same for the digits of the coefficient and the index of its
      point. */
  predicate PlacedDigits(digits: string, index: int, r: string, e: int, p: nat, q: nat)
  {
    CountChar(r, '.') <= 1 &&
    RemoveChar(r, '.') == Zeros(p) + digits + Zeros(q) &&
    DotIndex(r) == p + index + e
  }

  ghost predicate Shifted(coef: string, r: string, e: int)
  {
    exists p: nat, q: nat :: Placed(coef, r, e, p, q)
  }

  /** Where the point is in a string with one point. */
  lemma {:induction false} DotIndexOf(a: string, b: string)
    requires '.' !in a
    ensures DotIndex(a + "." + b) == |a|
  {
    var s := a + "." + b;
    assert s[|a|] == '.' && s[..|a|] == a;
  }

  /** Removing the one point of a string. */
  lemma {:induction false} RemoveOnePoint(a: string, b: string)
    requires '.' !in a && '.' !in b
    ensures RemoveChar(a + "." + b, '.') == a + b
  {
    var d: string := ".";
    var ad := a + d;
    assert RemoveChar(ad, '.') == a by {
      RemoveCharAppend(a, d, '.');
      assert RemoveChar(d, '.') == [];
    }
    RemoveCharAppend(ad, b, '.');
  }

  /** a + "." + b has one point when a and b have none. */
  lemma {:induction false} OnePoint(a: string, b: string)
    requires '.' !in a && '.' !in b
    ensures CountChar(a + "." + b, '.') == 1
  {
    assert multiset(a + "." + b) == multiset(a) + multiset(".") + multiset(b);
  }

  /** s[:k] + "." + s[k:] for s without a point. */
  function InsertPoint(s: string, k: nat): (r: string)
    requires '.' !in s && k <= |s|
    ensures |r| == |s| + 1
    ensures RemoveChar(r, '.') == s
    ensures CountChar(r, '.') == 1
    ensures DotIndex(r) == k
  {
    var x, y := s[..k], s[k..];
    assert s == x + y;
    RemoveOnePoint(x, y);
    DotIndexOf(x, y);
    OnePoint(x, y);
    x + "." + y
  }

  /** The positive-exponent branch: pad the digits to k and put the point
      at k if digits remain past it. */
  function PaddedPoint(digits: string, k: nat): (r: string)
    requires '.' !in digits
    ensures RemoveChar(r, '.') == digits + Zeros(k - |digits|)
    ensures CountChar(r, '.') == (if k < |digits| then 1 else 0)
    ensures DotIndex(r) == k
  {
    var padded := digits + Zeros(k - |digits|);
    NoDotInZeros(k - |digits|);
    assert '.' !in padded;
    if k < |padded| then InsertPoint(padded, k) else padded
  }

  /** multiplyby_10 as written. A positive exponent drops the point, pads
      with zeros and puts the point back if digits remain past it; a
      negative one writes "0.", zeros and then all the digits, whatever the
      point's index. */
  function MultiplyBy10AsWritten(number: string, exponent: int): (r: string)
    ensures exponent == 0 ==> r == number
    ensures exponent > 0 ==>
              var digits := RemoveChar(number, '.');
              var k := DotIndex(number) + exponent;
              RemoveChar(r, '.') == digits + Zeros(k - |digits|) &&
              CountChar(r, '.') == (if k < |digits| then 1 else 0) &&
              DotIndex(r) == k
    ensures exponent < 0 ==>
              var digits := RemoveChar(number, '.');
              var k := DotIndex(number) + exponent;
              |r| == 2 + (if k < 0 then -k else 0) + |digits| &&
              r[..2] == "0." && r[|r| - |digits|..] == digits &&
              (forall i :: 2 <= i < |r| - |digits| ==> r[i] == '0')
  {
    if exponent == 0 then number
    else MoveDotAsWritten(RemoveChar(number, '.'), DotIndex(number), exponent)
  }

  /** The digits with the point that stood at index moved by e, as
      written. */
  function MoveDotAsWritten(digits: string, index: nat, e: int): (r: string)
    requires '.' !in digits && e != 0
  {
    var k := index + e;
    if e > 0 then PaddedPoint(digits, k)
    else "0." + Zeros(-k) + digits
  }

  /** Before the first point, removing the points changes nothing. */
  lemma {:induction false} DigitsBeforePoint(number: string)
    ensures var digits := RemoveChar(number, '.');
      DotIndex(number) <= |digits| && digits[..DotIndex(number)] == number[..DotIndex(number)]
  {
    var i := DotIndex(number);
    assert number == number[..i] + number[i..];
    RemoveCharAppend(number[..i], number[i..], '.');
  }

  lemma {:induction false} ZeroThenZeros(n: nat)
    ensures "0" + Zeros(n) == Zeros(n + 1)
  {
    var a, b := "0" + Zeros(n), Zeros(n + 1);
    assert forall i :: 0 <= i < |a| ==> a[i] == b[i];
  }

  /** multiplyby_10 moving the point by the exponent in both directions:
      a negative exponent smaller in size than the point's index leaves
      digits in front of the point. */
  function MultiplyBy10(number: string, exponent: int): (r: string)
  {
    if exponent == 0 then number
    else
      DigitsBeforePoint(number);
      MoveDot(RemoveChar(number, '.'), DotIndex(number), exponent)
  }

  /** The digits with the point that stood at index moved by e. */
  function MoveDot(digits: string, index: nat, e: int): (r: string)
    requires '.' !in digits && index <= |digits| && e != 0
  {
    var k := index + e;
    if e > 0 then PaddedPoint(digits, k)
    else if k > 0 then InsertPoint(digits, k)
    else "0." + Zeros(-k) + digits
  }

  /** The branch MoveDot takes for a positive shift. */
  lemma {:induction false} MoveDotRight(digits: string, index: nat, e: int)
    requires '.' !in digits && index <= |digits| && e > 0
    ensures MoveDot(digits, index, e) == PaddedPoint(digits, index + e)
  {
  }

  /** Moving the point with the correction and as written differ only
      where the point would stay among the digits. */
  lemma {:induction false} MoveDotAgrees(digits: string, index: nat, e: int)
    requires '.' !in digits && index <= |digits| && e != 0
    ensures e > 0 || index + e <= 0 <==> MoveDot(digits, index, e) == MoveDotAsWritten(digits, index, e)
  {
    var k := index + e;
    if e < 0 && k > 0 {
      assert |MoveDot(digits, index, e)| == |digits| + 1;
      assert |MoveDotAsWritten(digits, index, e)| == |digits| + 2;
    }
  }

  /** The correction changes nothing but the case where the point would
      stay among the digits. */
  lemma {:induction false} MultiplyBy10Agrees(number: string, exponent: int)
    ensures exponent >= 0 || DotIndex(number) + exponent <= 0 <==>
              MultiplyBy10(number, exponent) == MultiplyBy10AsWritten(number, exponent)
  {
    if exponent != 0 {
      DigitsBeforePoint(number);
      MoveDotAgrees(RemoveChar(number, '.'), DotIndex(number), exponent);
    }
  }

  /** The corrected multiplyby_10 always moves the point by exactly the
      exponent; with no exponent the coefficient must have at most one
      point, since it is returned as it is. */
  lemma {:induction false} MultiplyBy10Shifts(number: string, exponent: int)
    requires exponent != 0 || CountChar(number, '.') <= 1
    ensures Shifted(number, MultiplyBy10(number, exponent), exponent)
  {
    var r := MultiplyBy10(number, exponent);
    if exponent == 0 {
      assert Zeros(0) == [];
      assert RemoveChar(number, '.') == Zeros(0) + RemoveChar(number, '.') + Zeros(0);
      assert Placed(number, r, exponent, 0, 0);
    } else {
      var digits, index := RemoveChar(number, '.'), DotIndex(number);
      DigitsBeforePoint(number);
      assert r == MoveDot(digits, index, exponent);
      MoveDotPlaced(digits, index, exponent);
      var p: nat, q: nat :| PlacedDigits(digits, index, r, exponent, p, q);
      assert Placed(number, r, exponent, p, q);
    }
  }

  lemma {:induction false} MoveDotPlaced(digits: string, index: nat, e: int)
    requires '.' !in digits && index <= |digits| && e != 0
    ensures exists p: nat, q: nat :: PlacedDigits(digits, index, MoveDot(digits, index, e), e, p, q)
  {
    var k := index + e;
    var r := MoveDot(digits, index, e);
    if e > 0 {
      var q: nat := if k > |digits| then k - |digits| else 0;
      MoveDotRight(digits, index, e);
      PlacedRight(r, digits, index, e, q);
    } else if k > 0 {
      assert r == InsertPoint(digits, k);
      PlacedInside(r, digits, index, e);
    } else {
      assert r == "0." + Zeros(-k) + digits;
      PlacedFront(r, digits, index, e);
    }
  }

  lemma {:induction false} PlacedRight(r: string, digits: string, index: nat, e: int, q: nat)
    requires '.' !in digits && e > 0 && r == PaddedPoint(digits, index + e)
    requires q == if index + e > |digits| then index + e - |digits| else 0
    ensures PlacedDigits(digits, index, r, e, 0, q)
  {
    assert Zeros(index + e - |digits|) == Zeros(q);
    assert Zeros(0) + digits == digits by {
      assert Zeros(0) == [];
    }
  }

  lemma {:induction false} PlacedInside(r: string, digits: string, index: nat, e: int)
    requires '.' !in digits && 0 < index + e <= |digits| && r == InsertPoint(digits, index + e)
    ensures PlacedDigits(digits, index, r, e, 0, 0)
  {
    assert Zeros(0) + digits + Zeros(0) == digits by {
      assert Zeros(0) == [];
    }
  }

  /** "0." followed by n zeros and the digits has one point. */
  lemma {:induction false} FrontCount(n: nat, digits: string)
    requires '.' !in digits
    ensures CountChar("0." + Zeros(n) + digits, '.') == 1
  {
    var z := Zeros(n);
    NoDotInZeros(n);
    var rest := z + digits;
    var zero: string := "0";
    assert "0." + z + digits == zero + "." + rest;
    OnePoint(zero, rest);
  }

  /** ... and it stands at index 1. */
  lemma {:induction false} FrontDot(n: nat, digits: string)
    ensures DotIndex("0." + Zeros(n) + digits) == 1
  {
    var r := "0." + Zeros(n) + digits;
    assert r[0] == '0' && r[1] == '.';
    assert r[..1] == "0";
  }

  /** ... and without it the zeros are n + 1 before the digits. */
  lemma {:induction false} FrontRemove(n: nat, digits: string)
    requires '.' !in digits
    ensures RemoveChar("0." + Zeros(n) + digits, '.') == Zeros(n + 1) + digits
  {
    var z := Zeros(n);
    NoDotInZeros(n);
    var rest := z + digits;
    var zero: string := "0";
    assert "0." + z + digits == zero + "." + rest;
    RemoveOnePoint(zero, rest);
    ZeroThenZeros(n);
    assert zero + rest == (zero + z) + digits;
  }

  lemma {:induction false} PlacedFront(r: string, digits: string, index: nat, e: int)
    requires '.' !in digits && index + e <= 0
    requires r == "0." + Zeros(-(index + e)) + digits
    ensures PlacedDigits(digits, index, r, e, 1 - (index + e), 0)
  {
    var n := -(index + e);
    var p := 1 - (index + e);
    assert CountChar(r, '.') <= 1 by {
      FrontCount(n, digits);
    }
    assert DotIndex(r) == p + index + e by {
      FrontDot(n, digits);
    }
    assert RemoveChar(r, '.') == Zeros(p) + digits + Zeros(0) by {
      FrontRemove(n, digits);
      assert p == n + 1;
      var z0 := Zeros(0);
      assert z0 == [];
      assert Zeros(p) + digits + z0 == Zeros(p) + digits;
    }
  }

  /** The code as written puts "0." in front even when the exponent does
      not reach past the digits before the point: "12.5e-1" becomes
      "0.125", which is not 12.5 divided by ten. */
  lemma {:induction false} AsWrittenMisplacesPoint(a: string, b: string)
    requires '.' !in a && '.' !in b && |a| >= 2 && a[0] != '0'
    ensures MultiplyBy10AsWritten(a + "." + b, -1) == "0." + a + b
    ensures !Shifted(a + "." + b, "0." + a + b, -1)
    ensures Shifted(a + "." + b, MultiplyBy10(a + "." + b, -1), -1)
  {
    var number := a + "." + b;
    var digits := a + b;
    DotIndexOf(a, b);
    RemoveOnePoint(a, b);
    assert Zeros(1 - |a|) == [];
    var r := "0" + "." + digits;
    assert "0." + Zeros(1 - |a|) + digits == r;
    assert r == "0." + a + b;
    DotIndexOf("0", digits);
    RemoveOnePoint("0", digits);
    var x := RemoveChar(r, '.');
    assert x[0] == '0';
    forall p: nat, q: nat
      ensures !Placed(number, r, -1, p, q)
    {
      if p == 0 {
        var y := Zeros(p) + digits + Zeros(q);
        assert y[0] == a[0];
      }
    }
    MultiplyBy10Shifts(number, -1);
  }

  /** Drop trailing zeros when there is a point: only zeros behind the
      point go, the point itself stays, and no zero is left at the end. */
  function TrimZeros(d: string): (r: string)
    ensures |r| <= |d| && r == d[..|r|]
    ensures forall i :: |r| <= i < |d| ==> d[i] == '0'
    ensures '.' in d ==> DotIndex(r) == DotIndex(d) && r[|r| - 1] != '0'
    ensures '.' !in d ==> r == d
  {
    if '.' in d then
      var r := StripEnd(d, '0');
      StripEndRemovesRun(d, '0');
      var i := DotIndex(d);
      assert i < |r|;
      assert r[..i] == d[..i];
      r
    else d
  }

  /** scito_decimal: rewrite the coefficient by the exponent, then drop
      trailing zeros when there is a decimal point. */
  function ScitoDecimal(s: string): (r: Result<string, SciError>)
    ensures 'e' !in s ==> r == Ok(if '.' in s then StripEnd(s, '0') else s)
    ensures r.Err? <==> CountChar(s, 'e') == 1 && !IsIntLiteral(Strip(s[IndexOf(s, 'e') + 1..]))
  {
    match SplitExponent(s)
    case Err(e) => Err(e)
    case Ok((coef, exponent)) => Ok(TrimZeros(MultiplyBy10(coef, exponent)))
  }

  /** scito_decimal as written, with the written multiplyby_10: it fails
      exactly where the corrected one does, and gives the same text
      whenever the point moves right or past every digit before it. */
  function ScitoDecimalAsWritten(s: string): (r: Result<string, SciError>)
    ensures r.Err? <==> ScitoDecimal(s).Err?
    ensures r.Ok? ==> var (coef, exponent) := SplitExponent(s).value;
      exponent >= 0 || DotIndex(coef) + exponent <= 0 ==> r == ScitoDecimal(s)
  {
    match SplitExponent(s)
    case Err(e) => Err(e)
    case Ok((coef, exponent)) =>
      MultiplyBy10Agrees(coef, exponent);
      Ok(TrimZeros(MultiplyBy10AsWritten(coef, exponent)))
  }

  /** The result is the coefficient with its point moved by the exponent,
      from which only zeros behind the point are dropped. */
  lemma {:induction false} ScitoDecimalValue(s: string)
    requires ScitoDecimal(s).Ok?
    ensures var (coef, exponent) := SplitExponent(s).value;
      exponent != 0 || CountChar(coef, '.') <= 1 ==>
        ScitoDecimal(s).value == TrimZeros(MultiplyBy10(coef, exponent)) &&
        Shifted(coef, MultiplyBy10(coef, exponent), exponent)
  {
    var (coef, exponent) := SplitExponent(s).value;
    if exponent != 0 || CountChar(coef, '.') <= 1 {
      MultiplyBy10Shifts(coef, exponent);
    }
  }
}

=== FILE: SortSpec.dfy ===
/** Ordering and permutation vocabulary shared by the in-place sorts:
    the integer sorts of butler/algorithms.py and butler/main.py, and the
    hybrid sorts of my_package/algorithm.py and package/algorithm.py. */
module SortSpec {

  /** s is in ascending order. */
  predicate Sorted(s: seq<int>)
  {
    forall i, j :: 0 <= i < j < |s| ==> s[i] <= s[j]
  }

  /** s[lo..hi) is in ascending order. */
  predicate SortedRange(s: seq<int>, lo: int, hi: int)
    requires 0 <= lo && hi <= |s|
  {
    forall i, j :: lo <= i < j < hi ==> s[i] <= s[j]
  }

  /** Every element of s[lo..hi) is at most v. */
  predicate AllAtMost(s: seq<int>, lo: int, hi: int, v: int)
    requires 0 <= lo && hi <= |s|
  {
    forall k :: lo <= k < hi ==> s[k] <= v
  }

  /** Every element of s[lo..hi) is at least v. */
  predicate AllAtLeast(s: seq<int>, lo: int, hi: int, v: int)
    requires 0 <= lo && hi <= |s|
  {
    forall k :: lo <= k < hi ==> v <= s[k]
  }

  /** a and b have the same length and agree outside [lo, hi). */
  predicate SameOutside<T(==)>(a: seq<T>, b: seq<T>, lo: int, hi: int)
  {
    |a| == |b| && forall k :: 0 <= k < |a| && !(lo <= k < hi) ==> a[k] == b[k]
  }

  /** b is a rearrangement of a that moved only elements of [lo, hi). */
  predicate PermutedWithin<T(==)>(a: seq<T>, b: seq<T>, lo: int, hi: int)
  {
    SameOutside(a, b, lo, hi) && multiset(a) == multiset(b)
  }

  /** Two rearrangements in a row are one; the second may move a narrower
      range. */
  lemma {:induction false} PermutedWithinTrans<T>(a: seq<T>, b: seq<T>, c: seq<T>, lo: int, hi: int, lo': int, hi': int)
    requires PermutedWithin(a, b, lo, hi) && PermutedWithin(b, c, lo', hi')
    requires lo <= lo' && hi' <= hi
    ensures PermutedWithin(a, c, lo, hi)
  {
  }

  /** A rearrangement that leaves everything outside [lo, hi) alone
      rearranges [lo, hi) itself. */
  lemma {:induction false} RangeMultiset<T>(a: seq<T>, b: seq<T>, lo: int, hi: int)
    requires 0 <= lo <= hi <= |a|
    requires PermutedWithin(a, b, lo, hi)
    ensures multiset(a[lo..hi]) == multiset(b[lo..hi])
  {
    assert a == a[..lo] + a[lo..hi] + a[hi..];
    assert b == b[..lo] + b[lo..hi] + b[hi..];
    assert a[..lo] == b[..lo];
    assert a[hi..] == b[hi..];
    assert multiset(a) == multiset(a[..lo]) + multiset(a[lo..hi]) + multiset(a[hi..]);
    assert multiset(b) == multiset(b[..lo]) + multiset(b[lo..hi]) + multiset(b[hi..]);
    assert multiset(a[lo..hi]) == multiset(a) - multiset(a[..lo]) - multiset(a[hi..]);
    assert multiset(b[lo..hi]) == multiset(b) - multiset(b[..lo]) - multiset(b[hi..]);
  }

  /** An upper bound of every element survives a rearrangement. */
  lemma {:induction false} AtMostKept(a: seq<int>, b: seq<int>, lo: int, hi: int, v: int)
    requires 0 <= lo <= hi <= |a|
    requires PermutedWithin(a, b, lo, hi) && AllAtMost(a, lo, hi, v)
    ensures AllAtMost(b, lo, hi, v)
  {
    RangeMultiset(a, b, lo, hi);
    forall k | lo <= k < hi
      ensures b[k] <= v
    {
      assert b[lo..hi][k - lo] == b[k];
      assert b[k] in multiset(a[lo..hi]);
      var k' :| 0 <= k' < hi - lo && a[lo..hi][k'] == b[k];
      assert a[lo + k'] == b[k];
    }
  }

  /** A lower bound of every element survives a rearrangement. */
  lemma {:induction false} AtLeastKept(a: seq<int>, b: seq<int>, lo: int, hi: int, v: int)
    requires 0 <= lo <= hi <= |a|
    requires PermutedWithin(a, b, lo, hi) && AllAtLeast(a, lo, hi, v)
    ensures AllAtLeast(b, lo, hi, v)
  {
    RangeMultiset(a, b, lo, hi);
    forall k | lo <= k < hi
      ensures v <= b[k]
    {
      assert b[lo..hi][k - lo] == b[k];
      assert b[k] in multiset(a[lo..hi]);
      var k' :| 0 <= k' < hi - lo && a[lo..hi][k'] == b[k];
      assert a[lo + k'] == b[k];
    }
  }

  /** Exchange two elements of an array: the building block of every
      in-place sort here. */
  method Swap<T(==)>(a: array<T>, i: int, j: int)
    requires 0 <= i < a.Length && 0 <= j < a.Length
    modifies a
    ensures a[..] == old(a[..])[i := old(a[j])][j := old(a[i])]
    ensures PermutedWithin(old(a[..]), a[..], if i < j then i else j, (if i < j then j else i) + 1)
  {
    a[i], a[j] := a[j], a[i];
  }
}

=== FILE: TaskDivision.dfy ===
/** divide_tasks of package/thread.py and the thread count process_tasks
    picks for it. The thread pool, the queues and the retries are not
    modelled. */
module TaskDivision {
  import opened Wrappers
  import opened Chunking
  import opened PyArith

  /** len(tasks) // 0 raises ZeroDivisionError. */
  datatype DivideError = ZeroDivision

  /** The pieces divide_tasks returns, as a value: the whole list when the
      batch size is 0, no pieces for a negative batch size (the range is
      empty), and otherwise the batches. */
  function Divided<T>(tasks: seq<T>, numThreads: int): (r: Result<seq<seq<T>>, DivideError>)
    ensures r.Err? <==> numThreads == 0
    ensures numThreads != 0 && FloorDiv(|tasks|, numThreads) == 0 ==> r == Ok([tasks])
    ensures numThreads != 0 && FloorDiv(|tasks|, numThreads) < 0 ==> r == Ok([])
    ensures numThreads != 0 && FloorDiv(|tasks|, numThreads) > 0 ==>
              var b := FloorDiv(|tasks|, numThreads);
              r.Ok? && Flatten(r.value) == tasks && WellCut(r.value, b) && |r.value| == (|tasks| + b - 1) / b
  {
    if numThreads == 0 then Err(ZeroDivision)
    else
      var b := FloorDiv(|tasks|, numThreads);
      if b == 0 then Ok([tasks])
      else if b < 0 then Ok([])
      else
        FlattenChunks(tasks, b);
        ChunksWellCut(tasks, b);
        ChunksCount(tasks, b);
        Ok(Chunks(tasks, b))
  }

  /** divide_tasks(tasks, num_threads): the batches appended one by one in
      a stepped loop. */
  method DivideTasks<T>(tasks: seq<T>, numThreads: int) returns (r: Result<seq<seq<T>>, DivideError>)
    ensures r == Divided(tasks, numThreads)
  {
    if numThreads == 0 {
      return Err(ZeroDivision);
    }
    var batchSize := FloorDiv(|tasks|, numThreads);
    if batchSize == 0 {
      return Ok([tasks]);
    }
    var subtasks: seq<seq<T>> := [];
    if batchSize > 0 {
      var i := 0;
      while i < |tasks|
        invariant 0 <= i
        invariant i <= |tasks| ==> subtasks + Chunks(tasks[i..], batchSize) == Chunks(tasks, batchSize)
        invariant i > |tasks| ==> subtasks == Chunks(tasks, batchSize)
        decreases |tasks| - i
      {
        var end := if i + batchSize <= |tasks| then i + batchSize else |tasks|;
        ChunksStep(tasks, i, batchSize);
        subtasks := subtasks + [tasks[i..end]];
        if end == |tasks| {
          assert tasks[end..] == [];
        }
        i := i + batchSize;
      }
    }
    return Ok(subtasks);
  }

  /** min(len(tasks), os.cpu_count() or 1); cpuCount None or 0 counts as 1. */
  function ThreadCount(taskCount: nat, cpuCount: Option<nat>): (n: nat)
    ensures n <= taskCount
    ensures taskCount > 0 ==> n >= 1
    ensures taskCount == 0 ==> n == 0
  {
    var cpus := if cpuCount.None? || cpuCount.value == 0 then 1 else cpuCount.value;
    if taskCount < cpus then taskCount else cpus
  }

  /** With the thread count process_tasks picks, the division is defined
      for a non-empty task list, gives every task back in order, and
      an empty task list divides by zero. */
  lemma {:induction false} ProcessTasksDivides<T>(tasks: seq<T>, cpuCount: Option<nat>)
    ensures var r := Divided(tasks, ThreadCount(|tasks|, cpuCount));
      (r.Ok? <==> tasks != []) && (r.Ok? ==> Flatten(r.value) == tasks)
  {
    var n := ThreadCount(|tasks|, cpuCount);
    if n > 0 {
      var b := FloorDiv(|tasks|, n);
      if b == 0 {
        assert Flatten([tasks]) == tasks + Flatten([]);
      }
    }
  }

  /** Ten tasks over four threads give five batches of two: more batches
      than threads. */
  lemma {:induction false} MoreBatchesThanThreads(tasks: seq<int>)
    requires |tasks| == 10
    ensures Divided(tasks, 4).Ok? && |Divided(tasks, 4).value| == 5
  {
    assert FloorDiv(10, 4) == 2;
  }
}

=== FILE: Todos.dfy ===
/** The todo plugin of plugin/TodoPlugin.py: a list of task texts kept in
    memory, which run adds to, lists and removes from. */
module Todos {
  import opened Wrappers
  import opened PyText
  import opened PluginResults

  /** The position of the first occurrence of x; x must occur. */
  function FirstIndex(xs: seq<string>, x: string): (i: nat)
    requires x in xs
    ensures i < |xs| && xs[i] == x && x !in xs[..i]
  {
    if xs[0] == x then 0
    else
      var j := FirstIndex(xs[1..], x);
      assert xs[..j + 1] == [xs[0]] + xs[1..][..j];
      j + 1
  }

  /** list.remove(x) for an x that occurs: the first occurrence goes, the
      other items keep their order. */
  function RemoveFirst(xs: seq<string>, x: string): (r: seq<string>)
    requires x in xs
    ensures |r| == |xs| - 1
    ensures var i := FirstIndex(xs, x); r[..i] == xs[..i] && r[i..] == xs[i + 1..]
    ensures multiset(r) + multiset{x} == multiset(xs)
  {
    var i := FirstIndex(xs, x);
    assert xs == xs[..i] + [x] + xs[i + 1..];
    xs[..i] + xs[i + 1..]
  }

  const MissingAction := "Action parameter is missing"
  const MissingTask := "Task parameter is missing"
  const InvalidAction := "Invalid action"

  /** `not value` for an argument that is absent or text. */
  predicate Falsy(value: Option<string>)
  {
    value.None? || value.value == ""
  }

  /** PluginResult.new(result=None, need_call_brain=False, success=False,
      error_message=message). */
  function Refused(message: string): BrainResult
  {
    BrainResult(None, false, false, Some(message))
  }

  /** PluginResult.new(result=text, need_call_brain=False, success=True). */
  function Done(text: string): BrainResult
  {
    BrainResult(Some(text), false, true, None)
  }

  function AddedText(task: string): string
  {
    "任务 '" + task + "' 添加到待办事项列表"
  }

  function RemovedText(task: string): string
  {
    "任务 '" + task + "' 从待办事项列表中删除"
  }

  function AbsentText(task: string): string
  {
    "任务 '" + task + "' 未在待办事项列表中找到"
  }

  /** "Todo list:\n" + "\n".join(todo_list). */
  function ListText(todo: seq<string>): string
  {
    "Todo list:\n" + Join('\n', todo)
  }

  /** What run does to the list and what it answers. */
  function Step(todo: seq<string>, action: Option<string>, task: Option<string>): (out: (seq<string>, BrainResult))
    ensures !out.1.needCallBrain
    ensures out.1.success <==> out.1.errorMessage.None?
    ensures !out.1.success ==> out.0 == todo && out.1.result.None?
    ensures Falsy(action) ==> out.1 == Refused(MissingAction)
    ensures !Falsy(action) && action.value !in {"add", "list", "remove"} ==> out.1 == Refused(InvalidAction)
    ensures action == Some("add") || action == Some("remove") ==> (out.1.success <==> !Falsy(task))
    ensures (action == Some("add") || action == Some("remove")) && Falsy(task) ==> out.1 == Refused(MissingTask)
    ensures action == Some("add") && !Falsy(task) ==>
              out.0 == todo + [task.value] && out.1 == Done(AddedText(task.value))
    ensures action == Some("list") ==> out.0 == todo && out.1 == Done(ListText(todo))
    ensures action == Some("remove") && !Falsy(task) && task.value in todo ==>
              out.0 == RemoveFirst(todo, task.value) && out.1 == Done(RemovedText(task.value))
    ensures action == Some("remove") && !Falsy(task) && task.value !in todo ==>
              out.0 == todo && out.1 == Done(AbsentText(task.value))
  {
    if Falsy(action) then (todo, Refused(MissingAction))
    else if action.value == "add" then
      if Falsy(task) then (todo, Refused(MissingTask))
      else (todo + [task.value], Done(AddedText(task.value)))
    else if action.value == "list" then (todo, Done(ListText(todo)))
    else if action.value == "remove" then
      if Falsy(task) then (todo, Refused(MissingTask))
      else if task.value in todo then (RemoveFirst(todo, task.value), Done(RemovedText(task.value)))
      else (todo, Done(AbsentText(task.value)))
    else (todo, Refused(InvalidAction))
  }

  /** Adding a task and then removing it gives the list back, and a
      listing shows the added task last. */
  lemma {:induction false} AddThenRemove(todo: seq<string>, task: string)
    requires task != [] && task !in todo
    ensures var added := Step(todo, Some("add"), Some(task)).0;
      Step(added, Some("remove"), Some(task)).0 == todo
  {
    var added := todo + [task];
    assert added[..|todo|] == todo;
    assert FirstIndex(added, task) == |todo|;
  }

  class TodoPlugin {
    var todoList: seq<string>

    constructor ()
      ensures todoList == []
    {
      todoList := [];
    }

    /** run(takecommand, args) with args.get("action") and
        args.get("task") given as action and task. */
    method Run(action: Option<string>, task: Option<string>) returns (r: BrainResult)
      modifies this
      ensures (todoList, r) == Step(old(todoList), action, task)
    {
      if Falsy(action) {
        return Refused(MissingAction);
      }
      var result: string;
      if action.value == "add" {
        if Falsy(task) {
          return Refused(MissingTask);
        }
        todoList := todoList + [task.value];
        result := AddedText(task.value);
      } else if action.value == "list" {
        result := ListText(todoList);
      } else if action.value == "remove" {
        if Falsy(task) {
          return Refused(MissingTask);
        }
        if task.value in todoList {
          todoList := RemoveFirst(todoList, task.value);
          result := RemovedText(task.value);
        } else {
          result := AbsentText(task.value);
        }
      } else {
        return Refused(InvalidAction);
      }
      r := Done(result);
    }
  }
}

=== FILE: ToolResults.dfy ===
/** ToolResult and ToolError of jarvis/base.py: the frozen record a tool
    returns, its truthiness, how two results combine, and field
    replacement. */
module ToolResults {
  import opened Wrappers

  /** A frozen ToolResult: every field is None or a string. */
  datatype ToolResult = ToolResult(output: Option<string>, error: Option<string>,
                                   base64Image: Option<string>, system: Option<string>)

  /** ToolError(message): the message is kept as given. */
  datatype ToolError = ToolError(message: string)

  /** The ValueError "Cannot combine tool results". */
  datatype CombineError = CannotCombine

  const Empty := ToolResult(None, None, None, None)

  /** Python truthiness of an optional string: present and non-empty. */
  predicate Truthy(f: Option<string>)
  {
    f.Some? && f.value != []
  }

  /** __bool__: any field is truthy. */
  predicate IsTruthy(r: ToolResult)
  {
    Truthy(r.output) || Truthy(r.error) || Truthy(r.base64Image) || Truthy(r.system)
  }

  /** combine_fields(field, other_field, concatenate): two truthy fields
      are concatenated (or refused); otherwise `field or other_field`. */
  function CombineFields(field: Option<string>, other: Option<string>, concatenate: bool): (r: Result<Option<string>, CombineError>)
    ensures r.Err? <==> Truthy(field) && Truthy(other) && !concatenate
    ensures r.Ok? && Truthy(field) && Truthy(other) ==> r.value == Some(field.value + other.value)
    ensures r.Ok? && Truthy(field) && !Truthy(other) ==> r.value == field
    ensures r.Ok? && !Truthy(field) ==> r.value == other
    ensures r.Ok? ==> (Truthy(r.value) <==> Truthy(field) || Truthy(other))
  {
    if Truthy(field) && Truthy(other) then
      if concatenate then Ok(Some(field.value + other.value)) else Err(CannotCombine)
    else if Truthy(field) then Ok(field)
    else Ok(other)
  }

  /** __add__: output, error and system are concatenated, base64_image may
      come from one side only. */
  function Add(x: ToolResult, y: ToolResult): (r: Result<ToolResult, CombineError>)
    ensures r.Err? <==> Truthy(x.base64Image) && Truthy(y.base64Image)
    ensures r.Ok? ==> (IsTruthy(r.value) <==> IsTruthy(x) || IsTruthy(y))
  {
    var output := CombineFields(x.output, y.output, true);
    var error := CombineFields(x.error, y.error, true);
    var image := CombineFields(x.base64Image, y.base64Image, false);
    var system := CombineFields(x.system, y.system, true);
    if image.Err? then Err(image.error)
    else Ok(ToolResult(output.value, error.value, image.value, system.value))
  }

  /** All four fields falsy. */
  predicate AllFalsy(r: ToolResult)
  {
    !IsTruthy(r)
  }

  /** Adding an all-falsy result on the right changes no truthy field, and
      on the left gives back the other result exactly. */
  lemma {:induction false} AddFalsy(x: ToolResult, e: ToolResult)
    requires AllFalsy(e)
    ensures Add(e, x) == Ok(x)
    ensures Add(x, e).Ok?
    ensures var r := Add(x, e).value;
      (Truthy(x.output) ==> r.output == x.output) && (Truthy(x.error) ==> r.error == x.error) &&
      (Truthy(x.base64Image) ==> r.base64Image == x.base64Image) && (Truthy(x.system) ==> r.system == x.system)
  {
  }

  /** A field that is Some("") is falsy but not None. */
  predicate HasEmptyString(r: ToolResult)
  {
    r.output == Some([]) || r.error == Some([]) || r.base64Image == Some([]) || r.system == Some([])
  }

  /** Adding the all-None result on the left changes nothing; on the right
      it changes nothing exactly when no field holds "", since `"" or None`
      is None. */
  lemma {:induction false} AddEmpty(x: ToolResult)
    ensures Add(Empty, x) == Ok(x)
    ensures Add(x, Empty) == Ok(x) <==> !HasEmptyString(x)
  {
    AddFalsy(x, Empty);
  }

  lemma {:induction false} CombineAssociative(f: Option<string>, g: Option<string>, h: Option<string>, concatenate: bool)
    requires CombineFields(f, g, concatenate).Ok? && CombineFields(g, h, concatenate).Ok?
    requires CombineFields(CombineFields(f, g, concatenate).value, h, concatenate).Ok?
    ensures CombineFields(f, CombineFields(g, h, concatenate).value, concatenate).Ok?
    ensures CombineFields(CombineFields(f, g, concatenate).value, h, concatenate) ==
            CombineFields(f, CombineFields(g, h, concatenate).value, concatenate)
  {
    if Truthy(f) && Truthy(g) && Truthy(h) {
      assert f.value + g.value + h.value == f.value + (g.value + h.value);
    }
  }

  /** Combining is associative whenever no image clash stops it. */
  lemma {:induction false} AddAssociative(x: ToolResult, y: ToolResult, z: ToolResult)
    requires Add(x, y).Ok? && Add(y, z).Ok?
    requires Add(Add(x, y).value, z).Ok?
    ensures Add(x, Add(y, z).value).Ok?
    ensures Add(Add(x, y).value, z) == Add(x, Add(y, z).value)
  {
    CombineAssociative(x.output, y.output, z.output, true);
    CombineAssociative(x.error, y.error, z.error, true);
    CombineAssociative(x.base64Image, y.base64Image, z.base64Image, false);
    CombineAssociative(x.system, y.system, z.system, true);
  }

  /** replace() with no keyword gives the result back unchanged. */
  lemma {:induction false} ReplaceNothing(r: ToolResult)
    ensures ReplaceFields(r, None, None, None, None) == r
  {
  }

  /** Two replaces in a row are one replace in which, field by field, the
      later value wins. */
  lemma {:induction false} ReplaceTwice(r: ToolResult,
                                        o1: Option<Option<string>>, e1: Option<Option<string>>,
                                        b1: Option<Option<string>>, s1: Option<Option<string>>,
                                        o2: Option<Option<string>>, e2: Option<Option<string>>,
                                        b2: Option<Option<string>>, s2: Option<Option<string>>)
    ensures ReplaceFields(ReplaceFields(r, o1, e1, b1, s1), o2, e2, b2, s2) ==
            ReplaceFields(r, if o2.Some? then o2 else o1, if e2.Some? then e2 else e1,
                          if b2.Some? then b2 else b1, if s2.Some? then s2 else s1)
  {
  }

  /** replace(**kwargs): a new result with the named fields set, the other
      fields copied; Some(v) names a field, None leaves it. */
  function ReplaceFields(r: ToolResult, output: Option<Option<string>>, error: Option<Option<string>>,
                   base64Image: Option<Option<string>>, system: Option<Option<string>>): (n: ToolResult)
    ensures n.output == (if output.Some? then output.value else r.output)
    ensures n.error == (if error.Some? then error.value else r.error)
    ensures n.base64Image == (if base64Image.Some? then base64Image.value else r.base64Image)
    ensures n.system == (if system.Some? then system.value else r.system)
  {
    ToolResult(if output.Some? then output.value else r.output,
               if error.Some? then error.value else r.error,
               if base64Image.Some? then base64Image.value else r.base64Image,
               if system.Some? then system.value else r.system)
  }
}

=== FILE: Truncation.dfy ===
/** maybe_truncate of butler/run.py: long tool output is cut and a note
    appended. */
module Truncation {
  import opened Wrappers
  import opened PyText

  const TruncatedMessage: string := "<response clipped><NOTE>To save on context only part of this file has been shown to you. You should retry this tool after you have searched inside the file with `grep -n` in order to find the line numbers of what you are looking for.</NOTE>"

  /** The default limit, MAX_RESPONSE_LEN. */
  const MaxResponseLen: int := 16000

  /** maybe_truncate(content, truncate_after): a falsy limit (None or 0)
      or content within the limit is returned as it is; otherwise
      content[:truncate_after] followed by the note. A negative limit
      never admits the content, and the slice then counts from the end. */
  function MaybeTruncate(content: string, truncateAfter: Option<int>): (r: string)
    ensures truncateAfter == None || truncateAfter == Some(0) ==> r == content
    ensures truncateAfter.Some? && truncateAfter.value > 0 && |content| <= truncateAfter.value ==> r == content
    ensures truncateAfter.Some? && truncateAfter.value > 0 && |content| > truncateAfter.value ==>
              var t := truncateAfter.value;
              |r| == t + |TruncatedMessage| && r[..t] == content[..t] && r[t..] == TruncatedMessage
    ensures truncateAfter.Some? && truncateAfter.value < 0 ==>
              var keep := |content| + truncateAfter.value;
              |r| == (if keep >= 0 then keep else 0) + |TruncatedMessage| &&
              r[..|r| - |TruncatedMessage|] == content[..|r| - |TruncatedMessage|] &&
              r[|r| - |TruncatedMessage|..] == TruncatedMessage
  {
    if truncateAfter == None || truncateAfter == Some(0) || |content| <= truncateAfter.value then content
    else SliceTo(content, truncateAfter.value) + TruncatedMessage
  }

  /** Whatever the limit, the result is either the content itself or a
      prefix of it followed by the note. */
  lemma {:induction false} TruncatedIsPrefixPlusNote(content: string, truncateAfter: Option<int>)
    ensures var r := MaybeTruncate(content, truncateAfter);
      r == content ||
      (|TruncatedMessage| <= |r| && |r| - |TruncatedMessage| <= |content| &&
       r == content[..|r| - |TruncatedMessage|] + TruncatedMessage)
  {
    var r := MaybeTruncate(content, truncateAfter);
    if r != content {
      var p := SliceTo(content, truncateAfter.value);
      assert r == p + TruncatedMessage;
      PrefixThenNote(content, p, TruncatedMessage);
    }
  }

  /** A prefix followed by a note splits back at the note's length. */
  lemma {:induction false} PrefixThenNote(content: string, p: string, note: string)
    requires |p| <= |content| && p == content[..|p|]
    ensures var r := p + note;
      |note| <= |r| && |r| - |note| <= |content| && r == content[..|r| - |note|] + note
  {
    var r := p + note;
    assert r[..|r| - |note|] == p;
  }

  /** With the default limit the result is never longer than the limit
      plus the note. */
  lemma {:induction false} DefaultBound(content: string)
    ensures |MaybeTruncate(content, Some(MaxResponseLen))| <= MaxResponseLen + |TruncatedMessage|
  {
  }
}

=== FILE: Util.dfy ===
/** The data-cleaning helpers of my_package/util.py: removing a key from
    nested JSON-like data, renaming the keys of a "parameters" object,
    reserved-name renaming, identifier standardisation, truncation and
    conversion to a boolean. Dicts are ordered lists of (key, value)
    pairs with distinct keys, as Python dicts keep insertion order. */
module Util {
  import opened Wrappers
  import opened PyStrings
  import opened PyText

  /** The values the helpers walk: JSON-like data. */
  datatype Value =
    | Null
    | Bool(b: bool)
    | Int(i: int)
    | Str(s: string)
    | List(items: seq<Value>)
    | Object(fields: seq<(string, Value)>)

  // ---------------------------------------------------------------------
  // remove_key

  /** The entries of a dict other than key, in order. */
  function Without(fields: seq<(string, Value)>, key: string): (r: seq<(string, Value)>)
    ensures |r| <= |fields|
    ensures forall p :: p in r ==> p in fields && p.0 != key
    ensures forall p :: p in fields && p.0 != key ==> p in r
  {
    if fields == [] then []
    else (if fields[0].0 == key then [] else [fields[0]]) + Without(fields[1..], key)
  }

  /** remove_key(item, key): key deleted from every dict at any depth
      inside dicts and lists; everything else kept, in order. */
  function RemoveKey(v: Value, key: string): (r: Value)
    ensures v.Object? <==> r.Object?
    ensures v.List? <==> r.List?
    ensures v.List? ==> |r.items| == |v.items|
    ensures !v.Object? && !v.List? ==> r == v
    decreases v
  {
    match v
    case Object(fields) =>
      var kept := Without(fields, key);
      Object(seq(|kept|, i requires 0 <= i < |kept| => (kept[i].0, RemoveKey(kept[i].1, key))))
    case List(items) =>
      List(seq(|items|, i requires 0 <= i < |items| => RemoveKey(items[i], key)))
    case _ => v
  }

  /** No dict at any depth of v has key. */
  ghost predicate KeyFree(v: Value, key: string)
    decreases v
  {
    match v
    case Object(fields) => forall i :: 0 <= i < |fields| ==> fields[i].0 != key && KeyFree(fields[i].1, key)
    case List(items) => forall i :: 0 <= i < |items| ==> KeyFree(items[i], key)
    case _ => true
  }

  /** After remove_key the key is gone at every depth. */
  lemma {:induction false} RemoveKeyFree(v: Value, key: string)
    ensures KeyFree(RemoveKey(v, key), key)
    decreases v
  {
    match v
    case Object(fields) =>
      var kept := Without(fields, key);
      forall i | 0 <= i < |kept|
        ensures KeyFree(RemoveKey(kept[i].1, key), key)
      {
        assert kept[i] in fields;
        RemoveKeyFree(kept[i].1, key);
      }
    case List(items) =>
      forall i | 0 <= i < |items|
        ensures KeyFree(RemoveKey(items[i], key), key)
      {
        RemoveKeyFree(items[i], key);
      }
    case _ =>
  }

  lemma {:induction false} WithoutAbsent(fields: seq<(string, Value)>, key: string)
    requires forall i :: 0 <= i < |fields| ==> fields[i].0 != key
    ensures Without(fields, key) == fields
  {
    if fields != [] {
      WithoutAbsent(fields[1..], key);
    }
  }

  /** Data without the key is left as it is. */
  lemma {:induction false} RemoveKeyOfFree(v: Value, key: string)
    requires KeyFree(v, key)
    ensures RemoveKey(v, key) == v
    decreases v
  {
    match v
    case Object(fields) =>
      WithoutAbsent(fields, key);
      forall i | 0 <= i < |fields|
        ensures RemoveKey(fields[i].1, key) == fields[i].1
      {
        RemoveKeyOfFree(fields[i].1, key);
      }
      assert RemoveKey(v, key).fields == fields;
    case List(items) =>
      forall i | 0 <= i < |items|
        ensures RemoveKey(items[i], key) == items[i]
      {
        RemoveKeyOfFree(items[i], key);
      }
      assert RemoveKey(v, key).items == items;
    case _ =>
  }

  /** Removing a key twice is removing it once. */
  lemma {:induction false} RemoveKeyIdempotent(v: Value, key: string)
    ensures RemoveKey(RemoveKey(v, key), key) == RemoveKey(v, key)
  {
    RemoveKeyFree(v, key);
    RemoveKeyOfFree(RemoveKey(v, key), key);
  }

  /** The top-level keys after remove_key are the old ones except key, in
      the old order. */
  lemma {:induction false} RemoveKeyKeepsKeys(fields: seq<(string, Value)>, key: string)
    ensures var r := RemoveKey(Object(fields), key).fields;
      var kept := Without(fields, key);
      |r| == |kept| && forall i :: 0 <= i < |r| ==> r[i].0 == kept[i].0
  {
  }

  /** One step into JSON-like data: item[name] on a dict, item[index] on
      a list. */
  datatype Step = Field(name: string) | Index(index: int)

  /** What following the steps of p from v finds, as item[s0][s1]...
      reads it; None where a step does not apply (a missing key, an index
      out of range, or a step into a value of the other kind). */
  function At(v: Value, p: seq<Step>): Option<Value>
    decreases |p|
  {
    if p == [] then Some(v)
    else match (v, p[0])
      case (Object(fields), Field(name)) =>
        (match Lookup(fields, name) case Some(w) => At(w, p[1..]) case None => None)
      case (List(items), Index(i)) => if 0 <= i < |items| then At(items[i], p[1..]) else None
      case _ => None
  }

  /** The dict remove_key builds, one (key, value) pair at a time. */
  lemma {:induction false} RemovedFieldsCons(fields: seq<(string, Value)>, key: string)
    requires fields != []
    ensures RemoveKey(Object(fields), key).fields ==
      (if fields[0].0 == key then [] else [(fields[0].0, RemoveKey(fields[0].1, key))]) +
      RemoveKey(Object(fields[1..]), key).fields
  {
    var r, t := RemoveKey(Object(fields), key).fields, RemoveKey(Object(fields[1..]), key).fields;
    var hr := if fields[0].0 == key then [] else [(fields[0].0, RemoveKey(fields[0].1, key))];
    if fields[0].0 != key {
      RemovedHead(fields, key);
    }
    RemovedTail(fields, key);
    Concatenation(r, hr, t);
  }

  /** The pair remove_key keeps first, when the first key is not key. */
  lemma {:induction false} RemovedHead(fields: seq<(string, Value)>, key: string)
    requires fields != [] && fields[0].0 != key
    ensures var r := RemoveKey(Object(fields), key).fields;
      |r| > 0 && r[0] == (fields[0].0, RemoveKey(fields[0].1, key))
  {
    assert Without(fields, key) == [fields[0]] + Without(fields[1..], key);
  }

  /** After the first pair, the cleaned dict goes on as the cleaned rest. */
  lemma {:induction false} RemovedTail(fields: seq<(string, Value)>, key: string)
    requires fields != []
    ensures var r, t := RemoveKey(Object(fields), key).fields, RemoveKey(Object(fields[1..]), key).fields;
      var d := if fields[0].0 == key then 0 else 1;
      |r| == d + |t| && forall i :: 0 <= i < |t| ==> r[d + i] == t[i]
  {
    var d := if fields[0].0 == key then 0 else 1;
    assert |Without(fields, key)| == d + |Without(fields[1..], key)|;
    var t := RemoveKey(Object(fields[1..]), key).fields;
    forall i | 0 <= i < |t|
      ensures RemoveKey(Object(fields), key).fields[d + i] == t[i]
    {
      RemovedTailAt(fields, key, i);
    }
  }

  /** One pair of the cleaned rest, found again in the cleaned dict. */
  lemma {:induction false} RemovedTailAt(fields: seq<(string, Value)>, key: string, i: int)
    requires fields != [] && 0 <= i < |Without(fields[1..], key)|
    ensures var d := if fields[0].0 == key then 0 else 1;
      d + i < |Without(fields, key)| &&
      RemoveKey(Object(fields), key).fields[d + i] == RemoveKey(Object(fields[1..]), key).fields[i]
  {
    var d := if fields[0].0 == key then 0 else 1;
    var pair := Without(fields[1..], key)[i];
    KeptAfterFirst(fields, key, i);
    RemovedAt(fields, key, d + i);
    RemovedAt(fields[1..], key, i);
    var cleaned := (pair.0, RemoveKey(pair.1, key));
    assert RemoveKey(Object(fields), key).fields[d + i] == cleaned;
    assert RemoveKey(Object(fields[1..]), key).fields[i] == cleaned;
  }

  /** The pairs kept from the rest follow the first pair, when it is kept. */
  lemma {:induction false} KeptAfterFirst(fields: seq<(string, Value)>, key: string, i: int)
    requires fields != [] && 0 <= i < |Without(fields[1..], key)|
    ensures var d := if fields[0].0 == key then 0 else 1;
      d + i < |Without(fields, key)| && Without(fields, key)[d + i] == Without(fields[1..], key)[i]
  {
    var tail := Without(fields[1..], key);
    var h := if fields[0].0 == key then [] else [fields[0]];
    assert Without(fields, key) == h + tail;
  }

  /** The pairs remove_key keeps, each with its value cleaned. */
  lemma RemovedAt(fields: seq<(string, Value)>, key: string, j: int)
    requires 0 <= j < |Without(fields, key)|
    ensures var kept := Without(fields, key);
      |RemoveKey(Object(fields), key).fields| == |kept| &&
      RemoveKey(Object(fields), key).fields[j] == (kept[j].0, RemoveKey(kept[j].1, key))
  {
  }

  /** A sequence that starts with a and continues with b is a + b. */
  lemma {:induction false} Concatenation<T>(r: seq<T>, a: seq<T>, b: seq<T>)
    requires |r| == |a| + |b|
    requires forall i :: 0 <= i < |a| ==> r[i] == a[i]
    requires forall i :: 0 <= i < |b| ==> r[|a| + i] == b[i]
    ensures r == a + b
  {
    forall i | 0 <= i < |r|
      ensures r[i] == (a + b)[i]
    {
      if i >= |a| {
        assert r[|a| + (i - |a|)] == b[i - |a|];
      }
    }
  }

  /** d[key] after remove_key finds nothing. */
  lemma {:induction false} LookupRemovedKey(fields: seq<(string, Value)>, key: string)
    ensures Lookup(RemoveKey(Object(fields), key).fields, key).None?
  {
    var r, kept := RemoveKey(Object(fields), key).fields, Without(fields, key);
    forall i | 0 <= i < |r|
      ensures r[i].0 != key
    {
      assert r[i].0 == kept[i].0 && kept[i] in kept;
    }
  }

  /** d[name] after remove_key, for a name other than key: remove_key of
      the old value, or nothing when there was none. */
  lemma {:induction false} LookupRemoved(fields: seq<(string, Value)>, key: string, name: string)
    requires name != key
    ensures Lookup(RemoveKey(Object(fields), key).fields, name) ==
      match Lookup(fields, name) case Some(w) => Some(RemoveKey(w, key)) case None => None
    decreases |fields|
  {
    if fields != [] {
      RemovedFieldsCons(fields, key);
      LookupRemoved(fields[1..], key, name);
      var r, rest := RemoveKey(Object(fields), key).fields, RemoveKey(Object(fields[1..]), key).fields;
      if fields[0].0 != key {
        assert r[0] == (fields[0].0, RemoveKey(fields[0].1, key)) && r[1..] == rest;
      } else {
        assert r == rest;
      }
    }
  }

  /** remove_key seen along paths: a path through key finds nothing any
      more; every other path finds something exactly when it did before,
      and what it finds is remove_key of what was there, so a leaf (null,
      bool, int or str) is found unchanged. */
  lemma {:induction false} RemoveKeyAt(v: Value, key: string, p: seq<Step>)
    ensures Field(key) in p ==> At(RemoveKey(v, key), p).None?
    ensures Field(key) !in p ==>
      At(RemoveKey(v, key), p) == match At(v, p) case Some(w) => Some(RemoveKey(w, key)) case None => None
    decreases |p|
  {
    if p != [] {
      var r := RemoveKey(v, key);
      assert Field(key) in p <==> p[0] == Field(key) || Field(key) in p[1..] by {
        assert p == [p[0]] + p[1..];
      }
      match (v, p[0])
      case (Object(fields), Field(name)) =>
        if name == key {
          LookupRemovedKey(fields, key);
        } else {
          LookupRemoved(fields, key, name);
          if Lookup(fields, name).Some? {
            RemoveKeyAt(Lookup(fields, name).value, key, p[1..]);
          }
        }
      case (List(items), Index(i)) =>
        if 0 <= i < |items| {
          RemoveKeyAt(items[i], key, p[1..]);
        }
      case _ =>
    }
  }

  /** A leaf is found after remove_key exactly where it was found before,
      along a path that avoids key. */
  lemma {:induction false} RemoveKeyKeepsLeaves(v: Value, key: string, p: seq<Step>, leaf: Value)
    requires !leaf.Object? && !leaf.List?
    ensures At(RemoveKey(v, key), p) == Some(leaf) <==> At(v, p) == Some(leaf) && Field(key) !in p
  {
    RemoveKeyAt(v, key, p);
    match At(v, p)
    case Some(w) =>
      if Field(key) !in p && RemoveKey(w, key) == leaf {
        assert !w.Object? && !w.List?;
      }
    case None =>
  }

  // ---------------------------------------------------------------------
  // dict lookup and assignment

  /** d.get(k) for a dict held as (key, value) pairs. */
  function Lookup(d: seq<(string, Value)>, k: string): (r: Option<Value>)
    ensures r.None? <==> forall i :: 0 <= i < |d| ==> d[i].0 != k
  {
    if d == [] then None else if d[0].0 == k then Some(d[0].1) else Lookup(d[1..], k)
  }

  /** d[k] = v: an existing key keeps its place and gets the new value, a
      new key is added at the end. */
  function Put(d: seq<(string, Value)>, k: string, v: Value): (r: seq<(string, Value)>)
    ensures Lookup(r, k) == Some(v)
    ensures forall k' :: k' != k ==> Lookup(r, k') == Lookup(d, k')
    ensures |r| == if Lookup(d, k).Some? then |d| else |d| + 1
  {
    if d == [] then [(k, v)]
    else if d[0].0 == k then [(k, v)] + d[1..]
    else [d[0]] + Put(d[1..], k, v)
  }

  // ---------------------------------------------------------------------
  // change_name and lowercase_parameter_keys

  /** The names change_name renames. */
  predicate Reserved(name: string)
  {
    name == "from" || name == "class" || name == "return" || name == "false" || name == "true" ||
    name == "id" || name == "and" || name == "" || name == "ID"
  }

  /** change_name: a reserved name becomes "is_" and its lower-case
      form, any other name is kept. */
  function ChangeName(name: string): (r: string)
    ensures !Reserved(name) ==> r == name
  {
    if Reserved(name) then "is_" + Lower(name) else name
  }

  /** A renamed name is not reserved, so renaming twice is renaming once. */
  lemma {:induction false} ChangeNameIdempotent(name: string)
    ensures !Reserved(ChangeName(name))
    ensures ChangeName(ChangeName(name)) == ChangeName(name)
  {
    var r := ChangeName(name);
    if Reserved(name) {
      assert |r| >= 3 && r[1] == 's';
    }
  }

  /** The name a "parameters" key gets: change_name(k.lower()). */
  function ParamName(k: string): string
  {
    ChangeName(Lower(k))
  }

  /** The dict comprehension {change_name(k.lower()): v ...}, inserted one
      pair at a time into acc. */
  function RenameKeys(acc: seq<(string, Value)>, params: seq<(string, Value)>): seq<(string, Value)>
    decreases |params|
  {
    if params == [] then acc
    else RenameKeys(Put(acc, ParamName(params[0].0), params[0].1), params[1..])
  }

  /** The value of the last pair whose key renames to k. */
  function LastRenamedTo(params: seq<(string, Value)>, k: string): Option<Value>
  {
    if params == [] then None
    else if LastRenamedTo(params[1..], k).Some? then LastRenamedTo(params[1..], k)
    else if ParamName(params[0].0) == k then Some(params[0].1)
    else None
  }

  /** When two keys rename to the same name, the last value wins; a name
      no key renames to keeps what acc had. */
  lemma {:induction false} RenameKeysLookup(acc: seq<(string, Value)>, params: seq<(string, Value)>, k: string)
    ensures Lookup(RenameKeys(acc, params), k) ==
            if LastRenamedTo(params, k).Some? then LastRenamedTo(params, k) else Lookup(acc, k)
    decreases |params|
  {
    if params != [] {
      RenameKeysLookup(Put(acc, ParamName(params[0].0), params[0].1), params[1..], k);
    }
  }

  /** lowercase_parameter_keys(input_dict): a "parameters" entry holding a
      dict gets its keys renamed, in place; nothing else changes. */
  function LowercaseParameterKeys(d: seq<(string, Value)>): (r: seq<(string, Value)>)
    ensures forall k :: k != "parameters" ==> Lookup(r, k) == Lookup(d, k)
    ensures |r| == |d|
    ensures (Lookup(d, "parameters").Some? && Lookup(d, "parameters").value.Object?) ==>
              Lookup(r, "parameters") == Some(Object(RenameKeys([], Lookup(d, "parameters").value.fields)))
    ensures !(Lookup(d, "parameters").Some? && Lookup(d, "parameters").value.Object?) ==> r == d
  {
    match Lookup(d, "parameters")
    case Some(Object(params)) => Put(d, "parameters", Object(RenameKeys([], params)))
    case _ => d
  }

  /** Every renamed parameter holds the value of the last key that renames
      to it, and no other names appear. */
  lemma {:induction false} ParametersRenamed(d: seq<(string, Value)>, k: string)
    requires Lookup(d, "parameters").Some? && Lookup(d, "parameters").value.Object?
    ensures var params := Lookup(d, "parameters").value.fields;
      Lookup(LowercaseParameterKeys(d)[..], "parameters").value.Object? &&
      Lookup(Lookup(LowercaseParameterKeys(d), "parameters").value.fields, k) == LastRenamedTo(params, k)
  {
    var params := Lookup(d, "parameters").value.fields;
    RenameKeysLookup([], params, k);
  }

  // ---------------------------------------------------------------------
  // standardize

  /** The characters the pattern keeps: CJK U+4E00..U+9FA5, "^", ASCII
      letters, digits and "_". */
  predicate Kept(c: char)
  {
    ('一' <= c <= '龥') || c == '^' || ('a' <= c <= 'z') || ('A' <= c <= 'Z') || ('0' <= c <= '9') || c == '_'
  }

  /** res.sub("_", s): every other character becomes "_". */
  function Sanitize(s: string): (r: string)
    ensures |r| == |s|
    ensures forall i :: 0 <= i < |s| ==> r[i] == if Kept(s[i]) then s[i] else '_'
  {
    if s == [] then [] else [if Kept(s[0]) then s[0] else '_'] + Sanitize(s[1..])
  }

  /** No two "_" next to each other. */
  predicate NoDoubleUnderscore(s: string)
  {
    forall i :: 0 <= i < |s| - 1 ==> !(s[i] == '_' && s[i + 1] == '_')
  }

  /** re.sub(r"(_)\1+", "_", s): every run of "_" becomes one "_". */
  function Collapse(s: string): (r: string)
    ensures NoDoubleUnderscore(r)
    ensures forall c :: c in r ==> c in s
    ensures r == [] <==> s == []
    ensures s != [] ==> r[0] == s[0]
    ensures s != [] ==> r[|r| - 1] == s[|s| - 1]
  {
    if |s| <= 1 then s
    else if s[0] == '_' && s[1] == '_' then Collapse(s[1..])
    else [s[0]] + Collapse(s[1..])
  }

  /** The string after the substitutions and lower(), before the
      stripping loops. */
  function Prepared(s: string): string
  {
    Lower(Collapse(Sanitize(s)))
  }

  /** The "get_" prefix for a leading digit. */
  function Finish(t: string): (r: string)
    ensures t == [] ==> r == []
  {
    if t != [] && IsDigit(t[0]) then "get_" + t else t
  }

  /** What standardize returns. */
  function Standardized(s: string): string
  {
    Finish(StripEnd(StripStart(Prepared(s), '_'), '_'))
  }

  /** The first loop of standardize: drop "_" from the front. */
  method DropLeading(t: string) returns (r: string)
    ensures r == StripStart(t, '_')
  {
    r := t;
    while |r| > 0 && r[0] == '_'
      invariant StripStart(r, '_') == StripStart(t, '_')
      decreases |r|
    {
      r := r[1..];
    }
  }

  /** The second loop of standardize: drop "_" from the back. */
  method DropTrailing(t: string) returns (r: string)
    ensures r == StripEnd(t, '_')
  {
    r := t;
    while |r| > 0 && r[|r| - 1] == '_'
      invariant StripEnd(r, '_') == StripEnd(t, '_')
      decreases |r|
    {
      r := r[..|r| - 1];
    }
  }

  /** standardize(string): the substitutions, the two stripping loops
      (each returning at once on an empty string) and the "get_" prefix. */
  method Standardize(s: string) returns (r: string)
    ensures r == Standardized(s)
  {
    r := DropLeading(Prepared(s));
    if |r| == 0 {
      return;
    }
    r := DropTrailing(r);
    if |r| == 0 {
      return;
    }
    if IsDigit(r[0]) {
      r := "get_" + r;
    }
  }

  /** A kept, lower-case identifier character. */
  predicate IdentChar(c: char)
  {
    Kept(c) && !IsUpper(c)
  }

  lemma {:induction false} LowerKeepsRuns(s: string)
    requires NoDoubleUnderscore(s)
    ensures NoDoubleUnderscore(Lower(s))
    ensures forall i :: 0 <= i < |s| ==> (Lower(s)[i] == '_' <==> s[i] == '_')
  {
  }

  lemma {:induction false} SliceKeepsRuns(s: string, i: nat, j: nat)
    requires NoDoubleUnderscore(s) && i <= j <= |s|
    ensures NoDoubleUnderscore(s[i..j])
  {
    forall k | 0 <= k < j - i - 1
      ensures !(s[i..j][k] == '_' && s[i..j][k + 1] == '_')
    {
      assert s[i..j][k] == s[i + k] && s[i..j][k + 1] == s[i + k + 1];
    }
  }

  /** An identifier body: only kept lower-case characters, no "__". */
  ghost predicate IdentBody(t: string)
  {
    (forall i :: 0 <= i < |t| ==> IdentChar(t[i])) && NoDoubleUnderscore(t)
  }

  lemma {:induction false} PreparedIdent(s: string)
    ensures IdentBody(Prepared(s))
  {
    var a := Sanitize(s);
    var b := Collapse(a);
    LowerKeepsRuns(b);
    forall i | 0 <= i < |b|
      ensures Kept(b[i])
    {
      assert b[i] in b;
      assert b[i] in a;
    }
  }

  lemma {:induction false} SliceIdent(c: string, i: nat, j: nat)
    requires IdentBody(c) && i <= j <= |c|
    ensures IdentBody(c[i..j])
  {
    SliceKeepsRuns(c, i, j);
  }

  lemma {:induction false} StrippedIdent(c: string)
    requires IdentBody(c)
    ensures var t := StripEnd(StripStart(c, '_'), '_');
      IdentBody(t) && (t != [] ==> t[0] != '_' && t[|t| - 1] != '_')
  {
    var d := StripStart(c, '_');
    var t := StripEnd(d, '_');
    var n := |c| - |d|;
    SliceIdent(c, n, |c|);
    SliceIdent(d, 0, |t|);
    if t != [] {
      assert t[0] == d[0];
    }
  }

  /** An identifier: an identifier body with no "_" at either end and no
      leading digit. */
  ghost predicate Identifier(r: string)
  {
    IdentBody(r) && (r != [] ==> r[0] != '_' && r[|r| - 1] != '_' && !IsDigit(r[0]))
  }

  lemma {:induction false} FinishIdent(t: string)
    requires IdentBody(t) && (t != [] ==> t[0] != '_' && t[|t| - 1] != '_')
    ensures Identifier(Finish(t))
  {
    if t != [] && IsDigit(t[0]) {
      var r := "get_" + t;
      forall i | 0 <= i < |r| - 1
        ensures !(r[i] == '_' && r[i + 1] == '_')
      {
        if i >= 4 {
          assert r[i] == t[i - 4] && r[i + 1] == t[i - 3];
        }
      }
      forall i | 0 <= i < |r|
        ensures IdentChar(r[i])
      {
        if i >= 4 {
          assert r[i] == t[i - 4];
        }
      }
      assert r[|r| - 1] == t[|t| - 1];
    }
  }

  /** standardize gives an identifier: only kept characters, no upper-case
      letter, no "__", no "_" at either end, and no leading digit (one gets
      "get_" in front). */
  lemma {:induction false} StandardizedShape(s: string)
    ensures Identifier(Standardized(s))
  {
    PreparedIdent(s);
    StrippedIdent(Prepared(s));
    var t := StripEnd(StripStart(Prepared(s), '_'), '_');
    FinishIdent(t);
    assert Standardized(s) == Finish(t);
  }

  /** Without "__", two or more characters are not all "_". */
  lemma {:induction false} NotAllUnderscores(b: string)
    requires NoDoubleUnderscore(b) && |b| >= 2
    ensures exists i :: 0 <= i < |b| && b[i] != '_'
  {
    if b[0] == '_' {
      assert b[1] != '_';
    }
  }

  /** Input with no kept character other than "_" standardises to "". */
  lemma {:induction false} StandardizedEmpty(s: string)
    requires forall i :: 0 <= i < |s| ==> !Kept(s[i]) || s[i] == '_'
    ensures Standardized(s) == []
  {
    var a := Sanitize(s);
    var b := Collapse(a);
    assert forall i :: 0 <= i < |b| ==> b[i] == '_' by {
      forall i | 0 <= i < |b|
        ensures b[i] == '_'
      {
        assert b[i] in b;
      }
    }
    if |b| >= 2 {
      NotAllUnderscores(b);
    }
    var c := Lower(b);
    if b != [] {
      assert c == ['_'];
      assert StripStart(c, '_') == StripStart([], '_');
    }
    assert StripStart(c, '_') == [];
    assert Standardized(s) == Finish(StripEnd(StripStart(c, '_'), '_'));
  }

  // ---------------------------------------------------------------------
  // truncate_string and convert_to_boolean

  /** truncate_string(string, length): string[:length] when the string
      is longer, the string otherwise. */
  function TruncateString(s: string, length: int): (r: string)
    ensures |r| <= |s| && r == s[..|r|]
    ensures length >= 0 ==> |r| == if |s| < length then |s| else length
    ensures |s| <= length ==> r == s
  {
    if |s| > length then SliceTo(s, length) else s
  }

  /** convert_to_boolean(value): a string is true when its lower-case form
      is "true" or "1", an int (a bool is one) when non-zero, anything else
      by its truthiness. */
  function ConvertToBoolean(v: Value): (r: bool)
    ensures v.Str? ==> (r <==> Lower(v.s) == "true" || Lower(v.s) == "1")
    ensures v.Int? ==> (r <==> v.i != 0)
    ensures v.Bool? ==> r == v.b
    ensures v.Null? ==> !r
    ensures v.List? ==> (r <==> v.items != [])
    ensures v.Object? ==> (r <==> v.fields != [])
  {
    match v
    case Str(s) => Lower(s) == "true" || Lower(s) == "1"
    case Int(i) => i != 0
    case Bool(b) => b
    case Null => false
    case List(items) => items != []
    case Object(fields) => fields != []
  }

  /** str(b) converts back to b, and so does int(b); but a non-zero int
      written as a string other than "1" converts to false. */
  lemma {:induction false} ConvertToBooleanRoundTrip(b: bool)
    ensures ConvertToBoolean(Str(if b then "True" else "False")) == b
    ensures ConvertToBoolean(Int(if b then 1 else 0)) == b
    ensures ConvertToBoolean(Int(2)) && !ConvertToBoolean(Str("2"))
  {
    if b {
      assert Lower("True") == "true";
    } else {
      assert Lower("False") == "false";
    }
    assert Lower("2") == "2";
  }
}

=== FILE: Wrappers.dfy ===
/** The optional value and the value-or-error outcome used across the
    model where the source returns None or raises. */
module Wrappers {

  datatype Option<T> = None | Some(value: T)

  datatype Result<T, E> = Ok(value: T) | Err(error: E)
}
